=== FILE: README.md ===
# DPB bookkeeping of the Vulkan video decode helper

This project models, in Dafny, the bookkeeping core of the Vulkan video
decode helper of the Vulkan conformance test suite (`VideoBaseDecoder` and
its companions). It covers:

- the decoded-picture-buffer (DPB) slot allocator `DpbSlots` and its slots;
- the decoder's map from pool pictures to DPB slots (`GetPicIdx`,
  `SetPicDpbSlot`, `ResetPicDpbSlots`, ...);
- the per-picture reference-list builders `FillDpbH264State` and
  `FillDpbH265State`, with the allocation of the current picture's slot and
  the packing of one reference descriptor;
- the frame-buffer pool `VkVideoFrameBuffer`: reservation, decode and
  display queues, dequeue, release and flush;
- the session-parameters objects `VkParserVideoPictureParameters`: VPS/SPS/PPS
  hierarchy, id bitsets, the queue of sets waiting for a session;
- session and image compatibility, the sequence callback
  (`StartVideoSequence`, `BeginSequence`) and the format mapping;
- the bitstream buffer `VulkanBitstreamBufferImpl` (sizes, copies, stream
  markers) and the memory-type search `MapMemoryTypeToIndex`.

State is modelled by immutable datatypes. Every operation is a pure function
(or a method with loop invariants) returning the new state. Bitmasks are sets
of indices. Picture buffers are known by their pool index, so two picture
pointers are equal exactly when their indices are. Assertions follow the
build without assertions: an assertion followed by an error return (an
unknown parameter-set type, a stream marker index past the end, an access
outside the bitstream buffer) is modelled by that return. An assertion on
run-time state that the code does not back with a return becomes the
`Failure` case of a `Result` (a release of a frame the display does not own,
an unknown chroma format, a slot mismatch in a reference descriptor). An
assertion that only constrains the caller's arguments becomes a `requires`.
Only the bitstream buffer's device calls (buffer creation, memory
allocation) are inputs: a `created` flag says whether the device call
succeeded. Creating video sessions, decode images and session-parameters
objects always succeeds in the model (see "## Left out"). The device's
memory property query is a sequence of flags.

Where the code and its design notes disagree, the model follows the code.
The H.264 search for a stand-in picture for a non-existing frame compares
with `<=`, so among equally close candidates the last one wins, not the
first (`ReferenceListH264.ClosestCoverIsClosest`).


## Model

| member | source | states |
|---|---|---|
| `Alignment.AlignUp` | external/vulkancts/modules/vulkan/video/vktBistreamBufferImpl.cpp:67 | the rounded size is a multiple of the power-of-two alignment, at least the value and less than one alignment above it |
| `Alignment.LeastMultiple` | external/vulkancts/modules/vulkan/video/vktBistreamBufferImpl.cpp:183 | every multiple of the alignment that is at least the value is at least the aligned value, so aligning gives the least such multiple |
| `Alignment.AlignUpFixesAligned` | external/vulkancts/modules/vulkan/video/vktBistreamBufferImpl.cpp:183 | aligning leaves a value unchanged exactly when it is already a multiple of the alignment |
| `Alignment.AlignUpIdempotent` | external/vulkancts/modules/vulkan/video/vktBistreamBufferImpl.cpp:67 | aligning an aligned size again changes nothing |
| `Alignment.AlignUpMonotone` | external/vulkancts/modules/vulkan/video/vktBistreamBufferImpl.cpp:67 | a larger request never gets a smaller aligned size |
| `BitstreamBuffer.NewBuffer` | external/vulkancts/modules/vulkan/video/vktBitstreamBufferImpl.hpp:132-145 | a buffer object before initialization is consistent, empty and without a device buffer |
| `BitstreamBuffer.InitialContents` | external/vulkancts/modules/vulkan/video/vktBistreamBufferImpl.cpp:93-102 | new memory holds the initial data at its start and zeros after it |
| `BitstreamBuffer.CreateBuffer` | external/vulkancts/modules/vulkan/video/vktBistreamBufferImpl.cpp:55-119 | succeeds exactly when the device creates the buffer; the size is rounded up to the size alignment and the memory starts with the initial data, zeros after it |
| `BitstreamBuffer.Deinitialize` | external/vulkancts/modules/vulkan/video/vktBistreamBufferImpl.cpp:161-172 | after de-initialization the buffer is consistent, has no device buffer and no memory |
| `BitstreamBuffer.Initialize` | external/vulkancts/modules/vulkan/video/vktBistreamBufferImpl.cpp:121-159 | a buffer already large enough is kept at its size and zero-filled; a smaller one is recreated at the rounded size holding the initial data; a failed creation leaves a de-initialized buffer |
| `BitstreamBuffer.Create` | external/vulkancts/modules/vulkan/video/vktBistreamBufferImpl.cpp:27-53 | a buffer is handed out exactly when the size is zero or the device creates it; it is consistent, at the rounded size, and holds the initial data |
| `BitstreamBuffer.Resize` | external/vulkancts/modules/vulkan/video/vktBistreamBufferImpl.cpp:212-259 | never shrinks; fails exactly when a nonempty copy range lies outside the old buffer; on success the new memory starts with the copied bytes, is zero after them, and its rounded size is returned |
| `BitstreamBuffer.CheckAccess` | external/vulkancts/modules/vulkan/video/vktBistreamBufferImpl.cpp:262-277 | a position is returned exactly when the whole range lies inside the buffer |
| `BitstreamBuffer.GetDataPtr` | external/vulkancts/modules/vulkan/video/vktBistreamBufferImpl.cpp:334-343 | a pointer is returned exactly when the offset is inside the buffer, with the number of bytes up to the end |
| `BitstreamBuffer.GetReadOnlyDataPtr` | external/vulkancts/modules/vulkan/video/vktBistreamBufferImpl.cpp:345-354 | the read-only pointer query reports what the writable one reports |
| `BitstreamBuffer.Overwrite` | external/vulkancts/modules/vulkan/video/vktBistreamBufferImpl.cpp:194 | the written range holds the source bytes and every other byte is unchanged |
| `BitstreamBuffer.CopyDataToBuffer` | external/vulkancts/modules/vulkan/video/vktBistreamBufferImpl.cpp:174-195 | a null source or zero size is an initialization error changing nothing; otherwise it succeeds exactly when the bytes fit at the aligned offset, writes them there, keeps every other byte and returns that offset |
| `BitstreamBuffer.MemsetData` | external/vulkancts/modules/vulkan/video/vktBistreamBufferImpl.cpp:279-285 | a zero size touches nothing; otherwise it succeeds exactly when the range is inside, fills it with the low byte of the value and keeps every other byte |
| `BitstreamBuffer.CopyDataToHost` | external/vulkancts/modules/vulkan/video/vktBistreamBufferImpl.cpp:287-294 | the host range must lie inside the host memory; fails exactly when the buffer range lies outside the buffer; otherwise the host range receives the buffer's bytes and nothing else in host memory changes |
| `BitstreamBuffer.CopyDataFromHost` | external/vulkancts/modules/vulkan/video/vktBistreamBufferImpl.cpp:310-317 | the host range must lie inside the host memory; fails exactly when the buffer range lies outside the buffer; otherwise the buffer range receives the host bytes and nothing else in the buffer changes |
| `BitstreamBuffer.CopyDataToBitstream` | external/vulkancts/modules/vulkan/video/vktBistreamBufferImpl.cpp:296-308 | returns -1 exactly when the source range is outside this buffer; otherwise the destination range receives the bytes and the rest of the destination is unchanged |
| `BitstreamBuffer.CopyDataFromBitstreamAsWritten` | external/vulkancts/modules/vulkan/video/vktBistreamBufferImpl.cpp:319-332 | as written: -1 when the offset is outside the source; otherwise every byte from the offset to the end of the source is copied, whatever size was asked for |
| `BitstreamBuffer.CopyDataFromBitstream` | external/vulkancts/modules/vulkan/video/vktBistreamBufferImpl.cpp:319-332 | corrected: -1 exactly when the asked range is outside the source; otherwise exactly the asked bytes are copied and the rest of this buffer is unchanged |
| `BitstreamBuffer.CopyFromBitstreamAsWrittenCopiesTooMuch` | external/vulkancts/modules/vulkan/video/vktBistreamBufferImpl.cpp:325 | a 16-byte copy out of a 64-byte source moves 64 bytes as written and 16 when corrected |
| `BitstreamBuffer.CopyRoundTrip` | external/vulkancts/modules/vulkan/video/vktBistreamBufferImpl.cpp:287-317 | bytes copied in from the host and copied back out are the bytes that went in |
| `BitstreamBuffer.AddStreamMarker` | external/vulkancts/modules/vulkan/video/vktBistreamBufferImpl.cpp:372-376 | the marker is appended and its index, the old count, is returned |
| `BitstreamBuffer.SetStreamMarker` | external/vulkancts/modules/vulkan/video/vktBistreamBufferImpl.cpp:378-386 | an existing index is overwritten and returned with the other markers unchanged; an index past the end returns 0xFFFFFFFF and changes nothing |
| `BitstreamBuffer.MarkerQueriesSeeUpdates` | external/vulkancts/modules/vulkan/video/vktBistreamBufferImpl.cpp:372-397 | a marker added is read back at the returned index with the count one higher; a marker set at an existing index is read back there with the count unchanged; other markers are kept |
| `BitstreamBuffer.GetStreamMarkersPtr` | external/vulkancts/modules/vulkan/video/vktBistreamBufferImpl.cpp:399-403 | the count of markers from the start index, in 32-bit unsigned arithmetic, so a start past the end wraps |
| `BitstreamBuffer.ResetStreamMarkers` | external/vulkancts/modules/vulkan/video/vktBistreamBufferImpl.cpp:405-410 | the marker list is emptied, the old count returned, and nothing else changes |
| `MemoryType.MapMemoryTypeToIndex` | external/vulkancts/modules/vulkan/video/VulkanDeviceContext.hpp:25-45 | succeeds exactly when some allowed memory type has every required flag, and then returns the lowest such type; otherwise the caller's index is untouched |
| `MemoryType.NoAllowedTypeNoMatch` | external/vulkancts/modules/vulkan/video/VulkanDeviceContext.hpp:33-43 | a resource that allows no memory type finds none, whatever it requires |
| `DpbEntry.Int16` | external/vulkancts/modules/vulkan/video/vktVideoBaseDecodeUtils.cpp:1928-1931 | the C++ signed 16-bit cast: a value in range and congruent to the input modulo 2^16 |
| `DpbEntry.Uint16` | external/vulkancts/modules/vulkan/video/vktVideoBaseDecodeUtils.cpp:448 | the C++ unsigned 16-bit conversion: a value in range and congruent to the input modulo 2^16 |
| `DpbEntry.SetReferenceAndTopBottomField` | external/vulkancts/modules/vulkan/video/vktVideoBaseDecodeUtils.cpp:349-372 | a field reference keeps exactly the fields named, a frame reference both and a non-reference neither; order counts follow the referenced fields; no slot is assigned yet |
| `DpbEntry.GetPictureFlag` | external/vulkancts/modules/vulkan/video/vktVideoBaseDecodeUtils.cpp:391-432 | field flags are set only for an interlaced current picture, and then exactly for the referenced fields |
| `DpbEntry.InitH264SlotInfo` | external/vulkancts/modules/vulkan/video/vktVideoBaseDecodeUtils.hpp:686-693 | an initialized H.264 slot info is a reference with its slot index |
| `DpbEntry.SetH264PictureData` | external/vulkancts/modules/vulkan/video/vktVideoBaseDecodeUtils.cpp:434-461 | the descriptor carries the slot, frame number, order counts and flags of the reference; fails exactly when a known picture is described at a slot other than its own |
| `DpbEntry.SetReference` | external/vulkancts/modules/vulkan/video/vktVideoBaseDecodeUtils.cpp:374-387 | an H.265 reference is a frame reference exactly when it has a picture buffer and non-existing exactly when it has none |
| `DpbEntry.InitH265SlotInfo` | external/vulkancts/modules/vulkan/video/vktVideoBaseDecodeUtils.hpp:714-721 | an initialized H.265 slot info is a reference with its slot index |
| `DpbEntry.SetH265PictureData` | external/vulkancts/modules/vulkan/video/vktVideoBaseDecodeUtils.cpp:463-491 | the descriptor carries the slot, order count and long-term flag; fails exactly when the entry is not a reference or sits at a slot other than its own |
| `DpbEntry.FieldOrderCntFollowsReferencedFields` | external/vulkancts/modules/vulkan/video/vktVideoBaseDecodeUtils.cpp:354-370 | a frame reference keeps both order counts; a single-field reference uses that field's count twice |
| `DpbEntry.InitThenInvalidate` | external/vulkancts/modules/vulkan/video/vktVideoBaseDecodeUtils.hpp:686-701 | initialization makes a slot info a reference and invalidation makes it none |
| `DpbSlots.DpbSlot.Invalidate` | external/vulkancts/modules/vulkan/video/vktVideoBaseDecodeUtils.hpp:274-285 | reports whether the slot was in use; the slot ends available, without a picture, and holding no reference on any picture |
| `DpbSlots.DpbSlot.SetPictureResource` | external/vulkancts/modules/vulkan/video/vktVideoBaseDecodeUtils.hpp:289-304 | the slot holds the new picture at the given age and returns the replaced one; the slot's reference moves from the old picture to the new one |
| `DpbSlots.DpbSlot.Reserve` | external/vulkancts/modules/vulkan/video/vktVideoBaseDecodeUtils.hpp:306 | a reserved slot is in use, with its picture kept |
| `DpbSlots.DpbSlot.MarkInUse` | external/vulkancts/modules/vulkan/video/vktVideoBaseDecodeUtils.hpp:308-312 | a slot marked in use holds a reference at the given age, with its picture kept |
| `DpbSlots.DpbSlots.Deinit` | external/vulkancts/modules/vulkan/video/vktVideoBaseDecodeUtils.hpp:363-375 | the allocator has no slots, an empty free queue and an empty mask |
| `DpbSlots.DpbSlots.Init` | external/vulkancts/modules/vulkan/video/vktVideoBaseDecodeUtils.hpp:335-361 | without reconfiguration all slots are reset and free in index order; with it a smaller size changes nothing and a larger one keeps the slots and queues only the new indices; returns the size |
| `DpbSlots.DpbSlots.AllocateSlot` | external/vulkancts/modules/vulkan/video/vktVideoBaseDecodeUtils.hpp:379-391 | takes the front of the free queue, masks and reserves it; -1 and no change exactly when the queue is empty |
| `DpbSlots.DpbSlots.FreeSlot` | external/vulkancts/modules/vulkan/video/vktVideoBaseDecodeUtils.hpp:393-402 | the slot is invalidated, unmasked and queued at the back; the allocator stays consistent |
| `DpbSlots.DpbSlots.MarkInUse` | external/vulkancts/modules/vulkan/video/vktVideoBaseDecodeUtils.hpp:308-312 | the slot holds a reference at the given age; the allocator stays consistent exactly when the slot was masked |
| `DpbSlots.DpbSlots.SetPictureResource` | external/vulkancts/modules/vulkan/video/vktVideoBaseDecodeUtils.hpp:289-304 | binds the picture to the slot, returns the previous one and changes no other slot |
| `DpbSlots.GetSlotOfPictureResource` | external/vulkancts/modules/vulkan/video/vktVideoBaseDecodeUtils.hpp:411-419 | returns the lowest masked in-use slot holding the picture, and -1 exactly when there is none |
| `DpbSlots.MapPictureResource` | external/vulkancts/modules/vulkan/video/vktVideoBaseDecodeUtils.hpp:421-433 | binds the picture to its slot and frees every other slot holding it; fails exactly when such a slot is unmasked; every other slot is unchanged |
| `DpbSlots.AllocateThenFree` | external/vulkancts/modules/vulkan/video/vktVideoBaseDecodeUtils.hpp:379-402 | freeing the slot just allocated restores the mask and rotates the free queue by one |
| `DpbSlots.AllocateFailsIffFull` | external/vulkancts/modules/vulkan/video/vktVideoBaseDecodeUtils.hpp:379-391 | allocation fails exactly when every slot is masked |
| `DpbSlots.AllocateManyIsFifo` | external/vulkancts/modules/vulkan/video/vktVideoBaseDecodeUtils.hpp:379-391 | successive allocations hand out the free queue in FIFO order |
| `DpbSlots.AllocateManyExhausts` | external/vulkancts/modules/vulkan/video/vktVideoBaseDecodeUtils.hpp:379-391 | once the free queue is used up, every further allocation returns -1 |
| `DpbSlots.InitThenAllocateAll` | external/vulkancts/modules/vulkan/video/vktVideoBaseDecodeUtils.hpp:335-391 | after a fresh sizing to n slots, allocations yield 0, 1, ..., n-1 and the next one fails |
| `PictureMap.DecoderDpb.GetPicIdx` | external/vulkancts/modules/vulkan/video/vktVideoBaseDecodeUtils.cpp:495-508 | a picture's index when it is non-null and inside the decode surfaces, else -1 |
| `PictureMap.DecoderDpb.GetPicDpbSlot` | external/vulkancts/modules/vulkan/video/vktVideoBaseDecodeUtils.cpp:515-518 | the slot recorded for the picture, -1 when unmapped |
| `PictureMap.DecoderDpb.SetFieldPicFlag` | external/vulkancts/modules/vulkan/video/vktVideoBaseDecodeUtils.cpp:527-543 | the field bit of the picture is set or cleared, its old value returned, and no other bit changes |
| `PictureMap.DecoderDpb.SetPicDpbSlot` | external/vulkancts/modules/vulkan/video/vktVideoBaseDecodeUtils.cpp:545-566 | stores the slot and returns the old one; a slot maps the picture, a negative value unmaps it and returns its old slot to the allocator |
| `PictureMap.DecoderDpb.MapOrAllocate` | external/vulkancts/modules/vulkan/video/vktVideoBaseDecodeUtils.cpp:2029-2035 | a mapped picture keeps its slot; an unmapped one gets a freshly allocated slot bound to it; fails exactly when none is free |
| `PictureMap.DecoderDpb.MarkPictureInUse` | external/vulkancts/modules/vulkan/video/vktVideoBaseDecodeUtils.cpp:2036 | the mapped picture's slot holds a reference at the current picture id |
| `PictureMap.InitialDecoderDpb` | external/vulkancts/modules/vulkan/video/vktVideoBaseDecodeUtils.cpp:585-607 | the constructed decoder maps no picture and is consistent |
| `PictureMap.ResetPictures` | external/vulkancts/modules/vulkan/video/vktVideoBaseDecodeUtils.cpp:568-583 | pictures absent from the valid mask lose their slots, which return to the allocator; others are unchanged |
| `PictureMap.ResetPicDpbSlots` | external/vulkancts/modules/vulkan/video/vktVideoBaseDecodeUtils.cpp:568-583 | unmaps exactly the mapped pictures absent from the valid mask, frees their slots and returns the new mapped mask |
| `PictureMap.DistinctPicturesDistinctSlots` | external/vulkancts/modules/vulkan/video/vktVideoBaseDecodeUtils.cpp:545-566 | in a consistent decoder two different pictures never share a slot |
| `PictureMap.FieldPicFlagRoundTrip` | external/vulkancts/modules/vulkan/video/vktVideoBaseDecodeUtils.cpp:527-543 | writing back the old field flag restores the mask |
| `PictureMap.MapThenUnmap` | external/vulkancts/modules/vulkan/video/vktVideoBaseDecodeUtils.cpp:545-566 | mapping an unmapped picture and unmapping it again restores the map and the masks |
| `PictureMap.MapAndMark` | external/vulkancts/modules/vulkan/video/vktVideoBaseDecodeUtils.cpp:2029-2040 | the picture ends mapped to a slot marked in use at the current picture id |
| `ReferenceListH264.MakeEntry` | external/vulkancts/modules/vulkan/video/vktVideoBaseDecodeUtils.cpp:1918-1948 | a reference resolves to a known picture exactly when it is not flagged non-existing and its buffer is inside the decode surfaces |
| `ReferenceListH264.CollectEntries` | external/vulkancts/modules/vulkan/video/vktVideoBaseDecodeUtils.cpp:1918-1948 | the packed references are the parser entries used for reference, in input order |
| `ReferenceListH264.ValidMask` | external/vulkancts/modules/vulkan/video/vktVideoBaseDecodeUtils.cpp:1940-1942 | the mask holds exactly the pictures the references resolve to |
| `ReferenceListH264.BestNonExistingIsReference` | external/vulkancts/modules/vulkan/video/vktVideoBaseDecodeUtils.cpp:2047-2056 | the default stand-in for non-existing frames is an existing reference whenever one exists |
| `ReferenceListH264.ClosestCover` | external/vulkancts/modules/vulkan/video/vktVideoBaseDecodeUtils.cpp:2086-2095 | the search result is a covering entry within the bound, or the fallback |
| `ReferenceListH264.ClosestCoverIsClosest` | external/vulkancts/modules/vulkan/video/vktVideoBaseDecodeUtils.cpp:2086-2095 | the stand-in is at least as close in order count as every covering entry and strictly closer than every later one; the fallback exactly when none covers |
| `ReferenceListH264.ScanFreeSlot` | external/vulkancts/modules/vulkan/video/vktVideoBaseDecodeUtils.cpp:2077-2083 | the slot found is below the slot count and outside the mask, and the scan resumes after it |
| `ReferenceListH264.ScanFreeSlotIsLowest` | external/vulkancts/modules/vulkan/video/vktVideoBaseDecodeUtils.cpp:2077-2083 | the scan finds the lowest free index and fails only when none is left |
| `ReferenceListH264.ScanFreeSlotConsumesOne` | external/vulkancts/modules/vulkan/video/vktVideoBaseDecodeUtils.cpp:2077-2083 | a successful scan consumes exactly one free index |
| `ReferenceListH264.AssignExistingSlots` | external/vulkancts/modules/vulkan/video/vktVideoBaseDecodeUtils.cpp:2016-2059 | the first pass keeps the decoder consistent and the entries' count |
| `ReferenceListH264.AssignExistingSlotsFailsOnlyUnmapped` | external/vulkancts/modules/vulkan/video/vktVideoBaseDecodeUtils.cpp:2029-2036 | the first pass fails only when some known picture has no slot and none is free |
| `ReferenceListH264.AssignExistingSlotsChangesOnlySlots` | external/vulkancts/modules/vulkan/video/vktVideoBaseDecodeUtils.cpp:2016-2059 | the first pass changes only the slots recorded in entries of known pictures |
| `ReferenceListH264.AssignExistingSlotsKeepsOthers` | external/vulkancts/modules/vulkan/video/vktVideoBaseDecodeUtils.cpp:2016-2059 | entries before the start and non-existing frames come out unchanged |
| `ReferenceListH264.AssignExistingSlotsRecordsSlots` | external/vulkancts/modules/vulkan/video/vktVideoBaseDecodeUtils.cpp:2029-2040 | every known picture carries the slot it ends mapped to, marked in use at the current picture id |
| `ReferenceListH264.AssignExistingSlotsKeepsMapped` | external/vulkancts/modules/vulkan/video/vktVideoBaseDecodeUtils.cpp:2029-2036 | a mapped picture keeps its slot and unreferenced pictures are untouched |
| `ReferenceListH264.AssignExistingSlotsFreesNone` | external/vulkancts/modules/vulkan/video/vktVideoBaseDecodeUtils.cpp:2016-2059 | the first pass frees no slot |
| `ReferenceListH264.AssignExistingSlotsFreshSlots` | external/vulkancts/modules/vulkan/video/vktVideoBaseDecodeUtils.cpp:2029-2036 | a newly mapped picture gets a slot that was free before |
| `ReferenceListH264.AssignExistingSlotsKeepsMarked` | external/vulkancts/modules/vulkan/video/vktVideoBaseDecodeUtils.cpp:2036 | slots already marked for the current picture stay marked |
| `ReferenceListH264.AllocateDpbSlotForCurrentH264` | external/vulkancts/modules/vulkan/video/vktVideoBaseDecodeUtils.cpp:2364-2384 | the current picture ends mapped with its field flag; fails exactly when it is outside the pool or no slot is free for it |
| `ReferenceListH264.AssignRefSlots` | external/vulkancts/modules/vulkan/video/vktVideoBaseDecodeUtils.cpp:2068-2106 | one descriptor per reference, in order |
| `ReferenceListH264.AssignRefSlotsSucceedsIff` | external/vulkancts/modules/vulkan/video/vktVideoBaseDecodeUtils.cpp:2068-2106 | the second pass fails exactly when a non-existing frame has a buffer or there are fewer free slots than non-existing frames |
| `ReferenceListH264.AssignRefSlotsContents` | external/vulkancts/modules/vulkan/video/vktVideoBaseDecodeUtils.cpp:2072-2104 | every descriptor is filled from its own reference |
| `ReferenceListH264.AssignRefSlotsIncreasing` | external/vulkancts/modules/vulkan/video/vktVideoBaseDecodeUtils.cpp:2077-2083 | non-existing frames get strictly increasing slots |
| `ReferenceListH264.ClosestCoverIgnoresSlots` | external/vulkancts/modules/vulkan/video/vktVideoBaseDecodeUtils.cpp:2086-2095 | the stand-in search does not see the slots the first pass records |
| `ReferenceListH264.MapReferences` | external/vulkancts/modules/vulkan/video/vktVideoBaseDecodeUtils.cpp:2016-2059 | without a known reference the first pass does nothing |
| `ReferenceListH264.SecondPassMeans` | external/vulkancts/modules/vulkan/video/vktVideoBaseDecodeUtils.cpp:2068-2106 | known pictures keep their first-pass slots and every descriptor means what the builder promises about the packed references |
| `ReferenceListH264.SecondPassIncreasing` | external/vulkancts/modules/vulkan/video/vktVideoBaseDecodeUtils.cpp:2068-2106 | in the builder's second pass non-existing frames' slots increase with position |
| `ReferenceListH264.MapForCurrent` | external/vulkancts/modules/vulkan/video/vktVideoBaseDecodeUtils.cpp:2016-2066 | the first pass followed by the current picture's allocation keeps the decoder consistent |
| `ReferenceListH264.MapForCurrentKnown` | external/vulkancts/modules/vulkan/video/vktVideoBaseDecodeUtils.cpp:2016-2066 | every known reference sits in its picture's slot, marked in use by the current picture, the slot it had if it had one |
| `ReferenceListH264.MapForCurrentCurrent` | external/vulkancts/modules/vulkan/video/vktVideoBaseDecodeUtils.cpp:2063-2066 | the current picture has a slot and its field flag and every unreferenced picture keeps its slot |
| `ReferenceListH264.AssembleState` | external/vulkancts/modules/vulkan/video/vktVideoBaseDecodeUtils.cpp:2068-2148 | the outputs hold one descriptor per reference followed by -1 padding |
| `ReferenceListH264.AssembleStateShape` | external/vulkancts/modules/vulkan/video/vktVideoBaseDecodeUtils.cpp:2068-2148 | the assembly keeps the decoder and pads both output arrays with -1 to the parser DPB's size |
| `ReferenceListH264.AssembleStateDescriptors` | external/vulkancts/modules/vulkan/video/vktVideoBaseDecodeUtils.cpp:2068-2106 | each descriptor comes from its reference, known pictures keep their slots, non-existing slots increase |
| `ReferenceListH264.PadWithUnused` | external/vulkancts/modules/vulkan/video/vktVideoBaseDecodeUtils.cpp:1945-1947 | the list is kept and followed by -1 up to the given length |
| `ReferenceListH264.FillDpbH264State` | external/vulkancts/modules/vulkan/video/vktVideoBaseDecodeUtils.cpp:1897-2148 | on success the decoder stays consistent |
| `ReferenceListH264.FillDpbH264StateShape` | external/vulkancts/modules/vulkan/video/vktVideoBaseDecodeUtils.cpp:1897-2148 | one descriptor per reference when a reference is known, none otherwise, output arrays padded with -1 |
| `ReferenceListH264.FillDpbH264StateKnownReferences` | external/vulkancts/modules/vulkan/video/vktVideoBaseDecodeUtils.cpp:2016-2059 | each known reference is described by its picture's slot, marked in use by the current picture, unchanged if it had one |
| `ReferenceListH264.ResetKeepsReferences` | external/vulkancts/modules/vulkan/video/vktVideoBaseDecodeUtils.cpp:2006 | the unmapping step leaves every referenced picture as it was |
| `ReferenceListH264.FillDpbH264StateDescriptors` | external/vulkancts/modules/vulkan/video/vktVideoBaseDecodeUtils.cpp:2068-2106 | each descriptor is filled from its reference; a non-existing frame gets a free slot and the stand-in picture; those slots increase |
| `ReferenceListH264.FillDpbH264StateCurrent` | external/vulkancts/modules/vulkan/video/vktVideoBaseDecodeUtils.cpp:2063-2066 | the current picture ends with a slot and its field flag; any other unreferenced picture keeps its slot or was unmapped |
| `ReferenceListH265.NoSlots` | external/vulkancts/modules/vulkan/video/vktVideoBaseDecodeUtils.cpp:2212-2214 | the cleared position-to-slot list holds slot 0 at each of the sixteen positions |
| `ReferenceListH265.MakeEntry` | external/vulkancts/modules/vulkan/video/vktVideoBaseDecodeUtils.cpp:2169-2187 | a packed reference is a frame reference with the position's long-term flag and order count |
| `ReferenceListH265.CollectEntries` | external/vulkancts/modules/vulkan/video/vktVideoBaseDecodeUtils.cpp:2169-2187 | the packed references are the known pictures of the parser DPB in position order |
| `ReferenceListH265.PictureSet` | external/vulkancts/modules/vulkan/video/vktVideoBaseDecodeUtils.cpp:2178-2180 | exactly the pictures the references resolve to |
| `ReferenceListH265.AssignSlots` | external/vulkancts/modules/vulkan/video/vktVideoBaseDecodeUtils.cpp:2216-2245 | the first pass keeps the decoder consistent and records one slot per reference |
| `ReferenceListH265.AssignSlotsSucceedsWhenMapped` | external/vulkancts/modules/vulkan/video/vktVideoBaseDecodeUtils.cpp:2216-2245 | when every referenced picture has a slot the first pass succeeds |
| `ReferenceListH265.AssignSlotsKeepsEarlier` | external/vulkancts/modules/vulkan/video/vktVideoBaseDecodeUtils.cpp:2216-2245 | the slots of earlier references are kept |
| `ReferenceListH265.AssignSlotsKeepsMapped` | external/vulkancts/modules/vulkan/video/vktVideoBaseDecodeUtils.cpp:2216-2245 | mapped pictures keep their slots and unreferenced pictures are untouched |
| `ReferenceListH265.AssignSlotsKeepsMarked` | external/vulkancts/modules/vulkan/video/vktVideoBaseDecodeUtils.cpp:2216-2245 | slots marked for the current picture stay marked |
| `ReferenceListH265.AssignSlotsFreesNone` | external/vulkancts/modules/vulkan/video/vktVideoBaseDecodeUtils.cpp:2216-2245 | the first pass frees no slot |
| `ReferenceListH265.AssignSlotsFreshSlots` | external/vulkancts/modules/vulkan/video/vktVideoBaseDecodeUtils.cpp:2216-2245 | a newly mapped picture gets a slot free before |
| `ReferenceListH265.AssignSlotsRecords` | external/vulkancts/modules/vulkan/video/vktVideoBaseDecodeUtils.cpp:2216-2245 | each reference gets the slot its picture ends with, marked in use at the current picture id |
| `ReferenceListH265.RecordSlots` | external/vulkancts/modules/vulkan/video/vktVideoBaseDecodeUtils.cpp:2235 | each packed reference carries its first-pass slot and nothing else changes |
| `ReferenceListH265.FrmListToDpb` | external/vulkancts/modules/vulkan/video/vktVideoBaseDecodeUtils.cpp:2236-2238 | the position-to-slot list keeps its length |
| `ReferenceListH265.FrmListToDpbMeans` | external/vulkancts/modules/vulkan/video/vktVideoBaseDecodeUtils.cpp:2236-2238 | a position a reference came from holds its slot; every other position keeps its value |
| `ReferenceListH265.FillRefSlots` | external/vulkancts/modules/vulkan/video/vktVideoBaseDecodeUtils.cpp:2248-2271 | one descriptor per reference |
| `ReferenceListH265.FillRefSlotsMeans` | external/vulkancts/modules/vulkan/video/vktVideoBaseDecodeUtils.cpp:2248-2271 | the second pass succeeds exactly when every slot is one of the sixteen, and then each descriptor describes its reference |
| `ReferenceListH265.RpsPositions` | external/vulkancts/modules/vulkan/video/vktVideoBaseDecodeUtils.cpp:2288-2297 | the named positions that fall inside the parser DPB, in order |
| `ReferenceListH265.RpsSlots` | external/vulkancts/modules/vulkan/video/vktVideoBaseDecodeUtils.cpp:2294 | one slot per named position |
| `ReferenceListH265.RpsList` | external/vulkancts/modules/vulkan/video/vktVideoBaseDecodeUtils.cpp:2281-2300 | a list length outside 0..8 fails; otherwise eight entries, the named slots then 0xFF |
| `ReferenceListH265.BuildRpsList` | external/vulkancts/modules/vulkan/video/vktVideoBaseDecodeUtils.cpp:2281-2300 | the list written entry by entry is the one RpsList describes |
| `ReferenceListH265.RpsListMeans` | external/vulkancts/modules/vulkan/video/vktVideoBaseDecodeUtils.cpp:2288-2300 | each entry naming a position inside the DPB holds that position's slot, at the index counting earlier such entries; the rest are 0xFF |
| `ReferenceListH265.AllocateDpbSlotForCurrentH265` | external/vulkancts/modules/vulkan/video/vktVideoBaseDecodeUtils.cpp:2386-2405 | the current picture ends mapped; fails for a picture outside the pool, not marked as a reference, or without a free slot |
| `ReferenceListH265.AllocateCurrentKeepsOthers` | external/vulkancts/modules/vulkan/video/vktVideoBaseDecodeUtils.cpp:2386-2405 | slots marked for the current picture and other pictures' slots are kept |
| `ReferenceListH265.FillDpbH265State` | external/vulkancts/modules/vulkan/video/vktVideoBaseDecodeUtils.cpp:2150-2362 | on success the decoder stays consistent |
| `ReferenceListH265.FillDpbH265StateShape` | external/vulkancts/modules/vulkan/video/vktVideoBaseDecodeUtils.cpp:2150-2362 | one descriptor per known picture of the parser DPB, picture indices in position order, outputs padded with -1 |
| `ReferenceListH265.FillDpbH265StateReferences` | external/vulkancts/modules/vulkan/video/vktVideoBaseDecodeUtils.cpp:2216-2271 | every reference is placed at its picture's slot with the position's order count and long-term flag |
| `ReferenceListH265.FillDpbH265StateCurrent` | external/vulkancts/modules/vulkan/video/vktVideoBaseDecodeUtils.cpp:2353-2359 | the current picture is placed; other pictures are kept or unmapped |
| `ReferenceListH265.FrmHoldsPositionSlots` | external/vulkancts/modules/vulkan/video/vktVideoBaseDecodeUtils.cpp:2212-2245 | every position holds its picture's final slot, or 0 when it holds no known picture |
| `ReferenceListH265.FillDpbH265StateRps` | external/vulkancts/modules/vulkan/video/vktVideoBaseDecodeUtils.cpp:2281-2340 | the three RefPicSet lists name the slots of the positions they list |
| `ReferenceListH265.FillDpbH265StateAdmissible` | external/vulkancts/modules/vulkan/video/vktVideoBaseDecodeUtils.cpp:2150-2362 | a success meets every assertion of the builder |
| `ReferenceListH265.FillDpbH265StateSucceedsWhenMapped` | external/vulkancts/modules/vulkan/video/vktVideoBaseDecodeUtils.cpp:2150-2362 | when every needed picture has a slot, the builder succeeds exactly when its assertions hold |
| `FrameBuffer.InitialPool` | external/vulkancts/modules/vulkan/video/vktVideoBaseDecodeUtils.cpp:2962-2975 | the constructed pool has no images, an empty queue and mask and zero counters |
| `FrameBuffer.InitialPoolConsistent` | external/vulkancts/modules/vulkan/video/vktVideoBaseDecodeUtils.cpp:2962-2975 | the constructed pool is consistent |
| `FrameBuffer.InitImagePool` | external/vulkancts/modules/vulkan/video/vktVideoBaseDecodeUtils.cpp:3025-3050 | the pool holds the requested number of records, new ones reset and old ones kept |
| `FrameBuffer.InitImagePoolKeepsConsistent` | external/vulkancts/modules/vulkan/video/vktVideoBaseDecodeUtils.cpp:3025-3050 | growing the pool keeps it consistent |
| `FrameBuffer.Deinitialize` | external/vulkancts/modules/vulkan/video/vktVideoBaseDecodeUtils.cpp:3052-3068 | after the flush as implemented the pool has no images, an empty queue and mask, zero counters, and every used record is available and detached |
| `FrameBuffer.TearDown` | external/vulkancts/modules/vulkan/video/vktVideoBaseDecodeUtils.cpp:3056-3067 | the records in use are detached with no reference, the others are kept, and the counters and image count are zero |
| `FrameBuffer.DeinitializeHidesFlushFault` | external/vulkancts/modules/vulkan/video/vktVideoBaseDecodeUtils.cpp:3052-3068 | on a consistent pool de-initialization with the flush as implemented ends in the same pool as with the corrected flush |
| `FrameBuffer.TearDownIgnoresCounts` | external/vulkancts/modules/vulkan/video/vktVideoBaseDecodeUtils.cpp:3056-3067 | two pools differing only in the reference counts of used records tear down to the same pool |
| `FrameBuffer.DeinitializeEmptiesPool` | external/vulkancts/modules/vulkan/video/vktVideoBaseDecodeUtils.cpp:3052-3068 | de-initialization succeeds on a consistent pool and leaves no images, empty queue and mask, zero counters, and every used record detached |
| `FrameBuffer.FirstAvailable` | external/vulkancts/modules/vulkan/video/vktVideoBaseDecodeUtils.cpp:3328-3334 | the lowest available record from the start index, none exactly when every one is taken |
| `FrameBuffer.ReservePictureBuffer` | external/vulkancts/modules/vulkan/video/vktVideoBaseDecodeUtils.cpp:3326-3345 | hands out the lowest available record with one reference, or nothing and no change when all are taken |
| `FrameBuffer.ReserveKeepsConsistent` | external/vulkancts/modules/vulkan/video/vktVideoBaseDecodeUtils.cpp:3326-3345 | reserving keeps the pool consistent |
| `FrameBuffer.QueuePictureForDecode` | external/vulkancts/modules/vulkan/video/vktVideoBaseDecodeUtils.cpp:3090-3140 | the record gets the next decode order and its objects and signals; the counter advances; other records are unchanged |
| `FrameBuffer.QueuePictureForDecodeKeepsConsistent` | external/vulkancts/modules/vulkan/video/vktVideoBaseDecodeUtils.cpp:3090-3140 | submitting for decode keeps the pool consistent |
| `FrameBuffer.QueueDecodedPictureForDisplay` | external/vulkancts/modules/vulkan/video/vktVideoBaseDecodeUtils.cpp:3070-3088 | the record gets the next display order and the timestamp, takes a reference and is appended to the FIFO |
| `FrameBuffer.QueueForDisplayKeepsConsistent` | external/vulkancts/modules/vulkan/video/vktVideoBaseDecodeUtils.cpp:3070-3088 | queueing for display keeps the pool consistent |
| `FrameBuffer.DequeueDecodedPicture` | external/vulkancts/modules/vulkan/video/vktVideoBaseDecodeUtils.cpp:3145-3200 | pops the FIFO front into a frame with its orders and signals, sets its display bit and returns the count before the pop; 0 and no frame on an empty queue |
| `FrameBuffer.DequeueKeepsConsistent` | external/vulkancts/modules/vulkan/video/vktVideoBaseDecodeUtils.cpp:3145-3200 | dequeuing moves the queue's reference to the display and keeps the pool consistent |
| `FrameBuffer.ReleaseOne` | external/vulkancts/modules/vulkan/video/vktVideoBaseDecodeUtils.cpp:3206-3223 | a release succeeds exactly when the record is in use, its stamps match and the display owns it; the bit is cleared and a reference dropped |
| `FrameBuffer.ReleaseOneKeepsConsistent` | external/vulkancts/modules/vulkan/video/vktVideoBaseDecodeUtils.cpp:3206-3222 | one release keeps the pool consistent |
| `FrameBuffer.ReleaseDisplayedPicture` | external/vulkancts/modules/vulkan/video/vktVideoBaseDecodeUtils.cpp:3202-3226 | releases in order and stops at the first failing release |
| `FrameBuffer.ReleaseDisplayedPictureKeepsConsistent` | external/vulkancts/modules/vulkan/video/vktVideoBaseDecodeUtils.cpp:3202-3226 | a release list keeps the pool consistent |
| `FrameBuffer.ReleaseDisplayedPictureClearsOwned` | external/vulkancts/modules/vulkan/video/vktVideoBaseDecodeUtils.cpp:3202-3226 | a successful list names distinct frames the display owned and clears exactly their bits |
| `FrameBuffer.QueuedNotAvailable` | external/vulkancts/modules/vulkan/video/vktVideoBaseDecodeUtils.cpp:3070-3088 | every queued record of a consistent pool holds a reference, so it is not available |
| `FrameBuffer.FlushFront` | external/vulkancts/modules/vulkan/video/vktVideoBaseDecodeUtils.cpp:3012-3019 | corrected step: the front leaves the queue and a still-referenced record loses one reference |
| `FrameBuffer.FlushFrontKeepsConsistent` | external/vulkancts/modules/vulkan/video/vktVideoBaseDecodeUtils.cpp:3012-3019 | one corrected step keeps the pool consistent and takes exactly one reference from the front's record |
| `FrameBuffer.FlushDisplayQueue` | external/vulkancts/modules/vulkan/video/vktVideoBaseDecodeUtils.cpp:3007-3023 | corrected flush: empties the FIFO and returns how many entries it held |
| `FrameBuffer.FlushDisplayQueueDropsQueueReferences` | external/vulkancts/modules/vulkan/video/vktVideoBaseDecodeUtils.cpp:3007-3023 | on a consistent pool the corrected flush succeeds and each record loses one reference per queue entry naming it |
| `FrameBuffer.FlushFrontAsWritten` | external/vulkancts/modules/vulkan/video/vktVideoBaseDecodeUtils.cpp:3012-3019 | as written: the front leaves the queue and a reference is dropped only from an available record |
| `FrameBuffer.FlushDisplayQueueAsWritten` | external/vulkancts/modules/vulkan/video/vktVideoBaseDecodeUtils.cpp:3007-3023 | as written: empties the FIFO and returns how many entries it held |
| `FrameBuffer.FlushFrontAsWrittenKeepsRecords` | external/vulkancts/modules/vulkan/video/vktVideoBaseDecodeUtils.cpp:3012-3019 | a step as written changes no record of a consistent pool |
| `FrameBuffer.FlushAsWrittenKeepsEveryRecord` | external/vulkancts/modules/vulkan/video/vktVideoBaseDecodeUtils.cpp:3007-3023 | as written, the flush releases nothing on a consistent pool |
| `FrameBuffer.FlushAsWrittenLeaksQueueReference` | external/vulkancts/modules/vulkan/video/vktVideoBaseDecodeUtils.cpp:3015-3018 | a reserved and queued picture keeps two references after the flush as written and one after the corrected flush |
| `FrameBuffer.SetPicNumInDecodeOrder` | external/vulkancts/modules/vulkan/video/vktVideoBaseDecodeUtils.cpp:3295-3304 | overwrites the record's decode order and returns the old one; an index outside the pool returns -1 and changes nothing |
| `FrameBuffer.SetPicNumInDisplayOrder` | external/vulkancts/modules/vulkan/video/vktVideoBaseDecodeUtils.cpp:3306-3315 | the same for the display order |
| `FrameBuffer.DecodeOrderRoundTrip` | external/vulkancts/modules/vulkan/video/vktVideoBaseDecodeUtils.cpp:3295-3304 | writing back the returned decode order undoes the call |
| `FrameBuffer.DisplayOrderRoundTrip` | external/vulkancts/modules/vulkan/video/vktVideoBaseDecodeUtils.cpp:3306-3315 | writing back the returned display order undoes the call |
| `FrameBuffer.ReserveRepeatedly` | external/vulkancts/modules/vulkan/video/vktVideoBaseDecodeUtils.cpp:3326-3345 | a series of n reservations gives n results and leaves a valid pool |
| `FrameBuffer.ReserveRepeatedlyKeepsConsistent` | external/vulkancts/modules/vulkan/video/vktVideoBaseDecodeUtils.cpp:3326-3345 | a series of reservations keeps a consistent pool consistent |
| `FrameBuffer.PoolExhaustion` | external/vulkancts/modules/vulkan/video/vktVideoBaseDecodeUtils.cpp:3326-3345 | with every record free, reservations hand out 0, 1, ... in order and the next fails rather than reuse a record in flight |
| `FrameBuffer.FreshPoolExhaustion` | external/vulkancts/modules/vulkan/video/vktVideoBaseDecodeUtils.cpp:3025-3050 | the same for a freshly sized pool |
| `FrameBuffer.QueueAllForDisplay` | external/vulkancts/modules/vulkan/video/vktVideoBaseDecodeUtils.cpp:3070-3088 | a successful series of display submissions leaves a valid pool |
| `FrameBuffer.QueueAllKeepsConsistent` | external/vulkancts/modules/vulkan/video/vktVideoBaseDecodeUtils.cpp:3070-3088 | a successful series of display submissions keeps a consistent pool consistent |
| `FrameBuffer.DequeueAll` | external/vulkancts/modules/vulkan/video/vktVideoBaseDecodeUtils.cpp:3145-3200 | a successful series of n dequeues yields at most n frames, no more than the queue held, and leaves a valid pool |
| `FrameBuffer.DequeueAllKeepsConsistent` | external/vulkancts/modules/vulkan/video/vktVideoBaseDecodeUtils.cpp:3145-3200 | a successful series of dequeues keeps a consistent pool consistent |
| `FrameBuffer.QueueAllStampsInOrder` | external/vulkancts/modules/vulkan/video/vktVideoBaseDecodeUtils.cpp:3070-3088 | distinct pictures are appended to the FIFO with successive display orders |
| `FrameBuffer.DequeueAllInOrder` | external/vulkancts/modules/vulkan/video/vktVideoBaseDecodeUtils.cpp:3145-3200 | dequeuing the whole queue yields one frame per entry, front first, each with its record's stamps |
| `FrameBuffer.QueueThenDequeueAll` | external/vulkancts/modules/vulkan/video/vktVideoBaseDecodeUtils.cpp:3070-3200 | pictures queued on an empty FIFO come back in the order queued, with successive display orders |
| `FrameBuffer.DisplayFifo` | external/vulkancts/modules/vulkan/video/vktVideoBaseDecodeUtils.cpp:3070-3200 | a picture queued before another is dequeued before it |
| `FrameBuffer.DisplayedFrameCountTracksQueue` | external/vulkancts/modules/vulkan/video/vktVideoBaseDecodeUtils.cpp:3142 | queueing adds one to the displayed-frame count and a dequeue reports the count before it and removes one |
| `FrameBuffer.DequeueThenRelease` | external/vulkancts/modules/vulkan/video/vktVideoBaseDecodeUtils.cpp:3145-3226 | releasing the frame just dequeued succeeds and restores the mask with one reference fewer |
| `FrameBuffer.PictureLifecycle` | external/vulkancts/modules/vulkan/video/vktVideoBaseDecodeUtils.cpp:3070-3345 | reserve, decode, display, dequeue and release of one picture: the frame carries the stamped orders, the display mask and queue are back as before, and only the reservation's reference remains on the record |
| `PictureParameters.UpdatePictureParametersHierarchy` | external/vulkancts/modules/vulkan/video/vktVideoBaseDecodeUtils.cpp:4091-4165 | accepts exactly the sets of a known type with an id in range; files the set as the last of its type and links it to its parent or child only when their ids agree; parent links stay consistent |
| `PictureParameters.FilePps` | external/vulkancts/modules/vulkan/video/vktVideoBaseDecodeUtils.cpp:4099-4116 | a PPS becomes the last PPS, linked under the last SPS when its SPS id agrees |
| `PictureParameters.FileSps` | external/vulkancts/modules/vulkan/video/vktVideoBaseDecodeUtils.cpp:4117-4141 | an SPS becomes the last SPS, parent of the last matching PPS and child of the last matching VPS |
| `PictureParameters.FileVps` | external/vulkancts/modules/vulkan/video/vktVideoBaseDecodeUtils.cpp:4142-4157 | a VPS becomes the last VPS, parent of the last SPS naming it |
| `PictureParameters.SetParent` | external/vulkancts/modules/vulkan/video/vktVideoBaseDecodeUtils.cpp:4091-4165 | only the parent link of the one set changes |
| `PictureParameters.MarkUsed` | external/vulkancts/modules/vulkan/video/vktVideoBaseDecodeUtils.cpp:4000-4014 | marks the set's own id; refused exactly for an id outside its bitset; no other id appears |
| `PictureParameters.CreateParametersObject` | external/vulkancts/modules/vulkan/video/vktVideoBaseDecodeUtils.cpp:3930-4019 | an unknown set type reports an initialization failure and changes nothing; otherwise succeeds exactly for an accepted set, binds the session and registers the set's id on top of the template's ids, adding no other id |
| `PictureParameters.UpdateParametersObject` | external/vulkancts/modules/vulkan/video/vktVideoBaseDecodeUtils.cpp:4021-4080 | an unknown set type reports an initialization failure and changes nothing; otherwise succeeds exactly for an accepted set, counts the update and registers the set's id, keeping every earlier id and adding no other |
| `PictureParameters.UpdateReportsIds` | external/vulkancts/modules/vulkan/video/vktVideoBaseDecodeUtils.hpp:626-636 | after an accepted update the id queries report the new set's id for its type and every id reported before |
| `PictureParameters.HandleNewPictureParametersSet` | external/vulkancts/modules/vulkan/video/vktVideoBaseDecodeUtils.cpp:4173-4198 | the object keeps its queue and its template chain does not grow |
| `PictureParameters.HandleNewRegisters` | external/vulkancts/modules/vulkan/video/vktVideoBaseDecodeUtils.cpp:4173-4198 | an accepted set reaches the device: the object has a device object, keeps its queue and ids and gains the set's id |
| `PictureParameters.FlushTemplate` | external/vulkancts/modules/vulkan/video/vktVideoBaseDecodeUtils.cpp:4180-4182 | the template survives its flush exactly when there was one |
| `PictureParameters.FlushPictureParametersQueue` | external/vulkancts/modules/vulkan/video/vktVideoBaseDecodeUtils.cpp:4201-4220 | without a session returns -1 and changes nothing |
| `PictureParameters.FlushRegisters` | external/vulkancts/modules/vulkan/video/vktVideoBaseDecodeUtils.cpp:4201-4220 | a ready object hands over its whole queue in FIFO order, returns its length and gains every set's id |
| `PictureParameters.FlushStopsAtRefusedSet` | external/vulkancts/modules/vulkan/video/vktVideoBaseDecodeUtils.cpp:4207-4213 | a refused set stops the flush with -1 and stays queued |
| `PictureParameters.AddPictureParametersToQueue` | external/vulkancts/modules/vulkan/video/vktVideoBaseDecodeUtils.cpp:4167-4171 | the set is appended to the queue and nothing else changes |
| `PictureParameters.CheckStdObjectBeforeUpdate` | external/vulkancts/modules/vulkan/video/vktVideoBaseDecodeUtils.cpp:4222-4246 | a new object is needed exactly when there is a set and no current object or the set is an update; reusing a client object for a non-update fails |
| `PictureParameters.AddPictureParameters` | external/vulkancts/modules/vulkan/video/vktVideoBaseDecodeUtils.cpp:4249-4276 | a null set is an initialization error changing nothing; otherwise a current object results |
| `PictureParameters.FlushCurrent` | external/vulkancts/modules/vulkan/video/vktVideoBaseDecodeUtils.cpp:4257-4260 | the current object survives its flush exactly when there was one; nothing changes without a session |
| `PictureParameters.AddWithoutSessionQueues` | external/vulkancts/modules/vulkan/video/vktVideoBaseDecodeUtils.cpp:4249-4276 | without a session the set is queued, on a new object with the current one as template when one is needed |
| `PictureParameters.AddWithSessionRegisters` | external/vulkancts/modules/vulkan/video/vktVideoBaseDecodeUtils.cpp:4249-4276 | with a session an accepted set reaches the device, the queue is empty and every flushed set's id is registered |
| `FormatMapping.CodecGetVkFormat` | external/vulkancts/modules/vulkan/video/vktVideoBaseDecodeUtils.cpp:130-194 | succeeds exactly for a known subsampling and depth; the format has that subsampling and depth and one plane for monochrome, else two or three by the semi-planar flag |
| `FormatMapping.CodecGetVkFormatInjective` | external/vulkancts/modules/vulkan/video/vktVideoBaseDecodeUtils.cpp:130-194 | the format determines subsampling, depth and, except for monochrome, the plane layout |
| `FormatMapping.GetLumaBitDepth` | external/vulkancts/modules/vulkan/video/vktVideoBaseDecodeUtils.cpp:197-210 | succeeds exactly for 0, 2 and 4, and the flag stands for that many bits above 8 |
| `FormatMapping.GetChromaBitDepth` | external/vulkancts/modules/vulkan/video/vktVideoBaseDecodeUtils.cpp:212-225 | the same for chroma |
| `FormatMapping.BitDepthRoundTrip` | external/vulkancts/modules/vulkan/video/vktVideoBaseDecodeUtils.cpp:197-210 | every known flag comes back from its own bit count |
| `FormatMapping.FormatFollowsLumaDepth` | external/vulkancts/modules/vulkan/video/vktVideoBaseDecodeUtils.cpp:130-210 | the stream's luma depth carries through to the picked format |
| `VideoSession.CreateSession` | external/vulkancts/modules/vulkan/video/vktVideoBaseDecodeUtils.cpp:2494-2502 | a session records the request it was created for |
| `VideoSession.IsCompatible` | external/vulkancts/modules/vulkan/video/vktVideoBaseDecodeUtils.hpp:460-506 | compatible exactly when profile, device, queue family and formats match and extent, slots and active references are no more than created |
| `VideoSession.CreatedSessionServesSmallerRequests` | external/vulkancts/modules/vulkan/video/vktVideoBaseDecodeUtils.hpp:460-506 | a session serves the request it was created for and every smaller one |
| `VideoSession.ImageIsCompatible` | external/vulkancts/modules/vulkan/video/vktVideoBaseDecodeUtils.hpp:76-104 | compatible exactly when extent and layers are no larger and tiling, type and format agree |
| `VideoSession.ImageCompatibilityIsPreorder` | external/vulkancts/modules/vulkan/video/vktVideoBaseDecodeUtils.hpp:76-104 | image compatibility is reflexive and transitive |
| `VideoSession.ImageExtent` | external/vulkancts/modules/vulkan/video/vktVideoBaseDecodeUtils.cpp:632-693 | the image extent is a multiple of the access granularity and covers the coded size, the display area and the minimum coded extent |
| `VideoSession.ImageExtentIsLeastCover` | external/vulkancts/modules/vulkan/video/vktVideoBaseDecodeUtils.cpp:632-693 | the image extent covers coded size, display area and minimum extent, is a multiple of the granularity, and is the least such extent |
| `VideoSession.SelectSession` | external/vulkancts/modules/vulkan/video/vktVideoBaseDecodeUtils.cpp:695-718 | keeps the session exactly when it serves the check request, else creates one for the creation request and asks for a reset |
| `VideoSession.StartVideoSequence` | external/vulkancts/modules/vulkan/video/vktVideoBaseDecodeUtils.cpp:630-810 | corrected: at least eight surfaces above the stream minimum, never fewer than before, and a session that serves the sequence |
| `VideoSession.StartVideoSequenceAsWritten` | external/vulkancts/modules/vulkan/video/vktVideoBaseDecodeUtils.cpp:630-810 | as implemented: at least eight surfaces above the stream minimum, never fewer than before; the session is kept exactly when it serves the max(slots, 16) reuse request, else one is created with min(slots, device limit) active references and a reset is asked for |
| `VideoSession.AsWrittenReusesOnlyWideSessions` | external/vulkancts/modules/vulkan/video/vktVideoBaseDecodeUtils.cpp:695-718 | as written, an identical next sequence keeps the created session exactly when the stream needs at least 16 slots and the device allows that many references |
| `VideoSession.AsWrittenRecreatesH264Session` | external/vulkancts/modules/vulkan/video/vktVideoBaseDecodeUtils.cpp:695-718 | as written, an H.264 stream with 17 slots on a device with 16 active references recreates its session on every start |
| `VideoSession.StartVideoSequenceReusesSession` | external/vulkancts/modules/vulkan/video/vktVideoBaseDecodeUtils.cpp:695-718 | corrected, an identical next sequence always keeps the session and asks for no reset |
| `SequenceConfig.DetectChange` | external/vulkancts/modules/vulkan/video/vktVideoBaseDecodeUtils.cpp:814-834 | an update exactly when a sequence was seen; reconfiguration flags exactly when the format or coded size differ; the slot count is the stream's need within the codec limit |
| `SequenceConfig.DetectedSubsampling` | external/vulkancts/modules/vulkan/video/vktVideoBaseDecodeUtils.cpp:861-869 | succeeds exactly for 4:2:0, 4:2:2 and 4:4:4, giving a known non-monochrome flag |
| `SequenceConfig.BeginSequence` | external/vulkancts/modules/vulkan/video/vktVideoBaseDecodeUtils.cpp:739-935 | succeeds exactly for a mapped chroma format and bit depths and a surface count the frame pool can hold; records the sequence, never lowers the surface count, sizes or grows the slot allocator, and sizes the frame pool to the surface count |
| `SequenceConfig.RepeatedSequenceNeedsNoReconfigure` | external/vulkancts/modules/vulkan/video/vktVideoBaseDecodeUtils.cpp:814-840 | starting the same sequence again is an update with no reconfiguration |

## Left out

- Logging, the mutexes of the frame pool and all concurrency: the model is sequential.
- Device objects (sessions, images, buffers, memory, parameters objects) are not built. Only the bitstream buffer's creation takes a flag saying whether it succeeded; the other creations are assumed to succeed, as the lines below say.
- VideoSession.SelectSession: creating a new session always succeeds; the failure of the device call, which the decoder only asserts against, is not modelled.
- VideoSession.StartVideoSequence: session creation is assumed to succeed, so the result always holds a session.
- VideoSession.StartVideoSequenceAsWritten: session creation is assumed to succeed, so the result always holds a session.
- FrameBuffer.InitImagePool: allocating the per-frame images is assumed to succeed; the -1 the image set returns on a failed image creation, which leaves the image count unchanged, is not modelled.
- PictureParameters.CreateParametersObject: the device's creation of the session-parameters object is assumed to succeed; its error return is not modelled.
- PictureParameters.UpdateParametersObject: the device's update of the session-parameters object is assumed to succeed; the exception thrown on a failed update is not modelled.
- SequenceConfig.BeginSequence: its "succeeds exactly when" holds under the assumptions above, session creation and image-pool allocation succeeding.
- vktBistreamBufferImpl.hpp is not part of this model: the initial state of a buffer object (no memory, 256 zero markers) follows the constructor of the companion class in vktBitstreamBufferImpl.hpp.
- VulkanDeviceMemoryImpl is not part of this model: its range check is modelled as a failure of the copy or fill.
- deAlign32 is not part of this model: aligned sizes use AlignUp, the least multiple of the alignment, so the 32-bit wrap of the rounding is not modelled (a display width of 0xFFFFFFFF with granularity 16 aligns to 0 in the decoder and to 2^32 in VideoSession.ImageExtent).
- AlignUp: unbounded integers, so the 64-bit wrap of the rounding for sizes near 2^64 is not modelled.
- Fences, semaphores and query pools are flags in the frame records; waiting on them is left out.
- vkPicBuffBase is modelled only by its reference count; its other reset fields are not stored.
- FrameBuffer.DeinitializeEmptiesPool: the ownedByDisplay bits of de-initialized records are not stated, as the source does not clear them.
- The H.265 builder's non-existing-frame branch is left out: every packed H.265 reference has a picture, so the branch cannot run.
- ReferenceListH265.FillRefSlotsMeans: stated for at most sixteen references, the parser DPB's size.
- The static object counter and the per-object id of parameters objects are left out: nothing in the core reads them.
- The profile checks of the sequence callback (source assertions on the codec and profile) and the profile list are left out.
- Monochrome streams fail in BeginSequence, as the source asserts; monochrome decoding is not modelled further.
- The preallocation of bitstream buffers in a pool is left out: it only calls Create repeatedly.
- FlushRange and InvalidateRange are left out: they do nothing for a zero size and otherwise only call the device.
- GetMaxSize, GetOffsetAlignment and GetSizeAlignment are field reads of the buffer and have no contract of their own.
- SequenceConfig.BeginSequence: composes the corrected StartVideoSequence, so the session recreation and decoder reset the implementation performs for a 17-slot H.264 stream on a device with 16 active references are not reproduced (see Findings).
- DpbSlots.DpbSlot.Invalidate: the reference the slot drops (RefsOn) is not carried into the frame pool's reference counts.
- DpbSlots.DpbSlot.SetPictureResource: the reference moved between pictures (RefsOn) is not carried into the frame pool's reference counts.
- DpbSlots.DpbSlots.Deinit: the references released by invalidating every slot are not carried into the frame pool's reference counts.
- DpbSlots.DpbSlots.Init: the references released when slots are reset are not carried into the frame pool's reference counts.
- DpbSlots.DpbSlots.FreeSlot: the reference released by the freed slot is not carried into the frame pool's reference counts.
- DpbSlots.DpbSlots.SetPictureResource: the references taken and released when a picture is bound are not carried into the frame pool's reference counts.
- DpbSlots.MapPictureResource: the references taken and released when a picture is bound and other slots are freed are not carried into the frame pool's reference counts; FrameBuffer.Consistent bounds counts only from below, so a picture held only by a DPB slot can look available to ReservePictureBuffer in the model.
- PictureParameters.HandleNewPictureParametersSet: the decoder asserts that creating or updating the device object succeeded; the model follows the build without assertions, so a refused set is reported through the status and FlushStopsAtRefusedSet states the -1 exit of the flush rather than an abort.
- Parameter objects are values, not shared objects: the template an object is created from is dropped after its flush, so the flushed state other holders of the same object would see is not modelled.
- BitstreamBuffer.GetStreamMarkersPtr: the 32-bit wrap of the marker count is stated only for fewer than 2^32 markers.
- The 16-byte padding check in CopyDataToBuffer is left out: it changes no byte.
- Device memory property flags other than the per-type flag word are left out.

## Findings

| source | as written | input that shows it | evidently intended | confidence | as-written member | corrected member |
|---|---|---|---|---|---|---|
| external/vulkancts/modules/vulkan/video/vktVideoBaseDecodeUtils.cpp:3015-3018 | the flush drops the queue's reference only from records that are already available | a one-image pool whose picture was reserved and queued for display keeps both references after the flush | drop the queue's reference from every record still referenced | not executed | `FrameBuffer.FlushAsWrittenLeaksQueueReference` | `FrameBuffer.FlushDisplayQueueDropsQueueReferences` |
| external/vulkancts/modules/vulkan/video/vktVideoBaseDecodeUtils.cpp:695-718 | the reuse check asks for max(slots, 16) active references, creation uses min(slots, the device limit) | an H.264 stream with 17 slots on a device with 16 active references recreates the session on every sequence | the reuse check asks for what creation uses | not executed | `VideoSession.AsWrittenRecreatesH264Session` | `VideoSession.StartVideoSequenceReusesSession` |
| external/vulkancts/modules/vulkan/video/vktBistreamBufferImpl.cpp:319-332 | the requested size is passed by reference to the pointer query, which overwrites it with the bytes left in the source | a 16-byte copy from offset 0 of a 64-byte source copies 64 bytes | copy exactly the requested bytes, failing when they are not all in the source | not executed | `BitstreamBuffer.CopyFromBitstreamAsWrittenCopiesTooMuch` | `BitstreamBuffer.CopyDataFromBitstream` |

=== FILE: alignment.dfy ===
/** Rounding up to a power-of-two alignment, as the decoder does with
    `(v + (a - 1)) & ~(a - 1)`.  For a power of two `a` that mask keeps the
    multiples of `a`, so the expression is the least multiple of `a` that is
    not below `v`; the model computes that multiple by repeated steps of `a`.
    Integers are unbounded here: the wrap-around of the implementation's fixed-width
    sum is not modelled. */
module Alignment {

  /** 1, 2, 4, 8, ... */
  predicate IsPowerOfTwo(a: nat)
    decreases a
  {
    a == 1 || (a >= 2 && a % 2 == 0 && IsPowerOfTwo(a / 2))
  }

  /** `m` is 0, a, 2a, 3a, ... */
  predicate IsMultiple(m: nat, a: nat)
    requires a >= 1
    decreases m
  {
    m == 0 || (m >= a && IsMultiple(m - a, a))
  }

  lemma PowerOfTwoPositive(a: nat)
    requires IsPowerOfTwo(a)
    ensures a >= 1
  {
  }

  /** The least multiple of `a` that is at least `v`. */
  function AlignUp(v: nat, a: nat): (r: nat)
    requires IsPowerOfTwo(a)
    ensures a >= 1 && IsMultiple(r, a)
    ensures v <= r < v + a
    decreases v
  {
    PowerOfTwoPositive(a);
    if v == 0 then 0
    else if v <= a then a
    else a + AlignUp(v - a, a)
  }

  /** Two multiples of `a` less than `a` apart are equal. */
  lemma {:induction false} UniqueMultiple(x: nat, y: nat, a: nat)
    requires a >= 1 && IsMultiple(x, a) && IsMultiple(y, a)
    requires x <= y < x + a
    ensures x == y
    decreases x
  {
    if x != 0 {
      UniqueMultiple(x - a, y - a, a);
    }
  }

  /** Every multiple of `a` that is at least `v` is at least AlignUp(v, a). */
  lemma {:induction false} LeastMultiple(v: nat, m: nat, a: nat)
    requires IsPowerOfTwo(a)
    requires a >= 1 && IsMultiple(m, a) && v <= m
    ensures AlignUp(v, a) <= m
    decreases v
  {
    if v > a {
      LeastMultiple(v - a, m - a, a);
    }
  }

  /** Aligning changes nothing exactly when the value is already aligned. */
  lemma AlignUpFixesAligned(v: nat, a: nat)
    requires IsPowerOfTwo(a)
    ensures a >= 1
    ensures AlignUp(v, a) == v <==> IsMultiple(v, a)
  {
    PowerOfTwoPositive(a);
    if IsMultiple(v, a) {
      UniqueMultiple(v, AlignUp(v, a), a);
    }
  }

  /** Aligning twice is aligning once. */
  lemma AlignUpIdempotent(v: nat, a: nat)
    requires IsPowerOfTwo(a)
    ensures AlignUp(AlignUp(v, a), a) == AlignUp(v, a)
  {
    AlignUpFixesAligned(AlignUp(v, a), a);
  }

  /** Aligning preserves order. */
  lemma AlignUpMonotone(v: nat, w: nat, a: nat)
    requires IsPowerOfTwo(a)
    requires v <= w
    ensures AlignUp(v, a) <= AlignUp(w, a)
  {
    LeastMultiple(v, AlignUp(w, a), a);
  }
}

=== FILE: bitstream_buffer.dfy ===
/** The bitstream buffer: a host-visible device buffer whose size is kept a
    multiple of the size alignment, with range-checked access, copies in and
    out, and a list of stream markers (byte offsets of slices).  The device
    memory behind it is modelled as a byte sequence as long as the buffer:
    creating it zero-fills it and copies the initial data to its start;
    its copy and fill operations write or read the named range and report the
    byte count, and refuse a range outside the memory.  Creation of the
    device buffer is an input: `created` says whether the device succeeded. */
module BitstreamBuffer {
  import opened Wrappers
  import opened Alignment

  type Byte = x: int | 0 <= x < 256

  /** Result codes: success, the initialization error the buffer reports
      itself, and the error a failed device creation passes up. */
  datatype Status = Ok | InitializationFailed | DeviceFailure

  /** `data` is the device memory; `hasBuffer` says whether a device buffer
      exists. */
  datatype Buffer = Buffer(
    offsetAlignment: nat,
    sizeAlignment: nat,
    bufferSize: nat,
    bufferOffset: nat,
    hasBuffer: bool,
    data: seq<Byte>,
    streamMarkers: seq<nat>)

  /** The alignments are powers of two, the buffer starts at offset 0 of its
      memory, and the memory is exactly as long as the buffer. */
  ghost predicate Valid(b: Buffer) {
    && IsPowerOfTwo(b.offsetAlignment)
    && IsPowerOfTwo(b.sizeAlignment)
    && b.bufferOffset == 0
    && |b.data| == b.bufferSize
    && (!b.hasBuffer ==> b.bufferSize == 0)
  }

  /** The number of markers a new buffer object starts with, all zero. */
  const InitialMarkerCount: nat := 256

  /** A buffer object before its first initialization: no memory, and the
      marker list sized to InitialMarkerCount zero entries. */
  function NewBuffer(offsetAlignment: nat, sizeAlignment: nat): (b: Buffer)
    requires IsPowerOfTwo(offsetAlignment) && IsPowerOfTwo(sizeAlignment)
    ensures Valid(b) && b.bufferSize == 0 && !b.hasBuffer
    ensures |b.streamMarkers| == InitialMarkerCount && forall i :: 0 <= i < |b.streamMarkers| ==> b.streamMarkers[i] == 0
  {
    Buffer(offsetAlignment, sizeAlignment, 0, 0, false, [], seq(InitialMarkerCount, _ => 0))
  }

  /** `n` bytes of zero-cleared memory with `init` copied to its start. */
  function InitialContents(init: seq<Byte>, n: nat): (m: seq<Byte>)
    ensures |m| == n
    ensures forall i :: 0 <= i < n ==> m[i] == if i < |init| then init[i] else 0
  {
    seq(n, i requires 0 <= i < n => if i < |init| then init[i] else 0)
  }

  /** Creates a device buffer: the size is rounded up to the size alignment
      and the offset is 0.  Returns the status, the rounded size and the new
      memory. */
  function CreateBuffer(size: nat, sizeAlignment: nat, init: seq<Byte>, created: bool): (r: (Status, nat, seq<Byte>))
    requires IsPowerOfTwo(sizeAlignment)
    ensures r.1 == AlignUp(size, sizeAlignment)
    ensures r.0 == Ok <==> created
    ensures created ==> r.2 == InitialContents(init, r.1)
  {
    var rounded := AlignUp(size, sizeAlignment);
    if created then (Ok, rounded, InitialContents(init, rounded)) else (DeviceFailure, rounded, [])
  }

  /** Drops the device buffer and its memory. */
  function Deinitialize(b: Buffer): (r: Buffer)
    ensures r == b.(hasBuffer := false, data := [], bufferOffset := 0, bufferSize := 0)
  {
    b.(hasBuffer := false, data := [], bufferOffset := 0, bufferSize := 0)
  }

  /** Makes the buffer at least `size` bytes.  A buffer already that large
      is kept and zero-filled (the initial data is then not copied);
      otherwise it is recreated at the rounded size with the initial data
      at its start, or left without a buffer when the device fails. */
  function Initialize(b: Buffer, size: nat, init: seq<Byte>, created: bool): (r: (Status, Buffer))
    requires Valid(b)
    ensures Valid(r.1) && r.1.streamMarkers == b.streamMarkers
    ensures b.bufferSize >= size ==>
              r.0 == Ok && r.1 == b.(data := InitialContents([], b.bufferSize))
    ensures b.bufferSize < size && created ==>
              r.0 == Ok && r.1.hasBuffer
              && r.1.bufferSize == AlignUp(size, b.sizeAlignment)
              && r.1.data == InitialContents(init, r.1.bufferSize)
    ensures b.bufferSize < size && !created ==> r.0 == DeviceFailure && r.1 == Deinitialize(b)
  {
    if b.bufferSize >= size then
      match MemsetData(b, 0, 0, b.bufferSize)
      case Failure(_) => (InitializationFailed, b)
      case Success((written, b')) =>
        if written != b.bufferSize then (InitializationFailed, b') else (Ok, b')
    else
      var cleared := Deinitialize(b);
      var (status, rounded, memory) := CreateBuffer(size, b.sizeAlignment, init, created);
      if status != Ok then (status, cleared)
      else (Ok, cleared.(hasBuffer := true, bufferSize := rounded, data := memory))
  }

  /** Constructs and initializes a buffer; the buffer is handed out only on
      success. */
  function Create(size: nat, offsetAlignment: nat, sizeAlignment: nat, init: seq<Byte>, created: bool): (r: (Status, Option<Buffer>))
    requires IsPowerOfTwo(offsetAlignment) && IsPowerOfTwo(sizeAlignment)
    ensures r.0 == Ok <==> r.1.Some?
    ensures r.0 == Ok <==> size == 0 || created
    ensures r.1.Some? ==> && Valid(r.1.value) && |r.1.value.streamMarkers| == InitialMarkerCount
                          && r.1.value.bufferSize == AlignUp(size, sizeAlignment)
                          && r.1.value.data == InitialContents(init, r.1.value.bufferSize)
  {
    var (status, b) := Initialize(NewBuffer(offsetAlignment, sizeAlignment), size, init, created);
    if status == Ok then (Ok, Some(b)) else (status, None)
  }

  /** Grows the buffer to at least `newSize`, copying `copySize` bytes from
      `copyOffset` of the old memory to the start of the new one.  It never
      shrinks: a buffer already large enough is returned as it is.  A failed
      creation returns 0 and keeps the old buffer.  Reading the bytes to copy
      from outside the old memory fails the buffer's assertion. */
  function Resize(b: Buffer, newSize: nat, copySize: nat, copyOffset: nat, created: bool): (r: Result<(nat, Buffer)>)
    requires Valid(b)
    ensures r.Success? ==> Valid(r.value.1) && r.value.1.streamMarkers == b.streamMarkers
    ensures b.bufferSize >= newSize ==> r == Success((b.bufferSize, b))
    ensures b.bufferSize < newSize ==>
              (r.Success? <==> copySize == 0 || copyOffset + copySize <= b.bufferSize)
    ensures r.Success? && b.bufferSize < newSize && !created ==> r.value == (0, b)
    ensures r.Success? && b.bufferSize < newSize && created ==>
              && r.value.0 == r.value.1.bufferSize == AlignUp(newSize, b.sizeAlignment)
              && r.value.1.hasBuffer
              && (copySize > 0 ==> r.value.1.data[..copySize] == b.data[copyOffset..copyOffset + copySize])
              && (forall i :: copySize <= i < r.value.1.bufferSize ==> r.value.1.data[i] == 0)
  {
    if b.bufferSize >= newSize then Success((b.bufferSize, b))
    else if copySize > 0 && !(copyOffset + copySize <= b.bufferSize) then
      Failure("copy range outside the old buffer")
    else
      var init := if copySize > 0 then b.data[copyOffset..copyOffset + copySize] else [];
      var (status, rounded, memory) := CreateBuffer(newSize, b.sizeAlignment, init, created);
      if status != Ok then Success((0, b))
      else
        var b' := Deinitialize(b).(hasBuffer := true, bufferSize := rounded, data := memory);
        assert copySize > 0 ==> b'.data[..copySize] == init;
        Success((rounded, b'))
  }

  /** The position of `offset` in the memory when `size` bytes from there lie
      inside the buffer, else null. */
  function CheckAccess(b: Buffer, offset: nat, size: nat): (r: Option<nat>)
    requires Valid(b)
    ensures r.Some? <==> offset + size <= b.bufferSize
    ensures r.Some? ==> r.value == offset
  {
    if offset + size <= b.bufferSize then
      if !DeviceCheckAccess(b, b.bufferOffset, size) then None
      else Some(offset)
    else None
  }

  /** The device memory's own range check. */
  predicate DeviceCheckAccess(b: Buffer, offset: nat, size: nat) {
    offset + size <= |b.data|
  }

  /** A pointer into the buffer at `offset` with the number of bytes from
      there to the end; null when `offset` is not inside the buffer. */
  function GetDataPtr(b: Buffer, offset: nat): (r: Option<(nat, nat)>)
    requires Valid(b)
    ensures r.Some? <==> offset < b.bufferSize
    ensures r.Some? ==> r.value == (offset, b.bufferSize - offset)
  {
    match CheckAccess(b, offset, 1)
    case None => None
    case Some(p) => Some((p, b.bufferSize - offset))
  }

  /** The read-only variant reports the same. */
  function GetReadOnlyDataPtr(b: Buffer, offset: nat): (r: Option<(nat, nat)>)
    requires Valid(b)
    ensures r == GetDataPtr(b, offset)
  {
    match CheckAccess(b, offset, 1)
    case None => None
    case Some(p) => Some((p, b.bufferSize - offset))
  }

  /** `m` with `src` written over it from `at`. */
  function Overwrite(m: seq<Byte>, at: nat, src: seq<Byte>): (r: seq<Byte>)
    requires at + |src| <= |m|
    ensures |r| == |m|
    ensures r[at..at + |src|] == src
    ensures forall i :: 0 <= i < |m| && !(at <= i < at + |src|) ==> r[i] == m[i]
  {
    m[..at] + src + m[at + |src|..]
  }

  /** Copies `size` bytes of `pData` into the buffer at `dstOffset` rounded
      up to the offset alignment, and hands back that rounded offset.  A null
      source or a zero size is an initialization error and changes nothing;
      a range past the end of the buffer fails the buffer's assertion. */
  function CopyDataToBuffer(b: Buffer, pData: Option<seq<Byte>>, size: nat, dstOffset: nat): (r: Result<(Status, nat, Buffer)>)
    requires Valid(b)
    requires pData.Some? ==> size <= |pData.value|
    ensures pData.None? || size == 0 ==> r == Success((InitializationFailed, dstOffset, b))
    ensures pData.Some? && size > 0 ==>
              (r.Success? <==> AlignUp(dstOffset, b.offsetAlignment) + size <= b.bufferSize)
    ensures r.Success? && pData.Some? && size > 0 ==>
              var (status, off, b') := r.value;
              && status == Ok && off == AlignUp(dstOffset, b.offsetAlignment) && Valid(b')
              && off + size <= |b'.data| && b' == b.(data := b'.data)
              && b'.data[off..off + size] == pData.value[..size]
              && (forall i :: 0 <= i < b.bufferSize && !(off <= i < off + size) ==> b'.data[i] == b.data[i])
  {
    if pData.None? || size == 0 then Success((InitializationFailed, dstOffset, b))
    else
      var off := AlignUp(dstOffset, b.offsetAlignment);
      if !(off + size <= b.bufferSize) then Failure("copy past the end of the buffer")
      else Success((Ok, off, b.(data := Overwrite(b.data, b.bufferOffset + off, pData.value[..size]))))
  }

  /** Fills `size` bytes from `offset` with the low byte of `value` and
      returns the count; a zero size returns 0 and touches nothing. */
  function MemsetData(b: Buffer, value: nat, offset: nat, size: nat): (r: Result<(int, Buffer)>)
    requires Valid(b)
    ensures size == 0 ==> r == Success((0, b))
    ensures size > 0 ==> (r.Success? <==> offset + size <= b.bufferSize)
    ensures r.Success? ==> && r.value.0 == size && Valid(r.value.1)
                           && r.value.1 == b.(data := r.value.1.data)
                           && (forall i :: 0 <= i < |b.data| ==>
                                 r.value.1.data[i] == if offset <= i < offset + size then value % 256 else b.data[i])
  {
    if size == 0 then Success((0, b))
    else if !(b.bufferOffset + offset + size <= |b.data|) then Failure("fill outside the device memory")
    else Success((size, b.(data := Overwrite(b.data, b.bufferOffset + offset, seq(size, _ => value % 256)))))
  }

  /** Copies `size` bytes from `srcOffset` of the buffer into the host
      memory `dst` at `dstOffset`; a zero size returns 0 and touches nothing. */
  function CopyDataToHost(b: Buffer, dst: seq<Byte>, dstOffset: nat, srcOffset: nat, size: nat): (r: Result<(int, seq<Byte>)>)
    requires Valid(b)
    requires dstOffset + size <= |dst|
    ensures size == 0 ==> r == Success((0, dst))
    ensures size > 0 ==> (r.Success? <==> srcOffset + size <= b.bufferSize)
    ensures r.Success? && size > 0 ==>
              r.value.0 == size && r.value.1 == Overwrite(dst, dstOffset, b.data[srcOffset..srcOffset + size])
  {
    if size == 0 then Success((0, dst))
    else if !(b.bufferOffset + srcOffset + size <= |b.data|) then Failure("read outside the device memory")
    else Success((size, Overwrite(dst, dstOffset, b.data[b.bufferOffset + srcOffset..b.bufferOffset + srcOffset + size])))
  }

  /** Copies `size` bytes from `srcOffset` of the host memory `src` into the
      buffer at `dstOffset`; a zero size returns 0 and touches nothing. */
  function CopyDataFromHost(b: Buffer, src: seq<Byte>, srcOffset: nat, dstOffset: nat, size: nat): (r: Result<(int, Buffer)>)
    requires Valid(b)
    requires srcOffset + size <= |src|
    ensures size == 0 ==> r == Success((0, b))
    ensures size > 0 ==> (r.Success? <==> dstOffset + size <= b.bufferSize)
    ensures r.Success? && size > 0 ==>
              && r.value.0 == size && Valid(r.value.1)
              && r.value.1 == b.(data := Overwrite(b.data, dstOffset, src[srcOffset..srcOffset + size]))
  {
    if size == 0 then Success((0, b))
    else if !(b.bufferOffset + dstOffset + size <= |b.data|) then Failure("write outside the device memory")
    else Success((size, b.(data := Overwrite(b.data, b.bufferOffset + dstOffset, src[srcOffset..srcOffset + size]))))
  }

  /** Copies `size` bytes from `srcOffset` of this buffer into buffer `dst`
      at `dstOffset`: -1 when the source range is not inside this buffer; a
      zero size returns 0 and touches nothing. */
  function CopyDataToBitstream(b: Buffer, dst: Buffer, dstOffset: nat, srcOffset: nat, size: nat): (r: Result<(int, Buffer)>)
    requires Valid(b) && Valid(dst)
    ensures size == 0 ==> r == Success((0, dst))
    ensures size > 0 && srcOffset + size > b.bufferSize ==> r == Success((-1, dst))
    ensures size > 0 && srcOffset + size <= b.bufferSize ==>
              (r.Success? <==> dstOffset + size <= dst.bufferSize)
    ensures r.Success? && size > 0 && srcOffset + size <= b.bufferSize ==>
              r.value == (size, dst.(data := Overwrite(dst.data, dstOffset, b.data[srcOffset..srcOffset + size])))
  {
    if size == 0 then Success((0, dst))
    else
      match CheckAccess(b, srcOffset, size)
      case None => Success((-1, dst))
      case Some(p) => CopyDataFromHost(dst, b.data, p, b.bufferOffset + dstOffset, size)
  }

  /** Copies from buffer `source` into this one as implemented: the size
      argument doubles as the out-parameter of the pointer query,
      so the copy takes every byte from `srcOffset` to the end of the source,
      whatever size was asked for. */
  function CopyDataFromBitstreamAsWritten(b: Buffer, source: Buffer, srcOffset: nat, dstOffset: nat, size: nat): (r: Result<(int, Buffer)>)
    requires Valid(b) && Valid(source)
    ensures size > 0 && srcOffset >= source.bufferSize ==> r == Success((-1, b))
    ensures size > 0 && srcOffset < source.bufferSize ==>
              var rest := source.bufferSize - srcOffset;
              && (r.Success? <==> dstOffset + rest <= b.bufferSize)
              && (r.Success? ==> r.value == (rest, b.(data := Overwrite(b.data, dstOffset, source.data[srcOffset..]))))
  {
    if size == 0 then Success((0, b))
    else
      match GetReadOnlyDataPtr(source, srcOffset)
      case None => Success((-1, b))
      case Some((p, maxSize)) =>
        assert source.data[p..p + maxSize] == source.data[srcOffset..];
        CopyDataFromHost(b, source.data, p, b.bufferOffset + dstOffset, maxSize)
  }

  /** Copies `size` bytes from `srcOffset` of buffer `source` into this one
      at `dstOffset`: -1 when the source range is not inside the source; a
      zero size returns 0 and touches nothing. */
  function CopyDataFromBitstream(b: Buffer, source: Buffer, srcOffset: nat, dstOffset: nat, size: nat): (r: Result<(int, Buffer)>)
    requires Valid(b) && Valid(source)
    ensures size == 0 ==> r == Success((0, b))
    ensures size > 0 && srcOffset + size > source.bufferSize ==> r == Success((-1, b))
    ensures size > 0 && srcOffset + size <= source.bufferSize ==>
              (r.Success? <==> dstOffset + size <= b.bufferSize)
    ensures r.Success? && size > 0 && srcOffset + size <= source.bufferSize ==>
              r.value == (size, b.(data := Overwrite(b.data, dstOffset, source.data[srcOffset..srcOffset + size])))
  {
    if size == 0 then Success((0, b))
    else
      match GetReadOnlyDataPtr(source, srcOffset)
      case None => Success((-1, b))
      case Some((p, maxSize)) =>
        if size > maxSize then Success((-1, b))
        else CopyDataFromHost(b, source.data, p, b.bufferOffset + dstOffset, size)
  }

  /** As implemented, a 16-byte copy out of a 64-byte source into a 64-byte
      buffer moves all 64 bytes. */
  lemma CopyFromBitstreamAsWrittenCopiesTooMuch()
    ensures var source := Buffer(1, 1, 64, 0, true, seq(64, i => 7), []);
            var b := Buffer(1, 1, 64, 0, true, seq(64, i => 0), []);
            && Valid(source) && Valid(b)
            && CopyDataFromBitstreamAsWritten(b, source, 0, 0, 16) == Success((64, b.(data := seq(64, i => 7))))
            && CopyDataFromBitstream(b, source, 0, 0, 16).value.0 == 16
  {
    var source := Buffer(1, 1, 64, 0, true, seq(64, i => 7), []);
    var b := Buffer(1, 1, 64, 0, true, seq(64, i => 0), []);
    assert GetReadOnlyDataPtr(source, 0) == Some((0, 64));
    assert Overwrite(b.data, 0, source.data[0..64]) == seq(64, i => 7);
  }

  /** Copying bytes in from the host and back out returns them. */
  lemma CopyRoundTrip(b: Buffer, src: seq<Byte>, offset: nat)
    requires Valid(b)
    requires |src| > 0 && offset + |src| <= b.bufferSize
    ensures var b' := CopyDataFromHost(b, src, 0, offset, |src|).value.1;
            CopyDataToHost(b', seq(|src|, _ => 0), 0, offset, |src|) == Success((|src|, src))
  {
    var b' := CopyDataFromHost(b, src, 0, offset, |src|).value.1;
    assert src[0..|src|] == src;
    assert b'.data[offset..offset + |src|] == src;
    var back := Overwrite(seq(|src|, _ => 0), 0, src);
    assert back == back[0..|src|] == src;
  }

  // ---------------------------------------------------------------------
  // Stream markers
  // ---------------------------------------------------------------------

  const NoMarker: nat := 0xFFFF_FFFF

  /** Appends a marker and returns its index, the old count. */
  function AddStreamMarker(b: Buffer, streamOffset: nat): (r: (nat, Buffer))
    ensures r.0 == |b.streamMarkers|
    ensures r.1 == b.(streamMarkers := b.streamMarkers + [streamOffset])
  {
    (|b.streamMarkers|, b.(streamMarkers := b.streamMarkers + [streamOffset]))
  }

  /** Overwrites marker `index` and returns the index; an index past the end
      returns 0xFFFFFFFF and changes nothing. */
  function SetStreamMarker(b: Buffer, streamOffset: nat, index: nat): (r: (nat, Buffer))
    ensures index >= |b.streamMarkers| ==> r == (NoMarker, b)
    ensures index < |b.streamMarkers| ==>
              r.0 == index && r.1 == b.(streamMarkers := b.streamMarkers[index := streamOffset])
  {
    if !(index < |b.streamMarkers|) then (NoMarker, b)
    else (index, b.(streamMarkers := b.streamMarkers[index := streamOffset]))
  }

  /** The marker at `index`, which must exist. */
  function GetStreamMarker(b: Buffer, index: nat): nat
    requires index < |b.streamMarkers|
  {
    b.streamMarkers[index]
  }

  function GetStreamMarkersCount(b: Buffer): nat {
    |b.streamMarkers|
  }

  /** The marker queries see the updates: an added marker is read back at
      the index it was given and the count grows by one; a marker set at an
      existing index is read back there and every other marker is kept. */
  lemma MarkerQueriesSeeUpdates(b: Buffer, streamOffset: nat, index: nat)
    ensures var (i, b') := AddStreamMarker(b, streamOffset);
            && i < GetStreamMarkersCount(b') == GetStreamMarkersCount(b) + 1
            && GetStreamMarker(b', i) == streamOffset
            && forall j :: 0 <= j < GetStreamMarkersCount(b) ==> GetStreamMarker(b', j) == GetStreamMarker(b, j)
    ensures index < GetStreamMarkersCount(b) ==>
              var (i, b') := SetStreamMarker(b, streamOffset, index);
              && i == index && GetStreamMarkersCount(b') == GetStreamMarkersCount(b)
              && GetStreamMarker(b', index) == streamOffset
              && forall j :: 0 <= j < GetStreamMarkersCount(b) && j != index ==> GetStreamMarker(b', j) == GetStreamMarker(b, j)
  {
  }

  /** The markers from `startIndex` on, with their count computed in 32-bit
      unsigned arithmetic (so a start past the end wraps the count). */
  function GetStreamMarkersPtr(b: Buffer, startIndex: nat): (r: (nat, seq<nat>))
    ensures startIndex <= |b.streamMarkers| < 0x1_0000_0000 ==>
              r.0 == |b.streamMarkers| - startIndex && r.1 == b.streamMarkers[startIndex..]
    ensures startIndex > |b.streamMarkers| && startIndex - |b.streamMarkers| < 0x1_0000_0000 ==>
              r.0 == 0x1_0000_0000 - (startIndex - |b.streamMarkers|) && r.1 == []
  {
    var maxCount := (|b.streamMarkers| - startIndex) % 0x1_0000_0000;
    (maxCount, if startIndex <= |b.streamMarkers| then b.streamMarkers[startIndex..] else [])
  }

  /** Empties the marker list and returns the old count. */
  function ResetStreamMarkers(b: Buffer): (r: (nat, Buffer))
    ensures r.0 == |b.streamMarkers| && r.1 == b.(streamMarkers := [])
  {
    (|b.streamMarkers|, b.(streamMarkers := []))
  }
}

=== FILE: dpb_entry.dfy ===
/** One reference of the parser's DPB as the reference-list builders keep it,
    and the per-reference slot records they hand to the driver: the H.264
    and H.265 DPB slot infos and their standard reference infos. */
module DpbEntry {
  import opened Wrappers
  import opened DpbSlots

  /** Bits of used_for_reference: bit 0 the top field, bit 1 the bottom field. */
  const TopFieldMask: nat := 1
  const BottomFieldMask: nat := 2
  const FieldIsReferenceMask: nat := 3

  /** The value a C++ cast to a signed 16-bit integer produces. */
  function Int16(x: int): (r: int)
    ensures -0x8000 <= r < 0x8000
    ensures (r - x) % 0x1_0000 == 0
    ensures -0x8000 <= x < 0x8000 ==> r == x
  {
    (x + 0x8000) % 0x1_0000 - 0x8000
  }

  /** The value a C++ conversion to an unsigned 16-bit integer produces. */
  function Uint16(x: int): (r: int)
    ensures 0 <= r < 0x1_0000
    ensures (r - x) % 0x1_0000 == 0
    ensures 0 <= x < 0x1_0000 ==> r == x
  {
    x % 0x1_0000
  }

  predicate TopFieldIsRef(used: nat) {
    used % 2 == 1
  }

  predicate BottomFieldIsRef(used: nat) {
    (used / 2) % 2 == 1
  }

  /** An H.264 reference as the builder keeps it (the dpbH264Entry record,
      H.264 view of its unions). */
  datatype H264Entry = H264Entry(
    dpbSlot: int,
    usedForReference: nat,
    isLongTerm: bool,
    isNonExisting: bool,
    isFieldRef: bool,
    fieldOrderCnt0: int,
    fieldOrderCnt1: int,
    frameIdx: int,
    picBuf: Option<PicBuf>)
  {
    predicate IsRef() {
      usedForReference != 0
    }
  }

  /** Packs one parser reference: a field reference keeps exactly the fields
      named, a frame reference uses both, and a non-reference neither.  The
      order counts follow the referenced fields, and no slot is chosen yet. */
  function SetReferenceAndTopBottomField(
    isReference: bool, nonExisting: bool, isLongTerm: bool, isFieldRef: bool,
    topFieldIsReference: bool, bottomFieldIsReference: bool,
    frameIdx: int, fieldOrderCntList: (int, int), picBuf: Option<PicBuf>): (r: H264Entry)
    ensures r.usedForReference <= FieldIsReferenceMask
    ensures TopFieldIsRef(r.usedForReference) <==> isReference && (topFieldIsReference || !isFieldRef)
    ensures BottomFieldIsRef(r.usedForReference) <==> isReference && (bottomFieldIsReference || !isFieldRef)
    ensures r.fieldOrderCnt0 == if r.usedForReference == BottomFieldMask then fieldOrderCntList.1 else fieldOrderCntList.0
    ensures r.fieldOrderCnt1 == if r.usedForReference == TopFieldMask then fieldOrderCntList.0 else fieldOrderCntList.1
    ensures r.dpbSlot == -1 && r.picBuf == picBuf && r.frameIdx == frameIdx
    ensures r.isNonExisting == nonExisting && r.isLongTerm == isLongTerm && r.isFieldRef == isFieldRef
  {
    var used: nat :=
      if isReference && isFieldRef then
        (if bottomFieldIsReference then BottomFieldMask else 0) + (if topFieldIsReference then TopFieldMask else 0)
      else if isReference then FieldIsReferenceMask else 0;
    H264Entry(
      -1, used, isLongTerm, nonExisting, isFieldRef,
      if used == 2 then fieldOrderCntList.1 else fieldOrderCntList.0,
      if used != 1 then fieldOrderCntList.1 else fieldOrderCntList.0,
      frameIdx, picBuf)
  }

  /** The flags of StdVideoDecodeH264ReferenceInfo. */
  datatype H264RefFlags = H264RefFlags(
    topFieldFlag: bool, bottomFieldFlag: bool, usedForLongTermReference: bool, isNonExisting: bool)

  /** The field flags are set only for an interlaced current picture, and
      then exactly for the fields that are references. */
  function GetPictureFlag(e: H264Entry, currentPictureIsProgressive: bool): (r: H264RefFlags)
    ensures r.topFieldFlag <==> !currentPictureIsProgressive && TopFieldIsRef(e.usedForReference)
    ensures r.bottomFieldFlag <==> !currentPictureIsProgressive && BottomFieldIsRef(e.usedForReference)
    ensures r.usedForLongTermReference == e.isLongTerm && r.isNonExisting == e.isNonExisting
  {
    H264RefFlags(
      !currentPictureIsProgressive && TopFieldIsRef(e.usedForReference),
      !currentPictureIsProgressive && BottomFieldIsRef(e.usedForReference),
      e.isLongTerm, e.isNonExisting)
  }

  /** StdVideoDecodeH264ReferenceInfo: FrameNum is 16 bits unsigned. */
  datatype H264ReferenceInfo = H264ReferenceInfo(frameNum: int, flags: H264RefFlags, picOrderCnt0: int, picOrderCnt1: int)

  /** The H.264 DPB slot info; it is a reference once its standard reference
      info has been linked by `Init`. */
  datatype H264DpbSlotInfo = H264DpbSlotInfo(linked: bool, stdReferenceInfo: H264ReferenceInfo)
  {
    predicate IsReference() {
      linked
    }
  }

  const ZeroH264RefFlags := H264RefFlags(false, false, false, false)

  /** The slot info after `Invalidate` (all bytes zero), as the caller's
      zero-initialised array holds it. */
  const InvalidH264SlotInfo := H264DpbSlotInfo(false, H264ReferenceInfo(0, ZeroH264RefFlags, 0, 0))

  function InitH264SlotInfo(info: H264DpbSlotInfo, slotIndex: int): (r: H264DpbSlotInfo)
    requires 0 <= slotIndex < MaxDpbRefAndSetupSlots
    ensures r.IsReference() && r.stdReferenceInfo == info.stdReferenceInfo
  {
    info.(linked := true)
  }

  /** A reference slot descriptor: the slot index and the reference info. */
  datatype H264RefSlot = H264RefSlot(slotIndex: int, slotInfo: H264DpbSlotInfo)

  /** Fills the descriptor of one H.264 reference at slot `dpbSlotIndex`.  The
      slot must be the one the entry was mapped to, unless the entry is a
      non-existing frame; a violated assertion of the decoder is the failure. */
  function SetH264PictureData(e: H264Entry, dpbEntryIdx: nat, dpbSlotIndex: int, currentPictureIsProgressive: bool)
    : (r: Result<H264RefSlot>)
    ensures r.Success? <==>
              dpbEntryIdx < MaxDpbRefAndSetupSlots && 0 <= dpbSlotIndex < MaxDpbRefAndSetupSlots
              && (dpbSlotIndex == e.dpbSlot || e.isNonExisting)
    ensures r.Success? ==>
              && r.value.slotIndex == dpbSlotIndex
              && r.value.slotInfo.IsReference()
              && r.value.slotInfo.stdReferenceInfo.frameNum == Uint16(e.frameIdx)
              && r.value.slotInfo.stdReferenceInfo.picOrderCnt0 == e.fieldOrderCnt0
              && r.value.slotInfo.stdReferenceInfo.picOrderCnt1 == e.fieldOrderCnt1
              && r.value.slotInfo.stdReferenceInfo.flags == GetPictureFlag(e, currentPictureIsProgressive)
  {
    if dpbEntryIdx >= MaxDpbRefAndSetupSlots || !(0 <= dpbSlotIndex < MaxDpbRefAndSetupSlots) then
      Failure("setH264PictureData: entry or slot index out of range")
    else if dpbSlotIndex != e.dpbSlot && !e.isNonExisting then
      Failure("setH264PictureData: slot differs from the mapped slot")
    else
      var info := H264ReferenceInfo(Uint16(e.frameIdx), GetPictureFlag(e, currentPictureIsProgressive),
                                    e.fieldOrderCnt0, e.fieldOrderCnt1);
      Success(H264RefSlot(dpbSlotIndex, InitH264SlotInfo(InvalidH264SlotInfo.(stdReferenceInfo := info), dpbSlotIndex)))
  }

  /** An H.265 reference (the dpbH264Entry record, H.265 view of its unions). */
  datatype H265Entry = H265Entry(
    dpbSlot: int,
    usedForReference: nat,
    isLongTerm: bool,
    isNonExisting: bool,
    isFieldRef: bool,
    picOrderCnt: int,
    originalDpbIndex: int,
    picBuf: Option<PicBuf>)
  {
    predicate IsRef() {
      usedForReference != 0
    }
  }

  /** Packs one H.265 reference: it is a frame reference exactly when there
      is a picture buffer, and non-existing exactly when there is none. */
  function SetReference(isLongTerm: bool, picOrderCnt: int, picBuf: Option<PicBuf>): (r: H265Entry)
    ensures r.isNonExisting <==> picBuf.None?
    ensures r.IsRef() <==> picBuf.Some?
    ensures r.IsRef() ==> TopFieldIsRef(r.usedForReference) && BottomFieldIsRef(r.usedForReference)
    ensures !r.isFieldRef && r.isLongTerm == isLongTerm && r.picOrderCnt == picOrderCnt
    ensures r.dpbSlot == -1 && r.originalDpbIndex == -1 && r.picBuf == picBuf
  {
    H265Entry(-1, if picBuf.Some? then FieldIsReferenceMask else 0, isLongTerm, picBuf.None?, false,
              picOrderCnt, -1, picBuf)
  }

  /** StdVideoDecodeH265ReferenceInfo. */
  datatype H265ReferenceInfo = H265ReferenceInfo(picOrderCntVal: int, usedForLongTermReference: bool)

  datatype H265DpbSlotInfo = H265DpbSlotInfo(linked: bool, stdReferenceInfo: H265ReferenceInfo)
  {
    predicate IsReference() {
      linked
    }
  }

  const InvalidH265SlotInfo := H265DpbSlotInfo(false, H265ReferenceInfo(0, false))

  function InitH265SlotInfo(info: H265DpbSlotInfo, slotIndex: int): (r: H265DpbSlotInfo)
    requires 0 <= slotIndex < MaxDpbRefSlots
    ensures r.IsReference() && r.stdReferenceInfo == info.stdReferenceInfo
  {
    info.(linked := true)
  }

  datatype H265RefSlot = H265RefSlot(slotIndex: int, slotInfo: H265DpbSlotInfo)

  /** Fills the descriptor of one H.265 reference at slot `dpbSlotIndex`; the
      entry must be a reference and the slot the one it was mapped to. */
  function SetH265PictureData(e: H265Entry, dpbEntryIdx: nat, dpbSlotIndex: int): (r: Result<H265RefSlot>)
    ensures r.Success? <==>
              dpbEntryIdx < MaxDpbRefSlots && 0 <= dpbSlotIndex < MaxDpbRefSlots && e.IsRef()
              && (dpbSlotIndex == e.dpbSlot || e.isNonExisting)
    ensures r.Success? ==>
              && r.value.slotIndex == dpbSlotIndex
              && r.value.slotInfo.IsReference()
              && r.value.slotInfo.stdReferenceInfo == H265ReferenceInfo(e.picOrderCnt, e.isLongTerm)
  {
    if dpbEntryIdx >= MaxDpbRefSlots || !(0 <= dpbSlotIndex < MaxDpbRefSlots) then
      Failure("setH265PictureData: entry or slot index out of range")
    else if !e.IsRef() then
      Failure("setH265PictureData: entry is not a reference")
    else if dpbSlotIndex != e.dpbSlot && !e.isNonExisting then
      Failure("setH265PictureData: slot differs from the mapped slot")
    else
      var info := H265ReferenceInfo(e.picOrderCnt, e.isLongTerm);
      Success(H265RefSlot(dpbSlotIndex, InitH265SlotInfo(InvalidH265SlotInfo.(stdReferenceInfo := info), dpbSlotIndex)))
  }

  /** A frame reference keeps both order counts; a top-field-only reference
      uses the top count twice and a bottom-field-only one the bottom count
      twice. */
  lemma FieldOrderCntFollowsReferencedFields(
    isLongTerm: bool, nonExisting: bool, top: bool, bottom: bool, frameIdx: int, focs: (int, int), pic: Option<PicBuf>)
    ensures var frame := SetReferenceAndTopBottomField(true, nonExisting, isLongTerm, false, top, bottom, frameIdx, focs, pic);
            frame.usedForReference == 3 && frame.fieldOrderCnt0 == focs.0 && frame.fieldOrderCnt1 == focs.1
    ensures var topOnly := SetReferenceAndTopBottomField(true, nonExisting, isLongTerm, true, true, false, frameIdx, focs, pic);
            topOnly.usedForReference == 1 && topOnly.fieldOrderCnt0 == focs.0 && topOnly.fieldOrderCnt1 == focs.0
    ensures var bottomOnly := SetReferenceAndTopBottomField(true, nonExisting, isLongTerm, true, false, true, frameIdx, focs, pic);
            bottomOnly.usedForReference == 2 && bottomOnly.fieldOrderCnt0 == focs.1 && bottomOnly.fieldOrderCnt1 == focs.1
    ensures var none := SetReferenceAndTopBottomField(false, nonExisting, isLongTerm, top && bottom, top, bottom, frameIdx, focs, pic);
            !none.IsRef()
  {
  }

  /** `Init` makes a slot info a reference and `Invalidate` undoes it. */
  lemma InitThenInvalidate(slotIndex: int)
    requires 0 <= slotIndex < MaxDpbRefSlots
    ensures InitH264SlotInfo(InvalidH264SlotInfo, slotIndex).IsReference() && !InvalidH264SlotInfo.IsReference()
    ensures InitH265SlotInfo(InvalidH265SlotInfo, slotIndex).IsReference() && !InvalidH265SlotInfo.IsReference()
  {
  }
}

=== FILE: dpb_slots.dfy ===
/** The decoded-picture-buffer slot allocator: a fixed number of hardware
    reference slots, a FIFO queue of the free ones and a bitmask of the ones
    in use.  Pictures are identified by their pool index, so two pictures are
    the same pointer exactly when they are equal values. */
module DpbSlots {
  import opened Wrappers

  /** Reference slots without, and with, the setup slot of the current picture. */
  const MaxDpbRefSlots: nat := 16
  const MaxDpbRefAndSetupSlots: nat := 17

  /** A decoded-picture buffer of the frame pool, known by its index there. */
  datatype PicBuf = PicBuf(picIdx: int)

  /** One reference slot: the picture bound to it, the decode order ("age") at
      which it was bound, and whether it is reserved or holds a reference. */
  datatype DpbSlot = DpbSlot(pictureId: int, picBuf: Option<PicBuf>, reserved: bool, inUse: bool)
  {
    predicate IsInUse() {
      reserved || inUse
    }

    predicate IsAvailable() {
      !IsInUse()
    }

    /** The references the slot holds on picture `p`: one while `p` is bound
        to it. */
    function RefsOn(p: int): nat {
      if picBuf == Some(PicBuf(p)) then 1 else 0
    }

    /** Drops the picture (releasing the slot's reference on it) and both
        flags; reports whether the slot was in use. */
    function Invalidate(): (r: (bool, DpbSlot))
      ensures r.0 <==> IsInUse()
      ensures r.1.IsAvailable() && r.1.picBuf == None
      ensures r.1.pictureId == pictureId
      ensures forall p :: r.1.RefsOn(p) == 0
    {
      (IsInUse(), this.(picBuf := None, reserved := false, inUse := false))
    }

    /** Binds `pic` at decode order `age`, taking a reference on it and
        releasing the one on the picture it replaces, which it returns. */
    function SetPictureResource(pic: Option<PicBuf>, age: int): (r: (Option<PicBuf>, DpbSlot))
      ensures r.0 == picBuf
      ensures r.1.picBuf == pic && r.1.pictureId == age
      ensures r.1.IsInUse() <==> IsInUse()
      ensures forall p :: r.1.RefsOn(p) + (if picBuf == Some(PicBuf(p)) then 1 else 0)
                            == RefsOn(p) + (if pic == Some(PicBuf(p)) then 1 else 0)
    {
      (picBuf, this.(picBuf := pic, pictureId := age))
    }

    function Reserve(): (r: DpbSlot)
      ensures r.IsInUse() && r.picBuf == picBuf && r.pictureId == pictureId
    {
      this.(reserved := true)
    }

    function MarkInUse(age: int): (r: DpbSlot)
      ensures r.IsInUse() && r.picBuf == picBuf && r.pictureId == age
    {
      this.(pictureId := age, inUse := true)
    }
  }

  /** A slot as a freshly grown vector holds it: zero-initialised. */
  const EmptySlot := DpbSlot(0, None, false, false)

  /** The allocator.  `available` is the FIFO of free slot indices and
      `slotInUseMask` the set bits of the in-use mask. */
  datatype DpbSlots = DpbSlots(maxSize: nat, slotInUseMask: set<nat>, dpb: seq<DpbSlot>, available: seq<nat>)
  {
    /** The queue and the mask partition 0..maxSize-1, the queue has no
        duplicate, and a slot is masked exactly when it is reserved or in use. */
    ghost predicate Valid() {
      && maxSize <= MaxDpbRefAndSetupSlots
      && |dpb| == maxSize
      && (forall i :: 0 <= i < |available| ==> available[i] < maxSize)
      && (forall i, j :: 0 <= i < j < |available| ==> available[i] != available[j])
      && (forall s :: s in slotInUseMask ==> s < maxSize)
      && (forall s :: 0 <= s < maxSize ==> (s in slotInUseMask <==> s !in available))
      && (forall s :: 0 <= s < maxSize ==> (s in slotInUseMask <==> dpb[s].IsInUse()))
    }

    /** Invalidates every slot and empties the queue and the mask.  The slot
        vector is dropped rather than kept invalidated, so a later sizing
        restarts every slot at age 0; the decoder never reads a slot's age. */
    function Deinit(): (r: DpbSlots)
      ensures r.Valid()
      ensures r.maxSize == 0 && r.slotInUseMask == {} && r.available == []
    {
      DpbSlots(0, {}, [], [])
    }

    /** Sizes the allocator for `n` slots.  Without `reconfigure` every slot is
        reset and all are free in index order; with it, a smaller `n` changes
        nothing, and a larger one keeps the existing slots and queues only the
        new indices. */
    function Init(n: nat, reconfigure: bool): (r: (int, DpbSlots))
      requires Valid()
      requires n <= MaxDpbRefAndSetupSlots
      ensures r.1.Valid()
      ensures r.0 == r.1.maxSize
      ensures !reconfigure ==>
                && r.1.maxSize == n && r.1.slotInUseMask == {} && r.1.available == Range(0, n)
                && forall s :: 0 <= s < n ==> r.1.dpb[s].picBuf == None
      ensures reconfigure && n < maxSize ==> r.1 == this
      ensures reconfigure && n >= maxSize ==>
                && r.1.maxSize == n
                && r.1.slotInUseMask == slotInUseMask
                && r.1.available == available + Range(maxSize, n)
                && r.1.dpb[..maxSize] == dpb
    {
      if !reconfigure then (n, Cleared(n))
      else if n < maxSize then (maxSize, this)
      else (n, Grown(n))
    }

    /** `n` slots, all reset and free in index order. */
    function Cleared(n: nat): (r: DpbSlots)
      requires n <= MaxDpbRefAndSetupSlots
      ensures r.Valid()
      ensures r.maxSize == n && r.slotInUseMask == {} && r.available == Range(0, n)
      ensures forall s :: 0 <= s < n ==> r.dpb[s].picBuf == None
    {
      var cleared := seq(n, i requires 0 <= i < n => if i < |dpb| then dpb[i].Invalidate().1 else EmptySlot);
      var r := DpbSlots(n, {}, cleared, Range(0, n));
      assert r.Valid() by {
        forall s | 0 <= s < n
          ensures s in r.available
        {
          assert r.available[s] == s;
        }
      }
      r
    }

    /** The allocator widened to `n` slots: the existing slots are kept and
        only the new indices are queued. */
    function Grown(n: nat): (r: DpbSlots)
      requires Valid()
      requires maxSize <= n <= MaxDpbRefAndSetupSlots
      ensures r.Valid()
      ensures r.maxSize == n
      ensures r.slotInUseMask == slotInUseMask
      ensures r.available == available + Range(maxSize, n)
      ensures r.dpb[..maxSize] == dpb
    {
      var grown := dpb + seq(n - maxSize, _ => EmptySlot);
      var r := DpbSlots(n, slotInUseMask, grown, available + Range(maxSize, n));
      AppendRangeDistinct(available, maxSize, n);
      assert r.Valid() by {
        forall s | 0 <= s < n
          ensures s in slotInUseMask <==> s !in r.available
        {
          if s >= maxSize {
            assert r.available[|available| + s - maxSize] == s;
          }
        }
      }
      r
    }

    /** Takes the slot at the front of the free queue, masks it and reserves
        it; -1 and no change when the queue is empty. */
    function AllocateSlot(): (r: (int, DpbSlots))
      requires Valid()
      ensures r.1.Valid() && r.1.maxSize == maxSize
      ensures available == [] ==> r.0 == -1 && r.1 == this
      ensures available != [] ==>
                && r.0 == available[0]
                && r.0 !in slotInUseMask
                && r.1.slotInUseMask == slotInUseMask + {available[0]}
                && r.1.available == available[1..]
                && r.1.dpb[r.0] == dpb[r.0].Reserve()
      ensures forall s :: 0 <= s < maxSize && s != r.0 ==> r.1.dpb[s] == dpb[s]
    {
      if available == [] then
        (-1, this)
      else
        var slot: nat := available[0];
        (slot as int, this.(slotInUseMask := slotInUseMask + {slot},
                     available := available[1..],
                     dpb := dpb[slot := dpb[slot].Reserve()]))
    }

    /** Invalidates a masked slot, queues it at the back and unmasks it. */
    function FreeSlot(slot: nat): (r: DpbSlots)
      requires Valid()
      requires slot < maxSize && slot in slotInUseMask
      ensures r.Valid() && r.maxSize == maxSize
      ensures r.slotInUseMask == slotInUseMask - {slot}
      ensures r.available == available + [slot]
      ensures r.dpb[slot].IsAvailable() && r.dpb[slot].picBuf == None
      ensures forall s :: 0 <= s < maxSize && s != slot ==> r.dpb[s] == dpb[s]
    {
      DpbSlots(maxSize, slotInUseMask - {slot}, dpb[slot := dpb[slot].Invalidate().1], available + [slot])
    }

    /** Marks a slot as holding a reference at decode order `age`. The
        allocator stays consistent exactly when the slot was already masked. */
    function MarkInUse(slot: nat, age: int): (r: DpbSlots)
      requires Valid() && slot < maxSize
      ensures r.maxSize == maxSize && |r.dpb| == maxSize
      ensures r.Valid() <==> slot in slotInUseMask
      ensures r.dpb[slot].inUse && r.dpb[slot].pictureId == age && r.dpb[slot].picBuf == dpb[slot].picBuf
      ensures r.slotInUseMask == slotInUseMask && r.available == available
      ensures forall s :: 0 <= s < maxSize && s != slot ==> r.dpb[s] == dpb[s]
    {
      this.(dpb := dpb[slot := dpb[slot].MarkInUse(age)])
    }

    /** Binds a picture to a slot; returns the picture previously bound there. */
    function SetPictureResource(slot: nat, pic: Option<PicBuf>, age: int): (r: (Option<PicBuf>, DpbSlots))
      requires Valid() && slot < maxSize
      ensures r.1.Valid() && r.1.maxSize == maxSize
      ensures r.0 == dpb[slot].picBuf
      ensures r.1.dpb[slot].picBuf == pic && r.1.dpb[slot].pictureId == age
      ensures r.1.slotInUseMask == slotInUseMask && r.1.available == available
      ensures forall s :: 0 <= s < maxSize && s != slot ==> r.1.dpb[s] == dpb[s]
    {
      var (prior, updated) := dpb[slot].SetPictureResource(pic, age);
      (prior, this.(dpb := dpb[slot := updated]))
    }

    /** Slot `s` is masked, in use and bound to `pic`. */
    predicate Holds(s: nat, pic: Option<PicBuf>)
      requires s < |dpb|
    {
      s in slotInUseMask && dpb[s].IsInUse() && dpb[s].picBuf == pic
    }
  }

  /** The lowest masked, in-use slot bound to `pic` (which may be null), or -1. */
  method GetSlotOfPictureResource(d: DpbSlots, pic: Option<PicBuf>) returns (slot: int)
    requires d.Valid()
    ensures -1 <= slot < d.maxSize as int
    ensures slot == -1 <==> forall s :: 0 <= s < d.maxSize ==> !d.Holds(s, pic)
    ensures slot >= 0 ==> d.Holds(slot, pic) && forall s :: 0 <= s < slot ==> !d.Holds(s, pic)
  {
    var i: nat := 0;
    while i < d.maxSize
      invariant i <= d.maxSize
      invariant forall s :: 0 <= s < i ==> !d.Holds(s, pic)
    {
      if i in d.slotInUseMask && d.dpb[i].IsInUse() && d.dpb[i].picBuf == pic {
        assert d.Holds(i, pic);
        return i;
      }
      i := i + 1;
    }
    return -1;
  }

  /** Slot `s`, other than `dpbSlot`, is bound to the non-null `pic`. */
  predicate OtherHolder(d: DpbSlots, pic: Option<PicBuf>, dpbSlot: nat, s: nat)
  {
    s < |d.dpb| && s != dpbSlot && pic.Some? && d.dpb[s].picBuf == pic
  }

  /** Binds `pic` to `dpbSlot` and frees every other slot that holds it.
      Freeing a slot that is bound to `pic` but not in use violates the
      allocator's own assertion, which here is the failure. */
  method MapPictureResource(d: DpbSlots, pic: Option<PicBuf>, dpbSlot: nat, age: int) returns (r: Result<DpbSlots>)
    requires d.Valid()
    ensures r.Failure? <==> exists s :: 0 <= s < d.maxSize && OtherHolder(d, pic, dpbSlot, s) && s !in d.slotInUseMask
    ensures r.Success? ==>
              && r.value.Valid() && r.value.maxSize == d.maxSize
              && (forall s :: 0 <= s < d.maxSize ==>
                    (s in r.value.slotInUseMask <==> s in d.slotInUseMask && !OtherHolder(d, pic, dpbSlot, s)))
              && (dpbSlot < d.maxSize ==> r.value.dpb[dpbSlot].picBuf == pic && r.value.dpb[dpbSlot].pictureId == age)
              && (forall s :: 0 <= s < d.maxSize && OtherHolder(d, pic, dpbSlot, s) ==>
                    r.value.dpb[s].IsAvailable() && r.value.dpb[s].picBuf == None && s in r.value.available)
              && (forall s :: 0 <= s < d.maxSize && s != dpbSlot && !OtherHolder(d, pic, dpbSlot, s) ==>
                    r.value.dpb[s] == d.dpb[s])
  {
    var cur := d;
    var i: nat := 0;
    while i < d.maxSize
      invariant MappedUpTo(d, pic, dpbSlot, age, cur, i)
    {
      MapSlotStep(d, pic, dpbSlot, age, cur, i);
      var step := MapSlot(cur, pic, dpbSlot, age, i);
      if step.Failure? {
        return Failure(step.error);
      }
      cur := step.value;
      i := i + 1;
    }
    MappedDone(d, pic, dpbSlot, age, cur);
    return Success(cur);
  }

  /** One iteration of MapPictureResource at slot `i`. */
  function MapSlot(cur: DpbSlots, pic: Option<PicBuf>, dpbSlot: nat, age: int, i: nat): (r: Result<DpbSlots>)
    requires cur.Valid() && i < cur.maxSize
    ensures r.Success? ==> r.value.Valid() && r.value.maxSize == cur.maxSize
  {
    if i == dpbSlot then Success(cur.SetPictureResource(i, pic, age).1)
    else if pic.Some? && cur.dpb[i].picBuf == pic then
      if i !in cur.slotInUseMask then Failure("FreeSlot: slot bound to the picture is not in use")
      else Success(cur.FreeSlot(i))
    else Success(cur)
  }

  /** The state of MapPictureResource after the slots below `i`. */
  ghost predicate MappedUpTo(d: DpbSlots, pic: Option<PicBuf>, dpbSlot: nat, age: int, cur: DpbSlots, i: nat) {
    && d.Valid() && i <= d.maxSize
    && cur.Valid() && cur.maxSize == d.maxSize
    && (forall s :: i <= s < d.maxSize ==> cur.dpb[s] == d.dpb[s])
    && (forall s :: 0 <= s < d.maxSize ==>
          (s in cur.slotInUseMask <==> s in d.slotInUseMask && !(s < i && OtherHolder(d, pic, dpbSlot, s))))
    && (forall s :: 0 <= s < i && OtherHolder(d, pic, dpbSlot, s) ==>
          s in d.slotInUseMask && cur.dpb[s].IsAvailable() && cur.dpb[s].picBuf == None && s in cur.available)
    && (dpbSlot < i ==> cur.dpb[dpbSlot].picBuf == pic && cur.dpb[dpbSlot].pictureId == age)
    && (forall s :: 0 <= s < i && s != dpbSlot && !OtherHolder(d, pic, dpbSlot, s) ==> cur.dpb[s] == d.dpb[s])
  }

  /** Slot `i` fails exactly when it holds `pic` unmasked, and otherwise
      extends the state by one slot. */
  lemma MapSlotStep(d: DpbSlots, pic: Option<PicBuf>, dpbSlot: nat, age: int, cur: DpbSlots, i: nat)
    requires MappedUpTo(d, pic, dpbSlot, age, cur, i) && i < d.maxSize
    ensures MapSlot(cur, pic, dpbSlot, age, i).Failure? <==> OtherHolder(d, pic, dpbSlot, i) && i !in d.slotInUseMask
    ensures MapSlot(cur, pic, dpbSlot, age, i).Success? ==>
              MappedUpTo(d, pic, dpbSlot, age, MapSlot(cur, pic, dpbSlot, age, i).value, i + 1)
  {
    if i == dpbSlot {
      MapSlotBinds(d, pic, dpbSlot, age, cur, i);
    } else if pic.Some? && cur.dpb[i].picBuf == pic {
      assert OtherHolder(d, pic, dpbSlot, i);
      if i in cur.slotInUseMask {
        MapSlotFrees(d, pic, dpbSlot, age, cur, i);
      }
    } else {
      assert !OtherHolder(d, pic, dpbSlot, i);
    }
  }

  lemma MapSlotBinds(d: DpbSlots, pic: Option<PicBuf>, dpbSlot: nat, age: int, cur: DpbSlots, i: nat)
    requires MappedUpTo(d, pic, dpbSlot, age, cur, i) && i < d.maxSize && i == dpbSlot
    ensures MappedUpTo(d, pic, dpbSlot, age, cur.SetPictureResource(i, pic, age).1, i + 1)
  {
  }

  lemma MapSlotFrees(d: DpbSlots, pic: Option<PicBuf>, dpbSlot: nat, age: int, cur: DpbSlots, i: nat)
    requires MappedUpTo(d, pic, dpbSlot, age, cur, i) && i < d.maxSize
    requires OtherHolder(d, pic, dpbSlot, i) && i in cur.slotInUseMask
    ensures MappedUpTo(d, pic, dpbSlot, age, cur.FreeSlot(i), i + 1)
  {
  }

  /** After every slot, the state is the one MapPictureResource promises. */
  lemma MappedDone(d: DpbSlots, pic: Option<PicBuf>, dpbSlot: nat, age: int, cur: DpbSlots)
    requires MappedUpTo(d, pic, dpbSlot, age, cur, d.maxSize)
    ensures !exists s :: 0 <= s < d.maxSize && OtherHolder(d, pic, dpbSlot, s) && s !in d.slotInUseMask
    ensures && cur.Valid() && cur.maxSize == d.maxSize
            && (forall s :: 0 <= s < d.maxSize ==>
                  (s in cur.slotInUseMask <==> s in d.slotInUseMask && !OtherHolder(d, pic, dpbSlot, s)))
            && (dpbSlot < d.maxSize ==> cur.dpb[dpbSlot].picBuf == pic && cur.dpb[dpbSlot].pictureId == age)
            && (forall s :: 0 <= s < d.maxSize && OtherHolder(d, pic, dpbSlot, s) ==>
                  cur.dpb[s].IsAvailable() && cur.dpb[s].picBuf == None && s in cur.available)
            && (forall s :: 0 <= s < d.maxSize && s != dpbSlot && !OtherHolder(d, pic, dpbSlot, s) ==>
                  cur.dpb[s] == d.dpb[s])
  {
  }

  /** Queueing the indices `lo..hi` behind distinct indices below `lo`
      keeps the queue distinct and below `hi`. */
  lemma AppendRangeDistinct(q: seq<nat>, lo: nat, hi: nat)
    requires lo <= hi
    requires forall i :: 0 <= i < |q| ==> q[i] < lo
    requires forall i, j :: 0 <= i < j < |q| ==> q[i] != q[j]
    ensures forall i :: 0 <= i < |q + Range(lo, hi)| ==> (q + Range(lo, hi))[i] < hi
    ensures forall i, j :: 0 <= i < j < |q + Range(lo, hi)| ==> (q + Range(lo, hi))[i] != (q + Range(lo, hi))[j]
  {
    var r := q + Range(lo, hi);
    forall i, j | 0 <= i < j < |r| ensures r[i] != r[j] {
      if j >= |q| {
        assert r[j] == lo + (j - |q|);
        if i >= |q| {
          assert r[i] == lo + (i - |q|);
        }
      }
    }
  }

  /** An allocation followed by freeing the same slot restores the mask and
      rotates the free queue by one. */
  lemma AllocateThenFree(d: DpbSlots)
    requires d.Valid() && d.available != []
    ensures var (slot, a) := d.AllocateSlot();
            && 0 <= slot < a.maxSize && slot in a.slotInUseMask
            && a.FreeSlot(slot).slotInUseMask == d.slotInUseMask
            && a.FreeSlot(slot).available == d.available[1..] + [d.available[0]]
  {
  }

  /** The free queue is empty exactly when every slot is masked. */
  lemma AllocateFailsIffFull(d: DpbSlots)
    requires d.Valid()
    ensures d.AllocateSlot().0 == -1 <==> forall s :: 0 <= s < d.maxSize ==> s in d.slotInUseMask
  {
    if d.available != [] {
      var s := d.available[0];
      assert s < d.maxSize && s !in d.slotInUseMask;
    }
  }

  /** `k` successive allocations: the slots handed out and the final state. */
  function AllocateMany(d: DpbSlots, k: nat): (r: (seq<int>, DpbSlots))
    requires d.Valid()
    ensures |r.0| == k && r.1.Valid() && r.1.maxSize == d.maxSize
    decreases k
  {
    if k == 0 then ([], d)
    else
      var (slot, next) := d.AllocateSlot();
      var (rest, last) := AllocateMany(next, k - 1);
      ([slot] + rest, last)
  }

  /** Successive allocations hand out the free queue in FIFO order. */
  lemma {:induction false} AllocateManyIsFifo(d: DpbSlots, k: nat)
    requires d.Valid() && k <= |d.available|
    ensures var (slots, e) := AllocateMany(d, k);
            && (forall i :: 0 <= i < k ==> slots[i] == d.available[i] as int)
            && e.available == d.available[k..]
    decreases k
  {
    if k > 0 {
      var (slot, next) := d.AllocateSlot();
      AllocateManyIsFifo(next, k - 1);
      assert next.available == d.available[1..];
    }
  }

  /** Once the free queue is exhausted, allocations fail with -1 and leave
      it empty. */
  lemma {:induction false} AllocateManyExhausts(d: DpbSlots, k: nat)
    requires d.Valid() && k > |d.available|
    ensures var (slots, e) := AllocateMany(d, k);
            slots[k - 1] == -1 && e.available == []
    decreases k
  {
    var (slot, next) := d.AllocateSlot();
    var (rest, last) := AllocateMany(next, k - 1);
    assert AllocateMany(d, k) == ([slot] + rest, last);
    if d.available == [] {
      assert next == d && slot == -1;
      if k > 1 {
        AllocateManyExhausts(next, k - 1);
        assert ([slot] + rest)[k - 1] == rest[k - 2];
      }
    } else {
      assert next.available == d.available[1..];
      AllocateManyExhausts(next, k - 1);
      assert ([slot] + rest)[k - 1] == rest[k - 2];
    }
  }

  /** After a fresh `Init(n, false)`, allocations yield 0, 1, ..., n-1 and the
      next one fails. */
  lemma InitThenAllocateAll(d: DpbSlots, n: nat)
    requires d.Valid() && n <= MaxDpbRefAndSetupSlots
    ensures var (slots, _) := AllocateMany(d.Init(n, false).1, n + 1);
            && (forall i :: 0 <= i < n ==> slots[i] == i)
            && slots[n] == -1
  {
    var e := d.Init(n, false).1;
    AllocateManyExhausts(e, n + 1);
    AllocateManyIsFifo(e, n);
    var (all, _) := AllocateMany(e, n + 1);
    AllocateManyPrefix(e, n);
    forall i | 0 <= i < n ensures all[i] == i {
      assert e.available[i] == i;
    }
  }

  /** The first k slots of k+1 allocations are those of k allocations. */
  lemma {:induction false} AllocateManyPrefix(d: DpbSlots, k: nat)
    requires d.Valid()
    ensures AllocateMany(d, k + 1).0[..k] == AllocateMany(d, k).0
    decreases k
  {
    if k > 0 {
      var (slot, next) := d.AllocateSlot();
      AllocateManyPrefix(next, k - 1);
    }
  }
}

=== FILE: format_mapping.dfy ===
/** The mapping from a stream's chroma subsampling and bit depth to the Vulkan
    image format the decoder allocates, and the mapping from the parser's
    "bit depth minus 8" values to Vulkan's component bit-depth flags.  The
    flag values are those of the Vulkan specification
    (VkVideoChromaSubsamplingFlagBitsKHR, VkVideoComponentBitDepthFlagBitsKHR). */
module FormatMapping {
  import opened Wrappers

  const ChromaMonochrome: int := 0x1
  const Chroma420: int := 0x2
  const Chroma422: int := 0x4
  const Chroma444: int := 0x8

  const BitDepth8: int := 0x1
  const BitDepth10: int := 0x4
  const BitDepth12: int := 0x10

  /** The formats the decoder can pick: one plane (monochrome), two planes
      (luma plus interleaved chroma) or three planes, for 8, 10 and 12 bits. */
  datatype VkFormat =
    | R8Unorm | R10x6UnormPack16 | R12x4UnormPack16
    | G8B8R8TwoPlane420Unorm | G8B8R8ThreePlane420Unorm
    | G10x6B10x6R10x6TwoPlane420Unorm3Pack16 | G10x6B10x6R10x6ThreePlane420Unorm3Pack16
    | G12x4B12x4R12x4TwoPlane420Unorm3Pack16 | G12x4B12x4R12x4ThreePlane420Unorm3Pack16
    | G8B8R8TwoPlane422Unorm | G8B8R8ThreePlane422Unorm
    | G10x6B10x6R10x6TwoPlane422Unorm3Pack16 | G10x6B10x6R10x6ThreePlane422Unorm3Pack16
    | G12x4B12x4R12x4TwoPlane422Unorm3Pack16 | G12x4B12x4R12x4ThreePlane422Unorm3Pack16
    | G8B8R8TwoPlane444Unorm | G8B8R8ThreePlane444Unorm
    | G10x6B10x6R10x6TwoPlane444Unorm3Pack16 | G10x6B10x6R10x6ThreePlane444Unorm3Pack16
    | G12x4B12x4R12x4TwoPlane444Unorm3Pack16 | G12x4B12x4R12x4ThreePlane444Unorm3Pack16

  /** What a format's name says: its chroma subsampling flag, bits per
      component and number of planes. */
  datatype FormatInfo = FormatInfo(subsampling: int, bits: nat, planes: nat)

  function Describe(f: VkFormat): FormatInfo {
    match f
    case R8Unorm => FormatInfo(ChromaMonochrome, 8, 1)
    case R10x6UnormPack16 => FormatInfo(ChromaMonochrome, 10, 1)
    case R12x4UnormPack16 => FormatInfo(ChromaMonochrome, 12, 1)
    case G8B8R8TwoPlane420Unorm => FormatInfo(Chroma420, 8, 2)
    case G8B8R8ThreePlane420Unorm => FormatInfo(Chroma420, 8, 3)
    case G10x6B10x6R10x6TwoPlane420Unorm3Pack16 => FormatInfo(Chroma420, 10, 2)
    case G10x6B10x6R10x6ThreePlane420Unorm3Pack16 => FormatInfo(Chroma420, 10, 3)
    case G12x4B12x4R12x4TwoPlane420Unorm3Pack16 => FormatInfo(Chroma420, 12, 2)
    case G12x4B12x4R12x4ThreePlane420Unorm3Pack16 => FormatInfo(Chroma420, 12, 3)
    case G8B8R8TwoPlane422Unorm => FormatInfo(Chroma422, 8, 2)
    case G8B8R8ThreePlane422Unorm => FormatInfo(Chroma422, 8, 3)
    case G10x6B10x6R10x6TwoPlane422Unorm3Pack16 => FormatInfo(Chroma422, 10, 2)
    case G10x6B10x6R10x6ThreePlane422Unorm3Pack16 => FormatInfo(Chroma422, 10, 3)
    case G12x4B12x4R12x4TwoPlane422Unorm3Pack16 => FormatInfo(Chroma422, 12, 2)
    case G12x4B12x4R12x4ThreePlane422Unorm3Pack16 => FormatInfo(Chroma422, 12, 3)
    case G8B8R8TwoPlane444Unorm => FormatInfo(Chroma444, 8, 2)
    case G8B8R8ThreePlane444Unorm => FormatInfo(Chroma444, 8, 3)
    case G10x6B10x6R10x6TwoPlane444Unorm3Pack16 => FormatInfo(Chroma444, 10, 2)
    case G10x6B10x6R10x6ThreePlane444Unorm3Pack16 => FormatInfo(Chroma444, 10, 3)
    case G12x4B12x4R12x4TwoPlane444Unorm3Pack16 => FormatInfo(Chroma444, 12, 2)
    case G12x4B12x4R12x4ThreePlane444Unorm3Pack16 => FormatInfo(Chroma444, 12, 3)
  }

  predicate KnownSubsampling(idc: int) {
    idc == ChromaMonochrome || idc == Chroma420 || idc == Chroma422 || idc == Chroma444
  }

  predicate KnownBitDepth(depth: int) {
    depth == BitDepth8 || depth == BitDepth10 || depth == BitDepth12
  }

  /** The number of bits a bit-depth flag stands for. */
  function DepthBits(depth: int): nat
    requires KnownBitDepth(depth)
  {
    if depth == BitDepth8 then 8 else if depth == BitDepth10 then 10 else 12
  }

  /** Picks the format for a subsampling and luma bit depth: the two-plane
      format when `isSemiPlanar`, else the three-plane one; monochrome has a
      single plane whatever the flag.  Any other subsampling or depth is an
      internal error. */
  function CodecGetVkFormat(chromaFormatIdc: int, bitDepthLuma: int, isSemiPlanar: bool): (r: Result<VkFormat>)
    ensures r.Success? <==> KnownSubsampling(chromaFormatIdc) && KnownBitDepth(bitDepthLuma)
    ensures r.Success? ==>
              Describe(r.value) == FormatInfo(chromaFormatIdc, DepthBits(bitDepthLuma),
                                              if chromaFormatIdc == ChromaMonochrome then 1
                                              else if isSemiPlanar then 2 else 3)
  {
    if chromaFormatIdc == ChromaMonochrome then
      if bitDepthLuma == BitDepth8 then Success(R8Unorm)
      else if bitDepthLuma == BitDepth10 then Success(R10x6UnormPack16)
      else if bitDepthLuma == BitDepth12 then Success(R12x4UnormPack16)
      else Failure("Cannot map monochrome format to VkFormat")
    else if chromaFormatIdc == Chroma420 then
      if bitDepthLuma == BitDepth8 then
        Success(if isSemiPlanar then G8B8R8TwoPlane420Unorm else G8B8R8ThreePlane420Unorm)
      else if bitDepthLuma == BitDepth10 then
        Success(if isSemiPlanar then G10x6B10x6R10x6TwoPlane420Unorm3Pack16 else G10x6B10x6R10x6ThreePlane420Unorm3Pack16)
      else if bitDepthLuma == BitDepth12 then
        Success(if isSemiPlanar then G12x4B12x4R12x4TwoPlane420Unorm3Pack16 else G12x4B12x4R12x4ThreePlane420Unorm3Pack16)
      else Failure("Cannot map 420 format to VkFormat")
    else if chromaFormatIdc == Chroma422 then
      if bitDepthLuma == BitDepth8 then
        Success(if isSemiPlanar then G8B8R8TwoPlane422Unorm else G8B8R8ThreePlane422Unorm)
      else if bitDepthLuma == BitDepth10 then
        Success(if isSemiPlanar then G10x6B10x6R10x6TwoPlane422Unorm3Pack16 else G10x6B10x6R10x6ThreePlane422Unorm3Pack16)
      else if bitDepthLuma == BitDepth12 then
        Success(if isSemiPlanar then G12x4B12x4R12x4TwoPlane422Unorm3Pack16 else G12x4B12x4R12x4ThreePlane422Unorm3Pack16)
      else Failure("Cannot map 422 format to VkFormat")
    else if chromaFormatIdc == Chroma444 then
      if bitDepthLuma == BitDepth8 then
        Success(if isSemiPlanar then G8B8R8TwoPlane444Unorm else G8B8R8ThreePlane444Unorm)
      else if bitDepthLuma == BitDepth10 then
        Success(if isSemiPlanar then G10x6B10x6R10x6TwoPlane444Unorm3Pack16 else G10x6B10x6R10x6ThreePlane444Unorm3Pack16)
      else if bitDepthLuma == BitDepth12 then
        Success(if isSemiPlanar then G12x4B12x4R12x4TwoPlane444Unorm3Pack16 else G12x4B12x4R12x4ThreePlane444Unorm3Pack16)
      else Failure("Cannot map 444 format to VkFormat")
    else Failure("Unknown input idc format")
  }

  /** Distinct inputs that matter give distinct formats: the format
      determines subsampling and depth, and the plane layout except for
      monochrome. */
  lemma CodecGetVkFormatInjective(idc1: int, depth1: int, semi1: bool, idc2: int, depth2: int, semi2: bool)
    requires CodecGetVkFormat(idc1, depth1, semi1).Success?
    requires CodecGetVkFormat(idc2, depth2, semi2).Success?
    requires CodecGetVkFormat(idc1, depth1, semi1) == CodecGetVkFormat(idc2, depth2, semi2)
    ensures idc1 == idc2 && depth1 == depth2
    ensures idc1 != ChromaMonochrome ==> semi1 == semi2
  {
    var i1 := Describe(CodecGetVkFormat(idc1, depth1, semi1).value);
    var i2 := Describe(CodecGetVkFormat(idc2, depth2, semi2).value);
    assert i1 == i2;
  }

  /** Maps the parser's luma "bit depth minus 8" (an 8-bit value) to the
      Vulkan flag: 0, 2 and 4 give 8, 10 and 12 bits; anything else is an
      internal error. */
  function GetLumaBitDepth(lumaBitDepthMinus8: nat): (r: Result<int>)
    requires lumaBitDepthMinus8 < 256
    ensures r.Success? <==> lumaBitDepthMinus8 in {0, 2, 4}
    ensures r.Success? ==> KnownBitDepth(r.value) && DepthBits(r.value) == lumaBitDepthMinus8 + 8
  {
    BitDepthFlag(lumaBitDepthMinus8, "Unhandler lumaBitDepthMinus8")
  }

  /** The same mapping for the chroma bit depth. */
  function GetChromaBitDepth(chromaBitDepthMinus8: nat): (r: Result<int>)
    requires chromaBitDepthMinus8 < 256
    ensures r.Success? <==> chromaBitDepthMinus8 in {0, 2, 4}
    ensures r.Success? ==> KnownBitDepth(r.value) && DepthBits(r.value) == chromaBitDepthMinus8 + 8
  {
    BitDepthFlag(chromaBitDepthMinus8, "Unhandler chromaBitDepthMinus8")
  }

  function BitDepthFlag(minus8: nat, error: string): Result<int> {
    match minus8
    case 0 => Success(BitDepth8)
    case 2 => Success(BitDepth10)
    case 4 => Success(BitDepth12)
    case _ => Failure(error)
  }

  /** The flag and the parser's value are inverse: every known flag comes
      from exactly one value. */
  lemma BitDepthRoundTrip(depth: int)
    requires KnownBitDepth(depth)
    ensures DepthBits(depth) - 8 < 256
    ensures GetLumaBitDepth(DepthBits(depth) - 8) == Success(depth)
  {
  }

  /** A stream's luma depth carries through to the picked format. */
  lemma FormatFollowsLumaDepth(chromaFormatIdc: int, lumaBitDepthMinus8: nat, isSemiPlanar: bool)
    requires lumaBitDepthMinus8 < 256
    requires KnownSubsampling(chromaFormatIdc)
    requires GetLumaBitDepth(lumaBitDepthMinus8).Success?
    ensures var r := CodecGetVkFormat(chromaFormatIdc, GetLumaBitDepth(lumaBitDepthMinus8).value, isSemiPlanar);
            r.Success? && Describe(r.value).bits == lumaBitDepthMinus8 + 8
  {
  }
}

=== FILE: frame_buffer.dfy ===
/** The decoded-picture pool and its display FIFO (VkVideoFrameBuffer).
    A fixed vector of 32 per-frame records, of which the first `numImages`
    are in use; each record carries the reference count of its picture
    buffer, the decode and display order stamps and the handles its decode
    refers to.  Decoded pictures wait in a FIFO until the consumer dequeues
    them; a dequeued picture is owned by the display, which is recorded in a
    bitmask, until the consumer releases it.  The pool is modelled
    sequentially: every operation is a function from pool to pool. */
module FrameBuffer {
  import opened Wrappers

  /** Capacity of the record vector. */
  const MaxFramebufferImages: nat := 32

  /** The objects a decode refers to (picture, sequence and video parameter
      sets and the bitstream buffer), each known by an identifier; `None` is
      a null handle. */
  datatype ReferencedObjects = ReferencedObjects(pps: Option<nat>, sps: Option<nat>, vps: Option<nat>, bitstream: Option<nat>)

  function Detached(): ReferencedObjects {
    ReferencedObjects(None, None, None, None)
  }

  /** One per-frame record.  The reference count stands for the counter of
      the picture-buffer base class; the record is available exactly when it
      is zero.  The four `has...` flags say whether the frame-complete and
      consumer-done fence and semaphore are armed. */
  datatype FrameRecord = FrameRecord(
    refCount: int,
    picIdx: int,
    decodeOrder: int,
    displayOrder: int,
    timestamp: int,
    inDecodeQueue: bool,
    inDisplayQueue: bool,
    ownedByDisplay: bool,
    hasFrameCompleteFence: bool,
    hasFrameCompleteSemaphore: bool,
    hasConsumerFence: bool,
    hasConsumerSemaphore: bool,
    objects: ReferencedObjects)
  {
    predicate IsAvailable() {
      refCount == 0
    }
  }

  /** A default-constructed record. */
  function FreshRecord(): FrameRecord {
    FrameRecord(0, -1, 0, 0, 0, false, false, false, false, false, false, false, Detached())
  }

  /** The pool.  `displayFrames` is the display FIFO (front first),
      `ownedByDisplay` the set bits of the owned-by-display mask, and the two
      counters stamp the next decoded and the next displayed picture. */
  datatype FramePool = FramePool(
    records: seq<FrameRecord>,
    numImages: nat,
    displayFrames: seq<nat>,
    ownedByDisplay: set<nat>,
    frameNumInDecodeOrder: int,
    frameNumInDisplayOrder: int,
    parameterUpdates: nat)

  /** The shape every operation keeps: the full record vector, a size within
      it, and queue entries and mask bits that name records. */
  ghost predicate Valid(pool: FramePool) {
    && |pool.records| == MaxFramebufferImages
    && pool.numImages <= MaxFramebufferImages
    && (forall i :: 0 <= i < |pool.displayFrames| ==> pool.displayFrames[i] < MaxFramebufferImages)
    && (forall p :: p in pool.ownedByDisplay ==> p < MaxFramebufferImages)
  }

  /** `picId` names a record in use: the pool's unsigned comparison
      `(uint32_t)picId < size()` rejects negative indices too. */
  predicate Holds(pool: FramePool, picId: int) {
    0 <= picId < pool.numImages
  }

  /** The pool as constructed: no images, empty queue and mask, counters 0. */
  function InitialPool(): (r: FramePool)
    ensures Valid(r)
  {
    FramePool(seq(MaxFramebufferImages, _ => FreshRecord()), 0, [], {}, 0, 0, 0)
  }

  /** The base-class reset, modelled by its effect on the reference count. */
  function ResetRecord(r: FrameRecord): FrameRecord {
    r.(refCount := 0)
  }

  // ---------------------------------------------------------------------
  // Pool set-up and tear-down
  // ---------------------------------------------------------------------

  /** Sizes the pool for `numImages` records (1..32, asserted by the pool).
      Records that join the pool are reset; the ones already in it are kept.
      Allocating their images always succeeds in this model. */
  function InitImagePool(pool: FramePool, numImages: nat): (r: Result<FramePool>)
    requires Valid(pool)
    ensures r.Success? <==> 0 < numImages <= MaxFramebufferImages
    ensures r.Success? ==>
              && Valid(r.value)
              && r.value.numImages == numImages
              && r.value.parameterUpdates == pool.parameterUpdates + 1
              && r.value.displayFrames == pool.displayFrames
              && r.value.ownedByDisplay == pool.ownedByDisplay
              && (forall i :: 0 <= i < MaxFramebufferImages ==>
                    r.value.records[i] == if pool.numImages <= i < numImages then ResetRecord(pool.records[i]) else pool.records[i])
  {
    if numImages == 0 || numImages > MaxFramebufferImages then
      Failure("number of images outside 1..32")
    else
      var records := seq(MaxFramebufferImages, i requires 0 <= i < MaxFramebufferImages =>
                           if pool.numImages <= i < numImages then ResetRecord(pool.records[i]) else pool.records[i]);
      Success(pool.(records := records, numImages := numImages, parameterUpdates := pool.parameterUpdates + 1))
  }

  /** Drops the referenced objects and resets the count, as the per-frame
      de-initialisation does. */
  function DeinitRecord(r: FrameRecord): FrameRecord {
    ResetRecord(r.(objects := Detached()))
  }

  /** The tear-down after the flush: the mask and both counters cleared and
      every record in use de-initialised. */
  function TearDown(q: FramePool): (r: FramePool)
    requires Valid(q)
    ensures Valid(r) && r.numImages == 0 && r.displayFrames == q.displayFrames && r.ownedByDisplay == {}
    ensures r.frameNumInDecodeOrder == 0 && r.frameNumInDisplayOrder == 0
    ensures forall i :: 0 <= i < MaxFramebufferImages ==>
              r.records[i] == if i < q.numImages then q.records[i].(objects := Detached(), refCount := 0) else q.records[i]
  {
    var records := seq(MaxFramebufferImages, i requires 0 <= i < MaxFramebufferImages =>
                         if i < q.numImages then DeinitRecord(q.records[i]) else q.records[i]);
    q.(records := records, numImages := 0, ownedByDisplay := {},
       frameNumInDecodeOrder := 0, frameNumInDisplayOrder := 0)
  }

  /** Flushes the display queue with the flush as implemented (see
      FlushDisplayQueueAsWritten), then tears the pool down.  Which flush
      runs does not matter here: the tear-down resets the count of every
      record the queue can name (DeinitializeHidesFlushFault).  On success
      the pool is empty and every record that was in use is available with
      its objects detached. */
  function Deinitialize(pool: FramePool): (r: Result<FramePool>)
    requires Valid(pool)
    ensures r.Success? ==>
              && Valid(r.value)
              && r.value.numImages == 0 && r.value.displayFrames == [] && r.value.ownedByDisplay == {}
              && r.value.frameNumInDecodeOrder == 0 && r.value.frameNumInDisplayOrder == 0
              && forall i :: 0 <= i < pool.numImages ==>
                   r.value.records[i].IsAvailable() && r.value.records[i].objects == Detached()
  {
    match FlushDisplayQueueAsWritten(pool)
    case Failure(e) => Failure(e)
    case Success((_, q)) => Success(TearDown(q))
  }

  // ---------------------------------------------------------------------
  // Reserving a picture buffer
  // ---------------------------------------------------------------------

  /** The lowest index in from..numImages-1 whose record is available. */
  function FirstAvailable(pool: FramePool, from: nat): (r: Option<nat>)
    requires Valid(pool)
    ensures r.None? <==> forall i :: from <= i < pool.numImages ==> !pool.records[i].IsAvailable()
    ensures r.Some? ==>
              && from <= r.value < pool.numImages
              && pool.records[r.value].IsAvailable()
              && forall i :: from <= i < r.value ==> !pool.records[i].IsAvailable()
    decreases pool.numImages - from
  {
    if from >= pool.numImages then None
    else if pool.records[from].IsAvailable() then Some(from)
    else FirstAvailable(pool, from + 1)
  }

  /** Hands out the lowest-index available record with one reference and its
      index recorded, or nothing (and no change) when every record is taken. */
  function ReservePictureBuffer(pool: FramePool): (r: (Option<nat>, FramePool))
    requires Valid(pool)
    ensures Valid(r.1)
    ensures r.0.None? <==> forall i :: 0 <= i < pool.numImages ==> !pool.records[i].IsAvailable()
    ensures r.0.None? ==> r.1 == pool
    ensures r.0.Some? ==>
              && r.0.value < pool.numImages
              && pool.records[r.0.value].IsAvailable()
              && (forall i :: 0 <= i < r.0.value ==> !pool.records[i].IsAvailable())
              && r.1.records[r.0.value].refCount == 1
              && r.1.records[r.0.value].picIdx == r.0.value
              && r.1 == pool.(records := r.1.records)
              && (forall i :: 0 <= i < MaxFramebufferImages && i != r.0.value ==> r.1.records[i] == pool.records[i])
  {
    match FirstAvailable(pool, 0)
    case None => (None, pool)
    case Some(p) =>
      var rec := ResetRecord(pool.records[p]).(refCount := 1, picIdx := p);
      (Some(p), pool.(records := pool.records[p := rec]))
  }

  // ---------------------------------------------------------------------
  // Decode and display queues
  // ---------------------------------------------------------------------

  /** What a decode submission gives the pool: the objects the decode refers
      to and whether the caller wants a frame-complete fence and semaphore. */
  datatype DecodeRequest = DecodeRequest(objects: ReferencedObjects, wantsFrameCompleteFence: bool, wantsFrameCompleteSemaphore: bool)

  /** What the pool hands back for a submission: which fences and semaphores
      the decode signals or waits on, and its query slot. */
  datatype DecodeSync = DecodeSync(
    frameCompleteFence: bool,
    frameCompleteSemaphore: bool,
    consumerDoneFence: bool,
    consumerDoneSemaphore: bool,
    startQueryId: int,
    numQueries: nat)

  /** Stamps record `picId` with the next decode order, attaches the
      referenced objects and arms the requested completion signals; a
      pending consumer-done signal is handed to the decode and disarmed. */
  function QueuePictureForDecode(pool: FramePool, picId: int, req: DecodeRequest): (r: Result<(int, FramePool, DecodeSync)>)
    requires Valid(pool)
    ensures r.Success? <==> Holds(pool, picId)
    ensures r.Success? ==> Valid(r.value.1)
    ensures r.Success? ==>
              var (id, q, sync) := r.value;
              var before := pool.records[picId];
              var after := q.records[picId];
              && Valid(q)
              && id == picId
              && after.decodeOrder == pool.frameNumInDecodeOrder
              && q.frameNumInDecodeOrder == pool.frameNumInDecodeOrder + 1
              && after.inDecodeQueue
              && after.objects == req.objects
              && after.hasFrameCompleteFence == (before.hasFrameCompleteFence || req.wantsFrameCompleteFence)
              && after.hasFrameCompleteSemaphore == (before.hasFrameCompleteSemaphore || req.wantsFrameCompleteSemaphore)
              && !after.hasConsumerFence && !after.hasConsumerSemaphore
              && sync.consumerDoneFence == before.hasConsumerFence
              && sync.consumerDoneSemaphore == before.hasConsumerSemaphore
              && sync.startQueryId == picId && sync.numQueries == 1
              && after.refCount == before.refCount
              && after.displayOrder == before.displayOrder
              && after.ownedByDisplay == before.ownedByDisplay
              && q == pool.(records := q.records, frameNumInDecodeOrder := q.frameNumInDecodeOrder)
              && (forall i :: 0 <= i < MaxFramebufferImages && i != picId ==> q.records[i] == pool.records[i])
  {
    if !Holds(pool, picId) then
      Failure("picture index outside the pool")
    else
      var before := pool.records[picId];
      var after := before.(
        decodeOrder := pool.frameNumInDecodeOrder,
        inDecodeQueue := true,
        objects := req.objects,
        hasFrameCompleteFence := before.hasFrameCompleteFence || req.wantsFrameCompleteFence,
        hasFrameCompleteSemaphore := before.hasFrameCompleteSemaphore || req.wantsFrameCompleteSemaphore,
        hasConsumerFence := false,
        hasConsumerSemaphore := false);
      var sync := DecodeSync(req.wantsFrameCompleteFence, req.wantsFrameCompleteSemaphore,
                             before.hasConsumerFence, before.hasConsumerSemaphore, picId, 1);
      Success((picId, pool.(records := pool.records[picId := after],
                            frameNumInDecodeOrder := pool.frameNumInDecodeOrder + 1), sync))
  }

  /** Stamps record `picId` with the next display order and the timestamp,
      takes a reference for the queue and appends the index to the FIFO. */
  function QueueDecodedPictureForDisplay(pool: FramePool, picId: int, timestamp: int): (r: Result<(int, FramePool)>)
    requires Valid(pool)
    ensures r.Success? <==> Holds(pool, picId)
    ensures r.Success? ==> Valid(r.value.1)
    ensures r.Success? ==>
              var (id, q) := r.value;
              var before := pool.records[picId];
              var after := q.records[picId];
              && Valid(q)
              && id == picId
              && q.displayFrames == pool.displayFrames + [picId]
              && after.displayOrder == pool.frameNumInDisplayOrder
              && q.frameNumInDisplayOrder == pool.frameNumInDisplayOrder + 1
              && after.timestamp == timestamp
              && after.inDisplayQueue
              && after.refCount == before.refCount + 1
              && after == before.(displayOrder := after.displayOrder, timestamp := timestamp,
                                  inDisplayQueue := true, refCount := after.refCount)
              && q == pool.(records := q.records, displayFrames := q.displayFrames,
                            frameNumInDisplayOrder := q.frameNumInDisplayOrder)
              && (forall i :: 0 <= i < MaxFramebufferImages && i != picId ==> q.records[i] == pool.records[i])
  {
    if !Holds(pool, picId) then
      Failure("picture index outside the pool")
    else
      var before := pool.records[picId];
      var after := before.(displayOrder := pool.frameNumInDisplayOrder, timestamp := timestamp,
                           inDisplayQueue := true, refCount := before.refCount + 1);
      Success((picId, pool.(records := pool.records[picId := after],
                            displayFrames := pool.displayFrames + [picId],
                            frameNumInDisplayOrder := pool.frameNumInDisplayOrder + 1)))
  }

  /** What the consumer learns about a dequeued picture. */
  datatype DecodedFrame = DecodedFrame(
    pictureIndex: nat,
    decodeOrder: int,
    displayOrder: int,
    timestamp: int,
    frameCompleteFence: bool,
    frameCompleteSemaphore: bool)

  /** The number of pictures waiting for display. */
  function GetDisplayedFrameCount(pool: FramePool): nat {
    |pool.displayFrames|
  }

  /** Pops the front of the display FIFO and hands it to the display.
      Returns the number of pending pictures before the pop (0, and no frame,
      when the queue is empty).  The front must name a record in use whose
      owned-by-display bit is clear; the bit is then set and the frame takes
      over the armed frame-complete signals. */
  function DequeueDecodedPicture(pool: FramePool): (r: Result<(int, Option<DecodedFrame>, FramePool)>)
    requires Valid(pool)
    ensures r.Success? <==>
              |pool.displayFrames| == 0
              || (Holds(pool, pool.displayFrames[0]) && pool.displayFrames[0] !in pool.ownedByDisplay)
    ensures |pool.displayFrames| == 0 ==> r == Success((0, None, pool))
    ensures r.Success? && |pool.displayFrames| > 0 ==>
              var (pending, frame, q) := r.value;
              var p := pool.displayFrames[0];
              var before := pool.records[p];
              && Valid(q)
              && pending == |pool.displayFrames|
              && frame == Some(DecodedFrame(p, before.decodeOrder, before.displayOrder, before.timestamp,
                                            before.hasFrameCompleteFence, before.hasFrameCompleteSemaphore))
              && q.displayFrames == pool.displayFrames[1..]
              && q.ownedByDisplay == pool.ownedByDisplay + {p}
              && q.records[p] == before.(inDisplayQueue := false, ownedByDisplay := true,
                                         hasFrameCompleteFence := false, hasFrameCompleteSemaphore := false)
              && q == pool.(records := q.records, displayFrames := q.displayFrames, ownedByDisplay := q.ownedByDisplay)
              && (forall i :: 0 <= i < MaxFramebufferImages && i != p ==> q.records[i] == pool.records[i])
  {
    if |pool.displayFrames| == 0 then
      Success((0, None, pool))
    else
      var p := pool.displayFrames[0];
      if !Holds(pool, p) then
        Failure("queued picture index outside the pool")
      else if p in pool.ownedByDisplay then
        Failure("queued picture is already owned by the display")
      else
        var before := pool.records[p];
        var frame := DecodedFrame(p, before.decodeOrder, before.displayOrder, before.timestamp,
                                  before.hasFrameCompleteFence, before.hasFrameCompleteSemaphore);
        var after := before.(inDisplayQueue := false, ownedByDisplay := true,
                             hasFrameCompleteFence := false, hasFrameCompleteSemaphore := false);
        Success((|pool.displayFrames|, Some(frame),
                 pool.(records := pool.records[p := after],
                       displayFrames := pool.displayFrames[1..],
                       ownedByDisplay := pool.ownedByDisplay + {p})))
  }

  /** The consumer's description of a frame it gives back. */
  datatype FrameRelease = FrameRelease(
    pictureIndex: int,
    decodeOrder: int,
    displayOrder: int,
    hasConsumerFence: bool,
    hasConsumerSemaphore: bool)

  /** The release of one displayed frame: its index must name a record in
      use, its order stamps must match the record's and its owned-by-display
      bit must be set.  The bit is cleared, the referenced objects are
      detached, the display's reference is dropped and the consumer-done
      signals the consumer armed are recorded. */
  function ReleaseOne(pool: FramePool, rel: FrameRelease): (r: Result<FramePool>)
    requires Valid(pool)
    ensures r.Success? <==>
              && Holds(pool, rel.pictureIndex)
              && pool.records[rel.pictureIndex].decodeOrder == rel.decodeOrder
              && pool.records[rel.pictureIndex].displayOrder == rel.displayOrder
              && rel.pictureIndex in pool.ownedByDisplay
    ensures r.Success? ==> Valid(r.value)
    ensures r.Success? ==>
              var p := rel.pictureIndex;
              var before := pool.records[p];
              var after := r.value.records[p];
              && Valid(r.value)
              && r.value.ownedByDisplay == pool.ownedByDisplay - {p}
              && after.objects == Detached()
              && !after.inDecodeQueue && !after.ownedByDisplay
              && after.refCount == before.refCount - 1
              && after.hasConsumerFence == rel.hasConsumerFence
              && after.hasConsumerSemaphore == rel.hasConsumerSemaphore
              && after == before.(inDecodeQueue := false, objects := Detached(), ownedByDisplay := false,
                                  refCount := after.refCount, hasConsumerFence := rel.hasConsumerFence,
                                  hasConsumerSemaphore := rel.hasConsumerSemaphore)
              && r.value == pool.(records := r.value.records, ownedByDisplay := r.value.ownedByDisplay)
              && (forall i :: 0 <= i < MaxFramebufferImages && i != p ==> r.value.records[i] == pool.records[i])
  {
    var p := rel.pictureIndex;
    if !Holds(pool, p) then
      Failure("released picture index outside the pool")
    else if pool.records[p].decodeOrder != rel.decodeOrder || pool.records[p].displayOrder != rel.displayOrder then
      Failure("released frame does not match the record's order stamps")
    else if p !in pool.ownedByDisplay then
      Failure("released picture is not owned by the display")
    else
      var before := pool.records[p];
      var after := before.(inDecodeQueue := false, objects := Detached(), ownedByDisplay := false,
                           refCount := before.refCount - 1, hasConsumerFence := rel.hasConsumerFence,
                           hasConsumerSemaphore := rel.hasConsumerSemaphore);
      Success(pool.(records := pool.records[p := after], ownedByDisplay := pool.ownedByDisplay - {p}))
  }

  /** Releases the frames in order; the first release that fails stops the
      whole call. */
  function ReleaseDisplayedPicture(pool: FramePool, releases: seq<FrameRelease>): (r: Result<FramePool>)
    requires Valid(pool)
    ensures r.Success? ==> Valid(r.value) && r.value.displayFrames == pool.displayFrames
    decreases |releases|
  {
    if |releases| == 0 then Success(pool)
    else
      match ReleaseOne(pool, releases[0])
      case Failure(e) => Failure(e)
      case Success(q) => ReleaseDisplayedPicture(q, releases[1..])
  }

  /** The flush's step on its front entry: the entry leaves the queue and,
      if its record is still referenced, the queue's reference is dropped. */
  function FlushFront(pool: FramePool): (r: FramePool)
    requires Valid(pool) && |pool.displayFrames| > 0
    ensures Valid(r)
  {
    var p := pool.displayFrames[0];
    var rec := pool.records[p];
    var rec' := if !rec.IsAvailable() then rec.(refCount := rec.refCount - 1) else rec;
    pool.(records := pool.records[p := rec'], displayFrames := pool.displayFrames[1..])
  }

  /** The step as implemented: the reference is dropped only when
      the record is already available. */
  function FlushFrontAsWritten(pool: FramePool): (r: FramePool)
    requires Valid(pool) && |pool.displayFrames| > 0
    ensures Valid(r)
  {
    var p := pool.displayFrames[0];
    var rec := pool.records[p];
    var rec' := if rec.IsAvailable() then rec.(refCount := rec.refCount - 1) else rec;
    pool.(records := pool.records[p := rec'], displayFrames := pool.displayFrames[1..])
  }

  /** Empties the display FIFO and returns how many entries it held.  Each
      entry must name a record in use; a record still referenced has the
      queue's reference dropped. */
  function FlushDisplayQueue(pool: FramePool): (r: Result<(nat, FramePool)>)
    requires Valid(pool)
    ensures r.Success? ==>
              && Valid(r.value.1)
              && r.value.0 == |pool.displayFrames|
              && r.value.1.displayFrames == []
              && r.value.1 == pool.(records := r.value.1.records, displayFrames := [])
    decreases |pool.displayFrames|
  {
    if |pool.displayFrames| == 0 then Success((0, pool))
    else
      var p := pool.displayFrames[0];
      if !Holds(pool, p) then
        Failure("queued picture index outside the pool")
      else
        match FlushDisplayQueue(FlushFront(pool))
        case Failure(e) => Failure(e)
        case Success((n, q)) => Success((n + 1, q))
  }

  /** The flush as implemented: the queue's reference is dropped
      only from records that are already available. */
  function FlushDisplayQueueAsWritten(pool: FramePool): (r: Result<(nat, FramePool)>)
    requires Valid(pool)
    ensures r.Success? ==>
              && Valid(r.value.1)
              && r.value.0 == |pool.displayFrames|
              && r.value.1 == pool.(records := r.value.1.records, displayFrames := [])
    decreases |pool.displayFrames|
  {
    if |pool.displayFrames| == 0 then Success((0, pool))
    else
      var p := pool.displayFrames[0];
      if !Holds(pool, p) then
        Failure("queued picture index outside the pool")
      else
        match FlushDisplayQueueAsWritten(FlushFrontAsWritten(pool))
        case Failure(e) => Failure(e)
        case Success((n, q)) => Success((n + 1, q))
  }

  // ---------------------------------------------------------------------
  // Order stamps
  // ---------------------------------------------------------------------

  /** Overwrites the decode order of record `picId` and returns the old one;
      an index outside the pool changes nothing and yields -1. */
  function SetPicNumInDecodeOrder(pool: FramePool, picId: int, n: int): (r: (int, FramePool))
    requires Valid(pool)
    ensures Valid(r.1)
    ensures !Holds(pool, picId) ==> r == (-1, pool)
    ensures Holds(pool, picId) ==>
              && r.0 == pool.records[picId].decodeOrder
              && r.1.records[picId] == pool.records[picId].(decodeOrder := n)
              && r.1 == pool.(records := r.1.records)
              && (forall i :: 0 <= i < MaxFramebufferImages && i != picId ==> r.1.records[i] == pool.records[i])
  {
    if Holds(pool, picId) then
      (pool.records[picId].decodeOrder, pool.(records := pool.records[picId := pool.records[picId].(decodeOrder := n)]))
    else
      (-1, pool)
  }

  /** The same for the display order. */
  function SetPicNumInDisplayOrder(pool: FramePool, picId: int, n: int): (r: (int, FramePool))
    requires Valid(pool)
    ensures Valid(r.1)
    ensures !Holds(pool, picId) ==> r == (-1, pool)
    ensures Holds(pool, picId) ==>
              && r.0 == pool.records[picId].displayOrder
              && r.1.records[picId] == pool.records[picId].(displayOrder := n)
              && r.1 == pool.(records := r.1.records)
              && (forall i :: 0 <= i < MaxFramebufferImages && i != picId ==> r.1.records[i] == pool.records[i])
  {
    if Holds(pool, picId) then
      (pool.records[picId].displayOrder, pool.(records := pool.records[picId := pool.records[picId].(displayOrder := n)]))
    else
      (-1, pool)
  }

  // ---------------------------------------------------------------------
  // The pool's own references and the owned-by-display mask
  // ---------------------------------------------------------------------

  /** The references the pool itself holds on record `p`: one for each queue
      entry naming it and one while the display owns it. */
  function PoolReferences(pool: FramePool, p: nat): nat {
    multiset(pool.displayFrames)[p] + (if p in pool.ownedByDisplay then 1 else 0)
  }

  /** The invariant the queue operations keep: queue entries and mask bits
      name records in use, no record's count is below the references the
      pool holds on it, and the mask agrees with the records' flags. */
  ghost predicate Consistent(pool: FramePool) {
    && Valid(pool)
    && (forall i :: 0 <= i < |pool.displayFrames| ==> pool.displayFrames[i] < pool.numImages)
    && (forall p :: p in pool.ownedByDisplay ==> p < pool.numImages)
    && (forall p :: 0 <= p < MaxFramebufferImages ==> pool.records[p].refCount >= PoolReferences(pool, p))
    && (forall p :: 0 <= p < MaxFramebufferImages ==> (p in pool.ownedByDisplay <==> pool.records[p].ownedByDisplay))
  }

  lemma InitialPoolConsistent()
    ensures Consistent(InitialPool())
  {
  }

  /** Growing the pool keeps it consistent: the records that join it are
      named by no queue entry and no mask bit. */
  lemma InitImagePoolKeepsConsistent(pool: FramePool, numImages: nat)
    requires Consistent(pool)
    requires pool.numImages <= numImages <= MaxFramebufferImages && numImages > 0
    ensures InitImagePool(pool, numImages).Success?
    ensures Consistent(InitImagePool(pool, numImages).value)
  {
    var q := InitImagePool(pool, numImages).value;
    forall p | 0 <= p < MaxFramebufferImages
      ensures q.records[p].refCount >= PoolReferences(q, p)
    {
      if pool.numImages <= p < numImages {
        assert forall i :: 0 <= i < |pool.displayFrames| ==> pool.displayFrames[i] != p;
        assert p !in pool.displayFrames;
      }
    }
  }

  /** Reserving takes an available record, on which the pool holds nothing. */
  lemma ReserveKeepsConsistent(pool: FramePool)
    requires Consistent(pool)
    ensures Consistent(ReservePictureBuffer(pool).1)
  {
    var (got, q) := ReservePictureBuffer(pool);
    if got.Some? {
      var p := got.value;
      assert q.displayFrames == pool.displayFrames && q.ownedByDisplay == pool.ownedByDisplay;
      assert pool.records[p].refCount == 0;
      forall i | 0 <= i < MaxFramebufferImages
        ensures q.records[i].refCount >= PoolReferences(q, i)
        ensures i in q.ownedByDisplay <==> q.records[i].ownedByDisplay
      {
        assert PoolReferences(q, i) == PoolReferences(pool, i);
      }
    }
  }

  lemma QueuePictureForDecodeKeepsConsistent(pool: FramePool, picId: int, req: DecodeRequest)
    requires Consistent(pool)
    requires Holds(pool, picId)
    ensures Consistent(QueuePictureForDecode(pool, picId, req).value.1)
  {
    var q := QueuePictureForDecode(pool, picId, req).value.1;
    forall i | 0 <= i < MaxFramebufferImages
      ensures q.records[i].refCount >= PoolReferences(q, i)
      ensures i in q.ownedByDisplay <==> q.records[i].ownedByDisplay
    {
      assert PoolReferences(q, i) == PoolReferences(pool, i);
    }
  }

  /** The queue's new entry is matched by the reference it takes. */
  lemma QueueForDisplayKeepsConsistent(pool: FramePool, picId: int, timestamp: int)
    requires Consistent(pool)
    requires Holds(pool, picId)
    ensures Consistent(QueueDecodedPictureForDisplay(pool, picId, timestamp).value.1)
  {
    var q := QueueDecodedPictureForDisplay(pool, picId, timestamp).value.1;
    assert multiset(q.displayFrames) == multiset(pool.displayFrames) + multiset{picId as nat};
    forall i | 0 <= i < |q.displayFrames|
      ensures q.displayFrames[i] < q.numImages
    {
      if i < |pool.displayFrames| {
        assert q.displayFrames[i] == pool.displayFrames[i];
      }
    }
    forall p | 0 <= p < MaxFramebufferImages
      ensures q.records[p].refCount >= PoolReferences(q, p)
      ensures p in q.ownedByDisplay <==> q.records[p].ownedByDisplay
    {
      assert PoolReferences(q, p) == PoolReferences(pool, p) + (if p == picId then 1 else 0);
    }
  }

  /** Counting an element in a sequence split after its first entry. */
  lemma CountFront(s: seq<nat>, p: nat)
    requires |s| > 0
    ensures multiset(s)[p] == multiset(s[1..])[p] + (if s[0] == p then 1 else 0)
  {
    assert s == [s[0]] + s[1..];
  }

  /** Dequeuing moves the front's reference from the queue to the mask. */
  lemma DequeueKeepsConsistent(pool: FramePool)
    requires Consistent(pool)
    requires DequeueDecodedPicture(pool).Success?
    ensures Consistent(DequeueDecodedPicture(pool).value.2)
  {
    if |pool.displayFrames| > 0 {
      var q := DequeueDecodedPicture(pool).value.2;
      var front := pool.displayFrames[0];
      forall i | 0 <= i < |q.displayFrames|
        ensures q.displayFrames[i] < q.numImages
      {
        assert q.displayFrames[i] == pool.displayFrames[i + 1];
      }
      forall p | 0 <= p < MaxFramebufferImages
        ensures q.records[p].refCount >= PoolReferences(q, p)
        ensures p in q.ownedByDisplay <==> q.records[p].ownedByDisplay
      {
        CountFront(pool.displayFrames, p);
        assert PoolReferences(q, p) == PoolReferences(pool, p);
      }
    }
  }

  /** Releasing drops the display's bit together with its reference. */
  lemma ReleaseOneKeepsConsistent(pool: FramePool, rel: FrameRelease)
    requires Consistent(pool)
    requires ReleaseOne(pool, rel).Success?
    ensures Consistent(ReleaseOne(pool, rel).value)
  {
    var q := ReleaseOne(pool, rel).value;
    forall p | 0 <= p < MaxFramebufferImages
      ensures q.records[p].refCount >= PoolReferences(q, p)
      ensures p in q.ownedByDisplay <==> q.records[p].ownedByDisplay
    {
      assert PoolReferences(q, p) == PoolReferences(pool, p) - (if p == rel.pictureIndex then 1 else 0);
    }
  }

  lemma {:induction false} ReleaseDisplayedPictureKeepsConsistent(pool: FramePool, releases: seq<FrameRelease>)
    requires Consistent(pool)
    requires ReleaseDisplayedPicture(pool, releases).Success?
    ensures Consistent(ReleaseDisplayedPicture(pool, releases).value)
    decreases |releases|
  {
    if |releases| > 0 {
      ReleaseOneKeepsConsistent(pool, releases[0]);
      ReleaseDisplayedPictureKeepsConsistent(ReleaseOne(pool, releases[0]).value, releases[1..]);
    }
  }

  /** A successful release list names distinct frames the display owned and
      clears exactly their bits. */
  lemma {:induction false} ReleaseDisplayedPictureClearsOwned(pool: FramePool, releases: seq<FrameRelease>)
    requires Valid(pool)
    requires ReleaseDisplayedPicture(pool, releases).Success?
    ensures forall i :: 0 <= i < |releases| ==> releases[i].pictureIndex in pool.ownedByDisplay
    ensures forall i, j :: 0 <= i < j < |releases| ==> releases[i].pictureIndex != releases[j].pictureIndex
    ensures forall p :: p in ReleaseDisplayedPicture(pool, releases).value.ownedByDisplay <==>
              p in pool.ownedByDisplay && forall i :: 0 <= i < |releases| ==> releases[i].pictureIndex != p
    decreases |releases|
  {
    if |releases| > 0 {
      var q := ReleaseOne(pool, releases[0]).value;
      var rest := releases[1..];
      ReleaseDisplayedPictureClearsOwned(q, rest);
      assert forall i :: 1 <= i < |releases| ==> releases[i] == rest[i - 1];
    }
  }

  // ---------------------------------------------------------------------
  // Flushing the display queue
  // ---------------------------------------------------------------------

  /** Every queue entry of a consistent pool holds a reference, so its
      record is not available. */
  lemma QueuedNotAvailable(pool: FramePool, i: nat)
    requires Consistent(pool)
    requires i < |pool.displayFrames|
    ensures !pool.records[pool.displayFrames[i]].IsAvailable()
  {
    assert pool.displayFrames[i] in multiset(pool.displayFrames);
    assert PoolReferences(pool, pool.displayFrames[i]) >= 1;
  }

  /** One flush step keeps a consistent pool consistent and takes exactly one
      reference from the front's record. */
  lemma FlushFrontKeepsConsistent(pool: FramePool)
    requires Consistent(pool)
    requires |pool.displayFrames| > 0
    ensures Consistent(FlushFront(pool))
    ensures forall p :: 0 <= p < MaxFramebufferImages ==>
              && FlushFront(pool).records[p]
                   == pool.records[p].(refCount := pool.records[p].refCount - (if pool.displayFrames[0] == p then 1 else 0))
              && multiset(pool.displayFrames)[p]
                   == multiset(FlushFront(pool).displayFrames)[p] + (if pool.displayFrames[0] == p then 1 else 0)
  {
    var next := FlushFront(pool);
    QueuedNotAvailable(pool, 0);
    forall i | 0 <= i < |next.displayFrames|
      ensures next.displayFrames[i] < next.numImages
    {
      assert next.displayFrames[i] == pool.displayFrames[i + 1];
    }
    forall p | 0 <= p < MaxFramebufferImages
      ensures next.records[p].refCount >= PoolReferences(next, p)
      ensures multiset(pool.displayFrames)[p]
                == multiset(next.displayFrames)[p] + (if pool.displayFrames[0] == p then 1 else 0)
    {
      CountFront(pool.displayFrames, p);
    }
  }

  /** On a consistent pool the flush succeeds and drops exactly the queue's
      references: each record loses one per entry naming it. */
  lemma {:induction false} FlushDisplayQueueDropsQueueReferences(pool: FramePool)
    requires Consistent(pool)
    ensures FlushDisplayQueue(pool).Success?
    ensures forall p :: 0 <= p < MaxFramebufferImages ==>
              FlushDisplayQueue(pool).value.1.records[p]
                == pool.records[p].(refCount := pool.records[p].refCount - multiset(pool.displayFrames)[p])
    ensures Consistent(FlushDisplayQueue(pool).value.1)
    decreases |pool.displayFrames|
  {
    if |pool.displayFrames| > 0 {
      var next := FlushFront(pool);
      FlushFrontKeepsConsistent(pool);
      FlushDisplayQueueDropsQueueReferences(next);
    }
  }

  /** A step of the flush as implemented changes no record of a consistent pool. */
  lemma FlushFrontAsWrittenKeepsRecords(pool: FramePool)
    requires Consistent(pool)
    requires |pool.displayFrames| > 0
    ensures FlushFrontAsWritten(pool) == pool.(displayFrames := pool.displayFrames[1..])
    ensures Consistent(FlushFrontAsWritten(pool))
  {
    var next := FlushFrontAsWritten(pool);
    QueuedNotAvailable(pool, 0);
    assert pool.records[pool.displayFrames[0] := pool.records[pool.displayFrames[0]]] == pool.records;
    forall i | 0 <= i < |next.displayFrames|
      ensures next.displayFrames[i] < next.numImages
    {
      assert next.displayFrames[i] == pool.displayFrames[i + 1];
    }
    forall p | 0 <= p < MaxFramebufferImages
      ensures next.records[p].refCount >= PoolReferences(next, p)
    {
      CountFront(pool.displayFrames, p);
    }
  }

  /** The flush as implemented releases nothing on a consistent pool: every
      queued record still holds the queue's reference, so none is available. */
  lemma {:induction false} FlushAsWrittenKeepsEveryRecord(pool: FramePool)
    requires Consistent(pool)
    ensures FlushDisplayQueueAsWritten(pool).Success?
    ensures FlushDisplayQueueAsWritten(pool).value.1.records == pool.records
    decreases |pool.displayFrames|
  {
    if |pool.displayFrames| > 0 {
      FlushFrontAsWrittenKeepsRecords(pool);
      FlushAsWrittenKeepsEveryRecord(FlushFrontAsWritten(pool));
    }
  }

  /** A one-image pool whose only picture was reserved and queued for display
      holds two references; the flush as implemented leaves both, the corrected
      flush drops the queue's. */
  lemma FlushAsWrittenLeaksQueueReference()
    ensures var pool := InitImagePool(InitialPool(), 1).value;
            var reserved := ReservePictureBuffer(pool).1;
            var queued := QueueDecodedPictureForDisplay(reserved, 0, 0).value.1;
            && queued.records[0].refCount == 2
            && FlushDisplayQueueAsWritten(queued).value.1.records[0].refCount == 2
            && FlushDisplayQueue(queued).value.1.records[0].refCount == 1
  {
    var pool := InitImagePool(InitialPool(), 1).value;
    InitialPoolConsistent();
    InitImagePoolKeepsConsistent(InitialPool(), 1);
    var (got, reserved) := ReservePictureBuffer(pool);
    assert pool.records[0].IsAvailable();
    assert got == Some(0);
    ReserveKeepsConsistent(pool);
    var queued := QueueDecodedPictureForDisplay(reserved, 0, 0).value.1;
    QueueForDisplayKeepsConsistent(reserved, 0, 0);
    FlushAsWrittenKeepsEveryRecord(queued);
    FlushDisplayQueueDropsQueueReferences(queued);
    assert queued.displayFrames == [0];
    assert multiset(queued.displayFrames)[0] == 1;
  }

  /** Deinitialising a consistent pool succeeds and leaves it empty: no
      images, an empty queue and mask, both counters at zero, and every
      record that was in use available with its objects detached. */
  lemma DeinitializeEmptiesPool(pool: FramePool)
    requires Consistent(pool)
    ensures Deinitialize(pool).Success?
    ensures var q := Deinitialize(pool).value;
            && Valid(q)
            && q.numImages == 0 && q.displayFrames == [] && q.ownedByDisplay == {}
            && q.frameNumInDecodeOrder == 0 && q.frameNumInDisplayOrder == 0
            && forall i :: 0 <= i < pool.numImages ==>
                 q.records[i].IsAvailable() && q.records[i].objects == Detached()
  {
    FlushAsWrittenKeepsEveryRecord(pool);
  }

  /** On a consistent pool, de-initialising gives the same pool whether the
      flush is the one implemented or the corrected one: the records the two
      flushes treat differently are all in use, and the tear-down resets
      their counts. */
  lemma DeinitializeHidesFlushFault(pool: FramePool)
    requires Consistent(pool)
    ensures FlushDisplayQueue(pool).Success?
    ensures Deinitialize(pool) == Success(TearDown(FlushDisplayQueue(pool).value.1))
  {
    FlushAsWrittenKeepsEveryRecord(pool);
    FlushDisplayQueueDropsQueueReferences(pool);
    var asWritten := FlushDisplayQueueAsWritten(pool).value.1;
    var corrected := FlushDisplayQueue(pool).value.1;
    forall i | pool.numImages <= i < MaxFramebufferImages
      ensures corrected.records[i] == asWritten.records[i]
    {
      assert i !in pool.displayFrames;
    }
    TearDownIgnoresCounts(asWritten, corrected);
  }

  /** Two pools that differ at most in the counts of records in use tear
      down alike. */
  lemma TearDownIgnoresCounts(x: FramePool, y: FramePool)
    requires Valid(x) && Valid(y)
    requires x == y.(records := x.records)
    requires forall i :: 0 <= i < MaxFramebufferImages ==>
               x.records[i] == if i < y.numImages then y.records[i].(refCount := x.records[i].refCount) else y.records[i]
    ensures TearDown(x) == TearDown(y)
  {
    assert TearDown(x).records == TearDown(y).records;
  }

  // ---------------------------------------------------------------------
  // Exhaustion
  // ---------------------------------------------------------------------

  /** `n` reservations in a row, with what each handed out. */
  function ReserveRepeatedly(pool: FramePool, n: nat): (r: (seq<Option<nat>>, FramePool))
    requires Valid(pool)
    ensures |r.0| == n && Valid(r.1)
    decreases n
  {
    if n == 0 then ([], pool)
    else
      var (got, q) := ReservePictureBuffer(pool);
      var (rest, q') := ReserveRepeatedly(q, n - 1);
      ([got] + rest, q')
  }

  /** The records below `j` are taken and the rest of the pool is available. */
  ghost predicate TakenBelow(pool: FramePool, j: nat) {
    && Valid(pool)
    && j <= pool.numImages
    && (forall i :: 0 <= i < j ==> !pool.records[i].IsAvailable())
    && (forall i :: j <= i < pool.numImages ==> pool.records[i].IsAvailable())
  }

  /** With the records below `j` taken and the rest free, a reservation
      hands out `j`. */
  lemma ReserveStep(pool: FramePool, j: nat)
    requires TakenBelow(pool, j)
    requires j < pool.numImages
    ensures ReservePictureBuffer(pool).0 == Some(j)
    ensures TakenBelow(ReservePictureBuffer(pool).1, j + 1)
    ensures ReservePictureBuffer(pool).1.numImages == pool.numImages
  {
    assert pool.records[j].IsAvailable();
  }

  lemma {:induction false} ReserveSweep(pool: FramePool, j: nat)
    requires TakenBelow(pool, j)
    ensures var got := ReserveRepeatedly(pool, pool.numImages - j + 1).0;
            && (forall k :: 0 <= k < pool.numImages - j ==> got[k] == Some(j + k))
            && got[pool.numImages - j] == None
    decreases pool.numImages - j
  {
    if j < pool.numImages {
      ReserveStep(pool, j);
      var q := ReservePictureBuffer(pool).1;
      ReserveSweep(q, j + 1);
      var rest := ReserveRepeatedly(q, q.numImages - (j + 1) + 1).0;
      assert ReserveRepeatedly(pool, pool.numImages - j + 1).0 == [Some(j)] + rest;
    }
  }

  /** Once every record of a pool is available, `numImages` reservations hand
      out records 0, 1, ... in order and the next one fails rather than reuse
      a record in flight. */
  lemma PoolExhaustion(pool: FramePool)
    requires Valid(pool)
    requires forall i :: 0 <= i < pool.numImages ==> pool.records[i].IsAvailable()
    ensures var got := ReserveRepeatedly(pool, pool.numImages + 1).0;
            && (forall k :: 0 <= k < pool.numImages ==> got[k] == Some(k))
            && got[pool.numImages] == None
  {
    assert TakenBelow(pool, 0);
    ReserveSweep(pool, 0);
    assert pool.numImages - 0 + 1 == pool.numImages + 1;
  }

  /** The same for a freshly sized pool of `n` images. */
  lemma FreshPoolExhaustion(n: nat)
    requires 0 < n <= MaxFramebufferImages
    ensures InitImagePool(InitialPool(), n).Success?
    ensures var got := ReserveRepeatedly(InitImagePool(InitialPool(), n).value, n + 1).0;
            && (forall k :: 0 <= k < n ==> got[k] == Some(k))
            && got[n] == None
  {
    PoolExhaustion(InitImagePool(InitialPool(), n).value);
  }

  /** Reservations in a row keep a consistent pool consistent. */
  lemma {:induction false} ReserveRepeatedlyKeepsConsistent(pool: FramePool, n: nat)
    requires Consistent(pool)
    ensures Consistent(ReserveRepeatedly(pool, n).1)
    decreases n
  {
    if n > 0 {
      ReserveKeepsConsistent(pool);
      ReserveRepeatedlyKeepsConsistent(ReservePictureBuffer(pool).1, n - 1);
    }
  }

  // ---------------------------------------------------------------------
  // Display order
  // ---------------------------------------------------------------------

  /** Queues `ids` for display one after the other, all with one timestamp. */
  function QueueAllForDisplay(pool: FramePool, ids: seq<nat>, timestamp: int): (r: Result<FramePool>)
    requires Valid(pool)
    ensures r.Success? ==> Valid(r.value)
    decreases |ids|
  {
    if |ids| == 0 then Success(pool)
    else
      match QueueDecodedPictureForDisplay(pool, ids[0], timestamp)
      case Failure(e) => Failure(e)
      case Success((_, q)) => QueueAllForDisplay(q, ids[1..], timestamp)
  }

  /** Dequeues up to `n` pictures, stopping early at an empty queue. */
  function DequeueAll(pool: FramePool, n: nat): (r: Result<(seq<DecodedFrame>, FramePool)>)
    requires Valid(pool)
    ensures r.Success? ==> Valid(r.value.1) && |r.value.0| <= n && |r.value.0| <= |pool.displayFrames|
    decreases n
  {
    if n == 0 then Success(([], pool))
    else
      match DequeueDecodedPicture(pool)
      case Failure(e) => Failure(e)
      case Success((_, frame, q)) =>
        match frame
        case None => Success(([], q))
        case Some(f) =>
          match DequeueAll(q, n - 1)
          case Failure(e) => Failure(e)
          case Success((rest, q')) => Success(([f] + rest, q'))
  }

  /** Queueing a list for display keeps a consistent pool consistent. */
  lemma {:induction false} QueueAllKeepsConsistent(pool: FramePool, ids: seq<nat>, timestamp: int)
    requires Consistent(pool)
    ensures QueueAllForDisplay(pool, ids, timestamp).Success? ==> Consistent(QueueAllForDisplay(pool, ids, timestamp).value)
    decreases |ids|
  {
    if |ids| > 0 && Holds(pool, ids[0]) {
      QueueForDisplayKeepsConsistent(pool, ids[0], timestamp);
      QueueAllKeepsConsistent(QueueDecodedPictureForDisplay(pool, ids[0], timestamp).value.1, ids[1..], timestamp);
    }
  }

  /** Dequeueing several pictures keeps a consistent pool consistent. */
  lemma {:induction false} DequeueAllKeepsConsistent(pool: FramePool, n: nat)
    requires Consistent(pool)
    ensures DequeueAll(pool, n).Success? ==> Consistent(DequeueAll(pool, n).value.1)
    decreases n
  {
    if n > 0 && DequeueDecodedPicture(pool).Success? {
      DequeueKeepsConsistent(pool);
      DequeueAllKeepsConsistent(DequeueDecodedPicture(pool).value.2, n - 1);
    }
  }

  /** What queueing `ids` one by one does, as relations between the pool
      before (`pool`) and after (`q`). */
  ghost predicate QueuedInOrder(pool: FramePool, ids: seq<nat>, q: FramePool) {
    && |q.records| == |pool.records| == MaxFramebufferImages
    && q.displayFrames == pool.displayFrames + ids
    && q.ownedByDisplay == pool.ownedByDisplay
    && q.numImages == pool.numImages
    && q.frameNumInDisplayOrder == pool.frameNumInDisplayOrder + |ids|
    && (forall k :: 0 <= k < |ids| ==> ids[k] < MaxFramebufferImages)
    && (forall k :: 0 <= k < |ids| ==> q.records[ids[k]].displayOrder == pool.frameNumInDisplayOrder + k)
    && (forall k :: 0 <= k < |ids| ==> q.records[ids[k]].decodeOrder == pool.records[ids[k]].decodeOrder)
    && (forall i :: 0 <= i < MaxFramebufferImages && i !in ids ==> q.records[i] == pool.records[i])
  }

  /** One queueing followed by the rest composes to queueing the lot. */
  lemma QueuedInOrderCons(pool: FramePool, q: FramePool, r: FramePool, ids: seq<nat>)
    requires |ids| > 0
    requires forall k, l :: 0 <= k < l < |ids| ==> ids[k] != ids[l]
    requires QueuedInOrder(pool, [ids[0]], q)
    requires QueuedInOrder(q, ids[1..], r)
    ensures QueuedInOrder(pool, ids, r)
  {
    var rest := ids[1..];
    assert forall k :: 0 <= k < |rest| ==> rest[k] == ids[k + 1];
    assert pool.displayFrames + ids == (pool.displayFrames + [ids[0]]) + rest;
    assert ids[0] !in rest;
    forall k | 0 <= k < |ids|
      ensures ids[k] < MaxFramebufferImages
      ensures r.records[ids[k]].displayOrder == pool.frameNumInDisplayOrder + k
      ensures r.records[ids[k]].decodeOrder == pool.records[ids[k]].decodeOrder
    {
      if k > 0 {
        assert ids[k] == rest[k - 1];
        assert ids[k] != ids[0];
      } else {
        assert [ids[0]][0] == ids[0];
      }
    }
  }

  /** Queueing distinct pictures in range appends them to the FIFO and stamps
      them with successive display orders. */
  lemma {:induction false} QueueAllStampsInOrder(pool: FramePool, ids: seq<nat>, timestamp: int)
    requires Valid(pool)
    requires forall k :: 0 <= k < |ids| ==> ids[k] < pool.numImages
    requires forall k, l :: 0 <= k < l < |ids| ==> ids[k] != ids[l]
    ensures QueueAllForDisplay(pool, ids, timestamp).Success?
    ensures QueuedInOrder(pool, ids, QueueAllForDisplay(pool, ids, timestamp).value)
    decreases |ids|
  {
    if |ids| > 0 {
      var q := QueueDecodedPictureForDisplay(pool, ids[0], timestamp).value.1;
      assert QueuedInOrder(pool, [ids[0]], q);
      var rest := ids[1..];
      assert forall k :: 0 <= k < |rest| ==> rest[k] == ids[k + 1];
      QueueAllStampsInOrder(q, rest, timestamp);
      QueuedInOrderCons(pool, q, QueueAllForDisplay(q, rest, timestamp).value, ids);
    }
  }

  /** The FIFO returns pictures in the order they were queued: with distinct
      entries whose display bits are clear, dequeuing the whole queue yields
      one frame per entry, front first, each carrying its record's stamps. */
  lemma {:induction false} DequeueAllInOrder(pool: FramePool)
    requires Valid(pool)
    requires forall i :: 0 <= i < |pool.displayFrames| ==>
               pool.displayFrames[i] < pool.numImages && pool.displayFrames[i] !in pool.ownedByDisplay
    requires forall i, j :: 0 <= i < j < |pool.displayFrames| ==> pool.displayFrames[i] != pool.displayFrames[j]
    ensures DequeueAll(pool, |pool.displayFrames|).Success?
    ensures var (frames, q) := DequeueAll(pool, |pool.displayFrames|).value;
            && |frames| == |pool.displayFrames|
            && q.displayFrames == []
            && (forall k :: 0 <= k < |frames| ==>
                  && frames[k].pictureIndex == pool.displayFrames[k]
                  && frames[k].decodeOrder == pool.records[pool.displayFrames[k]].decodeOrder
                  && frames[k].displayOrder == pool.records[pool.displayFrames[k]].displayOrder
                  && frames[k].timestamp == pool.records[pool.displayFrames[k]].timestamp)
    decreases |pool.displayFrames|
  {
    if |pool.displayFrames| > 0 {
      var front := pool.displayFrames[0];
      var q := DequeueDecodedPicture(pool).value.2;
      assert q.displayFrames == pool.displayFrames[1..];
      forall i | 0 <= i < |q.displayFrames|
        ensures q.displayFrames[i] < q.numImages && q.displayFrames[i] !in q.ownedByDisplay
      {
        assert q.displayFrames[i] == pool.displayFrames[i + 1];
      }
      DequeueAllInOrder(q);
      forall k | 1 <= k < |pool.displayFrames|
        ensures q.records[q.displayFrames[k - 1]] == pool.records[pool.displayFrames[k]]
      {
        assert q.displayFrames[k - 1] == pool.displayFrames[k] != front;
      }
    }
  }

  /** Display order end to end: distinct pictures queued on an empty FIFO
      come back in the order queued, with successive display orders. */
  lemma QueueThenDequeueAll(pool: FramePool, ids: seq<nat>, timestamp: int)
    requires Valid(pool)
    requires pool.displayFrames == []
    requires forall k :: 0 <= k < |ids| ==> ids[k] < pool.numImages && ids[k] !in pool.ownedByDisplay
    requires forall k, l :: 0 <= k < l < |ids| ==> ids[k] != ids[l]
    ensures QueueAllForDisplay(pool, ids, timestamp).Success?
    ensures DequeueAll(QueueAllForDisplay(pool, ids, timestamp).value, |ids|).Success?
    ensures var frames := DequeueAll(QueueAllForDisplay(pool, ids, timestamp).value, |ids|).value.0;
            && |frames| == |ids|
            && forall k :: 0 <= k < |ids| ==>
                 frames[k].pictureIndex == ids[k] && frames[k].displayOrder == pool.frameNumInDisplayOrder + k
  {
    QueueAllStampsInOrder(pool, ids, timestamp);
    var q := QueueAllForDisplay(pool, ids, timestamp).value;
    assert q.displayFrames == ids;
    DequeueAllInOrder(q);
  }

  /** The two-picture case: a queued before b is dequeued before b. */
  lemma DisplayFifo(pool: FramePool, a: nat, b: nat, ta: int, tb: int)
    requires Valid(pool)
    requires pool.displayFrames == []
    requires a < pool.numImages && b < pool.numImages && a != b
    requires a !in pool.ownedByDisplay && b !in pool.ownedByDisplay
    ensures var q1 := QueueDecodedPictureForDisplay(pool, a, ta).value.1;
            var q2 := QueueDecodedPictureForDisplay(q1, b, tb).value.1;
            var d1 := DequeueDecodedPicture(q2);
            && d1.Success? && d1.value.0 == 2 && d1.value.1.Some? && d1.value.1.value.pictureIndex == a
            && var d2 := DequeueDecodedPicture(d1.value.2);
               && d2.Success? && d2.value.0 == 1 && d2.value.1.Some? && d2.value.1.value.pictureIndex == b
               && d1.value.1.value.displayOrder < d2.value.1.value.displayOrder
  {
    var q1 := QueueDecodedPictureForDisplay(pool, a, ta).value.1;
    var q2 := QueueDecodedPictureForDisplay(q1, b, tb).value.1;
    assert q2.displayFrames == [a, b];
  }

  /** The displayed-frame count follows the queue: queueing adds one, and a
      dequeue reports the count before it and removes one. */
  lemma DisplayedFrameCountTracksQueue(pool: FramePool, picId: int, timestamp: int)
    requires Valid(pool)
    ensures QueueDecodedPictureForDisplay(pool, picId, timestamp).Success? ==>
              GetDisplayedFrameCount(QueueDecodedPictureForDisplay(pool, picId, timestamp).value.1)
                == GetDisplayedFrameCount(pool) + 1
    ensures DequeueDecodedPicture(pool).Success? && GetDisplayedFrameCount(pool) > 0 ==>
              && DequeueDecodedPicture(pool).value.0 == GetDisplayedFrameCount(pool)
              && GetDisplayedFrameCount(DequeueDecodedPicture(pool).value.2) == GetDisplayedFrameCount(pool) - 1
  {
  }

  // ---------------------------------------------------------------------
  // Release round trips
  // ---------------------------------------------------------------------

  /** Releasing the frame just dequeued, with the stamps it reported,
      succeeds and gives the mask back as it was, one reference fewer. */
  lemma DequeueThenRelease(pool: FramePool, fence: bool, semaphore: bool)
    requires Valid(pool)
    requires |pool.displayFrames| > 0
    requires Holds(pool, pool.displayFrames[0]) && pool.displayFrames[0] !in pool.ownedByDisplay
    ensures var (_, frame, q) := DequeueDecodedPicture(pool).value;
            var f := frame.value;
            var released := ReleaseOne(q, FrameRelease(f.pictureIndex, f.decodeOrder, f.displayOrder, fence, semaphore));
            && f.pictureIndex == pool.displayFrames[0]
            && released.Success?
            && released.value.ownedByDisplay == pool.ownedByDisplay
            && released.value.displayFrames == pool.displayFrames[1..]
            && released.value.records[f.pictureIndex].refCount == pool.records[f.pictureIndex].refCount - 1
            && released.value.records[f.pictureIndex].objects == Detached()
  {
    var p := pool.displayFrames[0];
    var q := DequeueDecodedPicture(pool).value.2;
    assert q.ownedByDisplay - {p} == pool.ownedByDisplay;
  }

  /** One picture's life in an idle consistent pool: reserved, submitted for
      decode, queued for display, dequeued and released.  The frame carries
      the decode and display orders stamped on the way and the signals the
      submission asked for; after the release the mask is as before, the
      picture keeps only the reservation's reference and nothing stays
      attached. */
  lemma PictureLifecycle(pool: FramePool, req: DecodeRequest, timestamp: int, fence: bool, semaphore: bool)
    requires Consistent(pool)
    requires pool.displayFrames == []
    requires exists i :: 0 <= i < pool.numImages && pool.records[i].IsAvailable()
    ensures var (got, reserved) := ReservePictureBuffer(pool);
            && got.Some?
            && var p := got.value;
               var decoding := QueuePictureForDecode(reserved, p, req);
               && decoding.Success?
               && var queued := QueueDecodedPictureForDisplay(decoding.value.1, p, timestamp);
                  && queued.Success?
                  && var dequeued := DequeueDecodedPicture(queued.value.1);
                     && dequeued.Success?
                     && dequeued.value.1 == Some(DecodedFrame(p, pool.frameNumInDecodeOrder, pool.frameNumInDisplayOrder, timestamp,
                                                              pool.records[p].hasFrameCompleteFence || req.wantsFrameCompleteFence,
                                                              pool.records[p].hasFrameCompleteSemaphore || req.wantsFrameCompleteSemaphore))
                     && var released := ReleaseOne(dequeued.value.2,
                                                   FrameRelease(p, pool.frameNumInDecodeOrder, pool.frameNumInDisplayOrder, fence, semaphore));
                        && released.Success?
                        && released.value.ownedByDisplay == pool.ownedByDisplay
                        && released.value.displayFrames == []
                        && released.value.records[p].refCount == 1
                        && released.value.records[p].objects == Detached()
                        && !released.value.records[p].inDecodeQueue
  {
    var (got, reserved) := ReservePictureBuffer(pool);
    var p := got.value;
    assert pool.records[p].refCount == 0;
    assert p !in pool.ownedByDisplay by {
      assert PoolReferences(pool, p) <= 0;
    }
    var decoding := QueuePictureForDecode(reserved, p, req).value.1;
    var queued := QueueDecodedPictureForDisplay(decoding, p, timestamp).value.1;
    assert queued.displayFrames == [p];
  }

  // ---------------------------------------------------------------------
  // Order stamps
  // ---------------------------------------------------------------------

  /** Writing back the decode order a call returned undoes the call. */
  lemma DecodeOrderRoundTrip(pool: FramePool, picId: int, n: int)
    requires Valid(pool)
    requires Holds(pool, picId)
    ensures var (prior, q) := SetPicNumInDecodeOrder(pool, picId, n);
            SetPicNumInDecodeOrder(q, picId, prior) == (n, pool)
  {
    var (prior, q) := SetPicNumInDecodeOrder(pool, picId, n);
    assert q.records[picId := q.records[picId].(decodeOrder := prior)] == pool.records;
  }

  /** Writing back the display order a call returned undoes the call. */
  lemma DisplayOrderRoundTrip(pool: FramePool, picId: int, n: int)
    requires Valid(pool)
    requires Holds(pool, picId)
    ensures var (prior, q) := SetPicNumInDisplayOrder(pool, picId, n);
            SetPicNumInDisplayOrder(q, picId, prior) == (n, pool)
  {
    var (prior, q) := SetPicNumInDisplayOrder(pool, picId, n);
    assert q.records[picId := q.records[picId].(displayOrder := prior)] == pool.records;
  }
}

=== FILE: memory_type.dfy ===
/** Choosing a device memory type: the first of the device's 32 memory types
    that the resource allows (bit i of `typeBits`) and whose property flags
    include every flag the caller requires.  The device's property query is
    an input: `propertyFlags` holds the flags of its 32 memory types. */
module MemoryType {

  /** The number of memory types a device reports at most (Vulkan
      specification, VK_MAX_MEMORY_TYPES). */
  const MaxMemoryTypes: nat := 32

  /** VK_SUCCESS or VK_ERROR_VALIDATION_FAILED_EXT. */
  datatype Status = Ok | ValidationFailed

  /** `x` shifted right by one bit `i` times. */
  function ShiftedRight(x: bv32, i: nat): bv32
    decreases i
  {
    if i == 0 then x else ShiftedRight(x >> 1, i - 1)
  }

  /** One more shift is a shift of the shifted value. */
  lemma {:induction false} ShiftedRightStep(x: bv32, i: nat)
    ensures ShiftedRight(x, i + 1) == ShiftedRight(x, i) >> 1
    decreases i
  {
    if i > 0 {
      ShiftedRightStep(x >> 1, i - 1);
    }
  }

  /** Memory type `i` is allowed by the resource: bit `i` of `typeBits` is
      set. */
  predicate TypeAllowed(typeBits: bv32, i: nat)
    requires i < MaxMemoryTypes
  {
    ShiftedRight(typeBits, i) & 1 == 1
  }

  /** Memory type `i` is allowed and has every required property flag. */
  predicate Qualifies(propertyFlags: seq<bv32>, typeBits: bv32, requirementsMask: bv32, i: nat)
    requires |propertyFlags| == MaxMemoryTypes && i < MaxMemoryTypes
  {
    TypeAllowed(typeBits, i) && propertyFlags[i] & requirementsMask == requirementsMask
  }

  /** Returns the lowest qualifying memory type; when none qualifies, the
      validation error and the caller's index unchanged. */
  method MapMemoryTypeToIndex(propertyFlags: seq<bv32>, typeBits: bv32, requirementsMask: bv32, typeIndex: nat)
    returns (status: Status, index: nat)
    requires |propertyFlags| == MaxMemoryTypes
    ensures status == Ok <==> exists i :: 0 <= i < MaxMemoryTypes && Qualifies(propertyFlags, typeBits, requirementsMask, i)
    ensures status == Ok ==> && index < MaxMemoryTypes
                             && Qualifies(propertyFlags, typeBits, requirementsMask, index)
                             && forall j :: 0 <= j < index ==> !Qualifies(propertyFlags, typeBits, requirementsMask, j)
    ensures status == ValidationFailed ==> index == typeIndex
  {
    var bits := typeBits;
    var i: nat := 0;
    while i < MaxMemoryTypes
      invariant i <= MaxMemoryTypes
      invariant bits == ShiftedRight(typeBits, i)
      invariant forall j :: 0 <= j < i ==> !Qualifies(propertyFlags, typeBits, requirementsMask, j)
    {
      if bits & 1 == 1 {
        if propertyFlags[i] & requirementsMask == requirementsMask {
          assert Qualifies(propertyFlags, typeBits, requirementsMask, i);
          return Ok, i;
        }
      }
      ShiftedRightStep(typeBits, i);
      bits := bits >> 1;
      i := i + 1;
    }
    return ValidationFailed, typeIndex;
  }

  /** Shifting zero leaves zero. */
  lemma {:induction false} ShiftedRightZero(i: nat)
    ensures ShiftedRight(0, i) == 0
    decreases i
  {
    if i > 0 {
      ShiftedRightZero(i - 1);
    }
  }

  /** A resource that allows no memory type finds none, whatever it
      requires. */
  lemma NoAllowedTypeNoMatch(propertyFlags: seq<bv32>, requirementsMask: bv32)
    requires |propertyFlags| == MaxMemoryTypes
    ensures forall i :: 0 <= i < MaxMemoryTypes ==> !Qualifies(propertyFlags, 0, requirementsMask, i)
  {
    forall i | 0 <= i < MaxMemoryTypes
      ensures !Qualifies(propertyFlags, 0, requirementsMask, i)
    {
      ShiftedRightZero(i);
    }
  }
}

=== FILE: picture_map.dfy ===
/** The decoder's picture-to-slot map: for each of the MAX_FRM_CNT picture
    indices of the frame pool, the DPB slot it occupies (or a negative value),
    the bitmask of mapped pictures and the bitmask of pictures decoded as
    fields, together with the slot allocator they feed. */
module PictureMap {
  import opened Wrappers
  import opened DpbSlots

  /** MAX_FRM_CNT: picture indices of the frame pool the map can hold. */
  const MaxFrmCnt: nat := 32

  /** The decoder fields that the reference-list builders read and write.
      `currentPictureId` is the decode-order counter used as slot age. */
  datatype DecoderDpb = DecoderDpb(
    pictureToDpbSlot: seq<int>,
    dpbSlotsMask: set<nat>,
    fieldPicFlagMask: set<nat>,
    dpb: DpbSlots,
    maxNumDecodeSurfaces: nat,
    currentPictureId: int)
  {
    /** Picture `p` is mapped to a masked slot that holds that very picture. */
    ghost predicate Bound(p: nat)
      requires p < |pictureToDpbSlot|
    {
      var s := pictureToDpbSlot[p];
      0 <= s < dpb.maxSize && s in dpb.slotInUseMask && s < |dpb.dpb| && dpb.dpb[s].picBuf == Some(PicBuf(p))
    }

    /** A picture is in the mapped mask exactly when it has a slot, and every
        mapped picture's slot is allocated and bound to it. */
    ghost predicate Valid() {
      && |pictureToDpbSlot| == MaxFrmCnt
      && maxNumDecodeSurfaces <= MaxFrmCnt
      && dpb.Valid()
      && (forall p :: p in dpbSlotsMask ==> p < MaxFrmCnt)
      && (forall p :: p in fieldPicFlagMask ==> p < MaxFrmCnt)
      && (forall p :: 0 <= p < MaxFrmCnt ==> (p in dpbSlotsMask <==> pictureToDpbSlot[p] >= 0))
      && (forall p :: 0 <= p < MaxFrmCnt && pictureToDpbSlot[p] >= 0 ==> Bound(p))
    }

    /** The picture index of a pool buffer, or -1 for a null buffer or an
        index outside the decode surfaces in use. */
    function GetPicIdx(pic: Option<PicBuf>): (r: int)
      ensures r >= 0 <==> pic.Some? && 0 <= pic.value.picIdx < maxNumDecodeSurfaces
      ensures r >= 0 ==> r == pic.value.picIdx && pic == Some(PicBuf(r))
      ensures r < 0 ==> r == -1
    {
      if pic.Some? && 0 <= pic.value.picIdx < maxNumDecodeSurfaces then pic.value.picIdx else -1
    }

    function GetPicDpbSlot(picIndex: nat): (r: int)
      requires Valid() && picIndex < MaxFrmCnt
      ensures r >= 0 <==> picIndex in dpbSlotsMask
      ensures r >= 0 ==> r < dpb.maxSize && r in dpb.slotInUseMask
    {
      pictureToDpbSlot[picIndex]
    }

    function GetFieldPicFlag(picIndex: nat): (r: bool)
      requires picIndex < maxNumDecodeSurfaces
    {
      picIndex in fieldPicFlagMask
    }

    /** Sets or clears the field bit of a picture and returns its old value. */
    function SetFieldPicFlag(picIndex: nat, fieldPicFlag: bool): (r: (bool, DecoderDpb))
      requires Valid() && picIndex < maxNumDecodeSurfaces
      ensures r.1.Valid() && r.1.maxNumDecodeSurfaces == maxNumDecodeSurfaces
      ensures r.0 == GetFieldPicFlag(picIndex)
      ensures r.1.GetFieldPicFlag(picIndex) == fieldPicFlag
      ensures forall q :: q != picIndex ==> (q in r.1.fieldPicFlagMask <==> q in fieldPicFlagMask)
      ensures r.1.(fieldPicFlagMask := fieldPicFlagMask) == this
    {
      var mask := if fieldPicFlag then fieldPicFlagMask + {picIndex} else fieldPicFlagMask - {picIndex};
      (picIndex in fieldPicFlagMask, this.(fieldPicFlagMask := mask))
    }

    /** Stores the slot of a picture and returns the old one.  A non-negative
        slot marks the picture as mapped; a negative one unmaps it and, if it
        had a slot, frees that slot in the allocator. */
    function SetPicDpbSlot(picIndex: nat, dpbSlot: int): (r: (int, DecoderDpb))
      requires Valid() && picIndex < MaxFrmCnt
      ensures r.0 == pictureToDpbSlot[picIndex]
      ensures r.1.pictureToDpbSlot == pictureToDpbSlot[picIndex := dpbSlot]
      ensures r.1.dpbSlotsMask == if dpbSlot >= 0 then dpbSlotsMask + {picIndex} else dpbSlotsMask - {picIndex}
      ensures dpbSlot >= 0 || r.0 < 0 ==> r.1.dpb == dpb
      ensures dpbSlot < 0 && r.0 >= 0 ==>
                r.1.dpb.Valid() && r.1.dpb == dpb.FreeSlot(r.0 as nat)
                && r.1.dpb.slotInUseMask == dpb.slotInUseMask - {r.0 as nat}
      ensures dpbSlot < 0 ==> r.1.Valid()
      ensures r.1.fieldPicFlagMask == fieldPicFlagMask && r.1.maxNumDecodeSurfaces == maxNumDecodeSurfaces
      ensures r.1.currentPictureId == currentPictureId
    {
      var oldSlot := pictureToDpbSlot[picIndex];
      var map' := pictureToDpbSlot[picIndex := dpbSlot];
      if dpbSlot >= 0 then
        (oldSlot, this.(pictureToDpbSlot := map', dpbSlotsMask := dpbSlotsMask + {picIndex}))
      else if oldSlot >= 0 then
        var r := this.(pictureToDpbSlot := map', dpbSlotsMask := dpbSlotsMask - {picIndex},
                       dpb := dpb.FreeSlot(oldSlot as nat));
        assert r.Valid() by {
          forall p | 0 <= p < MaxFrmCnt && r.pictureToDpbSlot[p] >= 0
            ensures r.Bound(p)
          {
            assert Bound(p);
            assert pictureToDpbSlot[p] != oldSlot;
          }
        }
        (oldSlot, r)
      else
        (oldSlot, this.(pictureToDpbSlot := map', dpbSlotsMask := dpbSlotsMask - {picIndex}))
    }

    /** Returns the slot of picture `picIndex`, allocating and binding one to
        `pic` at the current picture id when it has none.  Running out of free
        slots violates the decoder's assertion, which here is the failure. */
    function MapOrAllocate(picIndex: nat, pic: Option<PicBuf>): (r: Result<(int, DecoderDpb)>)
      requires Valid() && picIndex < MaxFrmCnt && pic == Some(PicBuf(picIndex))
      ensures r.Failure? <==> pictureToDpbSlot[picIndex] < 0 && dpb.available == []
      ensures r.Success? ==>
                var (slot, d) := r.value;
                && d.Valid()
                && 0 <= slot < dpb.maxSize
                && d.pictureToDpbSlot == pictureToDpbSlot[picIndex := slot]
                && d.dpbSlotsMask == dpbSlotsMask + {picIndex}
                && d.fieldPicFlagMask == fieldPicFlagMask
                && d.maxNumDecodeSurfaces == maxNumDecodeSurfaces
                && d.currentPictureId == currentPictureId
                && d.dpb.maxSize == dpb.maxSize
                && (forall s :: 0 <= s < dpb.maxSize && s != slot ==> d.dpb.dpb[s] == dpb.dpb[s])
                && (pictureToDpbSlot[picIndex] >= 0 ==> slot == pictureToDpbSlot[picIndex] && d == this)
                && (pictureToDpbSlot[picIndex] < 0 ==>
                      && slot == dpb.available[0] as int
                      && slot !in dpb.slotInUseMask
                      && d.dpb.slotInUseMask == dpb.slotInUseMask + {slot as nat}
                      && d.dpb.available == dpb.available[1..]
                      && d.dpb.dpb[slot].pictureId == currentPictureId)
    {
      var mapped := pictureToDpbSlot[picIndex];
      if mapped >= 0 then
        Success((mapped, this))
      else
        var (slot, taken) := dpb.AllocateSlot();
        if slot < 0 then
          Failure("AllocateSlot: no DPB slot is available")
        else
          var (_, bound) := taken.SetPictureResource(slot as nat, pic, currentPictureId);
          var d := this.(pictureToDpbSlot := pictureToDpbSlot[picIndex := slot],
                         dpbSlotsMask := dpbSlotsMask + {picIndex},
                         dpb := bound);
          assert d.Valid() by {
            forall p | 0 <= p < MaxFrmCnt && d.pictureToDpbSlot[p] >= 0
              ensures d.Bound(p)
            {
              if p != picIndex {
                assert Bound(p);
              }
            }
          }
          Success((slot, d))
    }

    /** Marks the slot of a mapped picture as holding a reference now. */
    function MarkPictureInUse(picIndex: nat): (r: DecoderDpb)
      requires Valid() && picIndex < MaxFrmCnt && pictureToDpbSlot[picIndex] >= 0
      ensures r.Valid() && r.dpb.maxSize == dpb.maxSize && pictureToDpbSlot[picIndex] < dpb.maxSize
      ensures r.dpb.dpb[pictureToDpbSlot[picIndex]].inUse
      ensures r.dpb.dpb[pictureToDpbSlot[picIndex]].pictureId == currentPictureId
      ensures r.(dpb := dpb) == this
      ensures r.dpb.slotInUseMask == dpb.slotInUseMask && r.dpb.available == dpb.available
      ensures forall s :: 0 <= s < dpb.maxSize && s != pictureToDpbSlot[picIndex] ==> r.dpb.dpb[s] == dpb.dpb[s]
    {
      var slot := pictureToDpbSlot[picIndex] as nat;
      var r := this.(dpb := dpb.MarkInUse(slot, currentPictureId));
      assert r.Valid() by {
        forall p | 0 <= p < MaxFrmCnt && r.pictureToDpbSlot[p] >= 0
          ensures r.Bound(p)
        {
          assert Bound(p);
        }
      }
      r
    }
  }

  /** The decoder as constructed: every map entry -1, empty masks and a
      three-slot allocator. */
  function InitialDecoderDpb(): (r: DecoderDpb)
    ensures r.Valid()
    ensures forall p :: 0 <= p < MaxFrmCnt ==> r.pictureToDpbSlot[p] == -1
    ensures r.dpbSlotsMask == {} && r.dpb.maxSize == 3 && r.dpb.available == [0, 1, 2]
  {
    var (_, slots) := DpbSlots(0, {}, [], []).Init(3, false);
    assert slots.available == Range(0, 3);
    assert slots.available == [0, 1, 2] by {
      assert slots.available[0] == 0 && slots.available[1] == 1 && slots.available[2] == 2;
    }
    DecoderDpb(seq(MaxFrmCnt, _ => -1), {}, {}, slots, 1, 0)
  }

  /** The unmapping of ResetPicDpbSlots from picture index `i` on: every
      mapped picture from `i` below maxNumDecodeSurfaces that is absent from
      `validMask` loses its slot, which returns to the allocator. */
  function ResetPictures(d: DecoderDpb, validMask: set<nat>, i: nat): (r: DecoderDpb)
    requires d.Valid() && i <= d.maxNumDecodeSurfaces
    ensures r.Valid()
    ensures forall p :: 0 <= p < MaxFrmCnt ==>
              r.pictureToDpbSlot[p] == if Reset(d, validMask, p) && i <= p then -1 else d.pictureToDpbSlot[p]
    ensures forall p :: p in r.dpbSlotsMask <==> p in d.dpbSlotsMask && !(Reset(d, validMask, p) && i <= p)
    ensures r.fieldPicFlagMask == d.fieldPicFlagMask && r.maxNumDecodeSurfaces == d.maxNumDecodeSurfaces
    ensures r.currentPictureId == d.currentPictureId && r.dpb.maxSize == d.dpb.maxSize
    decreases d.maxNumDecodeSurfaces - i
  {
    if i == d.maxNumDecodeSurfaces then
      d
    else
      var next := if Reset(d, validMask, i) then d.SetPicDpbSlot(i, -1).1 else d;
      assert forall p :: i < p ==> Reset(next, validMask, p) == Reset(d, validMask, p);
      ResetPictures(next, validMask, i + 1)
  }

  /** Unmaps, in index order, every mapped picture below maxNumDecodeSurfaces
      that is absent from `validMask`, freeing its slot; returns the new mask
      of mapped pictures.  The slots returned to the allocator are exactly
      those of the unmapped pictures. */
  method ResetPicDpbSlots(d: DecoderDpb, validMask: set<nat>) returns (mask: set<nat>, r: DecoderDpb)
    requires d.Valid()
    ensures r == ResetPictures(d, validMask, 0)
    ensures r.Valid() && mask == r.dpbSlotsMask
    ensures forall s :: 0 <= s < d.dpb.maxSize ==>
              (s in r.dpb.slotInUseMask <==>
                 s in d.dpb.slotInUseMask && !exists p :: 0 <= p < MaxFrmCnt && Reset(d, validMask, p) && d.pictureToDpbSlot[p] == s)
  {
    r := d;
    var i: nat := 0;
    while i < d.maxNumDecodeSurfaces
      invariant i <= d.maxNumDecodeSurfaces
      invariant r.Valid() && r.maxNumDecodeSurfaces == d.maxNumDecodeSurfaces
      invariant ResetPictures(r, validMask, i) == ResetPictures(d, validMask, 0)
      invariant ResetUpTo(d, validMask, r, i) && FreedUpTo(d, validMask, r, i)
    {
      ResetStep(d, validMask, r, i);
      r := if i in r.dpbSlotsMask && i !in validMask then r.SetPicDpbSlot(i, -1).1 else r;
      i := i + 1;
    }
    assert forall p :: 0 <= p < MaxFrmCnt && Reset(d, validMask, p) ==> p < i;
    mask := r.dpbSlotsMask;
  }

  /** `r` is `d` with the pictures below `i` that ResetPicDpbSlots unmaps
      already unmapped, and nothing else changed. */
  ghost predicate ResetUpTo(d: DecoderDpb, validMask: set<nat>, r: DecoderDpb, i: nat)
  {
    && |r.pictureToDpbSlot| == |d.pictureToDpbSlot| == MaxFrmCnt
    && (forall p :: 0 <= p < MaxFrmCnt ==>
          r.pictureToDpbSlot[p] == if Reset(d, validMask, p) && p < i then -1 else d.pictureToDpbSlot[p])
    && (forall p :: p in r.dpbSlotsMask <==> p in d.dpbSlotsMask && !(Reset(d, validMask, p) && p < i))
    && r.fieldPicFlagMask == d.fieldPicFlagMask && r.maxNumDecodeSurfaces == d.maxNumDecodeSurfaces
    && r.currentPictureId == d.currentPictureId && r.dpb.maxSize == d.dpb.maxSize
  }

  /** The slots in use in `r` are those of `d` less the slots of the pictures
      below `i` that ResetPicDpbSlots unmaps. */
  ghost predicate FreedUpTo(d: DecoderDpb, validMask: set<nat>, r: DecoderDpb, i: nat)
    requires |d.pictureToDpbSlot| == MaxFrmCnt
  {
    forall s :: 0 <= s < d.dpb.maxSize ==>
      (s in r.dpb.slotInUseMask <==>
         s in d.dpb.slotInUseMask && !exists p :: 0 <= p < i && p < MaxFrmCnt && Reset(d, validMask, p) && d.pictureToDpbSlot[p] == s)
  }

  /** One iteration of ResetPicDpbSlots keeps both loop facts. */
  lemma ResetStep(d: DecoderDpb, validMask: set<nat>, r: DecoderDpb, i: nat)
    requires d.Valid() && r.Valid() && i < d.maxNumDecodeSurfaces
    requires ResetUpTo(d, validMask, r, i) && FreedUpTo(d, validMask, r, i)
    ensures var next := if i in r.dpbSlotsMask && i !in validMask then r.SetPicDpbSlot(i, -1).1 else r;
            && next.Valid() && next.maxNumDecodeSurfaces == d.maxNumDecodeSurfaces
            && ResetPictures(next, validMask, i + 1) == ResetPictures(r, validMask, i)
            && ResetUpTo(d, validMask, next, i + 1) && FreedUpTo(d, validMask, next, i + 1)
  {
    if i in r.dpbSlotsMask && i !in validMask {
      assert Reset(d, validMask, i);
      var freed := d.pictureToDpbSlot[i];
      assert r.pictureToDpbSlot[i] == freed && freed >= 0;
      var next := r.SetPicDpbSlot(i, -1).1;
      forall s | 0 <= s < d.dpb.maxSize
        ensures s in next.dpb.slotInUseMask <==>
                  s in d.dpb.slotInUseMask && !exists p :: 0 <= p < i + 1 && Reset(d, validMask, p) && d.pictureToDpbSlot[p] == s
      {
        if s == freed {
          assert Reset(d, validMask, i) && d.pictureToDpbSlot[i] == s;
        }
      }
    } else {
      assert !Reset(d, validMask, i);
    }
  }

  /** Picture `p` is one that `ResetPicDpbSlots(validMask)` unmaps. */
  predicate Reset(d: DecoderDpb, validMask: set<nat>, p: nat)
  {
    p < d.maxNumDecodeSurfaces && p in d.dpbSlotsMask && p !in validMask
  }

  /** In a consistent map two different pictures never share a slot. */
  lemma DistinctPicturesDistinctSlots(d: DecoderDpb, p: nat, q: nat)
    requires d.Valid() && p < MaxFrmCnt && q < MaxFrmCnt && p != q
    requires d.pictureToDpbSlot[p] >= 0 && d.pictureToDpbSlot[q] >= 0
    ensures d.pictureToDpbSlot[p] != d.pictureToDpbSlot[q]
  {
    assert d.Bound(p) && d.Bound(q);
  }

  /** Setting a field flag and then setting it back to the returned old value
      restores the mask. */
  lemma FieldPicFlagRoundTrip(d: DecoderDpb, picIndex: nat, flag: bool)
    requires d.Valid() && picIndex < d.maxNumDecodeSurfaces
    ensures var (prior, d1) := d.SetFieldPicFlag(picIndex, flag);
            d1.SetFieldPicFlag(picIndex, prior).1 == d
  {
    var (prior, d1) := d.SetFieldPicFlag(picIndex, flag);
    var d2 := d1.SetFieldPicFlag(picIndex, prior).1;
    assert d2.fieldPicFlagMask == d.fieldPicFlagMask;
  }

  /** Mapping an unmapped picture and then unmapping it again restores the
      mapped mask, the map and the allocator's in-use mask. */
  lemma MapThenUnmap(d: DecoderDpb, picIndex: nat)
    requires d.Valid() && picIndex < MaxFrmCnt && d.pictureToDpbSlot[picIndex] == -1
    requires d.dpb.available != []
    ensures var r := d.MapOrAllocate(picIndex, Some(PicBuf(picIndex)));
            && r.Success?
            && var (_, d1) := r.value;
               var (_, d2) := d1.SetPicDpbSlot(picIndex, -1);
               && d2.Valid()
               && d2.pictureToDpbSlot == d.pictureToDpbSlot
               && d2.dpbSlotsMask == d.dpbSlotsMask
               && d2.dpb.slotInUseMask == d.dpb.slotInUseMask
  {
    var (slot, d1) := d.MapOrAllocate(picIndex, Some(PicBuf(picIndex))).value;
    var (_, d2) := d1.SetPicDpbSlot(picIndex, -1);
    assert d2.pictureToDpbSlot == d.pictureToDpbSlot[picIndex := slot][picIndex := -1];
    assert d.pictureToDpbSlot[picIndex := slot][picIndex := -1] == d.pictureToDpbSlot;
    assert picIndex !in d.dpbSlotsMask;
  }

  /** The slots of the decoder that hold a reference of the current picture. */
  ghost predicate MarkedNow(d: DecoderDpb, s: nat)
    requires d.Valid()
  {
    s < d.dpb.maxSize && s in d.dpb.slotInUseMask && d.dpb.dpb[s].inUse && d.dpb.dpb[s].pictureId == d.currentPictureId
  }

  /** One step of the first pass: the slot of picture `p` (the one it has, or
      a fresh one bound to `pic`), marked in use at the current picture id. */
  function MapAndMark(d: DecoderDpb, p: nat, pic: Option<PicBuf>): (r: Result<(int, DecoderDpb)>)
    requires d.Valid() && p < MaxFrmCnt && pic == Some(PicBuf(p))
    ensures r.Failure? <==> d.pictureToDpbSlot[p] < 0 && d.dpb.available == []
    ensures r.Success? ==>
              var d' := r.value.1;
              && d'.Valid()
              && d'.(pictureToDpbSlot := d.pictureToDpbSlot, dpbSlotsMask := d.dpbSlotsMask, dpb := d.dpb) == d
              && d'.dpb.maxSize == d.dpb.maxSize
              && r.value.0 == d'.pictureToDpbSlot[p] >= 0
              && MarkedNow(d', r.value.0)
              && d'.pictureToDpbSlot == d.pictureToDpbSlot[p := r.value.0]
              && (d.pictureToDpbSlot[p] >= 0 ==> r.value.0 == d.pictureToDpbSlot[p])
              && (d.pictureToDpbSlot[p] < 0 ==> r.value.0 !in d.dpb.slotInUseMask)
              && d.dpb.slotInUseMask <= d'.dpb.slotInUseMask
              && (forall s: nat :: MarkedNow(d, s) ==> MarkedNow(d', s))
  {
    match d.MapOrAllocate(p, pic)
    case Failure(e) => Failure(e)
    case Success((slot, mapped)) =>
      var marked := mapped.MarkPictureInUse(p);
      assert forall s: nat :: MarkedNow(d, s) ==> MarkedNow(marked, s) by {
        forall s: nat | MarkedNow(d, s) ensures MarkedNow(marked, s) {
          if d.pictureToDpbSlot[p] < 0 {
            assert s != slot;
          }
        }
      }
      Success((slot, marked))
  }
}

=== FILE: picture_parameters.dfy ===
/** The parameter-set bookkeeping of the decoder (VkParserVideoPictureParameters):
    the parent links among video, sequence and picture parameter sets with
    the table of the last set seen per type, the FIFO of sets waiting for a
    video session, and the id bitsets of the session-parameters object.
    Creating and updating the device's session-parameters object always
    succeeds in this model. */
module PictureParameters {
  import opened Wrappers

  /** Widths of the VPS, SPS and PPS id bitsets. */
  const MaxVpsIds: nat := 16
  const MaxSpsIds: nat := 32
  const MaxPpsIds: nat := 256

  datatype ParameterType = PpsType | SpsType | VpsType | InvalidType

  /** The codec-specific kind of a parser parameter set. */
  datatype StdType = H264Sps | H264Pps | H265Vps | H265Sps | H265Pps | UnknownStd

  function ParameterTypeOf(t: StdType): ParameterType {
    match t
    case H264Sps => SpsType
    case H265Sps => SpsType
    case H264Pps => PpsType
    case H265Pps => PpsType
    case H265Vps => VpsType
    case UnknownStd => InvalidType
  }

  /** A parser parameter set as its getters report it: its own id for its
      type and the ids of the sets it refers to (the SPS id of a PPS, the VPS
      id of an SPS), its update sequence count, whether a client object is
      attached, and its parent link (an index into the store of sets). */
  datatype StdParameterSet = StdParameterSet(
    stdType: StdType,
    vpsId: int,
    spsId: int,
    ppsId: int,
    updateSequenceCount: nat,
    hasClientObject: bool,
    parent: Option<nat>)

  // ---------------------------------------------------------------------
  // Parent links and the last-seen table
  // ---------------------------------------------------------------------

  /** The last set seen of each type, as indices into the store. */
  datatype LastSeen = LastSeen(pps: Option<nat>, sps: Option<nat>, vps: Option<nat>)

  /** The store of parameter sets (pointer identity is the index) and the
      last-seen table. */
  datatype Hierarchy = Hierarchy(sets: seq<StdParameterSet>, last: LastSeen)

  /** `i` names a set of type `t` in the store. */
  predicate OfType(sets: seq<StdParameterSet>, i: Option<nat>, t: ParameterType) {
    i.Some? ==> i.value < |sets| && ParameterTypeOf(sets[i.value].stdType) == t
  }

  /** The table names sets of the type it is filed under. */
  ghost predicate Valid(h: Hierarchy) {
    && OfType(h.sets, h.last.pps, PpsType)
    && OfType(h.sets, h.last.sps, SpsType)
    && OfType(h.sets, h.last.vps, VpsType)
  }

  /** The links a PPS gets: parented to the last SPS exactly when their SPS
      ids agree; no other set is re-linked. */
  ghost predicate PpsLinked(h: Hierarchy, obj: nat, h': Hierarchy)
    requires Valid(h) && obj < |h.sets| && |h'.sets| == |h.sets|
  {
    var linked := h.last.sps.Some? && h.sets[obj].spsId == h.sets[h.last.sps.value].spsId;
    && (linked ==> h'.sets[obj].parent == h.last.sps)
    && (!linked ==> h'.sets == h.sets)
    && (forall i :: 0 <= i < |h.sets| && i != obj ==> h'.sets[i] == h.sets[i])
  }

  /** An SPS becomes the parent of the last PPS naming its id and is parented
      to the last VPS with its VPS id; no other set is re-linked. */
  ghost predicate SpsLinked(h: Hierarchy, obj: nat, h': Hierarchy)
    requires Valid(h) && obj < |h.sets| && |h'.sets| == |h.sets|
  {
    var child := h.last.pps.Some? && h.sets[h.last.pps.value].spsId == h.sets[obj].spsId;
    var parent := h.last.vps.Some? && h.sets[obj].vpsId == h.sets[h.last.vps.value].vpsId;
    && (child ==> h'.sets[h.last.pps.value].parent == Some(obj))
    && (h.last.pps.Some? && !child ==> h'.sets[h.last.pps.value] == h.sets[h.last.pps.value])
    && (parent ==> h'.sets[obj].parent == h.last.vps)
    && (!parent ==> h'.sets[obj] == h.sets[obj])
    && (forall i :: 0 <= i < |h.sets| && i != obj && Some(i) != h.last.pps ==> h'.sets[i] == h.sets[i])
  }

  /** A VPS becomes the parent of the last SPS naming its id; no other set is
      re-linked. */
  ghost predicate VpsLinked(h: Hierarchy, obj: nat, h': Hierarchy)
    requires Valid(h) && obj < |h.sets| && |h'.sets| == |h.sets|
  {
    var child := h.last.sps.Some? && h.sets[h.last.sps.value].vpsId == h.sets[obj].vpsId;
    && (child ==> h'.sets[h.last.sps.value].parent == Some(obj))
    && (!child ==> h'.sets == h.sets)
    && (forall i :: 0 <= i < |h.sets| && Some(i) != h.last.sps ==> h'.sets[i] == h.sets[i])
  }

  /** Only parent links differ between the two stores. */
  ghost predicate RelinkedOnly(h: Hierarchy, h': Hierarchy) {
    && |h'.sets| == |h.sets|
    && (forall i :: 0 <= i < |h.sets| ==> h'.sets[i] == h.sets[i].(parent := h'.sets[i].parent))
  }

  /** Files set `obj` under its type.  A PPS is parented to the last SPS when
      their SPS ids agree; an SPS becomes the parent of the last PPS naming
      its id and is parented to the last VPS with its VPS id; a VPS becomes
      the parent of the last SPS naming its id.  An id outside its bitset or
      a set of no known type is refused (false) and changes nothing. */
  function UpdatePictureParametersHierarchy(h: Hierarchy, obj: nat): (r: (bool, Hierarchy))
    requires Valid(h)
    requires obj < |h.sets|
    ensures r.0 <==> Accepted(h.sets[obj])
    ensures !r.0 ==> r.1 == h
    ensures Valid(r.1) && RelinkedOnly(h, r.1)
    ensures ParentsAgree(h.sets) ==> ParentsAgree(r.1.sets)
    ensures r.0 ==> match ParameterTypeOf(h.sets[obj].stdType)
                    case PpsType => r.1.last == h.last.(pps := Some(obj)) && PpsLinked(h, obj, r.1)
                    case SpsType => r.1.last == h.last.(sps := Some(obj)) && SpsLinked(h, obj, r.1)
                    case VpsType => r.1.last == h.last.(vps := Some(obj)) && VpsLinked(h, obj, r.1)
                    case InvalidType => false
  {
    var s := h.sets[obj];
    match ParameterTypeOf(s.stdType)
    case PpsType => if !(0 <= s.ppsId < MaxPpsIds) then (false, h) else (true, FilePps(h, obj))
    case SpsType => if !(0 <= s.spsId < MaxSpsIds) then (false, h) else (true, FileSps(h, obj))
    case VpsType => if !(0 <= s.vpsId < MaxVpsIds) then (false, h) else (true, FileVps(h, obj))
    case InvalidType => (false, h)
  }

  function FilePps(h: Hierarchy, obj: nat): (r: Hierarchy)
    requires Valid(h) && obj < |h.sets| && ParameterTypeOf(h.sets[obj].stdType) == PpsType
    ensures Valid(r) && RelinkedOnly(h, r)
    ensures r.last == h.last.(pps := Some(obj)) && PpsLinked(h, obj, r)
    ensures ParentsAgree(h.sets) ==> ParentsAgree(r.sets)
  {
    var s := h.sets[obj];
    var sets := if h.last.sps.Some? && s.spsId == h.sets[h.last.sps.value].spsId
                then SetParent(h.sets, obj, h.last.sps.value) else h.sets;
    Hierarchy(sets, h.last.(pps := Some(obj)))
  }

  function FileSps(h: Hierarchy, obj: nat): (r: Hierarchy)
    requires Valid(h) && obj < |h.sets| && ParameterTypeOf(h.sets[obj].stdType) == SpsType
    ensures Valid(r) && RelinkedOnly(h, r)
    ensures r.last == h.last.(sps := Some(obj)) && SpsLinked(h, obj, r)
    ensures ParentsAgree(h.sets) ==> ParentsAgree(r.sets)
  {
    var s := h.sets[obj];
    var sets1 := if h.last.pps.Some? && h.sets[h.last.pps.value].spsId == s.spsId
                 then SetParent(h.sets, h.last.pps.value, obj) else h.sets;
    var sets2 := if h.last.vps.Some? && s.vpsId == sets1[h.last.vps.value].vpsId
                 then SetParent(sets1, obj, h.last.vps.value) else sets1;
    Hierarchy(sets2, h.last.(sps := Some(obj)))
  }

  function FileVps(h: Hierarchy, obj: nat): (r: Hierarchy)
    requires Valid(h) && obj < |h.sets| && ParameterTypeOf(h.sets[obj].stdType) == VpsType
    ensures Valid(r) && RelinkedOnly(h, r)
    ensures r.last == h.last.(vps := Some(obj)) && VpsLinked(h, obj, r)
    ensures ParentsAgree(h.sets) ==> ParentsAgree(r.sets)
  {
    var s := h.sets[obj];
    var sets := if h.last.sps.Some? && h.sets[h.last.sps.value].vpsId == s.vpsId
                then SetParent(h.sets, h.last.sps.value, obj) else h.sets;
    Hierarchy(sets, h.last.(vps := Some(obj)))
  }

  /** The id a set carries for its own type (-1 for no known type). */
  function OwnId(s: StdParameterSet): int {
    match ParameterTypeOf(s.stdType)
    case PpsType => s.ppsId
    case SpsType => s.spsId
    case VpsType => s.vpsId
    case InvalidType => -1
  }

  /** The width of the id bitset of a type (0 for no known type). */
  function IdBound(t: ParameterType): nat {
    match t
    case PpsType => MaxPpsIds
    case SpsType => MaxSpsIds
    case VpsType => MaxVpsIds
    case InvalidType => 0
  }

  /** The set is accepted: a known type and an id inside its bitset. */
  predicate Accepted(s: StdParameterSet) {
    0 <= OwnId(s) < IdBound(ParameterTypeOf(s.stdType))
  }

  /** Set `p` may be the parent of set `i`: a PPS under an SPS with its SPS
      id, an SPS under a VPS with its VPS id; no other set has a parent. */
  predicate LinkAgrees(sets: seq<StdParameterSet>, i: nat, p: nat)
    requires i < |sets| && p < |sets|
  {
    match ParameterTypeOf(sets[i].stdType)
    case PpsType => ParameterTypeOf(sets[p].stdType) == SpsType && sets[p].spsId == sets[i].spsId
    case SpsType => ParameterTypeOf(sets[p].stdType) == VpsType && sets[p].vpsId == sets[i].vpsId
    case VpsType => false
    case InvalidType => false
  }

  /** Every parent link joins sets that agree. */
  ghost predicate ParentsAgree(sets: seq<StdParameterSet>) {
    forall i :: 0 <= i < |sets| && sets[i].parent.Some? ==>
      sets[i].parent.value < |sets| && LinkAgrees(sets, i, sets[i].parent.value)
  }

  /** Links set `i` under set `p`; nothing else changes. */
  function SetParent(sets: seq<StdParameterSet>, i: nat, p: nat): (r: seq<StdParameterSet>)
    requires i < |sets| && p < |sets|
    ensures |r| == |sets| && r[i].parent == Some(p)
    ensures forall j :: 0 <= j < |sets| ==> r[j] == sets[j].(parent := r[j].parent)
    ensures forall j :: 0 <= j < |sets| && j != i ==> r[j] == sets[j]
    ensures LinkAgrees(sets, i, p) && ParentsAgree(sets) ==> ParentsAgree(r)
  {
    var r := sets[i := sets[i].(parent := Some(p))];
    assert forall j, k :: 0 <= j < |sets| && 0 <= k < |sets| ==> (LinkAgrees(r, j, k) <==> LinkAgrees(sets, j, k));
    r
  }

  // ---------------------------------------------------------------------
  // The session-parameters object and its queue
  // ---------------------------------------------------------------------

  /** Result codes of the device-facing calls. */
  datatype Status = Ok | InitializationFailed

  /** The set bits of the VPS, SPS and PPS id bitsets. */
  datatype IdSets = IdSets(vps: set<nat>, sps: set<nat>, pps: set<nat>)

  function NoIds(): IdSets {
    IdSets({}, {}, {})
  }

  /** The set's own id is marked in the bitsets. */
  predicate Registered(ids: IdSets, s: StdParameterSet) {
    match ParameterTypeOf(s.stdType)
    case PpsType => s.ppsId >= 0 && s.ppsId as nat in ids.pps
    case SpsType => s.spsId >= 0 && s.spsId as nat in ids.sps
    case VpsType => s.vpsId >= 0 && s.vpsId as nat in ids.vps
    case InvalidType => false
  }

  predicate IdsWithin(a: IdSets, b: IdSets) {
    a.vps <= b.vps && a.sps <= b.sps && a.pps <= b.pps
  }

  /** Sets the bit of the set's own id; a bitset refuses an index outside its
      width (`std::bitset::set` throws). */
  function MarkUsed(ids: IdSets, s: StdParameterSet): (r: Result<IdSets>)
    requires s.stdType != UnknownStd
    ensures r.Success? <==> Accepted(s)
    ensures r.Success? ==> Registered(r.value, s) && IdsWithin(ids, r.value)
    ensures r.Success? ==> forall u :: Registered(r.value, u) ==> Registered(ids, u) || (OwnId(u) == OwnId(s) && ParameterTypeOf(u.stdType) == ParameterTypeOf(s.stdType))
  {
    var t := ParameterTypeOf(s.stdType);
    if !Accepted(s) then Failure("parameter-set id outside its bitset")
    else if t == PpsType then Success(ids.(pps := ids.pps + {s.ppsId as nat}))
    else if t == SpsType then Success(ids.(sps := ids.sps + {s.spsId as nat}))
    else Success(ids.(vps := ids.vps + {s.vpsId as nat}))
  }

  /** The id queries of a session-parameters object: whether the bit of
      `id` is set.  The id must lie inside the bitset. */
  function HasVpsId(p: VideoPictureParameters, id: nat): bool
    requires id < MaxVpsIds
  {
    id in p.ids.vps
  }

  function HasSpsId(p: VideoPictureParameters, id: nat): bool
    requires id < MaxSpsIds
  {
    id in p.ids.sps
  }

  function HasPpsId(p: VideoPictureParameters, id: nat): bool
    requires id < MaxPpsIds
  {
    id in p.ids.pps
  }

  /** A session-parameters object: the video session it is bound to, whether
      the device object exists yet, the id bitsets, the update count, the
      FIFO of sets waiting for a session, and the object it was created from
      (the template), needed only until the device object is made. */
  datatype VideoPictureParameters = VideoPictureParameters(
    session: Option<nat>,
    hasSessionParameters: bool,
    ids: IdSets,
    updateCount: nat,
    queue: seq<StdParameterSet>,
    template: Option<VideoPictureParameters>)

  /** A new object with the given template: no session, no device object,
      empty bitsets and queue. */
  function NewPictureParameters(template: Option<VideoPictureParameters>): VideoPictureParameters {
    VideoPictureParameters(None, false, NoIds(), 0, [], template)
  }

  /** The length of the template chain. */
  function Depth(p: VideoPictureParameters): nat {
    match p.template
    case None => 0
    case Some(t) => 1 + Depth(t)
  }

  /** Creates the device object for `session` with the first set: the
      template's bitsets (if any) are inherited and the set's id is marked.
      A set of no known codec kind is refused with an error code. */
  function CreateParametersObject(p: VideoPictureParameters, session: nat, s: StdParameterSet,
                                  template: Option<VideoPictureParameters>): (r: Result<(Status, VideoPictureParameters)>)
    ensures s.stdType == UnknownStd ==> r == Success((InitializationFailed, p))
    ensures s.stdType != UnknownStd ==> (r.Success? <==> Accepted(s))
    ensures r.Success? && s.stdType != UnknownStd ==>
              var base := if template.Some? then template.value.ids else p.ids;
              && r.value.0 == Ok
              && r.value.1 == p.(session := Some(session), hasSessionParameters := true, ids := r.value.1.ids)
              && Registered(r.value.1.ids, s) && IdsWithin(base, r.value.1.ids)
              && forall u :: Registered(r.value.1.ids, u) ==>
                   Registered(base, u) || (OwnId(u) == OwnId(s) && ParameterTypeOf(u.stdType) == ParameterTypeOf(s.stdType))
  {
    if s.stdType == UnknownStd then Success((InitializationFailed, p))
    else
      var base := if template.Some? then template.value.ids else p.ids;
      match MarkUsed(base, s)
      case Failure(e) => Failure(e)
      case Success(ids) => Success((Ok, p.(session := Some(session), hasSessionParameters := true, ids := ids)))
  }

  /** Adds a set to the existing device object: the update count goes up and
      the set's id is marked. */
  function UpdateParametersObject(p: VideoPictureParameters, s: StdParameterSet): (r: Result<(Status, VideoPictureParameters)>)
    ensures s.stdType == UnknownStd ==> r == Success((InitializationFailed, p))
    ensures s.stdType != UnknownStd ==> (r.Success? <==> Accepted(s))
    ensures r.Success? && s.stdType != UnknownStd ==>
              && r.value.0 == Ok
              && r.value.1 == p.(updateCount := p.updateCount + 1, ids := r.value.1.ids)
              && Registered(r.value.1.ids, s) && IdsWithin(p.ids, r.value.1.ids)
              && forall u :: Registered(r.value.1.ids, u) ==>
                   Registered(p.ids, u) || (OwnId(u) == OwnId(s) && ParameterTypeOf(u.stdType) == ParameterTypeOf(s.stdType))
  {
    if s.stdType == UnknownStd then Success((InitializationFailed, p))
    else
      match MarkUsed(p.ids, s)
      case Failure(e) => Failure(e)
      case Success(ids) => Success((Ok, p.(updateCount := p.updateCount + 1, ids := ids)))
  }

  /** After an accepted update the object reports the set's own id through
      the id query of its kind, and still reports every id it reported
      before. */
  lemma UpdateReportsIds(p: VideoPictureParameters, s: StdParameterSet)
    requires s.stdType != UnknownStd && Accepted(s)
    ensures UpdateParametersObject(p, s).Success?
    ensures var q := UpdateParametersObject(p, s).value.1;
            && (ParameterTypeOf(s.stdType) == VpsType ==> HasVpsId(q, s.vpsId as nat))
            && (ParameterTypeOf(s.stdType) == SpsType ==> HasSpsId(q, s.spsId as nat))
            && (ParameterTypeOf(s.stdType) == PpsType ==> HasPpsId(q, s.ppsId as nat))
            && (forall id :: 0 <= id < MaxVpsIds && HasVpsId(p, id) ==> HasVpsId(q, id))
            && (forall id :: 0 <= id < MaxSpsIds && HasSpsId(p, id) ==> HasSpsId(q, id))
            && (forall id :: 0 <= id < MaxPpsIds && HasPpsId(p, id) ==> HasPpsId(q, id))
  {
  }

  /** Hands one set to the device.  Without a device object the template's
      queue is flushed first, the object is created from the template and the
      template is dropped; otherwise the object is updated.  The parser
      asserts that an object without a device object has no session yet and
      that one with a device object has one. */
  function HandleNewPictureParametersSet(p: VideoPictureParameters, session: nat, s: StdParameterSet): (r: Result<(Status, VideoPictureParameters)>)
    ensures r.Success? ==> r.value.1.queue == p.queue && Depth(r.value.1) <= Depth(p)
    decreases Depth(p), 1, 0
  {
    if !p.hasSessionParameters then
      if p.session.Some? then Failure("parameters object without a device object is already bound")
      else
        match FlushTemplate(p, session)
        case Failure(e) => Failure(e)
        case Success(template) =>
          match CreateParametersObject(p, session, s, template)
          case Failure(e) => Failure(e)
          case Success((status, created)) => Success((status, created.(template := None, session := Some(session))))
    else if p.session.None? then Failure("parameters object with a device object has no session")
    else UpdateParametersObject(p, s)
  }

  /** The template after its own queue was flushed into `session`. */
  function FlushTemplate(p: VideoPictureParameters, session: nat): (r: Result<Option<VideoPictureParameters>>)
    ensures r.Success? ==> (r.value.Some? <==> p.template.Some?)
    decreases Depth(p), 0, 0
  {
    match p.template
    case None => Success(None)
    case Some(t) =>
      match FlushPictureParametersQueue(t, Some(session))
      case Failure(e) => Failure(e)
      case Success((_, t')) => Success(Some(t'))
  }

  /** Hands every queued set to the device in FIFO order and returns how many
      went; -1 without a session, or when the device refuses a set (which
      then stays at the front of the queue). */
  function FlushPictureParametersQueue(p: VideoPictureParameters, session: Option<nat>): (r: Result<(int, VideoPictureParameters)>)
    ensures session.None? ==> r == Success((-1, p))
    ensures r.Success? ==> Depth(r.value.1) <= Depth(p)
    decreases Depth(p), 3, 0
  {
    if session.None? then Success((-1, p))
    else FlushFrom(p, session.value, 0)
  }

  function FlushFrom(p: VideoPictureParameters, session: nat, count: nat): (r: Result<(int, VideoPictureParameters)>)
    ensures r.Success? ==> Depth(r.value.1) <= Depth(p)
    decreases Depth(p), 2, |p.queue|
  {
    if |p.queue| == 0 then Success((count, p))
    else
      match HandleNewPictureParametersSet(p, session, p.queue[0])
      case Failure(e) => Failure(e)
      case Success((status, handled)) =>
        if status != Ok then Success((-1, handled))
        else FlushFrom(handled.(queue := handled.queue[1..]), session, count + 1)
  }

  /** Appends a set to the FIFO of sets waiting for a session. */
  function AddPictureParametersToQueue(p: VideoPictureParameters, s: StdParameterSet): (r: (Status, VideoPictureParameters))
    ensures r.0 == Ok && r.1.queue == p.queue + [s]
    ensures r.1 == p.(queue := r.1.queue)
  {
    (Ok, p.(queue := p.queue + [s]))
  }

  /** Whether a set needs a new session-parameters object: always when there
      is no current object or the set is an update of an earlier one (update
      sequence count above zero); never for a null set.  Reusing the current
      object for a set that already has a client object fails the parser's
      assertion. */
  function CheckStdObjectBeforeUpdate(s: Option<StdParameterSet>, current: Option<VideoPictureParameters>): (r: Result<bool>)
    ensures r == Success(true) <==> s.Some? && (current.None? || s.value.updateSequenceCount > 0)
    ensures r.Failure? <==> s.Some? && current.Some? && s.value.updateSequenceCount == 0 && s.value.hasClientObject
  {
    if s.None? then Success(false)
    else if current.None? || s.value.updateSequenceCount > 0 then Success(true)
    else if s.value.hasClientObject then Failure("a reused set already has a client object")
    else Success(false)
  }

  /** Takes a new set from the parser.  The current object's queue is flushed
      into the session first; a new object (with the current one as its
      template) is made when needed; the set then goes to the device if there
      is a session, else into the queue.  A null set is refused with an
      error code and changes nothing. */
  function AddPictureParameters(session: Option<nat>, s: Option<StdParameterSet>, current: Option<VideoPictureParameters>)
    : (r: Result<(Status, Option<VideoPictureParameters>)>)
    ensures s.None? ==> r == Success((InitializationFailed, current))
    ensures r.Success? && s.Some? ==> r.value.1.Some?
  {
    if s.None? then Success((InitializationFailed, current))
    else
      match FlushCurrent(current, session)
      case Failure(e) => Failure(e)
      case Success(flushed) =>
        match CheckStdObjectBeforeUpdate(s, flushed)
        case Failure(e) => Failure(e)
        case Success(create) =>
          var target := if create then NewPictureParameters(flushed) else flushed.value;
          if session.Some? then
            match HandleNewPictureParametersSet(target, session.value, s.value)
            case Failure(e) => Failure(e)
            case Success((status, handled)) => Success((status, Some(handled)))
          else
            var (status, queued) := AddPictureParametersToQueue(target, s.value);
            Success((status, Some(queued)))
  }

  /** The current object (if any) after flushing its queue into `session`. */
  function FlushCurrent(current: Option<VideoPictureParameters>, session: Option<nat>): (r: Result<Option<VideoPictureParameters>>)
    ensures r.Success? ==> (r.value.Some? <==> current.Some?)
    ensures session.None? ==> r == Success(current)
  {
    match current
    case None => Success(None)
    case Some(p) =>
      match FlushPictureParametersQueue(p, session)
      case Failure(e) => Failure(e)
      case Success((_, p')) => Success(Some(p'))
  }
  // ---------------------------------------------------------------------
  // What a flush achieves
  // ---------------------------------------------------------------------

  /** The shape every object keeps: queued sets are accepted ones; an object
      without a device object has no session and no ids yet; one with a device
      object has a session; and the template chain has the same shape. */
  ghost predicate ChainReady(p: VideoPictureParameters)
    decreases Depth(p)
  {
    && (forall i :: 0 <= i < |p.queue| ==> Accepted(p.queue[i]))
    && (!p.hasSessionParameters ==> p.session.None? && p.ids == NoIds())
    && (p.hasSessionParameters ==> p.session.Some?)
    && (p.template.Some? ==> ChainReady(p.template.value))
  }

  /** Handing an accepted set to a ready object succeeds: the object then has
      a device object, keeps its queue and its ids, and has the set's id. */
  lemma {:induction false} HandleNewRegisters(p: VideoPictureParameters, session: nat, s: StdParameterSet)
    requires ChainReady(p) && Accepted(s)
    ensures var r := HandleNewPictureParametersSet(p, session, s);
            && r.Success? && r.value.0 == Ok
            && var p' := r.value.1;
               && ChainReady(p') && p'.hasSessionParameters
               && IdsWithin(p.ids, p'.ids) && Registered(p'.ids, s)
    decreases Depth(p), 1, 0
  {
    if !p.hasSessionParameters {
      if p.template.Some? {
        FlushRegisters(p.template.value, session);
      }
    }
  }

  /** Flushing a ready object into a session hands over its whole queue in
      FIFO order and returns its length: afterwards the queue is empty, the
      object keeps its ids and has the id of every set that was queued, and
      it has a device object once anything was handed over. */
  lemma {:induction false} FlushRegisters(p: VideoPictureParameters, session: nat)
    requires ChainReady(p)
    ensures var r := FlushPictureParametersQueue(p, Some(session));
            && r.Success? && r.value.0 == |p.queue|
            && var p' := r.value.1;
               && p'.queue == [] && ChainReady(p')
               && IdsWithin(p.ids, p'.ids)
               && (forall i :: 0 <= i < |p.queue| ==> Registered(p'.ids, p.queue[i]))
               && (p.hasSessionParameters || |p.queue| > 0 ==> p'.hasSessionParameters)
    decreases Depth(p), 3, 0
  {
    FlushFromRegisters(p, session, 0);
  }

  lemma {:induction false} FlushFromRegisters(p: VideoPictureParameters, session: nat, count: nat)
    requires ChainReady(p)
    ensures var r := FlushFrom(p, session, count);
            && r.Success? && r.value.0 == count + |p.queue|
            && var p' := r.value.1;
               && p'.queue == [] && ChainReady(p')
               && IdsWithin(p.ids, p'.ids)
               && (forall i :: 0 <= i < |p.queue| ==> Registered(p'.ids, p.queue[i]))
               && (p.hasSessionParameters || |p.queue| > 0 ==> p'.hasSessionParameters)
    decreases Depth(p), 2, |p.queue|
  {
    if |p.queue| > 0 {
      HandleNewRegisters(p, session, p.queue[0]);
      var handled := HandleNewPictureParametersSet(p, session, p.queue[0]).value.1;
      var next := handled.(queue := handled.queue[1..]);
      assert next.queue == p.queue[1..];
      FlushFromRegisters(next, session, count + 1);
      var p' := FlushFrom(next, session, count + 1).value.1;
      forall i | 0 <= i < |p.queue|
        ensures Registered(p'.ids, p.queue[i])
      {
        if i > 0 {
          assert p.queue[i] == next.queue[i - 1];
        }
      }
    }
  }

  /** A set the device refuses stops a flush at once with -1 and stays queued. */
  lemma FlushStopsAtRefusedSet(p: VideoPictureParameters, session: nat)
    requires p.hasSessionParameters && p.session.Some?
    requires |p.queue| > 0 && p.queue[0].stdType == UnknownStd
    ensures FlushPictureParametersQueue(p, Some(session)) == Success((-1, p))
  {
    assert HandleNewPictureParametersSet(p, session, p.queue[0]) == Success((InitializationFailed, p));
  }

  /** Without a session a new set is queued: on a new object (when there is
      no current one or the set is an update) whose template is the current
      object, otherwise at the back of the current object's queue. */
  lemma AddWithoutSessionQueues(s: StdParameterSet, current: Option<VideoPictureParameters>)
    requires !(current.Some? && s.updateSequenceCount == 0 && s.hasClientObject)
    ensures var r := AddPictureParameters(None, Some(s), current);
            var isNew := current.None? || s.updateSequenceCount > 0;
            && r.Success? && r.value.0 == Ok
            && (isNew ==> r.value.1 == Some(NewPictureParameters(current).(queue := [s])))
            && (!isNew ==> r.value.1 == Some(current.value.(queue := current.value.queue + [s])))
  {
    assert FlushCurrent(current, None) == Success(current);
    assert CheckStdObjectBeforeUpdate(Some(s), current) == Success(current.None? || s.updateSequenceCount > 0);
    if current.None? || s.updateSequenceCount > 0 {
      var target := NewPictureParameters(current);
      assert target.queue + [s] == [s];
      assert AddPictureParametersToQueue(target, s) == (Ok, target.(queue := [s]));
    }
  }

  /** With a session a new accepted set reaches the device: the resulting
      object has a device object and an empty queue, keeps the ids of the
      current object and has the id of every set the current object had
      queued, and of the new set. */
  lemma AddWithSessionRegisters(session: nat, s: StdParameterSet, current: Option<VideoPictureParameters>)
    requires Accepted(s)
    requires current.Some? ==> ChainReady(current.value)
    requires !(current.Some? && s.updateSequenceCount == 0 && s.hasClientObject)
    ensures var r := AddPictureParameters(Some(session), Some(s), current);
            && r.Success? && r.value.0 == Ok && r.value.1.Some?
            && var p := r.value.1.value;
               && ChainReady(p) && p.hasSessionParameters && p.queue == []
               && Registered(p.ids, s)
               && (current.Some? ==> IdsWithin(current.value.ids, p.ids))
               && (current.Some? ==> forall i :: 0 <= i < |current.value.queue| ==> Registered(p.ids, current.value.queue[i]))
  {
    var flushed := FlushCurrent(current, Some(session));
    if current.Some? {
      FlushRegisters(current.value, session);
    }
    var create := current.None? || s.updateSequenceCount > 0;
    var target := if create then NewPictureParameters(flushed.value) else flushed.value.value;
    assert ChainReady(target);
    HandleNewRegisters(target, session, s);
    if create && current.Some? {
      var f := flushed.value.value;
      assert target.template == Some(f) && f.queue == [];
      assert FlushPictureParametersQueue(f, Some(session)) == Success((0, f));
    }
  }
}

=== FILE: reference_list_h264.dfy ===
/** The H.264 reference-list builder: it turns the parser's DPB (the
    references of ITU-T H.264 section 8.2.5, including the "non-existing"
    frames that section 8.2.5.2 infers for gaps in frame_num) into the ordered
    list of reference slot descriptors for the driver, mapping every picture
    to a DPB slot and allocating one for the current picture. */
module ReferenceListH264 {
  import opened Wrappers
  import opened DpbSlots
  import opened PictureMap
  import opened DpbEntry

  /** One entry of the parser's H.264 DPB. */
  datatype H264DpbIn = H264DpbIn(
    usedForReference: int,
    notExisting: bool,
    isLongTerm: bool,
    picBuf: Option<PicBuf>,
    frameIdx: int,
    fieldOrderCnt: (int, int))

  /** What the builder reads of the current picture: its buffer, frame_num,
      the progressive and field_pic flags, and max_num_ref_frames of the SPS. */
  datatype H264PictureIn = H264PictureIn(
    currPic: Option<PicBuf>,
    frameNum: int,
    progressiveFrame: bool,
    fieldPicFlag: bool,
    maxNumRefFrames: int)

  /** The builder's outputs, position by position over the parser DPB. */
  datatype H264DpbState = H264DpbState(
    numGopReferenceSlots: nat,
    slotIndexes: seq<int>,
    dpbRefList: seq<H264DpbSlotInfo>,
    gopReferenceImagesIndexes: seq<int>,
    currAllocatedSlotIndex: int,
    decoder: DecoderDpb)

  /** used_for_reference masked to its two field bits. */
  function UsedForReference(e: H264DpbIn): nat {
    e.usedForReference % 4
  }

  predicate Existing(e: H264Entry) {
    !e.isNonExisting
  }

  /** The picture index of an entry that resolved to a known picture. */
  function PicOf(e: H264Entry): int {
    if e.picBuf.Some? then e.picBuf.value.picIdx else -1
  }

  /** Every entry is a reference with at most the two field bits, and an
      existing one has a picture buffer whose index the decoder accepts. */
  ghost predicate WellFormed(d: DecoderDpb, entries: seq<H264Entry>) {
    forall k :: 0 <= k < |entries| ==>
      && entries[k].IsRef() && entries[k].usedForReference <= FieldIsReferenceMask
      && (Existing(entries[k]) ==>
            0 <= PicOf(entries[k]) < d.maxNumDecodeSurfaces && entries[k].picBuf == Some(PicBuf(PicOf(entries[k]))))
  }

  /** Packs one parser entry that is used for reference.  It resolves to a
      known picture unless it is flagged non-existing, has no buffer, or its
      buffer's index is outside the decode surfaces; the field flag comes
      from the picture when it is known and from the reference bits when not. */
  function MakeEntry(d: DecoderDpb, e: H264DpbIn): (r: H264Entry)
    requires UsedForReference(e) != 0
    ensures r.IsRef() && r.usedForReference <= FieldIsReferenceMask
    ensures Existing(r) <==> !e.notExisting && d.GetPicIdx(e.picBuf) >= 0
    ensures Existing(r) ==> 0 <= PicOf(r) < d.maxNumDecodeSurfaces && r.picBuf == Some(PicBuf(PicOf(r)))
    ensures r.picBuf == e.picBuf && r.dpbSlot == -1 && r.isLongTerm == e.isLongTerm
    ensures r.isFieldRef == if Existing(r) then d.GetFieldPicFlag(PicOf(r)) else UsedForReference(e) != FieldIsReferenceMask
    ensures r.frameIdx == Int16(e.frameIdx)
    ensures r.fieldOrderCnt0 in {Int16(e.fieldOrderCnt.0), Int16(e.fieldOrderCnt.1)}
    ensures r.fieldOrderCnt1 in {Int16(e.fieldOrderCnt.0), Int16(e.fieldOrderCnt.1)}
  {
    var used := UsedForReference(e);
    var picIdx := if !e.notExisting && e.picBuf.Some? then d.GetPicIdx(e.picBuf) else -1;
    var isFieldRef := if picIdx >= 0 then d.GetFieldPicFlag(picIdx) else used != FieldIsReferenceMask;
    SetReferenceAndTopBottomField(
      true, picIdx < 0, e.isLongTerm, isFieldRef, TopFieldIsRef(used), BottomFieldIsRef(used),
      Int16(e.frameIdx), (Int16(e.fieldOrderCnt.0), Int16(e.fieldOrderCnt.1)), e.picBuf)
  }

  /** The positions from `i` on of the parser entries used for reference, in
      increasing order. */
  function UsedIndices(dpbIn: seq<H264DpbIn>, i: nat): (r: seq<nat>)
    requires i <= |dpbIn|
    ensures |r| <= |dpbIn| - i
    ensures forall k :: 0 <= k < |r| ==> i <= r[k] < |dpbIn| && UsedForReference(dpbIn[r[k]]) != 0
    ensures forall k, l :: 0 <= k < l < |r| ==> r[k] < r[l]
    ensures forall j :: i <= j < |dpbIn| && UsedForReference(dpbIn[j]) != 0 ==> j in r
    decreases |dpbIn| - i
  {
    if i == |dpbIn| then []
    else if UsedForReference(dpbIn[i]) != 0 then [i] + UsedIndices(dpbIn, i + 1)
    else UsedIndices(dpbIn, i + 1)
  }

  /** The references of the parser DPB, packed in input order (refOnlyDpbIn). */
  function CollectEntries(d: DecoderDpb, dpbIn: seq<H264DpbIn>): (r: seq<H264Entry>)
    ensures |r| == |UsedIndices(dpbIn, 0)| <= |dpbIn|
    ensures WellFormed(d, r)
    ensures forall k :: 0 <= k < |r| ==> r[k] == MakeEntry(d, dpbIn[UsedIndices(dpbIn, 0)[k]])
    ensures r == [] <==> forall i :: 0 <= i < |dpbIn| ==> UsedForReference(dpbIn[i]) == 0
  {
    var used := UsedIndices(dpbIn, 0);
    assert used == [] ==> forall i :: 0 <= i < |dpbIn| ==> UsedForReference(dpbIn[i]) == 0;
    assert used != [] ==> UsedForReference(dpbIn[used[0]]) != 0;
    seq(|used|, k requires 0 <= k < |used| => MakeEntry(d, dpbIn[used[k]]))
  }

  /** The mask of pictures the references resolve to (refDpbUsedAndValidMask). */
  function ValidMask(entries: seq<H264Entry>): (r: set<nat>)
    ensures forall p: nat :: p in r <==>
              exists k :: 0 <= k < |entries| && Existing(entries[k]) && PicOf(entries[k]) == p
    ensures forall k :: 0 <= k < |entries| && Existing(entries[k]) && PicOf(entries[k]) >= 0 ==> PicOf(entries[k]) as nat in r
  {
    if entries == [] then {}
    else
      var head := if Existing(entries[0]) && PicOf(entries[0]) >= 0 then {PicOf(entries[0]) as nat} else {};
      var r := head + ValidMask(entries[1..]);
      assert forall p: nat :: p in r <==>
               exists k :: 0 <= k < |entries| && Existing(entries[k]) && PicOf(entries[k]) == p by {
        forall p: nat
          ensures p in r <==> exists k :: 0 <= k < |entries| && Existing(entries[k]) && PicOf(entries[k]) == p
        {
          if p in ValidMask(entries[1..]) {
            var k :| 0 <= k < |entries[1..]| && Existing(entries[1..][k]) && PicOf(entries[1..][k]) == p;
            assert entries[k + 1] == entries[1..][k];
          }
          if exists k :: 0 <= k < |entries| && Existing(entries[k]) && PicOf(entries[k]) == p {
            var k :| 0 <= k < |entries| && Existing(entries[k]) && PicOf(entries[k]) == p;
            if k > 0 {
              assert entries[1..][k - 1] == entries[k];
            }
          }
        }
      }
      r
  }

  /** The frame_num distance used to pick a stand-in picture: references at or
      after the current frame_num count as 0xffff. */
  function FrameNumDiff(frameNum: int, e: H264Entry): int {
    var diff := frameNum - e.frameIdx;
    if diff <= 0 then 0xffff else diff
  }

  /** The default stand-in for non-existing frames: scanning the existing
      references in order, a strictly closer frame_num wins, and the first
      existing reference replaces the current picture in any case. */
  function BestNonExistingPicIdx(entries: seq<H264Entry>, frameNum: int, currPicIdx: int, k: nat, minDiff: int, best: int)
    : (r: int)
    requires k <= |entries|
    decreases |entries| - k
  {
    if k == |entries| then best
    else if !Existing(entries[k]) then BestNonExistingPicIdx(entries, frameNum, currPicIdx, k + 1, minDiff, best)
    else
      var diff := FrameNumDiff(frameNum, entries[k]);
      if diff < minDiff then
        BestNonExistingPicIdx(entries, frameNum, currPicIdx, k + 1, diff, PicOf(entries[k]))
      else if best == currPicIdx then
        BestNonExistingPicIdx(entries, frameNum, currPicIdx, k + 1, minDiff, PicOf(entries[k]))
      else
        BestNonExistingPicIdx(entries, frameNum, currPicIdx, k + 1, minDiff, best)
  }

  /** The stand-in is `best` or an existing reference from `k` on, and it is
      an existing reference whenever one exists and the search starts from
      the current picture. */
  lemma {:induction false} BestNonExistingIsReference(entries: seq<H264Entry>, frameNum: int, currPicIdx: int, k: nat,
                                                      minDiff: int, best: int)
    requires k <= |entries|
    ensures var r := BestNonExistingPicIdx(entries, frameNum, currPicIdx, k, minDiff, best);
            && (r == best || exists j :: k <= j < |entries| && Existing(entries[j]) && r == PicOf(entries[j]))
            && (best == currPicIdx && (exists j :: k <= j < |entries| && Existing(entries[j])) ==>
                  exists j :: k <= j < |entries| && Existing(entries[j]) && r == PicOf(entries[j]))
    decreases |entries| - k
  {
    if k < |entries| {
      if !Existing(entries[k]) {
        BestNonExistingIsReference(entries, frameNum, currPicIdx, k + 1, minDiff, best);
      } else {
        var diff := FrameNumDiff(frameNum, entries[k]);
        if diff < minDiff {
          BestNonExistingIsReference(entries, frameNum, currPicIdx, k + 1, diff, PicOf(entries[k]));
        } else if best == currPicIdx {
          BestNonExistingIsReference(entries, frameNum, currPicIdx, k + 1, minDiff, PicOf(entries[k]));
        } else {
          BestNonExistingIsReference(entries, frameNum, currPicIdx, k + 1, minDiff, best);
        }
      }
    }
  }

  /** Entry `j` can stand in for entry `k`: it is a known picture whose
      referenced fields include all of `k`'s (the bitwise test
      `(used_j & used_k) == used_k` on two-bit values). */
  predicate Covers(entries: seq<H264Entry>, j: nat, k: nat)
    requires j < |entries| && k < |entries|
  {
    && Existing(entries[j])
    && (TopFieldIsRef(entries[k].usedForReference) ==> TopFieldIsRef(entries[j].usedForReference))
    && (BottomFieldIsRef(entries[k].usedForReference) ==> BottomFieldIsRef(entries[j].usedForReference))
  }

  function Abs(x: int): nat {
    if x < 0 then -x else x
  }

  /** The distance of the first order counts of entries `j` and `k`. */
  function PocDiff(entries: seq<H264Entry>, j: nat, k: nat): nat
    requires j < |entries| && k < |entries|
  {
    Abs(entries[j].fieldOrderCnt0 - entries[k].fieldOrderCnt0)
  }

  /** The search for the picture standing in for the non-existing entry `k`:
      among the entries from `j` on that cover it within `minDiff` in order
      count, the index of the closest one, the last of equally close ones;
      `best` when there is none. */
  function ClosestCover(entries: seq<H264Entry>, k: nat, j: nat, minDiff: int, best: int): (r: int)
    requires k < |entries| && j <= |entries| && -1 <= best < j
    ensures r == best || j <= r < |entries|
    decreases |entries| - j
  {
    if j == |entries| then best
    else if Covers(entries, j, k) && PocDiff(entries, j, k) <= minDiff then
      ClosestCover(entries, k, j + 1, PocDiff(entries, j, k), j)
    else
      ClosestCover(entries, k, j + 1, minDiff, best)
  }

  /** The search returns a covering entry within `minDiff` that is at least
      as close as every covering entry from `j` on and strictly closer than
      every later one, or `best` exactly when no covering entry is within
      `minDiff`. */
  lemma {:induction false} ClosestCoverIsClosest(entries: seq<H264Entry>, k: nat, j: nat, minDiff: int, best: int)
    requires k < |entries| && j <= |entries| && -1 <= best < j
    ensures var r := ClosestCover(entries, k, j, minDiff, best);
            && (r >= j ==> Covers(entries, r, k) && PocDiff(entries, r, k) <= minDiff)
            && (r >= j ==> forall i :: j <= i < |entries| && Covers(entries, i, k) ==> PocDiff(entries, r, k) <= PocDiff(entries, i, k))
            && (r >= j ==> forall i :: r < i < |entries| && Covers(entries, i, k) ==> PocDiff(entries, r, k) < PocDiff(entries, i, k))
            && (r == best <==> forall i :: j <= i < |entries| && Covers(entries, i, k) ==> PocDiff(entries, i, k) > minDiff)
    decreases |entries| - j
  {
    if j < |entries| {
      if Covers(entries, j, k) && PocDiff(entries, j, k) <= minDiff {
        ClosestCoverIsClosest(entries, k, j + 1, PocDiff(entries, j, k), j);
      } else {
        ClosestCoverIsClosest(entries, k, j + 1, minDiff, best);
      }
    }
  }

  /** The initial bound of the order-count search. */
  const MaxPocDiff: int := 0x7fff

  /** The picture index recorded for the non-existing entry `k`: the closest
      covering reference within MaxPocDiff, otherwise `fallback`. */
  function ClosestPocPicIdx(entries: seq<H264Entry>, k: nat, fallback: int): int
    requires k < |entries|
  {
    var i := ClosestCover(entries, k, 0, MaxPocDiff, -1);
    if i >= 0 then PicOf(entries[i]) else fallback
  }

  /** The scan for a non-existing frame's slot: the lowest index from `first`
      on, below `maxSize`, that is absent from `mask`, and where the next scan
      resumes; -1 when every remaining index is in the mask. */
  function ScanFreeSlot(mask: set<nat>, maxSize: nat, first: nat): (r: (int, nat))
    ensures r.0 >= 0 ==> first <= r.0 < maxSize && r.0 as nat !in mask && r.1 == r.0 + 1
    ensures r.0 < 0 ==> r.0 == -1 && r.1 >= first
    decreases maxSize - first
  {
    if first >= maxSize then (-1, first)
    else if first !in mask then (first, first + 1)
    else ScanFreeSlot(mask, maxSize, first + 1)
  }

  /** The scan finds the lowest free index, and fails only when none is left. */
  lemma {:induction false} ScanFreeSlotIsLowest(mask: set<nat>, maxSize: nat, first: nat)
    ensures var r := ScanFreeSlot(mask, maxSize, first);
            && (r.0 >= 0 ==> forall t :: first <= t < r.0 ==> t in mask)
            && (r.0 < 0 ==> forall t :: first <= t < maxSize ==> t in mask)
    decreases maxSize - first
  {
    if first < maxSize && first in mask {
      ScanFreeSlotIsLowest(mask, maxSize, first + 1);
    }
  }

  /** The number of indices from `first` below `maxSize` absent from `mask`. */
  function FreeCount(mask: set<nat>, maxSize: nat, first: nat): nat
    decreases maxSize - first
  {
    if first >= maxSize then 0
    else (if first in mask then 0 else 1) + FreeCount(mask, maxSize, first + 1)
  }

  /** A successful scan consumes exactly one free index; a failed one means
      none is left. */
  lemma {:induction false} ScanFreeSlotConsumesOne(mask: set<nat>, maxSize: nat, first: nat)
    ensures var (slot, next) := ScanFreeSlot(mask, maxSize, first);
            if slot >= 0 then FreeCount(mask, maxSize, first) == 1 + FreeCount(mask, maxSize, next)
            else FreeCount(mask, maxSize, first) == 0
    decreases maxSize - first
  {
    if first < maxSize && first in mask {
      ScanFreeSlotConsumesOne(mask, maxSize, first + 1);
    }
  }

  /** The number of non-existing entries from `k` on. */
  function NumNonExisting(entries: seq<H264Entry>, k: nat): nat
    requires k <= |entries|
    decreases |entries| - k
  {
    if k == |entries| then 0
    else (if Existing(entries[k]) then 0 else 1) + NumNonExisting(entries, k + 1)
  }

  /** No non-existing entry from `k` on carries a picture buffer. */
  predicate NonExistingHaveNoBuffer(entries: seq<H264Entry>, k: nat)
    requires k <= |entries|
  {
    forall i :: k <= i < |entries| && !Existing(entries[i]) ==> entries[i].picBuf.None?
  }

  /** Entry `i` carries only a slot different from `e`'s. */
  predicate SameButSlot(a: H264Entry, b: H264Entry) {
    a == b.(dpbSlot := a.dpbSlot)
  }

  /** The first pass over the references: every known picture from `k` on
      gets its slot (the one it already has, or a freshly allocated one bound
      to it), the slot is marked in use at the current picture id, and the
      slot is recorded in the entry.  Running out of free slots fails. */
  function AssignExistingSlots(d: DecoderDpb, entries: seq<H264Entry>, k: nat): (r: Result<(seq<H264Entry>, DecoderDpb)>)
    requires d.Valid() && WellFormed(d, entries) && k <= |entries|
    ensures r.Success? ==> r.value.1.Valid()
    ensures r.Success? ==> r.value.1.(pictureToDpbSlot := d.pictureToDpbSlot, dpbSlotsMask := d.dpbSlotsMask, dpb := d.dpb) == d
    ensures r.Success? ==> r.value.1.dpb.maxSize == d.dpb.maxSize && |r.value.0| == |entries|
    decreases |entries| - k
  {
    if k == |entries| then Success((entries, d))
    else if !Existing(entries[k]) then AssignExistingSlots(d, entries, k + 1)
    else
      var p := PicOf(entries[k]) as nat;
      match MapAndMark(d, p, entries[k].picBuf)
      case Failure(e) => Failure(e)
      case Success((slot, marked)) =>
        var next := entries[k := entries[k].(dpbSlot := slot)];
        assert WellFormed(marked, next) by {
          assert forall i :: 0 <= i < |next| ==> SameButSlot(next[i], entries[i]);
        }
        AssignExistingSlots(marked, next, k + 1)
  }

  /** The first pass fails only when some known picture from `k` on has no
      slot and none is free. */
  lemma {:induction false} AssignExistingSlotsFailsOnlyUnmapped(d: DecoderDpb, entries: seq<H264Entry>, k: nat)
    requires d.Valid() && WellFormed(d, entries) && k <= |entries|
    requires AssignExistingSlots(d, entries, k).Failure?
    ensures exists i :: k <= i < |entries| && Existing(entries[i]) && d.pictureToDpbSlot[PicOf(entries[i])] < 0
    decreases |entries| - k
  {
    if !Existing(entries[k]) {
      AssignExistingSlotsSkip(d, entries, k);
      AssignExistingSlotsFailsOnlyUnmapped(d, entries, k + 1);
    } else {
      var p := PicOf(entries[k]) as nat;
      if MapAndMark(d, p, entries[k].picBuf).Success? {
        var slot, marked, next := AssignExistingSlotsAdvance(d, entries, k);
        AssignExistingSlotsFailsOnlyUnmapped(marked, next, k + 1);
        var i :| k + 1 <= i < |next| && Existing(next[i]) && marked.pictureToDpbSlot[PicOf(next[i])] < 0;
        assert next[i] == entries[i];
        if PicOf(entries[i]) != p {
          assert d.pictureToDpbSlot[PicOf(entries[i])] < 0;
        }
      }
    }
  }

  /** One step of the first pass at a known picture: the slot MapAndMark
      gives it, recorded in the entry, and the rest of the pass from there. */
  lemma AssignExistingSlotsStep(d: DecoderDpb, entries: seq<H264Entry>, k: nat)
    returns (slot: int, marked: DecoderDpb, next: seq<H264Entry>)
    requires d.Valid() && WellFormed(d, entries) && k < |entries| && Existing(entries[k])
    requires AssignExistingSlots(d, entries, k).Success?
    ensures MapAndMark(d, PicOf(entries[k]) as nat, entries[k].picBuf) == Success((slot, marked))
    ensures next == entries[k := entries[k].(dpbSlot := slot)]
    ensures marked.Valid() && WellFormed(marked, next)
    ensures AssignExistingSlots(marked, next, k + 1) == AssignExistingSlots(d, entries, k)
  {
    slot, marked, next := AssignExistingSlotsAdvance(d, entries, k);
  }

  /** The same step whenever MapAndMark succeeds at `k`. */
  lemma AssignExistingSlotsAdvance(d: DecoderDpb, entries: seq<H264Entry>, k: nat)
    returns (slot: int, marked: DecoderDpb, next: seq<H264Entry>)
    requires d.Valid() && WellFormed(d, entries) && k < |entries| && Existing(entries[k])
    requires MapAndMark(d, PicOf(entries[k]) as nat, entries[k].picBuf).Success?
    ensures MapAndMark(d, PicOf(entries[k]) as nat, entries[k].picBuf) == Success((slot, marked))
    ensures next == entries[k := entries[k].(dpbSlot := slot)]
    ensures marked.Valid() && WellFormed(marked, next)
    ensures AssignExistingSlots(marked, next, k + 1) == AssignExistingSlots(d, entries, k)
  {
    var p := PicOf(entries[k]) as nat;
    slot, marked := MapAndMark(d, p, entries[k].picBuf).value.0, MapAndMark(d, p, entries[k].picBuf).value.1;
    next := entries[k := entries[k].(dpbSlot := slot)];
    assert WellFormed(marked, next) by {
      assert forall i :: 0 <= i < |next| ==> SameButSlot(next[i], entries[i]);
    }
  }

  /** The first pass changes only the slots of the entries, and only of
      known pictures from `k` on. */
  lemma {:induction false} AssignExistingSlotsChangesOnlySlots(d: DecoderDpb, entries: seq<H264Entry>, k: nat)
    requires d.Valid() && WellFormed(d, entries) && k <= |entries|
    requires AssignExistingSlots(d, entries, k).Success?
    ensures var slotted := AssignExistingSlots(d, entries, k).value.0;
            forall i :: 0 <= i < |entries| ==> SameButSlot(slotted[i], entries[i])
    decreases |entries| - k
  {
    if k == |entries| {
    } else if !Existing(entries[k]) {
      AssignExistingSlotsSkip(d, entries, k);
      AssignExistingSlotsChangesOnlySlots(d, entries, k + 1);
    } else {
      var slot, marked, next := AssignExistingSlotsStep(d, entries, k);
      AssignExistingSlotsChangesOnlySlots(marked, next, k + 1);
      var slotted := AssignExistingSlots(marked, next, k + 1).value.0;
      forall i | 0 <= i < |entries| ensures SameButSlot(slotted[i], entries[i]) {
        assert SameButSlot(slotted[i], next[i]);
      }
    }
  }

  /** The first pass leaves the entries before `k` and the non-existing
      frames exactly as they were. */
  lemma {:induction false} AssignExistingSlotsKeepsOthers(d: DecoderDpb, entries: seq<H264Entry>, k: nat)
    requires d.Valid() && WellFormed(d, entries) && k <= |entries|
    requires AssignExistingSlots(d, entries, k).Success?
    ensures var slotted := AssignExistingSlots(d, entries, k).value.0;
            forall i :: 0 <= i < |entries| && (i < k || !Existing(entries[i])) ==> slotted[i] == entries[i]
    decreases |entries| - k
  {
    if k == |entries| {
    } else if !Existing(entries[k]) {
      AssignExistingSlotsSkip(d, entries, k);
      AssignExistingSlotsKeepsOthers(d, entries, k + 1);
    } else {
      var slot, marked, next := AssignExistingSlotsStep(d, entries, k);
      AssignExistingSlotsKeepsOthers(marked, next, k + 1);
      var slotted := AssignExistingSlots(marked, next, k + 1).value.0;
      forall i | 0 <= i < |entries| && (i < k || !Existing(entries[i])) ensures slotted[i] == entries[i] {
        assert next[i] == entries[i];
      }
    }
  }

  /** The first pass passes over a non-existing frame. */
  lemma AssignExistingSlotsSkip(d: DecoderDpb, entries: seq<H264Entry>, k: nat)
    requires d.Valid() && WellFormed(d, entries) && k < |entries| && !Existing(entries[k])
    ensures AssignExistingSlots(d, entries, k) == AssignExistingSlots(d, entries, k + 1)
  {
  }

  /** Every known picture from `k` on carries, after the first pass, the
      slot it is mapped to, and that slot is marked in use at the current
      picture id. */
  lemma {:induction false} AssignExistingSlotsRecordsSlots(d: DecoderDpb, entries: seq<H264Entry>, k: nat)
    requires d.Valid() && WellFormed(d, entries) && k <= |entries|
    requires AssignExistingSlots(d, entries, k).Success?
    ensures var (slotted, d') := AssignExistingSlots(d, entries, k).value;
            forall i :: k <= i < |entries| && Existing(entries[i]) ==>
              && slotted[i].dpbSlot == d'.pictureToDpbSlot[PicOf(entries[i])]
              && 0 <= slotted[i].dpbSlot
              && MarkedNow(d', slotted[i].dpbSlot)
    decreases |entries| - k
  {
    if k == |entries| {
    } else if !Existing(entries[k]) {
      AssignExistingSlotsSkip(d, entries, k);
      AssignExistingSlotsRecordsSlots(d, entries, k + 1);
    } else {
      var slot, marked, next := AssignExistingSlotsStep(d, entries, k);
      AssignExistingSlotsRecordsSlots(marked, next, k + 1);
      AssignExistingSlotsRecordsHead(d, entries, k);
      var (slotted, d') := AssignExistingSlots(marked, next, k + 1).value;
      forall i | k < i < |entries| && Existing(entries[i])
        ensures && slotted[i].dpbSlot == d'.pictureToDpbSlot[PicOf(entries[i])]
                && 0 <= slotted[i].dpbSlot
                && MarkedNow(d', slotted[i].dpbSlot)
      {
        assert next[i] == entries[i];
      }
    }
  }

  /** The known picture at `k` carries, after the first pass, the slot it
      is mapped to, marked in use at the current picture id. */
  lemma AssignExistingSlotsRecordsHead(d: DecoderDpb, entries: seq<H264Entry>, k: nat)
    requires d.Valid() && WellFormed(d, entries) && k < |entries| && Existing(entries[k])
    requires AssignExistingSlots(d, entries, k).Success?
    ensures var (slotted, d') := AssignExistingSlots(d, entries, k).value;
            && slotted[k].dpbSlot == d'.pictureToDpbSlot[PicOf(entries[k])]
            && 0 <= slotted[k].dpbSlot
            && MarkedNow(d', slotted[k].dpbSlot)
  {
    var slot, marked, next := AssignExistingSlotsStep(d, entries, k);
    AssignExistingSlotsKeepsOthers(marked, next, k + 1);
    AssignExistingSlotsKeepsMapped(marked, next, k + 1);
    AssignExistingSlotsKeepsMarked(marked, next, k + 1);
  }

  /** What the first pass does to the map: a mapped picture keeps its slot
      (a slot, once given, does not change), and pictures not referenced
      from `k` on are untouched. */
  lemma {:induction false} AssignExistingSlotsKeepsMapped(d: DecoderDpb, entries: seq<H264Entry>, k: nat)
    requires d.Valid() && WellFormed(d, entries) && k <= |entries|
    requires AssignExistingSlots(d, entries, k).Success?
    ensures var d' := AssignExistingSlots(d, entries, k).value.1;
            && (forall p :: 0 <= p < MaxFrmCnt && d.pictureToDpbSlot[p] >= 0 ==>
                  d'.pictureToDpbSlot[p] == d.pictureToDpbSlot[p])
            && (forall p :: 0 <= p < MaxFrmCnt && (forall i :: k <= i < |entries| && Existing(entries[i]) ==> PicOf(entries[i]) != p) ==>
                  d'.pictureToDpbSlot[p] == d.pictureToDpbSlot[p])
    decreases |entries| - k
  {
    if k == |entries| {
    } else if !Existing(entries[k]) {
      AssignExistingSlotsSkip(d, entries, k);
      AssignExistingSlotsKeepsMapped(d, entries, k + 1);
    } else {
      var slot, marked, next := AssignExistingSlotsStep(d, entries, k);
      AssignExistingSlotsKeepsMapped(marked, next, k + 1);
      assert forall i :: k + 1 <= i < |entries| ==> next[i] == entries[i];
    }
  }

  /** The first pass frees no slot. */
  lemma {:induction false} AssignExistingSlotsFreesNone(d: DecoderDpb, entries: seq<H264Entry>, k: nat)
    requires d.Valid() && WellFormed(d, entries) && k <= |entries|
    requires AssignExistingSlots(d, entries, k).Success?
    ensures d.dpb.slotInUseMask <= AssignExistingSlots(d, entries, k).value.1.dpb.slotInUseMask
    decreases |entries| - k
  {
    if k == |entries| {
    } else if !Existing(entries[k]) {
      AssignExistingSlotsSkip(d, entries, k);
      AssignExistingSlotsFreesNone(d, entries, k + 1);
    } else {
      var slot, marked, next := AssignExistingSlotsStep(d, entries, k);
      AssignExistingSlotsFreesNone(marked, next, k + 1);
    }
  }

  /** A picture the first pass newly maps gets a slot that was free before. */
  lemma {:induction false} AssignExistingSlotsFreshSlots(d: DecoderDpb, entries: seq<H264Entry>, k: nat)
    requires d.Valid() && WellFormed(d, entries) && k <= |entries|
    requires AssignExistingSlots(d, entries, k).Success?
    ensures var d' := AssignExistingSlots(d, entries, k).value.1;
            forall p :: 0 <= p < MaxFrmCnt && d.pictureToDpbSlot[p] < 0 && d'.pictureToDpbSlot[p] >= 0 ==>
              d'.pictureToDpbSlot[p] !in d.dpb.slotInUseMask
    decreases |entries| - k
  {
    if k == |entries| {
    } else if !Existing(entries[k]) {
      AssignExistingSlotsSkip(d, entries, k);
      AssignExistingSlotsFreshSlots(d, entries, k + 1);
    } else {
      var p := PicOf(entries[k]) as nat;
      var slot, marked, next := AssignExistingSlotsStep(d, entries, k);
      AssignExistingSlotsFreshSlots(marked, next, k + 1);
      AssignExistingSlotsKeepsMapped(marked, next, k + 1);
      var d' := AssignExistingSlots(marked, next, k + 1).value.1;
      forall q | 0 <= q < MaxFrmCnt && d.pictureToDpbSlot[q] < 0 && d'.pictureToDpbSlot[q] >= 0
        ensures d'.pictureToDpbSlot[q] !in d.dpb.slotInUseMask
      {
        if q == p {
          assert d'.pictureToDpbSlot[q] == slot;
        } else {
          assert marked.pictureToDpbSlot[q] < 0;
        }
      }
    }
  }

  /** Slots already marked in use for the current picture stay so through
      the first pass. */
  lemma {:induction false} AssignExistingSlotsKeepsMarked(d: DecoderDpb, entries: seq<H264Entry>, k: nat)
    requires d.Valid() && WellFormed(d, entries) && k <= |entries|
    requires AssignExistingSlots(d, entries, k).Success?
    ensures var d' := AssignExistingSlots(d, entries, k).value.1;
            forall s: nat :: MarkedNow(d, s) ==> MarkedNow(d', s)
    decreases |entries| - k
  {
    if k == |entries| {
    } else if !Existing(entries[k]) {
      AssignExistingSlotsSkip(d, entries, k);
      AssignExistingSlotsKeepsMarked(d, entries, k + 1);
    } else {
      var slot, marked, next := AssignExistingSlotsStep(d, entries, k);
      AssignExistingSlotsKeepsMarked(marked, next, k + 1);
    }
  }

  /** Maps the current picture, recording whether it is decoded as a field:
      its existing slot, or a freshly allocated one bound to it.  A current
      picture outside the pool or an exhausted allocator fails. */
  function AllocateDpbSlotForCurrentH264(d: DecoderDpb, pic: Option<PicBuf>, fieldPicFlag: bool): (r: Result<(int, DecoderDpb)>)
    requires d.Valid()
    ensures r.Success? <==>
              d.GetPicIdx(pic) >= 0 && (d.pictureToDpbSlot[d.GetPicIdx(pic)] >= 0 || d.dpb.available != [])
    ensures r.Success? ==>
              var (slot, d') := r.value;
              var p := d.GetPicIdx(pic);
              && d'.Valid()
              && d'.maxNumDecodeSurfaces == d.maxNumDecodeSurfaces && d'.currentPictureId == d.currentPictureId
              && d'.dpb.maxSize == d.dpb.maxSize
              && 0 <= slot == d'.pictureToDpbSlot[p]
              && d'.GetFieldPicFlag(p) == fieldPicFlag
              && d'.pictureToDpbSlot == d.pictureToDpbSlot[p := slot]
              && (d.pictureToDpbSlot[p] >= 0 ==> slot == d.pictureToDpbSlot[p] && d'.dpb == d.dpb)
              && (d.pictureToDpbSlot[p] < 0 ==>
                    slot !in d.dpb.slotInUseMask && d'.dpb.slotInUseMask == d.dpb.slotInUseMask + {slot as nat})
              && (forall s: nat :: MarkedNow(d, s) ==> MarkedNow(d', s))
  {
    var p := d.GetPicIdx(pic);
    if p < 0 then Failure("AllocateDpbSlotForCurrentH264: the current picture has no index")
    else
      var (_, flagged) := d.SetFieldPicFlag(p, fieldPicFlag);
      match flagged.MapOrAllocate(p, pic)
      case Failure(e) => Failure(e)
      case Success((slot, mapped)) =>
        assert forall s: nat :: MarkedNow(d, s) ==> MarkedNow(mapped, s) by {
          forall s: nat | MarkedNow(d, s) ensures MarkedNow(mapped, s) {
            assert MarkedNow(flagged, s);
            if d.pictureToDpbSlot[p] < 0 {
              assert s != slot;
            }
          }
        }
        Success((slot, mapped))
  }

  /** One descriptor of the second pass: the slot of the reference, the
      slot info filled for it, and the picture index recorded for it. */
  datatype RefDescriptor = RefDescriptor(slot: int, info: H264DpbSlotInfo, picIdx: int)

  /** The descriptors of the references from `k` on, in order.  A known
      picture uses the slot the first pass gave it; a non-existing frame takes
      the next index absent from `inUse` (scanning on from `first`) and
      records, as its picture, the closest covering reference or `fallback`.
      The pass fails when a non-existing frame carries a buffer or the free
      indices run out. */
  function AssignRefSlots(entries: seq<H264Entry>, k: nat, inUse: set<nat>, maxSize: nat, first: nat,
                          fallback: int, progressive: bool): (r: Result<seq<RefDescriptor>>)
    requires k <= |entries| <= MaxDpbRefAndSetupSlots && maxSize <= MaxDpbRefAndSetupSlots
    requires forall i :: 0 <= i < |entries| && Existing(entries[i]) ==> 0 <= entries[i].dpbSlot < maxSize
    ensures r.Success? ==> |r.value| == |entries| - k
    decreases |entries| - k
  {
    if k == |entries| then Success([])
    else
      var e := entries[k];
      var (slot, next) := if Existing(e) then (e.dpbSlot, first) else ScanFreeSlot(inUse, maxSize, first);
      if !Existing(e) && e.picBuf.Some? then Failure("FillDpbH264State: a non-existing frame has a buffer")
      else if slot < 0 then Failure("FillDpbH264State: no free DPB slot for a non-existing frame")
      else
        var ref := SetH264PictureData(e, k, slot, progressive);
        assert ref.Success? && ref.value.slotInfo == FilledSlotInfo(e, progressive);
        var picIdx := if Existing(e) then PicOf(e) else ClosestPocPicIdx(entries, k, fallback);
        var rest := AssignRefSlots(entries, k + 1, inUse, maxSize, next, fallback, progressive);
        if rest.Failure? then Failure(rest.error)
        else Success([RefDescriptor(slot, ref.value.slotInfo, picIdx)] + rest.value)
  }

  /** The slot info SetH264PictureData fills for reference `e`. */
  function FilledSlotInfo(e: H264Entry, progressive: bool): H264DpbSlotInfo {
    H264DpbSlotInfo(true, H264ReferenceInfo(Uint16(e.frameIdx), GetPictureFlag(e, progressive), e.fieldOrderCnt0, e.fieldOrderCnt1))
  }

  /** The pass fails exactly when a non-existing frame carries a buffer or
      there are fewer free indices than non-existing frames. */
  lemma {:induction false} AssignRefSlotsSucceedsIff(entries: seq<H264Entry>, k: nat, inUse: set<nat>, maxSize: nat, first: nat,
                                                     fallback: int, progressive: bool)
    requires k <= |entries| <= MaxDpbRefAndSetupSlots && maxSize <= MaxDpbRefAndSetupSlots
    requires forall i :: 0 <= i < |entries| && Existing(entries[i]) ==> 0 <= entries[i].dpbSlot < maxSize
    ensures AssignRefSlots(entries, k, inUse, maxSize, first, fallback, progressive).Success? <==>
              NonExistingHaveNoBuffer(entries, k) && NumNonExisting(entries, k) <= FreeCount(inUse, maxSize, first)
    decreases |entries| - k
  {
    if k < |entries| {
      var e := entries[k];
      var (slot, next) := if Existing(e) then (e.dpbSlot, first) else ScanFreeSlot(inUse, maxSize, first);
      ScanFreeSlotConsumesOne(inUse, maxSize, first);
      AssignRefSlotsSucceedsIff(entries, k + 1, inUse, maxSize, next, fallback, progressive);
      assert NonExistingHaveNoBuffer(entries, k) <==>
               (Existing(e) || e.picBuf.None?) && NonExistingHaveNoBuffer(entries, k + 1);
    }
  }

  /** What the descriptor `x` of entry `p` holds: a known picture's uses its
      slot and records its picture index; a non-existing frame's slot is an
      index from `first` on that is absent from `inUse`, and its picture is
      the closest covering reference; the slot info is the one
      SetH264PictureData fills. */
  predicate DescriptorFits(entries: seq<H264Entry>, p: nat, inUse: set<nat>, maxSize: nat, first: nat,
                           fallback: int, progressive: bool, x: RefDescriptor)
    requires p < |entries|
  {
    && x.info == FilledSlotInfo(entries[p], progressive)
    && (Existing(entries[p]) ==> x.slot == entries[p].dpbSlot && x.picIdx == PicOf(entries[p]))
    && (!Existing(entries[p]) ==>
          first <= x.slot < maxSize && x.slot as nat !in inUse && x.picIdx == ClosestPocPicIdx(entries, p, fallback))
  }

  /** A successful pass at `k` is the descriptor of entry `k` followed by a
      successful pass at `k + 1` resuming the scan where entry `k` left it. */
  lemma AssignRefSlotsStep(entries: seq<H264Entry>, k: nat, inUse: set<nat>, maxSize: nat, first: nat,
                           fallback: int, progressive: bool)
    returns (next: nat, r: seq<RefDescriptor>, rest: seq<RefDescriptor>)
    requires k < |entries| <= MaxDpbRefAndSetupSlots && maxSize <= MaxDpbRefAndSetupSlots
    requires forall i :: 0 <= i < |entries| && Existing(entries[i]) ==> 0 <= entries[i].dpbSlot < maxSize
    requires AssignRefSlots(entries, k, inUse, maxSize, first, fallback, progressive).Success?
    ensures next == if Existing(entries[k]) then first else ScanFreeSlot(inUse, maxSize, first).1
    ensures AssignRefSlots(entries, k, inUse, maxSize, first, fallback, progressive) == Success(r)
    ensures AssignRefSlots(entries, k + 1, inUse, maxSize, next, fallback, progressive) == Success(rest)
    ensures first <= next && |r| == |rest| + 1 && r[1..] == rest
    ensures DescriptorFits(entries, k, inUse, maxSize, first, fallback, progressive, r[0])
    ensures !Existing(entries[k]) ==> next == r[0].slot + 1
  {
    next := if Existing(entries[k]) then first else ScanFreeSlot(inUse, maxSize, first).1;
    r := AssignRefSlots(entries, k, inUse, maxSize, first, fallback, progressive).value;
    rest := AssignRefSlots(entries, k + 1, inUse, maxSize, next, fallback, progressive).value;
  }

  /** A successful pass at `k` continues as a successful pass at `k + 1`
      whose descriptors follow the first one. */
  lemma AssignRefSlotsTail(entries: seq<H264Entry>, k: nat, inUse: set<nat>, maxSize: nat, first: nat,
                           fallback: int, progressive: bool)
    returns (next: nat, r: seq<RefDescriptor>, rest: seq<RefDescriptor>)
    requires k < |entries| <= MaxDpbRefAndSetupSlots && maxSize <= MaxDpbRefAndSetupSlots
    requires forall i :: 0 <= i < |entries| && Existing(entries[i]) ==> 0 <= entries[i].dpbSlot < maxSize
    requires AssignRefSlots(entries, k, inUse, maxSize, first, fallback, progressive).Success?
    ensures AssignRefSlots(entries, k, inUse, maxSize, first, fallback, progressive) == Success(r)
    ensures AssignRefSlots(entries, k + 1, inUse, maxSize, next, fallback, progressive) == Success(rest)
    ensures first <= next && |r| == |rest| + 1 && r[1..] == rest
  {
    next, r, rest := AssignRefSlotsStep(entries, k, inUse, maxSize, first, fallback, progressive);
  }

  /** Every descriptor the pass produces fits its entry. */
  lemma AssignRefSlotsContents(entries: seq<H264Entry>, k: nat, inUse: set<nat>, maxSize: nat, first: nat,
                               fallback: int, progressive: bool)
    requires k <= |entries| <= MaxDpbRefAndSetupSlots && maxSize <= MaxDpbRefAndSetupSlots
    requires forall i :: 0 <= i < |entries| && Existing(entries[i]) ==> 0 <= entries[i].dpbSlot < maxSize
    requires AssignRefSlots(entries, k, inUse, maxSize, first, fallback, progressive).Success?
    ensures var r := AssignRefSlots(entries, k, inUse, maxSize, first, fallback, progressive).value;
            forall i :: 0 <= i < |r| ==> DescriptorFits(entries, k + i, inUse, maxSize, first, fallback, progressive, r[i])
  {
    var r := AssignRefSlots(entries, k, inUse, maxSize, first, fallback, progressive).value;
    forall i | 0 <= i < |r|
      ensures DescriptorFits(entries, k + i, inUse, maxSize, first, fallback, progressive, r[i])
    {
      AssignRefSlotsAt(entries, k, inUse, maxSize, first, fallback, progressive, i);
    }
  }

  /** The descriptor at position `i` of a pass from `k` fits entry `k + i`. */
  lemma {:induction false} AssignRefSlotsAt(entries: seq<H264Entry>, k: nat, inUse: set<nat>, maxSize: nat, first: nat,
                                            fallback: int, progressive: bool, i: nat)
    requires k <= |entries| <= MaxDpbRefAndSetupSlots && maxSize <= MaxDpbRefAndSetupSlots
    requires forall i :: 0 <= i < |entries| && Existing(entries[i]) ==> 0 <= entries[i].dpbSlot < maxSize
    requires AssignRefSlots(entries, k, inUse, maxSize, first, fallback, progressive).Success?
    requires i < |entries| - k
    ensures var r := AssignRefSlots(entries, k, inUse, maxSize, first, fallback, progressive).value;
            DescriptorFits(entries, k + i, inUse, maxSize, first, fallback, progressive, r[i])
    decreases i
  {
    if i == 0 {
      var next, r, rest := AssignRefSlotsStep(entries, k, inUse, maxSize, first, fallback, progressive);
    } else {
      var next, r, rest := AssignRefSlotsTail(entries, k, inUse, maxSize, first, fallback, progressive);
      AssignRefSlotsAt(entries, k + 1, inUse, maxSize, next, fallback, progressive, i - 1);
      assert r[i] == rest[i - 1] && k + i == (k + 1) + (i - 1);
      DescriptorFitsFromLater(entries, k + i, inUse, maxSize, first, next, fallback, progressive, r[i]);
    }
  }

  lemma DescriptorFitsFromLater(entries: seq<H264Entry>, p: nat, inUse: set<nat>, maxSize: nat, first: nat, later: nat,
                                fallback: int, progressive: bool, x: RefDescriptor)
    requires p < |entries| && first <= later
    requires DescriptorFits(entries, p, inUse, maxSize, later, fallback, progressive, x)
    ensures DescriptorFits(entries, p, inUse, maxSize, first, fallback, progressive, x)
  {
  }

  /** The non-existing frames get strictly increasing slots. */
  lemma AssignRefSlotsIncreasing(entries: seq<H264Entry>, k: nat, inUse: set<nat>, maxSize: nat, first: nat,
                                 fallback: int, progressive: bool)
    requires k <= |entries| <= MaxDpbRefAndSetupSlots && maxSize <= MaxDpbRefAndSetupSlots
    requires forall i :: 0 <= i < |entries| && Existing(entries[i]) ==> 0 <= entries[i].dpbSlot < maxSize
    requires AssignRefSlots(entries, k, inUse, maxSize, first, fallback, progressive).Success?
    ensures var r := AssignRefSlots(entries, k, inUse, maxSize, first, fallback, progressive).value;
            forall i, j :: 0 <= i < j < |r| && !Existing(entries[k + i]) && !Existing(entries[k + j]) ==>
              r[i].slot < r[j].slot
  {
    var r := AssignRefSlots(entries, k, inUse, maxSize, first, fallback, progressive).value;
    forall i, j | 0 <= i < j < |r| && !Existing(entries[k + i]) && !Existing(entries[k + j])
      ensures r[i].slot < r[j].slot
    {
      AssignRefSlotsOrdered(entries, k, inUse, maxSize, first, fallback, progressive, i, j);
    }
  }

  /** Two non-existing frames at positions `i < j` of a pass from `k` get
      slots in that order. */
  lemma AssignRefSlotsOrdered(entries: seq<H264Entry>, k: nat, inUse: set<nat>, maxSize: nat, first: nat,
                              fallback: int, progressive: bool, i: nat, j: nat)
    requires k <= |entries| <= MaxDpbRefAndSetupSlots && maxSize <= MaxDpbRefAndSetupSlots
    requires forall i :: 0 <= i < |entries| && Existing(entries[i]) ==> 0 <= entries[i].dpbSlot < maxSize
    requires AssignRefSlots(entries, k, inUse, maxSize, first, fallback, progressive).Success?
    requires i < j < |entries| - k && !Existing(entries[k + i]) && !Existing(entries[k + j])
    ensures var r := AssignRefSlots(entries, k, inUse, maxSize, first, fallback, progressive).value;
            r[i].slot < r[j].slot
  {
    var later, r, rest := AssignRefSlotsSuffix(entries, k, inUse, maxSize, first, fallback, progressive, i);
    AssignRefSlotsHeadBelow(entries, k + i, inUse, maxSize, later, fallback, progressive, j - i);
    assert r[i] == rest[0] && r[j] == rest[j - i] && k + j == (k + i) + (j - i);
  }

  /** A successful pass from `k` continues, from position `i` on, as a
      successful pass from `k + i` resuming the scan somewhere. */
  lemma {:induction false} AssignRefSlotsSuffix(entries: seq<H264Entry>, k: nat, inUse: set<nat>, maxSize: nat, first: nat,
                                                fallback: int, progressive: bool, i: nat)
    returns (later: nat, r: seq<RefDescriptor>, rest: seq<RefDescriptor>)
    requires k <= |entries| <= MaxDpbRefAndSetupSlots && maxSize <= MaxDpbRefAndSetupSlots
    requires forall i :: 0 <= i < |entries| && Existing(entries[i]) ==> 0 <= entries[i].dpbSlot < maxSize
    requires AssignRefSlots(entries, k, inUse, maxSize, first, fallback, progressive).Success?
    requires i <= |entries| - k
    ensures AssignRefSlots(entries, k, inUse, maxSize, first, fallback, progressive) == Success(r)
    ensures AssignRefSlots(entries, k + i, inUse, maxSize, later, fallback, progressive) == Success(rest)
    ensures |r| == |rest| + i && r[i..] == rest
    decreases i
  {
    if i == 0 {
      later := first;
      r := AssignRefSlots(entries, k, inUse, maxSize, first, fallback, progressive).value;
      rest := r;
    } else {
      var next, tail;
      next, r, tail := AssignRefSlotsTail(entries, k, inUse, maxSize, first, fallback, progressive);
      var r';
      later, r', rest := AssignRefSlotsSuffix(entries, k + 1, inUse, maxSize, next, fallback, progressive, i - 1);
      assert r' == tail && k + i == (k + 1) + (i - 1);
      assert r[i..] == tail[i - 1..];
    }
  }

  /** A non-existing frame at the head of a pass gets a slot below that of
      every later non-existing frame. */
  lemma AssignRefSlotsHeadBelow(entries: seq<H264Entry>, k: nat, inUse: set<nat>, maxSize: nat, first: nat,
                                fallback: int, progressive: bool, j: nat)
    requires k <= |entries| <= MaxDpbRefAndSetupSlots && maxSize <= MaxDpbRefAndSetupSlots
    requires forall i :: 0 <= i < |entries| && Existing(entries[i]) ==> 0 <= entries[i].dpbSlot < maxSize
    requires AssignRefSlots(entries, k, inUse, maxSize, first, fallback, progressive).Success?
    requires 0 < j < |entries| - k && !Existing(entries[k]) && !Existing(entries[k + j])
    ensures var r := AssignRefSlots(entries, k, inUse, maxSize, first, fallback, progressive).value;
            r[0].slot < r[j].slot
  {
    var next, r, rest := AssignRefSlotsStep(entries, k, inUse, maxSize, first, fallback, progressive);
    AssignRefSlotsAt(entries, k + 1, inUse, maxSize, next, fallback, progressive, j - 1);
    assert r[j] == rest[j - 1] && k + j == (k + 1) + (j - 1);
    assert DescriptorFits(entries, k + j, inUse, maxSize, next, fallback, progressive, r[j]);
  }

  /** The stand-in search reads only the field bits, order counts and
      buffers of the entries, so it does not see the slots the first pass
      records. */
  lemma {:induction false} ClosestCoverIgnoresSlots(a: seq<H264Entry>, b: seq<H264Entry>, k: nat, j: nat, minDiff: int, best: int)
    requires |a| == |b| && forall i :: 0 <= i < |a| ==> SameButSlot(a[i], b[i])
    requires k < |a| && j <= |a| && -1 <= best < j
    ensures ClosestCover(a, k, j, minDiff, best) == ClosestCover(b, k, j, minDiff, best)
    decreases |a| - j
  {
    if j < |a| {
      assert SameButSlot(a[j], b[j]) && SameButSlot(a[k], b[k]);
      assert Covers(a, j, k) == Covers(b, j, k) && PocDiff(a, j, k) == PocDiff(b, j, k);
      if Covers(a, j, k) && PocDiff(a, j, k) <= minDiff {
        ClosestCoverIgnoresSlots(a, b, k, j + 1, PocDiff(a, j, k), j);
      } else {
        ClosestCoverIgnoresSlots(a, b, k, j + 1, minDiff, best);
      }
    }
  }

  /** The first pass as the builder runs it: only when some reference
      resolves to a known picture. */
  function MapReferences(d: DecoderDpb, entries: seq<H264Entry>): (r: Result<(seq<H264Entry>, DecoderDpb)>)
    requires d.Valid() && WellFormed(d, entries)
    ensures r.Failure? ==> ValidMask(entries) != {}
    ensures r.Success? ==>
              var (slotted, d') := r.value;
              && d'.Valid()
              && d'.(pictureToDpbSlot := d.pictureToDpbSlot, dpbSlotsMask := d.dpbSlotsMask, dpb := d.dpb) == d
              && d'.dpb.maxSize == d.dpb.maxSize
              && |slotted| == |entries|
              && (forall i :: 0 <= i < |entries| ==> SameButSlot(slotted[i], entries[i]))
              && (forall i :: 0 <= i < |entries| && Existing(entries[i]) ==>
                    && slotted[i].dpbSlot == d'.pictureToDpbSlot[PicOf(entries[i])]
                    && 0 <= slotted[i].dpbSlot
                    && MarkedNow(d', slotted[i].dpbSlot))
              && (forall p :: 0 <= p < MaxFrmCnt && d.pictureToDpbSlot[p] >= 0 ==>
                    d'.pictureToDpbSlot[p] == d.pictureToDpbSlot[p])
              && (forall p: nat :: p < MaxFrmCnt && p !in ValidMask(entries) ==>
                    d'.pictureToDpbSlot[p] == d.pictureToDpbSlot[p])
  {
    if ValidMask(entries) == {} then
      assert forall i :: 0 <= i < |entries| ==> !Existing(entries[i]);
      Success((entries, d))
    else
      var r := AssignExistingSlots(d, entries, 0);
      if r.Failure? then r
      else
        AssignExistingSlotsChangesOnlySlots(d, entries, 0);
        AssignExistingSlotsRecordsSlots(d, entries, 0);
        AssignExistingSlotsKeepsMapped(d, entries, 0);
        assert forall p: nat :: p < MaxFrmCnt && p !in ValidMask(entries) ==>
                 forall i :: 0 <= i < |entries| && Existing(entries[i]) ==> PicOf(entries[i]) != p;
        r
  }

  /** The packed references after the first pass: the same references with
      only their slots recorded, each known one in a slot below `maxSize`. */
  predicate SlotsFit(entries: seq<H264Entry>, slotted: seq<H264Entry>, maxSize: nat) {
    && |slotted| == |entries|
    && (forall i :: 0 <= i < |entries| ==> SameButSlot(slotted[i], entries[i]))
    && (forall i :: 0 <= i < |slotted| && Existing(slotted[i]) ==> 0 <= slotted[i].dpbSlot < maxSize)
  }

  /** The second pass as the builder runs it keeps every known picture in
      its first-pass slot, and every descriptor means what the builder
      promises against the references before the first pass. */
  lemma SecondPassMeans(entries: seq<H264Entry>, slotted: seq<H264Entry>, inUse: set<nat>, maxSize: nat,
                        fallback: int, progressive: bool)
    requires |entries| <= MaxDpbRefAndSetupSlots && maxSize <= MaxDpbRefAndSetupSlots
    requires SlotsFit(entries, slotted, maxSize)
    requires AssignRefSlots(slotted, 0, inUse, maxSize, 0, fallback, progressive).Success?
    ensures var xs := AssignRefSlots(slotted, 0, inUse, maxSize, 0, fallback, progressive).value;
            forall k :: 0 <= k < |entries| ==>
              && DescriptorMeans(entries, k, inUse, maxSize, fallback, progressive, xs[k])
              && (Existing(entries[k]) ==> xs[k].slot == slotted[k].dpbSlot)
  {
    AssignRefSlotsContents(slotted, 0, inUse, maxSize, 0, fallback, progressive);
    var xs := AssignRefSlots(slotted, 0, inUse, maxSize, 0, fallback, progressive).value;
    forall k | 0 <= k < |entries|
      ensures && DescriptorMeans(entries, k, inUse, maxSize, fallback, progressive, xs[k])
              && (Existing(entries[k]) ==> xs[k].slot == slotted[k].dpbSlot)
    {
      assert DescriptorFits(slotted, 0 + k, inUse, maxSize, 0, fallback, progressive, xs[k]);
      DescriptorFitsIgnoresSlots(entries, slotted, k, inUse, maxSize, fallback, progressive, xs[k]);
    }
  }

  /** In the second pass as the builder runs it, the non-existing frames'
      slots increase with their position. */
  lemma SecondPassIncreasing(entries: seq<H264Entry>, slotted: seq<H264Entry>, inUse: set<nat>, maxSize: nat,
                             fallback: int, progressive: bool)
    requires |entries| <= MaxDpbRefAndSetupSlots && maxSize <= MaxDpbRefAndSetupSlots
    requires SlotsFit(entries, slotted, maxSize)
    requires AssignRefSlots(slotted, 0, inUse, maxSize, 0, fallback, progressive).Success?
    ensures var xs := AssignRefSlots(slotted, 0, inUse, maxSize, 0, fallback, progressive).value;
            forall k, l :: 0 <= k < l < |entries| && !Existing(entries[k]) && !Existing(entries[l]) ==>
              xs[k].slot < xs[l].slot
  {
    AssignRefSlotsIncreasing(slotted, 0, inUse, maxSize, 0, fallback, progressive);
    var xs := AssignRefSlots(slotted, 0, inUse, maxSize, 0, fallback, progressive).value;
    forall k, l | 0 <= k < l < |entries| && !Existing(entries[k]) && !Existing(entries[l])
      ensures xs[k].slot < xs[l].slot
    {
      assert SameButSlot(slotted[k], entries[k]) && SameButSlot(slotted[l], entries[l]);
      assert !Existing(slotted[0 + k]) && !Existing(slotted[0 + l]);
    }
  }

  /** The descriptor `x` of entry `k` as the builder promises it. */
  predicate DescriptorMeans(entries: seq<H264Entry>, k: nat, inUse: set<nat>, maxSize: nat,
                            fallback: int, progressive: bool, x: RefDescriptor)
    requires k < |entries|
  {
    && (Existing(entries[k]) ==> x.picIdx == PicOf(entries[k]))
    && (!Existing(entries[k]) ==>
          0 <= x.slot < maxSize && x.slot as nat !in inUse && x.picIdx == ClosestPocPicIdx(entries, k, fallback))
    && x.info.IsReference()
    && x.info.stdReferenceInfo ==
         H264ReferenceInfo(Uint16(entries[k].frameIdx), GetPictureFlag(entries[k], progressive),
                           entries[k].fieldOrderCnt0, entries[k].fieldOrderCnt1)
  }

  lemma DescriptorFitsIgnoresSlots(entries: seq<H264Entry>, slotted: seq<H264Entry>, k: nat, inUse: set<nat>, maxSize: nat,
                                   fallback: int, progressive: bool, x: RefDescriptor)
    requires |slotted| == |entries| && k < |entries|
    requires forall i :: 0 <= i < |entries| ==> SameButSlot(slotted[i], entries[i])
    requires DescriptorFits(slotted, k, inUse, maxSize, 0, fallback, progressive, x)
    ensures DescriptorMeans(entries, k, inUse, maxSize, fallback, progressive, x)
    ensures Existing(entries[k]) ==> x.slot == slotted[k].dpbSlot
  {
    assert SameButSlot(slotted[k], entries[k]);
    if !Existing(entries[k]) {
      ClosestCoverIgnoresSlots(slotted, entries, k, 0, MaxPocDiff, -1);
      var i := ClosestCover(entries, k, 0, MaxPocDiff, -1);
      if i >= 0 {
        assert SameButSlot(slotted[i], entries[i]);
      }
    }
  }

  /** The frame_num distance the stand-in search starts from. */
  const MaxFrameNumDiff: int := 0x10000

  /** The first pass and the allocation for the current picture. */
  function MapForCurrent(d: DecoderDpb, pic: H264PictureIn, entries: seq<H264Entry>): (r: Result<(seq<H264Entry>, int, DecoderDpb)>)
    requires d.Valid() && WellFormed(d, entries)
    ensures r.Success? ==>
              && d.GetPicIdx(pic.currPic) >= 0
              && r.value.2.Valid() && r.value.2.dpb.maxSize == d.dpb.maxSize
              && SlotsFit(entries, r.value.0, d.dpb.maxSize)
  {
    var currPicIdx := d.GetPicIdx(pic.currPic);
    if currPicIdx < 0 then Failure("FillDpbH264State: the current picture has no index")
    else
      match MapReferences(d, entries)
      case Failure(e) => Failure(e)
      case Success((slotted, mapped)) =>
        match AllocateDpbSlotForCurrentH264(mapped, pic.currPic, pic.fieldPicFlag)
        case Failure(e) => Failure(e)
        case Success((currSlot, decoder)) =>
          assert forall i :: 0 <= i < |slotted| && Existing(slotted[i]) ==> Existing(entries[i]) by {
            forall i | 0 <= i < |slotted| && Existing(slotted[i]) ensures Existing(entries[i]) {
              assert SameButSlot(slotted[i], entries[i]);
            }
          }
          Success((slotted, currSlot, decoder))
  }

  /** The intermediate results of a successful MapForCurrent. */
  lemma MapForCurrentUnfold(d: DecoderDpb, pic: H264PictureIn, entries: seq<H264Entry>)
    returns (slotted: seq<H264Entry>, mapped: DecoderDpb, currSlot: int, decoder: DecoderDpb)
    requires d.Valid() && WellFormed(d, entries)
    requires MapForCurrent(d, pic, entries).Success?
    ensures d.GetPicIdx(pic.currPic) >= 0
    ensures MapReferences(d, entries) == Success((slotted, mapped))
    ensures AllocateDpbSlotForCurrentH264(mapped, pic.currPic, pic.fieldPicFlag) == Success((currSlot, decoder))
    ensures MapForCurrent(d, pic, entries) == Success((slotted, currSlot, decoder))
  {
    var m := MapReferences(d, entries).value;
    slotted, mapped := m.0, m.1;
    var a := AllocateDpbSlotForCurrentH264(mapped, pic.currPic, pic.fieldPicFlag).value;
    currSlot, decoder := a.0, a.1;
  }

  /** After the first pass and the allocation, every known reference sits in
      the slot now mapped to its picture, marked in use by the current
      picture, and that slot is the one the picture had whenever it had one. */
  lemma MapForCurrentKnown(d: DecoderDpb, pic: H264PictureIn, entries: seq<H264Entry>)
    requires d.Valid() && WellFormed(d, entries)
    requires MapForCurrent(d, pic, entries).Success?
    ensures var (slotted, _, d') := MapForCurrent(d, pic, entries).value;
            && |slotted| == |entries| && d'.Valid()
            && forall k :: 0 <= k < |entries| && Existing(entries[k]) ==>
                 && slotted[k].dpbSlot == d'.pictureToDpbSlot[PicOf(entries[k])]
                 && 0 <= slotted[k].dpbSlot && MarkedNow(d', slotted[k].dpbSlot)
                 && (d.pictureToDpbSlot[PicOf(entries[k])] >= 0 ==> slotted[k].dpbSlot == d.pictureToDpbSlot[PicOf(entries[k])])
  {
    var slotted, mapped, currSlot, decoder := MapForCurrentUnfold(d, pic, entries);
    var currPicIdx := d.GetPicIdx(pic.currPic);
    forall k | 0 <= k < |entries| && Existing(entries[k])
      ensures && slotted[k].dpbSlot == decoder.pictureToDpbSlot[PicOf(entries[k])]
              && 0 <= slotted[k].dpbSlot && MarkedNow(decoder, slotted[k].dpbSlot)
              && (d.pictureToDpbSlot[PicOf(entries[k])] >= 0 ==> slotted[k].dpbSlot == d.pictureToDpbSlot[PicOf(entries[k])])
    {
      assert MarkedNow(mapped, slotted[k].dpbSlot);
      if PicOf(entries[k]) == currPicIdx {
        assert mapped.pictureToDpbSlot[currPicIdx] >= 0;
      }
    }
  }

  /** After the first pass and the allocation, the current picture has a
      slot and its field flag, and every other picture no reference resolves
      to keeps its slot. */
  lemma MapForCurrentCurrent(d: DecoderDpb, pic: H264PictureIn, entries: seq<H264Entry>)
    requires d.Valid() && WellFormed(d, entries)
    requires MapForCurrent(d, pic, entries).Success?
    ensures var (_, currSlot, d') := MapForCurrent(d, pic, entries).value;
            var currPicIdx := d.GetPicIdx(pic.currPic);
            && d'.Valid() && currPicIdx >= 0
            && currSlot == d'.pictureToDpbSlot[currPicIdx] >= 0
            && d'.GetFieldPicFlag(currPicIdx) == pic.fieldPicFlag
            && d'.maxNumDecodeSurfaces == d.maxNumDecodeSurfaces
            && d'.currentPictureId == d.currentPictureId
            && (forall p: nat :: p < MaxFrmCnt && p != currPicIdx && p !in ValidMask(entries) ==>
                  d'.pictureToDpbSlot[p] == d.pictureToDpbSlot[p])
  {
    var slotted, mapped, currSlot, decoder := MapForCurrentUnfold(d, pic, entries);
    var currPicIdx := d.GetPicIdx(pic.currPic);
    forall p: nat | p < MaxFrmCnt && p != currPicIdx && p !in ValidMask(entries)
      ensures decoder.pictureToDpbSlot[p] == d.pictureToDpbSlot[p]
    {
      assert decoder.pictureToDpbSlot[p] == mapped.pictureToDpbSlot[p];
    }
  }

  /** The second pass and the outputs: the descriptors and picture indexes
      of the references, followed by -1 up to the `n` positions of the
      parser DPB; nothing when no reference resolves to a known picture. */
  function AssembleState(entries: seq<H264Entry>, slotted: seq<H264Entry>, currSlot: int, decoder: DecoderDpb,
                         fallback: int, progressive: bool, n: nat): (r: Result<H264DpbState>)
    requires |entries| <= n && |entries| <= MaxDpbRefAndSetupSlots && decoder.dpb.maxSize <= MaxDpbRefAndSetupSlots
    requires SlotsFit(entries, slotted, decoder.dpb.maxSize)
    ensures r.Success? ==>
              && r.value.decoder == decoder
              && |r.value.slotIndexes| == |r.value.gopReferenceImagesIndexes| == n
              && |r.value.dpbRefList| == r.value.numGopReferenceSlots <= |entries|
  {
    if ValidMask(entries) == {} then
      Success(H264DpbState(0, PadWithUnused([], n), [], PadWithUnused([], n), currSlot, decoder))
    else
      match AssignRefSlots(slotted, 0, decoder.dpb.slotInUseMask, decoder.dpb.maxSize, 0, fallback, progressive)
      case Failure(e) => Failure(e)
      case Success(xs) =>
        Success(H264DpbState(|entries|, PadWithUnused(Slots(xs), n), Infos(xs), PadWithUnused(PicIdxs(xs), n),
                             currSlot, decoder))
  }

  function Slots(xs: seq<RefDescriptor>): (r: seq<int>)
    ensures |r| == |xs| && forall k :: 0 <= k < |xs| ==> r[k] == xs[k].slot
  {
    seq(|xs|, i requires 0 <= i < |xs| => xs[i].slot)
  }

  function Infos(xs: seq<RefDescriptor>): (r: seq<H264DpbSlotInfo>)
    ensures |r| == |xs| && forall k :: 0 <= k < |xs| ==> r[k] == xs[k].info
  {
    seq(|xs|, i requires 0 <= i < |xs| => xs[i].info)
  }

  function PicIdxs(xs: seq<RefDescriptor>): (r: seq<int>)
    ensures |r| == |xs| && forall k :: 0 <= k < |xs| ==> r[k] == xs[k].picIdx
  {
    seq(|xs|, i requires 0 <= i < |xs| => xs[i].picIdx)
  }

  /** A successful assembly keeps the decoder and the current slot, holds
      one descriptor per reference when some reference resolves to a known
      picture and none otherwise, and pads both output arrays with -1. */
  lemma AssembleStateShape(entries: seq<H264Entry>, slotted: seq<H264Entry>, currSlot: int, decoder: DecoderDpb,
                           fallback: int, progressive: bool, n: nat)
    requires |entries| <= n && |entries| <= MaxDpbRefAndSetupSlots && decoder.dpb.maxSize <= MaxDpbRefAndSetupSlots
    requires SlotsFit(entries, slotted, decoder.dpb.maxSize)
    requires AssembleState(entries, slotted, currSlot, decoder, fallback, progressive, n).Success?
    ensures var s := AssembleState(entries, slotted, currSlot, decoder, fallback, progressive, n).value;
            && s.decoder == decoder && s.currAllocatedSlotIndex == currSlot
            && s.numGopReferenceSlots == (if ValidMask(entries) == {} then 0 else |entries|)
            && |s.slotIndexes| == |s.gopReferenceImagesIndexes| == n
            && |s.dpbRefList| == s.numGopReferenceSlots
            && (forall i :: s.numGopReferenceSlots <= i < n ==>
                  s.slotIndexes[i] == -1 && s.gopReferenceImagesIndexes[i] == -1)
  {
  }

  /** Every descriptor of a successful assembly is filled from its
      reference, a known picture keeps its first-pass slot, and the slots of
      non-existing frames increase with their position. */
  lemma AssembleStateDescriptors(entries: seq<H264Entry>, slotted: seq<H264Entry>, currSlot: int, decoder: DecoderDpb,
                                 fallback: int, progressive: bool, n: nat)
    requires |entries| <= n && |entries| <= MaxDpbRefAndSetupSlots && decoder.dpb.maxSize <= MaxDpbRefAndSetupSlots
    requires SlotsFit(entries, slotted, decoder.dpb.maxSize)
    requires AssembleState(entries, slotted, currSlot, decoder, fallback, progressive, n).Success?
    ensures var s := AssembleState(entries, slotted, currSlot, decoder, fallback, progressive, n).value;
            && s.numGopReferenceSlots <= |entries|
            && (forall k :: 0 <= k < s.numGopReferenceSlots && Existing(entries[k]) ==> s.slotIndexes[k] == slotted[k].dpbSlot)
            && (forall k :: 0 <= k < s.numGopReferenceSlots ==>
                  DescriptorMeans(entries, k, decoder.dpb.slotInUseMask, decoder.dpb.maxSize, fallback, progressive,
                                  RefDescriptor(s.slotIndexes[k], s.dpbRefList[k], s.gopReferenceImagesIndexes[k])))
            && (forall k, l :: 0 <= k < l < s.numGopReferenceSlots && !Existing(entries[k]) && !Existing(entries[l]) ==>
                  s.slotIndexes[k] < s.slotIndexes[l])
  {
    if ValidMask(entries) != {} {
      var inUse, maxSize := decoder.dpb.slotInUseMask, decoder.dpb.maxSize;
      SecondPassMeans(entries, slotted, inUse, maxSize, fallback, progressive);
      SecondPassIncreasing(entries, slotted, inUse, maxSize, fallback, progressive);
      var xs := AssignRefSlots(slotted, 0, inUse, maxSize, 0, fallback, progressive).value;
      var s := AssembleState(entries, slotted, currSlot, decoder, fallback, progressive, n).value;
      assert forall k :: 0 <= k < |xs| ==> RefDescriptor(s.slotIndexes[k], s.dpbRefList[k], s.gopReferenceImagesIndexes[k]) == xs[k];
    }
  }

  /** `xs` followed by -1 up to length `n`: the output arrays are invalidated
      position by position before the references are written. */
  function PadWithUnused(xs: seq<int>, n: nat): (r: seq<int>)
    requires |xs| <= n
    ensures |r| == n
    ensures forall k :: 0 <= k < |xs| ==> r[k] == xs[k]
    ensures forall k :: |xs| <= k < n ==> r[k] == -1
  {
    xs + seq(n - |xs|, _ => -1)
  }

  /** Builds the reference list of one H.264 picture.  The references of
      the parser DPB are packed in order; every mapped picture that is not
      among them (and below maxNumDecodeSurfaces) is unmapped; each known
      reference keeps or gets a slot, marked in use now; the current picture
      gets a slot and its field flag; each non-existing frame gets a slot
      free in the resulting DPB and a stand-in picture; and one descriptor
      per reference is filled.  When no reference resolves to a known
      picture, no descriptor is produced.  The decoder's assertions on the
      state become failures.  Slots are bounded by the allocator's size,
      which is the decoder's slot count after every BeginSequence; before
      the first sequence the decoder's own count (1) and the allocator's
      initial size (3) differ, and that state is not modelled.  What a success holds is stated by the
      FillDpbH264State lemmas below. */
  function FillDpbH264State(d: DecoderDpb, pic: H264PictureIn, dpbIn: seq<H264DpbIn>): (r: Result<H264DpbState>)
    requires d.Valid()
    requires |dpbIn| <= MaxDpbRefAndSetupSlots
    ensures r.Success? ==>
              && d.GetPicIdx(pic.currPic) >= 0
              && pic.maxNumRefFrames <= MaxDpbRefSlots && pic.maxNumRefFrames <= d.dpb.maxSize
              && |CollectEntries(d, dpbIn)| <= pic.maxNumRefFrames
    ensures r.Success? ==>
              && r.value.decoder.Valid()
              && |r.value.slotIndexes| == |r.value.gopReferenceImagesIndexes| == |dpbIn|
              && |r.value.dpbRefList| == r.value.numGopReferenceSlots <= |CollectEntries(d, dpbIn)|
  {
    var entries := CollectEntries(d, dpbIn);
    if pic.maxNumRefFrames > MaxDpbRefSlots || pic.maxNumRefFrames > d.dpb.maxSize then
      Failure("FillDpbH264State: max_num_ref_frames exceeds the DPB")
    else if |entries| > MaxDpbRefSlots || |entries| > d.dpb.maxSize || |entries| > pic.maxNumRefFrames then
      Failure("FillDpbH264State: more references than the DPB holds")
    else
      FillChecked(d, pic, entries, |dpbIn|)
  }

  /** FillDpbH264State once the reference count has passed its checks: the
      unmapping step, the first pass with the allocation for the current
      picture, and the second pass. */
  function FillChecked(d: DecoderDpb, pic: H264PictureIn, entries: seq<H264Entry>, n: nat): (r: Result<H264DpbState>)
    requires d.Valid() && WellFormed(d, entries)
    requires |entries| <= n <= MaxDpbRefAndSetupSlots && |entries| <= MaxDpbRefSlots
    ensures r.Success? ==>
              && d.GetPicIdx(pic.currPic) >= 0
              && r.value.decoder.Valid()
              && |r.value.slotIndexes| == |r.value.gopReferenceImagesIndexes| == n
              && |r.value.dpbRefList| == r.value.numGopReferenceSlots <= |entries|
  {
    var reset := ResetPictures(d, ValidMask(entries), 0);
    assert WellFormed(reset, entries);
    match MapForCurrent(reset, pic, entries)
    case Failure(e) => Failure(e)
    case Success((slotted, currSlot, decoder)) =>
      var currPicIdx := d.GetPicIdx(pic.currPic);
      var fallback := BestNonExistingPicIdx(entries, pic.frameNum, currPicIdx, 0, MaxFrameNumDiff, currPicIdx);
      AssembleState(entries, slotted, currSlot, decoder, fallback, pic.progressiveFrame, n)
  }

  /** The intermediate results of a successful FillDpbH264State: the packed
      references, the unmapped decoder, and the first pass with the
      allocation for the current picture. */
  lemma FillDpbH264StateUnfold(d: DecoderDpb, pic: H264PictureIn, dpbIn: seq<H264DpbIn>)
    returns (entries: seq<H264Entry>, reset: DecoderDpb, slotted: seq<H264Entry>, currSlot: int, decoder: DecoderDpb, fallback: int)
    requires d.Valid() && |dpbIn| <= MaxDpbRefAndSetupSlots
    requires FillDpbH264State(d, pic, dpbIn).Success?
    ensures entries == CollectEntries(d, dpbIn) && |entries| <= MaxDpbRefSlots && |entries| <= d.dpb.maxSize
    ensures reset == ResetPictures(d, ValidMask(entries), 0) && WellFormed(reset, entries)
    ensures MapForCurrent(reset, pic, entries) == Success((slotted, currSlot, decoder))
    ensures fallback == BestNonExistingPicIdx(entries, pic.frameNum, d.GetPicIdx(pic.currPic), 0, MaxFrameNumDiff, d.GetPicIdx(pic.currPic))
    ensures FillDpbH264State(d, pic, dpbIn) ==
              AssembleState(entries, slotted, currSlot, decoder, fallback, pic.progressiveFrame, |dpbIn|)
  {
    entries := CollectEntries(d, dpbIn);
    assert FillDpbH264State(d, pic, dpbIn) == FillChecked(d, pic, entries, |dpbIn|);
    reset := ResetPictures(d, ValidMask(entries), 0);
    assert WellFormed(reset, entries);
    var m := MapForCurrent(reset, pic, entries);
    slotted, currSlot, decoder := m.value.0, m.value.1, m.value.2;
    fallback := BestNonExistingPicIdx(entries, pic.frameNum, d.GetPicIdx(pic.currPic), 0, MaxFrameNumDiff, d.GetPicIdx(pic.currPic));
  }

  /** A success keeps the decoder consistent, with one descriptor per
      reference when some reference resolves to a known picture and none
      otherwise, and both output arrays padded with -1 to the parser DPB's
      length. */
  lemma FillDpbH264StateShape(d: DecoderDpb, pic: H264PictureIn, dpbIn: seq<H264DpbIn>)
    requires d.Valid() && |dpbIn| <= MaxDpbRefAndSetupSlots
    requires FillDpbH264State(d, pic, dpbIn).Success?
    ensures var s := FillDpbH264State(d, pic, dpbIn).value;
            var entries := CollectEntries(d, dpbIn);
            && s.decoder.Valid()
            && s.decoder.dpb.maxSize == d.dpb.maxSize
            && s.decoder.maxNumDecodeSurfaces == d.maxNumDecodeSurfaces
            && s.decoder.currentPictureId == d.currentPictureId
            && s.numGopReferenceSlots == (if ValidMask(entries) == {} then 0 else |entries|)
            && |s.slotIndexes| == |s.gopReferenceImagesIndexes| == |dpbIn|
            && |s.dpbRefList| == s.numGopReferenceSlots
            && (forall i :: s.numGopReferenceSlots <= i < |dpbIn| ==>
                  s.slotIndexes[i] == -1 && s.gopReferenceImagesIndexes[i] == -1)
  {
    var entries, reset, slotted, currSlot, decoder, fallback := FillDpbH264StateUnfold(d, pic, dpbIn);
    AssembleStateShape(entries, slotted, currSlot, decoder, fallback, pic.progressiveFrame, |dpbIn|);
    MapForCurrentCurrent(reset, pic, entries);
  }

  /** Every reference that resolves to a known picture is described by the
      slot now mapped to that picture, which is marked in use by the current
      picture, and which is the slot the picture had before whenever it had
      one. */
  lemma FillDpbH264StateKnownReferences(d: DecoderDpb, pic: H264PictureIn, dpbIn: seq<H264DpbIn>)
    requires d.Valid() && |dpbIn| <= MaxDpbRefAndSetupSlots
    requires FillDpbH264State(d, pic, dpbIn).Success?
    ensures var s := FillDpbH264State(d, pic, dpbIn).value;
            KnownSlots(d, CollectEntries(d, dpbIn), s.decoder, s.slotIndexes, s.numGopReferenceSlots)
  {
    var entries, reset, slotted, currSlot, decoder, fallback := FillDpbH264StateUnfold(d, pic, dpbIn);
    AssembleStateShape(entries, slotted, currSlot, decoder, fallback, pic.progressiveFrame, |dpbIn|);
    AssembleStateDescriptors(entries, slotted, currSlot, decoder, fallback, pic.progressiveFrame, |dpbIn|);
    MapForCurrentKnown(reset, pic, entries);
    ResetKeepsReferences(d, entries);
    var s := FillDpbH264State(d, pic, dpbIn).value;
    KnownSlotsFrom(d, entries, reset, slotted, decoder, s.slotIndexes, s.numGopReferenceSlots);
  }

  /** The first `num` output slots describe every known reference among
      them by the slot now mapped to its picture in `decoder`, marked in use
      by the current picture, and equal to the slot the picture had in `d`
      whenever it had one. */
  ghost predicate KnownSlots(d: DecoderDpb, entries: seq<H264Entry>, decoder: DecoderDpb, slotIndexes: seq<int>, num: nat) {
    && d.Valid() && decoder.Valid() && num <= |entries| && num <= |slotIndexes|
    && forall k :: 0 <= k < num && Existing(entries[k]) ==>
         && 0 <= PicOf(entries[k]) < MaxFrmCnt
         && slotIndexes[k] == decoder.pictureToDpbSlot[PicOf(entries[k])]
         && 0 <= slotIndexes[k] && MarkedNow(decoder, slotIndexes[k])
         && (d.pictureToDpbSlot[PicOf(entries[k])] >= 0 ==> slotIndexes[k] == d.pictureToDpbSlot[PicOf(entries[k])])
  }

  lemma KnownSlotsFrom(d: DecoderDpb, entries: seq<H264Entry>, reset: DecoderDpb, slotted: seq<H264Entry>, decoder: DecoderDpb,
                       slotIndexes: seq<int>, num: nat)
    requires d.Valid() && reset.Valid() && decoder.Valid()
    requires num <= |entries| == |slotted| && num <= |slotIndexes|
    requires forall k :: 0 <= k < |entries| && Existing(entries[k]) ==>
               0 <= PicOf(entries[k]) < MaxFrmCnt && reset.pictureToDpbSlot[PicOf(entries[k])] == d.pictureToDpbSlot[PicOf(entries[k])]
    requires forall k :: 0 <= k < num && Existing(entries[k]) ==> slotIndexes[k] == slotted[k].dpbSlot
    requires forall k :: 0 <= k < |entries| && Existing(entries[k]) ==>
               && slotted[k].dpbSlot == decoder.pictureToDpbSlot[PicOf(entries[k])]
               && 0 <= slotted[k].dpbSlot && MarkedNow(decoder, slotted[k].dpbSlot)
               && (reset.pictureToDpbSlot[PicOf(entries[k])] >= 0 ==> slotted[k].dpbSlot == reset.pictureToDpbSlot[PicOf(entries[k])])
    ensures KnownSlots(d, entries, decoder, slotIndexes, num)
  {
  }

  /** The unmapping step leaves every picture a reference resolves to as it
      was. */
  lemma ResetKeepsReferences(d: DecoderDpb, entries: seq<H264Entry>)
    requires d.Valid() && WellFormed(d, entries)
    ensures var reset := ResetPictures(d, ValidMask(entries), 0);
            forall k :: 0 <= k < |entries| && Existing(entries[k]) ==>
              0 <= PicOf(entries[k]) < MaxFrmCnt && reset.pictureToDpbSlot[PicOf(entries[k])] == d.pictureToDpbSlot[PicOf(entries[k])]
  {
    var reset := ResetPictures(d, ValidMask(entries), 0);
    forall k | 0 <= k < |entries| && Existing(entries[k])
      ensures 0 <= PicOf(entries[k]) < MaxFrmCnt && reset.pictureToDpbSlot[PicOf(entries[k])] == d.pictureToDpbSlot[PicOf(entries[k])]
    {
      assert PicOf(entries[k]) in ValidMask(entries);
    }
  }

  /** Every descriptor is filled from its reference; a non-existing frame
      gets a slot free in the resulting DPB and the stand-in picture, and the
      slots of non-existing frames increase with their position. */
  lemma FillDpbH264StateDescriptors(d: DecoderDpb, pic: H264PictureIn, dpbIn: seq<H264DpbIn>)
    requires d.Valid() && |dpbIn| <= MaxDpbRefAndSetupSlots
    requires FillDpbH264State(d, pic, dpbIn).Success?
    ensures var s := FillDpbH264State(d, pic, dpbIn).value;
            var entries := CollectEntries(d, dpbIn);
            var currPicIdx := d.GetPicIdx(pic.currPic);
            var fallback := BestNonExistingPicIdx(entries, pic.frameNum, currPicIdx, 0, MaxFrameNumDiff, currPicIdx);
            && s.numGopReferenceSlots <= |entries| && |s.slotIndexes| >= s.numGopReferenceSlots
            && |s.dpbRefList| >= s.numGopReferenceSlots && |s.gopReferenceImagesIndexes| >= s.numGopReferenceSlots
            && (forall k :: 0 <= k < s.numGopReferenceSlots ==>
                  DescriptorMeans(entries, k, s.decoder.dpb.slotInUseMask, d.dpb.maxSize, fallback, pic.progressiveFrame,
                                  RefDescriptor(s.slotIndexes[k], s.dpbRefList[k], s.gopReferenceImagesIndexes[k])))
            && (forall k, l :: 0 <= k < l < s.numGopReferenceSlots && !Existing(entries[k]) && !Existing(entries[l]) ==>
                  s.slotIndexes[k] < s.slotIndexes[l])
  {
    var entries, reset, slotted, currSlot, decoder, fallback := FillDpbH264StateUnfold(d, pic, dpbIn);
    AssembleStateShape(entries, slotted, currSlot, decoder, fallback, pic.progressiveFrame, |dpbIn|);
    AssembleStateDescriptors(entries, slotted, currSlot, decoder, fallback, pic.progressiveFrame, |dpbIn|);
  }

  /** The current picture ends with a slot and its field flag; every other
      picture that no reference resolves to keeps its old slot, or has none
      if the unmapping step released it. */
  lemma FillDpbH264StateCurrent(d: DecoderDpb, pic: H264PictureIn, dpbIn: seq<H264DpbIn>)
    requires d.Valid() && |dpbIn| <= MaxDpbRefAndSetupSlots
    requires FillDpbH264State(d, pic, dpbIn).Success?
    ensures var s := FillDpbH264State(d, pic, dpbIn).value;
            CurrentPlaced(d, ValidMask(CollectEntries(d, dpbIn)), d.GetPicIdx(pic.currPic), pic.fieldPicFlag,
                          s.decoder, s.currAllocatedSlotIndex)
  {
    var entries, reset, slotted, currSlot, decoder, fallback := FillDpbH264StateUnfold(d, pic, dpbIn);
    AssembleStateShape(entries, slotted, currSlot, decoder, fallback, pic.progressiveFrame, |dpbIn|);
    MapForCurrentCurrent(reset, pic, entries);
  }

  /** The current picture `currPicIdx` holds slot `currSlot` in `decoder`
      with field flag `fieldPicFlag`; every other picture outside `validMask`
      keeps the slot it had in `d`, or has none if the unmapping step
      released it. */
  ghost predicate CurrentPlaced(d: DecoderDpb, validMask: set<nat>, currPicIdx: int, fieldPicFlag: bool,
                                decoder: DecoderDpb, currSlot: int) {
    && d.Valid() && decoder.Valid() && 0 <= currPicIdx < decoder.maxNumDecodeSurfaces
    && currSlot == decoder.pictureToDpbSlot[currPicIdx] >= 0
    && decoder.GetFieldPicFlag(currPicIdx) == fieldPicFlag
    && (forall p :: 0 <= p < MaxFrmCnt && p != currPicIdx && p !in validMask ==>
          decoder.pictureToDpbSlot[p] == if Reset(d, validMask, p) then -1 else d.pictureToDpbSlot[p])
  }
}

=== FILE: reference_list_h265.dfy ===
/** The H.265 reference-list builder: it turns the parser's DPB (the
    pictures of the reference picture set of ITU-T H.265 section 8.3.2) into
    the list of reference slot descriptors for the driver, maps every picture
    to one of the sixteen DPB slots, rewrites the three RefPicSet lists of the
    picture from DPB positions to slots, and allocates a slot for the current
    picture. */
module ReferenceListH265 {
  import opened Wrappers
  import opened DpbSlots
  import opened PictureMap
  import opened DpbEntry

  /** HEVC_MAX_DPB_SLOTS: positions of the parser's H.265 DPB, and the bound
      on the DPB slots an H.265 picture may use. */
  const HevcMaxDpbSlots: nat := 16

  /** Entries of each RefPicSet list of StdVideoDecodeH265PictureInfo. */
  const MaxRpsEntries: nat := 8

  /** The value that fills the unused tail of a RefPicSet list. */
  const UnusedRpsEntry: int := 0xFF

  /** frmListToDpb as the decoder clears it: slot 0 at every position. */
  function NoSlots(): (r: seq<int>)
    ensures |r| == HevcMaxDpbSlots && forall i :: 0 <= i < HevcMaxDpbSlots ==> r[i] == 0
  {
    seq(HevcMaxDpbSlots, _ => 0)
  }

  /** One position of the parser's H.265 DPB. */
  datatype H265DpbIn = H265DpbIn(refPic: Option<PicBuf>, isLongTerm: int, picOrderCntVal: int)

  /** One RefPicSet list of the parser: its length and its entries, which
      are positions in the parser DPB. */
  datatype RefPicSetIn = RefPicSetIn(num: int, entries: seq<int>)

  /** What the builder reads of the current picture: its buffer, its
      ref_pic_flag and the RefPicSetStCurrBefore, RefPicSetStCurrAfter and
      RefPicSetLtCurr lists. */
  datatype H265PictureIn = H265PictureIn(
    currPic: Option<PicBuf>,
    refPicFlag: bool,
    stCurrBefore: RefPicSetIn,
    stCurrAfter: RefPicSetIn,
    ltCurr: RefPicSetIn)

  /** The builder's outputs: the number of references, the slot index and
      picture index of each (padded with -1 to the sixteen positions), their
      slot descriptors, the three RefPicSet lists in slot terms and the
      current picture's slot. */
  datatype H265DpbState = H265DpbState(
    numUsedRef: nat,
    slotIndexes: seq<int>,
    dpbRefList: seq<H265DpbSlotInfo>,
    gopReferenceImagesIndexes: seq<int>,
    refPicSetStCurrBefore: seq<int>,
    refPicSetStCurrAfter: seq<int>,
    refPicSetLtCurr: seq<int>,
    currAllocatedSlotIndex: int,
    decoder: DecoderDpb)

  /** The picture index of an entry. */
  function PicOf(e: H265Entry): int {
    if e.picBuf.Some? then e.picBuf.value.picIdx else -1
  }

  /** Every entry is a frame reference to a picture the decoder accepts,
      taken from a position of the parser DPB. */
  ghost predicate WellFormed(d: DecoderDpb, entries: seq<H265Entry>) {
    forall k :: 0 <= k < |entries| ==>
      && entries[k].IsRef() && !entries[k].isNonExisting
      && 0 <= PicOf(entries[k]) < d.maxNumDecodeSurfaces && entries[k].picBuf == Some(PicBuf(PicOf(entries[k])))
      && 0 <= entries[k].originalDpbIndex < HevcMaxDpbSlots
  }

  /** The entries come from increasing positions of the parser DPB. */
  predicate InPositionOrder(entries: seq<H265Entry>) {
    forall k, l :: 0 <= k < l < |entries| ==> entries[k].originalDpbIndex < entries[l].originalDpbIndex
  }

  /** The positions from `i` on of the parser DPB whose picture the decoder
      knows, in increasing order. */
  function UsedPositions(d: DecoderDpb, dpbIn: seq<H265DpbIn>, i: nat): (r: seq<nat>)
    requires i <= |dpbIn|
    ensures |r| <= |dpbIn| - i
    ensures forall k :: 0 <= k < |r| ==> i <= r[k] < |dpbIn| && d.GetPicIdx(dpbIn[r[k]].refPic) >= 0
    ensures forall k, l :: 0 <= k < l < |r| ==> r[k] < r[l]
    ensures forall j :: i <= j < |dpbIn| && d.GetPicIdx(dpbIn[j].refPic) >= 0 ==> j in r
    decreases |dpbIn| - i
  {
    if i == |dpbIn| then []
    else if d.GetPicIdx(dpbIn[i].refPic) >= 0 then [i] + UsedPositions(d, dpbIn, i + 1)
    else UsedPositions(d, dpbIn, i + 1)
  }

  /** Packs the reference at parser position `inIdx`: a frame reference
      with its long-term flag and picture order count, remembering the
      position it came from. */
  function MakeEntry(d: DecoderDpb, e: H265DpbIn, inIdx: nat): (r: H265Entry)
    requires d.GetPicIdx(e.refPic) >= 0
    ensures r.IsRef() && !r.isNonExisting && PicOf(r) == d.GetPicIdx(e.refPic) && r.picBuf == e.refPic
    ensures r.isLongTerm == (e.isLongTerm == 1) && r.picOrderCnt == e.picOrderCntVal
    ensures r.originalDpbIndex == inIdx && r.dpbSlot == -1
  {
    SetReference(e.isLongTerm == 1, e.picOrderCntVal, e.refPic).(originalDpbIndex := inIdx)
  }

  /** The references of the parser DPB, packed in position order
      (refOnlyDpbIn). */
  function CollectEntries(d: DecoderDpb, dpbIn: seq<H265DpbIn>): (r: seq<H265Entry>)
    requires |dpbIn| <= HevcMaxDpbSlots
    ensures |r| == |UsedPositions(d, dpbIn, 0)| <= |dpbIn|
    ensures WellFormed(d, r) && InPositionOrder(r)
    ensures forall k :: 0 <= k < |r| ==>
              r[k] == MakeEntry(d, dpbIn[UsedPositions(d, dpbIn, 0)[k]], UsedPositions(d, dpbIn, 0)[k])
  {
    var used := UsedPositions(d, dpbIn, 0);
    seq(|used|, k requires 0 <= k < |used| => MakeEntry(d, dpbIn[used[k]], used[k]))
  }

  /** The pictures the references resolve to (refDpbUsedAndValidMask
      without the current picture). */
  function PictureSet(entries: seq<H265Entry>): (r: set<nat>)
    ensures forall k :: 0 <= k < |entries| && PicOf(entries[k]) >= 0 ==> PicOf(entries[k]) as nat in r
  {
    set k | 0 <= k < |entries| && PicOf(entries[k]) >= 0 :: PicOf(entries[k]) as nat
  }

  /** The first pass from reference `k` on, with `slots` the slots of the
      references before `k`: each reference gets the slot its picture has,
      or a freshly allocated one bound to it, and that slot is marked in use
      at the current picture id.  The result lists the slots of all the
      references.  Running out of free slots fails. */
  function AssignSlots(d: DecoderDpb, entries: seq<H265Entry>, k: nat, slots: seq<int>): (r: Result<(seq<int>, DecoderDpb)>)
    requires d.Valid() && WellFormed(d, entries) && k <= |entries| && |slots| == k
    ensures r.Success? ==> r.value.1.Valid()
    ensures r.Success? ==> r.value.1.(pictureToDpbSlot := d.pictureToDpbSlot, dpbSlotsMask := d.dpbSlotsMask, dpb := d.dpb) == d
    ensures r.Success? ==> r.value.1.dpb.maxSize == d.dpb.maxSize && |r.value.0| == |entries|
    decreases |entries| - k
  {
    if k == |entries| then Success((slots, d))
    else
      match MapAndMark(d, PicOf(entries[k]) as nat, entries[k].picBuf)
      case Failure(e) => Failure(e)
      case Success((slot, marked)) => AssignSlots(marked, entries, k + 1, slots + [slot])
  }

  /** One step of the first pass: the slot MapAndMark gives the reference
      at `k` and the rest of the pass from there. */
  lemma AssignSlotsStep(d: DecoderDpb, entries: seq<H265Entry>, k: nat, slots: seq<int>)
    returns (slot: int, marked: DecoderDpb)
    requires d.Valid() && WellFormed(d, entries) && k < |entries| && |slots| == k
    requires AssignSlots(d, entries, k, slots).Success?
    ensures MapAndMark(d, PicOf(entries[k]) as nat, entries[k].picBuf) == Success((slot, marked))
    ensures marked.Valid() && WellFormed(marked, entries)
    ensures AssignSlots(marked, entries, k + 1, slots + [slot]) == AssignSlots(d, entries, k, slots)
  {
    slot, marked := AssignSlotsAdvance(d, entries, k, slots);
  }

  /** The same step whenever MapAndMark succeeds at `k`. */
  lemma AssignSlotsAdvance(d: DecoderDpb, entries: seq<H265Entry>, k: nat, slots: seq<int>)
    returns (slot: int, marked: DecoderDpb)
    requires d.Valid() && WellFormed(d, entries) && k < |entries| && |slots| == k
    requires MapAndMark(d, PicOf(entries[k]) as nat, entries[k].picBuf).Success?
    ensures MapAndMark(d, PicOf(entries[k]) as nat, entries[k].picBuf) == Success((slot, marked))
    ensures marked.Valid() && WellFormed(marked, entries)
    ensures AssignSlots(marked, entries, k + 1, slots + [slot]) == AssignSlots(d, entries, k, slots)
  {
    var p := PicOf(entries[k]) as nat;
    slot, marked := MapAndMark(d, p, entries[k].picBuf).value.0, MapAndMark(d, p, entries[k].picBuf).value.1;
  }

  /** The first pass fails only when some picture referenced from `k` on
      has no slot (and none is free): when all of them have one, it
      succeeds. */
  lemma {:induction false} AssignSlotsSucceedsWhenMapped(d: DecoderDpb, entries: seq<H265Entry>, k: nat, slots: seq<int>)
    requires d.Valid() && WellFormed(d, entries) && k <= |entries| && |slots| == k
    requires forall i :: k <= i < |entries| ==> d.pictureToDpbSlot[PicOf(entries[i])] >= 0
    ensures AssignSlots(d, entries, k, slots).Success?
    decreases |entries| - k
  {
    if k < |entries| {
      var slot, marked := AssignSlotsAdvance(d, entries, k, slots);
      AssignSlotsSucceedsWhenMapped(marked, entries, k + 1, slots + [slot]);
    }
  }

  /** The first pass keeps the slots of the references before `k`. */
  lemma {:induction false} AssignSlotsKeepsEarlier(d: DecoderDpb, entries: seq<H265Entry>, k: nat, slots: seq<int>)
    requires d.Valid() && WellFormed(d, entries) && k <= |entries| && |slots| == k
    requires AssignSlots(d, entries, k, slots).Success?
    ensures AssignSlots(d, entries, k, slots).value.0[..k] == slots
    decreases |entries| - k
  {
    if k < |entries| {
      var slot, marked := AssignSlotsStep(d, entries, k, slots);
      AssignSlotsKeepsEarlier(marked, entries, k + 1, slots + [slot]);
      var all := AssignSlots(marked, entries, k + 1, slots + [slot]).value.0;
      assert all[..k] == all[..k + 1][..k];
    }
  }

  /** What the first pass does to the map: a mapped picture keeps its slot,
      and a picture not referenced from `k` on is untouched. */
  lemma {:induction false} AssignSlotsKeepsMapped(d: DecoderDpb, entries: seq<H265Entry>, k: nat, slots: seq<int>)
    requires d.Valid() && WellFormed(d, entries) && k <= |entries| && |slots| == k
    requires AssignSlots(d, entries, k, slots).Success?
    ensures var d' := AssignSlots(d, entries, k, slots).value.1;
            && (forall p :: 0 <= p < MaxFrmCnt && d.pictureToDpbSlot[p] >= 0 ==>
                  d'.pictureToDpbSlot[p] == d.pictureToDpbSlot[p])
            && (forall p :: 0 <= p < MaxFrmCnt && (forall i :: k <= i < |entries| ==> PicOf(entries[i]) != p) ==>
                  d'.pictureToDpbSlot[p] == d.pictureToDpbSlot[p])
    decreases |entries| - k
  {
    if k < |entries| {
      var slot, marked := AssignSlotsStep(d, entries, k, slots);
      AssignSlotsKeepsMapped(marked, entries, k + 1, slots + [slot]);
      var d' := AssignSlots(d, entries, k, slots).value.1;
      forall q | 0 <= q < MaxFrmCnt && (forall i :: k <= i < |entries| ==> PicOf(entries[i]) != q)
        ensures d'.pictureToDpbSlot[q] == d.pictureToDpbSlot[q]
      {
        assert PicOf(entries[k]) != q;
      }
    }
  }

  /** Slots marked in use for the current picture stay so through the
      first pass. */
  lemma {:induction false} AssignSlotsKeepsMarked(d: DecoderDpb, entries: seq<H265Entry>, k: nat, slots: seq<int>)
    requires d.Valid() && WellFormed(d, entries) && k <= |entries| && |slots| == k
    requires AssignSlots(d, entries, k, slots).Success?
    ensures var d' := AssignSlots(d, entries, k, slots).value.1;
            forall s: nat :: MarkedNow(d, s) ==> MarkedNow(d', s)
    decreases |entries| - k
  {
    if k < |entries| {
      var slot, marked := AssignSlotsStep(d, entries, k, slots);
      AssignSlotsKeepsMarked(marked, entries, k + 1, slots + [slot]);
    }
  }

  /** The first pass frees no slot. */
  lemma {:induction false} AssignSlotsFreesNone(d: DecoderDpb, entries: seq<H265Entry>, k: nat, slots: seq<int>)
    requires d.Valid() && WellFormed(d, entries) && k <= |entries| && |slots| == k
    requires AssignSlots(d, entries, k, slots).Success?
    ensures d.dpb.slotInUseMask <= AssignSlots(d, entries, k, slots).value.1.dpb.slotInUseMask
    decreases |entries| - k
  {
    if k < |entries| {
      var slot, marked := AssignSlotsStep(d, entries, k, slots);
      AssignSlotsFreesNone(marked, entries, k + 1, slots + [slot]);
    }
  }

  /** A picture the first pass newly maps gets a slot that was free before. */
  lemma {:induction false} AssignSlotsFreshSlots(d: DecoderDpb, entries: seq<H265Entry>, k: nat, slots: seq<int>)
    requires d.Valid() && WellFormed(d, entries) && k <= |entries| && |slots| == k
    requires AssignSlots(d, entries, k, slots).Success?
    ensures var d' := AssignSlots(d, entries, k, slots).value.1;
            forall p :: 0 <= p < MaxFrmCnt && d.pictureToDpbSlot[p] < 0 && d'.pictureToDpbSlot[p] >= 0 ==>
              d'.pictureToDpbSlot[p] !in d.dpb.slotInUseMask
    decreases |entries| - k
  {
    if k < |entries| {
      var p := PicOf(entries[k]) as nat;
      var slot, marked := AssignSlotsStep(d, entries, k, slots);
      AssignSlotsFreshSlots(marked, entries, k + 1, slots + [slot]);
      AssignSlotsKeepsMapped(marked, entries, k + 1, slots + [slot]);
      var d' := AssignSlots(marked, entries, k + 1, slots + [slot]).value.1;
      forall q | 0 <= q < MaxFrmCnt && d.pictureToDpbSlot[q] < 0 && d'.pictureToDpbSlot[q] >= 0
        ensures d'.pictureToDpbSlot[q] !in d.dpb.slotInUseMask
      {
        if q == p {
          assert d'.pictureToDpbSlot[q] == slot;
        } else {
          assert marked.pictureToDpbSlot[q] < 0;
        }
      }
    }
  }

  /** Slot `i` of the first pass is the slot reference `i`'s picture is
      mapped to at the end, marked in use at the current picture id. */
  ghost predicate SlotRecorded(entries: seq<H265Entry>, slots: seq<int>, d': DecoderDpb, i: nat)
    requires d'.Valid() && i < |entries| && i < |slots|
  {
    && 0 <= PicOf(entries[i]) < MaxFrmCnt
    && slots[i] == d'.pictureToDpbSlot[PicOf(entries[i])] >= 0
    && MarkedNow(d', slots[i])
  }

  /** Every reference from `k` on gets, in the first pass, the slot its
      picture is mapped to at the end, and that slot is marked in use at
      the current picture id. */
  lemma {:induction false} AssignSlotsRecords(d: DecoderDpb, entries: seq<H265Entry>, k: nat, slots: seq<int>)
    requires d.Valid() && WellFormed(d, entries) && k <= |entries| && |slots| == k
    requires AssignSlots(d, entries, k, slots).Success?
    ensures var (all, d') := AssignSlots(d, entries, k, slots).value;
            forall i :: k <= i < |entries| ==> SlotRecorded(entries, all, d', i)
    decreases |entries| - k
  {
    if k < |entries| {
      var slot, marked := AssignSlotsStep(d, entries, k, slots);
      AssignSlotsRecords(marked, entries, k + 1, slots + [slot]);
      AssignSlotsRecordsHead(d, entries, k, slots);
      var (all, d') := AssignSlots(d, entries, k, slots).value;
      assert forall i :: k + 1 <= i < |entries| ==> SlotRecorded(entries, all, d', i);
    }
  }

  /** The reference at `k` gets, in the first pass, the slot its picture is
      mapped to at the end, marked in use at the current picture id. */
  lemma AssignSlotsRecordsHead(d: DecoderDpb, entries: seq<H265Entry>, k: nat, slots: seq<int>)
    requires d.Valid() && WellFormed(d, entries) && k < |entries| && |slots| == k
    requires AssignSlots(d, entries, k, slots).Success?
    ensures var (all, d') := AssignSlots(d, entries, k, slots).value;
            SlotRecorded(entries, all, d', k)
  {
    var slot, marked := AssignSlotsStep(d, entries, k, slots);
    AssignSlotsKeepsEarlier(marked, entries, k + 1, slots + [slot]);
    AssignSlotsKeepsMapped(marked, entries, k + 1, slots + [slot]);
    AssignSlotsKeepsMarked(marked, entries, k + 1, slots + [slot]);
    var all := AssignSlots(marked, entries, k + 1, slots + [slot]).value.0;
    assert all[k] == all[..k + 1][k] == slot;
  }

  /** The references with their first-pass slots recorded
      (refOnlyDpbIn[dpbIdx].dpbSlot). */
  function RecordSlots(entries: seq<H265Entry>, slots: seq<int>): (r: seq<H265Entry>)
    requires |slots| == |entries|
    ensures |r| == |entries|
    ensures forall i :: 0 <= i < |entries| ==> r[i] == entries[i].(dpbSlot := slots[i])
  {
    seq(|entries|, i requires 0 <= i < |entries| => entries[i].(dpbSlot := slots[i]))
  }

  /** frmListToDpb: starting from `frm`, the slot of each reference from
      `k` on written at the parser position it came from. */
  function FrmListToDpb(slotted: seq<H265Entry>, k: nat, frm: seq<int>): (r: seq<int>)
    requires k <= |slotted| && |frm| == HevcMaxDpbSlots
    requires forall i :: 0 <= i < |slotted| ==> 0 <= slotted[i].originalDpbIndex < HevcMaxDpbSlots
    ensures |r| == HevcMaxDpbSlots
    decreases |slotted| - k
  {
    if k == |slotted| then frm
    else FrmListToDpb(slotted, k + 1, frm[slotted[k].originalDpbIndex := slotted[k].dpbSlot])
  }

  /** A position some reference from `k` on came from holds that
      reference's slot; every other position keeps its value in `frm`. */
  lemma {:induction false} FrmListToDpbMeans(slotted: seq<H265Entry>, k: nat, frm: seq<int>)
    requires k <= |slotted| && |frm| == HevcMaxDpbSlots
    requires forall i :: 0 <= i < |slotted| ==> 0 <= slotted[i].originalDpbIndex < HevcMaxDpbSlots
    requires InPositionOrder(slotted)
    ensures var r := FrmListToDpb(slotted, k, frm);
            && (forall i :: k <= i < |slotted| ==> r[slotted[i].originalDpbIndex] == slotted[i].dpbSlot)
            && (forall idx :: 0 <= idx < HevcMaxDpbSlots && (forall i :: k <= i < |slotted| ==> slotted[i].originalDpbIndex != idx) ==>
                  r[idx] == frm[idx])
    decreases |slotted| - k
  {
    if k < |slotted| {
      var frm' := frm[slotted[k].originalDpbIndex := slotted[k].dpbSlot];
      FrmListToDpbMeans(slotted, k + 1, frm');
      assert forall i :: k < i < |slotted| ==> slotted[i].originalDpbIndex != slotted[k].originalDpbIndex;
    }
  }

  /** The second pass: the descriptor of each reference from `k` on, at
      its position in the packed list, with the slot the first pass
      recorded. */
  function FillRefSlots(slotted: seq<H265Entry>, k: nat): (r: Result<seq<H265RefSlot>>)
    requires k <= |slotted|
    ensures r.Success? ==> |r.value| == |slotted| - k
    decreases |slotted| - k
  {
    if k == |slotted| then Success([])
    else
      match SetH265PictureData(slotted[k], k, slotted[k].dpbSlot)
      case Failure(e) => Failure(e)
      case Success(ref) =>
        match FillRefSlots(slotted, k + 1)
        case Failure(e) => Failure(e)
        case Success(rest) => Success([ref] + rest)
  }

  /** The descriptor of a reference: its slot, linked as a reference, with
      the reference's picture order count and long-term flag. */
  predicate Describes(e: H265Entry, ref: H265RefSlot) {
    && ref.slotIndex == e.dpbSlot
    && ref.slotInfo.IsReference()
    && ref.slotInfo.stdReferenceInfo == H265ReferenceInfo(e.picOrderCnt, e.isLongTerm)
  }

  /** Every reference from `k` on has one of the sixteen slots. */
  predicate SlotsInRange(slotted: seq<H265Entry>, k: nat) {
    forall i :: k <= i < |slotted| ==> 0 <= slotted[i].dpbSlot < HevcMaxDpbSlots
  }

  /** For at most sixteen references, the second pass succeeds exactly when
      every slot is one of the sixteen; then each descriptor describes its
      reference. */
  lemma {:induction false} FillRefSlotsMeans(slotted: seq<H265Entry>, k: nat)
    requires k <= |slotted| <= HevcMaxDpbSlots
    requires forall i :: 0 <= i < |slotted| ==> slotted[i].IsRef()
    ensures var r := FillRefSlots(slotted, k);
            && (r.Success? <==> SlotsInRange(slotted, k))
            && (r.Success? ==> forall j :: 0 <= j < |r.value| ==> Describes(slotted[k + j], r.value[j]))
    decreases |slotted| - k
  {
    if k < |slotted| {
      FillRefSlotsMeans(slotted, k + 1);
      var r := FillRefSlots(slotted, k);
      var head := SetH265PictureData(slotted[k], k, slotted[k].dpbSlot);
      var tail := FillRefSlots(slotted, k + 1);
      assert head.Success? <==> 0 <= slotted[k].dpbSlot < HevcMaxDpbSlots;
      assert r.Success? <==> head.Success? && tail.Success?;
      if r.Success? {
        assert r.value == [head.value] + tail.value;
        assert forall j :: 0 < j < |r.value| ==> r.value[j] == tail.value[j - 1];
      }
    }
  }

  /** The parser positions named by the first `n` entries of a RefPicSet
      list, each read as an unsigned byte, that fall inside the parser DPB. */
  function RpsPositions(list: seq<int>, n: nat): (r: seq<nat>)
    requires n <= |list|
    ensures |r| <= n
    ensures forall j :: 0 <= j < |r| ==> r[j] < HevcMaxDpbSlots
  {
    if n == 0 then []
    else if list[n - 1] % 256 < HevcMaxDpbSlots then RpsPositions(list, n - 1) + [list[n - 1] % 256]
    else RpsPositions(list, n - 1)
  }

  /** The slots written for the positions `pos`, kept to the low four bits. */
  function RpsSlots(frm: seq<int>, pos: seq<nat>): (r: seq<int>)
    requires forall j :: 0 <= j < |pos| ==> pos[j] < |frm|
    ensures |r| == |pos|
  {
    seq(|pos|, j requires 0 <= j < |pos| => frm[pos[j]] % 16)
  }

  /** One RefPicSet list in slot terms: the slot of each named position
      inside the parser DPB, in order, then 0xFF up to eight entries.  A
      length outside 0..8 violates the decoder's assertion. */
  function RpsList(rps: RefPicSetIn, frm: seq<int>): (r: Result<seq<int>>)
    requires |rps.entries| == MaxRpsEntries && |frm| == HevcMaxDpbSlots
    ensures r.Success? <==> 0 <= rps.num <= MaxRpsEntries
    ensures r.Success? ==> |r.value| == MaxRpsEntries
  {
    if rps.num < 0 || rps.num > MaxRpsEntries then
      Failure("FillDpbH265State: RefPicSet list longer than eight entries")
    else
      var pos := RpsPositions(rps.entries, rps.num);
      Success(RpsSlots(frm, pos) + seq(MaxRpsEntries - |pos|, _ => UnusedRpsEntry))
  }

  /** The list as the decoder writes it, entry by entry: each named
      position inside the parser DPB appends its slot, then 0xFF fills the
      list up to eight entries. */
  method BuildRpsList(rps: RefPicSetIn, frm: seq<int>) returns (r: Result<seq<int>>)
    requires |rps.entries| == MaxRpsEntries && |frm| == HevcMaxDpbSlots
    ensures r == RpsList(rps, frm)
  {
    if rps.num < 0 || rps.num > MaxRpsEntries {
      return Failure("FillDpbH265State: RefPicSet list longer than eight entries");
    }
    var out: seq<int> := [];
    var i: nat := 0;
    while i < rps.num
      invariant i <= rps.num
      invariant out == RpsSlots(frm, RpsPositions(rps.entries, i))
    {
      var idx := rps.entries[i] % 256;
      if idx < HevcMaxDpbSlots {
        assert RpsPositions(rps.entries, i + 1) == RpsPositions(rps.entries, i) + [idx];
        out := out + [frm[idx] % 16];
      }
      i := i + 1;
    }
    ghost var mapped := out;
    while |out| < MaxRpsEntries
      invariant |mapped| <= |out| <= MaxRpsEntries
      invariant out == mapped + seq(|out| - |mapped|, _ => UnusedRpsEntry)
    {
      out := out + [UnusedRpsEntry];
    }
    return Success(out);
  }

  /** Entry `i` of a list, when it names a position inside the parser DPB,
      lands at the index counting the earlier such entries. */
  lemma {:induction false} RpsPositionsPlacesEach(list: seq<int>, n: nat, i: nat)
    requires n <= |list| && i < n && list[i] % 256 < HevcMaxDpbSlots
    ensures |RpsPositions(list, i)| < |RpsPositions(list, n)|
    ensures RpsPositions(list, n)[|RpsPositions(list, i)|] == list[i] % 256
    decreases n
  {
    if i < n - 1 {
      RpsPositionsPlacesEach(list, n - 1, i);
    }
  }

  /** A successful list holds, for every entry naming a position inside the
      parser DPB, the slot written at that position, at the index counting
      the earlier such entries; all later indices are 0xFF. */
  lemma RpsListMeans(rps: RefPicSetIn, frm: seq<int>)
    requires |rps.entries| == MaxRpsEntries && |frm| == HevcMaxDpbSlots
    requires RpsList(rps, frm).Success?
    ensures var r := RpsList(rps, frm).value;
            var n := |RpsPositions(rps.entries, rps.num)|;
            && (forall i :: 0 <= i < rps.num && rps.entries[i] % 256 < HevcMaxDpbSlots ==>
                  |RpsPositions(rps.entries, i)| < n
                  && r[|RpsPositions(rps.entries, i)|] == frm[rps.entries[i] % 256] % 16)
            && (forall j :: n <= j < MaxRpsEntries ==> r[j] == UnusedRpsEntry)
  {
    forall i | 0 <= i < rps.num && rps.entries[i] % 256 < HevcMaxDpbSlots
      ensures |RpsPositions(rps.entries, i)| < |RpsPositions(rps.entries, rps.num)|
      ensures RpsPositions(rps.entries, rps.num)[|RpsPositions(rps.entries, i)|] == rps.entries[i] % 256
    {
      RpsPositionsPlacesEach(rps.entries, rps.num, i);
    }
  }

  /** Maps the current picture: its existing slot, or a freshly allocated
      one bound to it.  A current picture outside the pool, a picture not
      marked as a reference, or an exhausted allocator fails. */
  function AllocateDpbSlotForCurrentH265(d: DecoderDpb, pic: Option<PicBuf>, isReference: bool): (r: Result<(int, DecoderDpb)>)
    requires d.Valid()
    ensures r.Success? <==>
              d.GetPicIdx(pic) >= 0 && isReference && (d.pictureToDpbSlot[d.GetPicIdx(pic)] >= 0 || d.dpb.available != [])
    ensures r.Success? ==>
              var (slot, d') := r.value;
              var p := d.GetPicIdx(pic);
              && d'.Valid()
              && d'.(pictureToDpbSlot := d.pictureToDpbSlot, dpbSlotsMask := d.dpbSlotsMask, dpb := d.dpb) == d
              && d'.dpb.maxSize == d.dpb.maxSize
              && slot == d'.pictureToDpbSlot[p] >= 0
              && d'.pictureToDpbSlot == d.pictureToDpbSlot[p := slot]
              && (d.pictureToDpbSlot[p] >= 0 ==> d' == d)
              && (d.pictureToDpbSlot[p] < 0 ==> slot !in d.dpb.slotInUseMask && d'.dpb.dpb[slot].picBuf == pic)
  {
    var p := d.GetPicIdx(pic);
    if p < 0 then
      Failure("AllocateDpbSlotForCurrentH265: current picture has no index")
    else if !isReference then
      Failure("AllocateDpbSlotForCurrentH265: current picture is not a reference")
    else
      d.MapOrAllocate(p, pic)
  }

  /** Mapping the current picture keeps every slot marked in use for the
      current picture, and the slots of all other pictures. */
  lemma AllocateCurrentKeepsOthers(d: DecoderDpb, pic: Option<PicBuf>)
    requires d.Valid()
    requires AllocateDpbSlotForCurrentH265(d, pic, true).Success?
    ensures var d' := AllocateDpbSlotForCurrentH265(d, pic, true).value.1;
            && (forall s: nat :: MarkedNow(d, s) ==> MarkedNow(d', s))
            && (forall q :: 0 <= q < MaxFrmCnt && q != d.GetPicIdx(pic) ==> d'.pictureToDpbSlot[q] == d.pictureToDpbSlot[q])
  {
    var (slot, d') := AllocateDpbSlotForCurrentH265(d, pic, true).value;
    var p := d.GetPicIdx(pic);
    if d.pictureToDpbSlot[p] < 0 {
      forall s: nat | MarkedNow(d, s) ensures MarkedNow(d', s) {
        assert s != slot;
      }
    }
  }

  /** Builds the reference list of one H.265 picture.  The references of
      the parser DPB are packed in position order; every mapped picture that
      is neither among them nor the current picture (and below
      maxNumDecodeSurfaces) is unmapped; each reference keeps or gets a slot,
      marked in use now; one descriptor per reference is filled; the three
      RefPicSet lists are rewritten from parser positions to slots; and the
      current picture gets a slot.  The decoder's assertions on the state
      become failures.  Slots are bounded by the allocator's size, which is
      the decoder's slot count after every BeginSequence; before the first
      sequence the decoder's own count (1) and the allocator's initial size
      (3) differ, and that state is not modelled.  What a success holds is stated by the
      FillDpbH265State lemmas below. */
  function FillDpbH265State(d: DecoderDpb, pic: H265PictureIn, dpbIn: seq<H265DpbIn>): (r: Result<H265DpbState>)
    requires d.Valid() && |dpbIn| == HevcMaxDpbSlots
    requires |pic.stCurrBefore.entries| == |pic.stCurrAfter.entries| == |pic.ltCurr.entries| == MaxRpsEntries
    ensures r.Success? ==>
              && d.dpb.maxSize <= HevcMaxDpbSlots
              && |CollectEntries(d, dpbIn)| <= d.dpb.maxSize
              && d.GetPicIdx(pic.currPic) >= 0
  {
    if d.dpb.maxSize > HevcMaxDpbSlots then
      Failure("FillDpbH265State: more DPB slots than H.265 allows")
    else
      var entries := CollectEntries(d, dpbIn);
      if |entries| > d.dpb.maxSize then
        Failure("FillDpbH265State: more references than DPB slots")
      else if d.GetPicIdx(pic.currPic) < 0 then
        Failure("FillDpbH265State: current picture has no index")
      else
        FillChecked(d, pic, entries)
  }

  /** The mask ResetPicDpbSlots keeps: the references' pictures and the
      current picture. */
  function KeepMask(entries: seq<H265Entry>, currPicIdx: nat): set<nat> {
    PictureSet(entries) + {currPicIdx}
  }

  /** FillDpbH265State once its entry assertions hold. */
  function FillChecked(d: DecoderDpb, pic: H265PictureIn, entries: seq<H265Entry>): (r: Result<H265DpbState>)
    requires d.Valid() && WellFormed(d, entries) && |entries| <= d.dpb.maxSize <= HevcMaxDpbSlots
    requires d.GetPicIdx(pic.currPic) >= 0
    requires |pic.stCurrBefore.entries| == |pic.stCurrAfter.entries| == |pic.ltCurr.entries| == MaxRpsEntries
  {
    var reset := ResetPictures(d, KeepMask(entries, d.GetPicIdx(pic.currPic) as nat), 0);
    match AssignSlots(reset, entries, 0, [])
    case Failure(e) => Failure(e)
    case Success((slots, mapped)) =>
      var slotted := RecordSlots(entries, slots);
      match FillRefSlots(slotted, 0)
      case Failure(e) => Failure(e)
      case Success(refs) =>
        var frm := FrmListToDpb(slotted, 0, NoSlots());
        match RpsList(pic.stCurrBefore, frm)
        case Failure(e) => Failure(e)
        case Success(before) =>
          match RpsList(pic.stCurrAfter, frm)
          case Failure(e) => Failure(e)
          case Success(after) =>
            match RpsList(pic.ltCurr, frm)
            case Failure(e) => Failure(e)
            case Success(lt) =>
              match AllocateDpbSlotForCurrentH265(mapped, pic.currPic, true)
              case Failure(e) => Failure(e)
              case Success((currSlot, decoder)) =>
                if !pic.refPicFlag then
                  Failure("FillDpbH265State: current picture is not a reference picture")
                else
                  Success(Assemble(entries, refs, before, after, lt, currSlot, decoder))
  }

  /** The builder's outputs from its intermediate results: slot indices and
      picture indices padded with -1 to the sixteen positions. */
  function Assemble(entries: seq<H265Entry>, refs: seq<H265RefSlot>, before: seq<int>, after: seq<int>, lt: seq<int>,
                    currSlot: int, decoder: DecoderDpb): H265DpbState
  {
    H265DpbState(
      |entries|,
      seq(HevcMaxDpbSlots, i requires 0 <= i < HevcMaxDpbSlots => if i < |refs| then refs[i].slotIndex else -1),
      seq(|refs|, i requires 0 <= i < |refs| => refs[i].slotInfo),
      seq(HevcMaxDpbSlots, i requires 0 <= i < HevcMaxDpbSlots => if i < |entries| then PicOf(entries[i]) else -1),
      before, after, lt, currSlot, decoder)
  }

  /** The intermediate results of a successful FillDpbH265State: the packed
      references, the unmapped decoder, the first pass, the descriptors,
      frmListToDpb and the allocation for the current picture. */
  lemma FillDpbH265StateUnfold(d: DecoderDpb, pic: H265PictureIn, dpbIn: seq<H265DpbIn>)
    returns (entries: seq<H265Entry>, reset: DecoderDpb, slots: seq<int>, mapped: DecoderDpb,
             refs: seq<H265RefSlot>, frm: seq<int>, rpsBefore: seq<int>, rpsAfter: seq<int>, rpsLt: seq<int>,
             currSlot: int, decoder: DecoderDpb)
    requires d.Valid() && |dpbIn| == HevcMaxDpbSlots
    requires |pic.stCurrBefore.entries| == |pic.stCurrAfter.entries| == |pic.ltCurr.entries| == MaxRpsEntries
    requires FillDpbH265State(d, pic, dpbIn).Success?
    ensures entries == CollectEntries(d, dpbIn) && |entries| <= d.dpb.maxSize <= HevcMaxDpbSlots
    ensures d.GetPicIdx(pic.currPic) >= 0 && pic.refPicFlag
    ensures reset == ResetPictures(d, KeepMask(entries, d.GetPicIdx(pic.currPic) as nat), 0) && WellFormed(reset, entries)
    ensures AssignSlots(reset, entries, 0, []) == Success((slots, mapped)) && |slots| == |entries|
    ensures FillRefSlots(RecordSlots(entries, slots), 0) == Success(refs) && |refs| == |entries|
    ensures forall i :: 0 <= i < |entries| ==> 0 <= RecordSlots(entries, slots)[i].originalDpbIndex < HevcMaxDpbSlots
    ensures frm == FrmListToDpb(RecordSlots(entries, slots), 0, NoSlots())
    ensures AllocateDpbSlotForCurrentH265(mapped, pic.currPic, true) == Success((currSlot, decoder))
    ensures RpsList(pic.stCurrBefore, frm) == Success(rpsBefore)
    ensures RpsList(pic.stCurrAfter, frm) == Success(rpsAfter)
    ensures RpsList(pic.ltCurr, frm) == Success(rpsLt)
    ensures FillDpbH265State(d, pic, dpbIn) == Success(Assemble(entries, refs, rpsBefore, rpsAfter, rpsLt, currSlot, decoder))
  {
    entries := CollectEntries(d, dpbIn);
    var curr := d.GetPicIdx(pic.currPic) as nat;
    assert FillDpbH265State(d, pic, dpbIn) == FillChecked(d, pic, entries);
    reset := ResetPictures(d, KeepMask(entries, curr), 0);
    assert WellFormed(reset, entries);
    var a := AssignSlots(reset, entries, 0, []);
    slots, mapped := a.value.0, a.value.1;
    var slotted := RecordSlots(entries, slots);
    refs := FillRefSlots(slotted, 0).value;
    frm := FrmListToDpb(slotted, 0, NoSlots());
    var c := AllocateDpbSlotForCurrentH265(mapped, pic.currPic, true);
    currSlot, decoder := c.value.0, c.value.1;
    rpsBefore := RpsList(pic.stCurrBefore, frm).value;
    rpsAfter := RpsList(pic.stCurrAfter, frm).value;
    rpsLt := RpsList(pic.ltCurr, frm).value;
  }

  /** A success keeps the decoder consistent and its other fields as they
      were; it reports one descriptor per known picture of the parser DPB,
      lists their picture indices in position order, pads the slot and
      picture indices with -1 to the sixteen positions, and fills all three
      RefPicSet lists to eight entries. */
  lemma FillDpbH265StateShape(d: DecoderDpb, pic: H265PictureIn, dpbIn: seq<H265DpbIn>)
    requires d.Valid() && |dpbIn| == HevcMaxDpbSlots
    requires |pic.stCurrBefore.entries| == |pic.stCurrAfter.entries| == |pic.ltCurr.entries| == MaxRpsEntries
    requires FillDpbH265State(d, pic, dpbIn).Success?
    ensures var s := FillDpbH265State(d, pic, dpbIn).value;
            var used := UsedPositions(d, dpbIn, 0);
            && s.decoder.Valid()
            && s.decoder.dpb.maxSize == d.dpb.maxSize
            && s.decoder.maxNumDecodeSurfaces == d.maxNumDecodeSurfaces
            && s.decoder.currentPictureId == d.currentPictureId
            && s.decoder.fieldPicFlagMask == d.fieldPicFlagMask
            && s.numUsedRef == |used| <= d.dpb.maxSize
            && |s.slotIndexes| == |s.gopReferenceImagesIndexes| == HevcMaxDpbSlots
            && |s.dpbRefList| == s.numUsedRef
            && (forall i :: s.numUsedRef <= i < HevcMaxDpbSlots ==>
                  s.slotIndexes[i] == -1 && s.gopReferenceImagesIndexes[i] == -1)
            && (forall k :: 0 <= k < s.numUsedRef ==> s.gopReferenceImagesIndexes[k] == d.GetPicIdx(dpbIn[used[k]].refPic))
            && |s.refPicSetStCurrBefore| == |s.refPicSetStCurrAfter| == |s.refPicSetLtCurr| == MaxRpsEntries
  {
    var entries, reset, slots, mapped, refs, frm, rpsBefore, rpsAfter, rpsLt, currSlot, decoder :=
      FillDpbH265StateUnfold(d, pic, dpbIn);
    AssembleAt(entries, refs, rpsBefore, rpsAfter, rpsLt, currSlot, decoder);
  }

  /** Slot `slots[k]` of every reference is the slot its picture holds in
      `decoder`, marked in use by the current picture, and the slot the
      picture had in `d` whenever it had one. */
  ghost predicate SlotsKept(d: DecoderDpb, entries: seq<H265Entry>, slots: seq<int>, decoder: DecoderDpb)
    requires d.Valid() && decoder.Valid()
  {
    && |slots| == |entries|
    && forall k :: 0 <= k < |entries| ==>
         && 0 <= PicOf(entries[k]) < MaxFrmCnt
         && slots[k] == decoder.pictureToDpbSlot[PicOf(entries[k])] >= 0
         && MarkedNow(decoder, slots[k])
         && (d.pictureToDpbSlot[PicOf(entries[k])] >= 0 ==> slots[k] == d.pictureToDpbSlot[PicOf(entries[k])])
  }

  /** The unmapping step, the first pass and the current picture's
      allocation together leave every reference with the slot its picture
      ends with. */
  lemma SlotsKeptThrough(d: DecoderDpb, currPic: Option<PicBuf>, entries: seq<H265Entry>, slots: seq<int>,
                         mapped: DecoderDpb, currSlot: int, decoder: DecoderDpb)
    requires d.Valid() && WellFormed(d, entries) && d.GetPicIdx(currPic) >= 0
    requires WellFormed(ResetPictures(d, KeepMask(entries, d.GetPicIdx(currPic) as nat), 0), entries)
    requires AssignSlots(ResetPictures(d, KeepMask(entries, d.GetPicIdx(currPic) as nat), 0), entries, 0, []) ==
               Success((slots, mapped))
    requires AllocateDpbSlotForCurrentH265(mapped, currPic, true) == Success((currSlot, decoder))
    ensures decoder.Valid() && SlotsKept(d, entries, slots, decoder)
  {
    var curr := d.GetPicIdx(currPic) as nat;
    var reset := ResetPictures(d, KeepMask(entries, curr), 0);
    AssignSlotsRecords(reset, entries, 0, []);
    AssignSlotsKeepsMapped(reset, entries, 0, []);
    AllocateCurrentKeepsOthers(mapped, currPic);
    forall k | 0 <= k < |entries|
      ensures && 0 <= PicOf(entries[k]) < MaxFrmCnt
              && slots[k] == decoder.pictureToDpbSlot[PicOf(entries[k])] >= 0
              && MarkedNow(decoder, slots[k])
              && (d.pictureToDpbSlot[PicOf(entries[k])] >= 0 ==> slots[k] == d.pictureToDpbSlot[PicOf(entries[k])])
    {
      assert SlotRecorded(entries, slots, mapped, k);
      assert PicOf(entries[k]) as nat in KeepMask(entries, curr);
    }
  }

  /** The first `numUsedRef` outputs describe the references: each slot
      index is the slot its picture now holds, marked in use by the current
      picture and equal to the slot the picture had before whenever it had
      one, and each descriptor is linked with the reference's picture order
      count and long-term flag. */
  ghost predicate ReferencesPlaced(d: DecoderDpb, entries: seq<H265Entry>, s: H265DpbState)
    requires d.Valid() && s.decoder.Valid()
  {
    && s.numUsedRef == |entries| <= |s.slotIndexes|
    && |s.dpbRefList| == |entries|
    && forall k :: 0 <= k < |entries| ==>
         && 0 <= PicOf(entries[k]) < MaxFrmCnt
         && s.slotIndexes[k] == s.decoder.pictureToDpbSlot[PicOf(entries[k])] >= 0
         && MarkedNow(s.decoder, s.slotIndexes[k])
         && (d.pictureToDpbSlot[PicOf(entries[k])] >= 0 ==> s.slotIndexes[k] == d.pictureToDpbSlot[PicOf(entries[k])])
         && s.dpbRefList[k].IsReference()
         && s.dpbRefList[k].stdReferenceInfo == H265ReferenceInfo(entries[k].picOrderCnt, entries[k].isLongTerm)
  }

  /** Every reference of a success is placed: see ReferencesPlaced; the
      references are the packed known pictures of the parser DPB, so their
      picture order counts and long-term flags are those of the positions
      they came from. */
  lemma FillDpbH265StateReferences(d: DecoderDpb, pic: H265PictureIn, dpbIn: seq<H265DpbIn>)
    requires d.Valid() && |dpbIn| == HevcMaxDpbSlots
    requires |pic.stCurrBefore.entries| == |pic.stCurrAfter.entries| == |pic.ltCurr.entries| == MaxRpsEntries
    requires FillDpbH265State(d, pic, dpbIn).Success?
    ensures FillDpbH265State(d, pic, dpbIn).value.decoder.Valid()
    ensures ReferencesPlaced(d, CollectEntries(d, dpbIn), FillDpbH265State(d, pic, dpbIn).value)
  {
    var entries, reset, slots, mapped, refs, frm, rpsBefore, rpsAfter, rpsLt, currSlot, decoder :=
      FillDpbH265StateUnfold(d, pic, dpbIn);
    SlotsKeptThrough(d, pic.currPic, entries, slots, mapped, currSlot, decoder);
    ReferencesFromParts(d, entries, slots, refs, rpsBefore, rpsAfter, rpsLt, currSlot, decoder);
  }

  /** ReferencesPlaced for the outputs assembled from the first pass's
      slots and the second pass's descriptors. */
  lemma ReferencesFromParts(d: DecoderDpb, entries: seq<H265Entry>, slots: seq<int>, refs: seq<H265RefSlot>,
                            before: seq<int>, after: seq<int>, lt: seq<int>, currSlot: int, decoder: DecoderDpb)
    requires d.Valid() && decoder.Valid() && SlotsKept(d, entries, slots, decoder) && |entries| <= HevcMaxDpbSlots
    requires forall k :: 0 <= k < |entries| ==> entries[k].IsRef()
    requires FillRefSlots(RecordSlots(entries, slots), 0) == Success(refs)
    ensures ReferencesPlaced(d, entries, Assemble(entries, refs, before, after, lt, currSlot, decoder))
  {
    FillRefSlotsMeans(RecordSlots(entries, slots), 0);
    AssembleAt(entries, refs, before, after, lt, currSlot, decoder);
    ReferencesPlacedFrom(d, entries, slots, refs, Assemble(entries, refs, before, after, lt, currSlot, decoder));
  }

  /** The outputs of Assemble, position by position. */
  lemma AssembleAt(entries: seq<H265Entry>, refs: seq<H265RefSlot>, before: seq<int>, after: seq<int>, lt: seq<int>,
                   currSlot: int, decoder: DecoderDpb)
    ensures var s := Assemble(entries, refs, before, after, lt, currSlot, decoder);
            && s.numUsedRef == |entries| && s.decoder == decoder && s.currAllocatedSlotIndex == currSlot
            && s.refPicSetStCurrBefore == before && s.refPicSetStCurrAfter == after && s.refPicSetLtCurr == lt
            && |s.slotIndexes| == |s.gopReferenceImagesIndexes| == HevcMaxDpbSlots && |s.dpbRefList| == |refs|
            && (forall i :: 0 <= i < HevcMaxDpbSlots ==>
                  && s.slotIndexes[i] == (if i < |refs| then refs[i].slotIndex else -1)
                  && s.gopReferenceImagesIndexes[i] == (if i < |entries| then PicOf(entries[i]) else -1))
            && (forall i :: 0 <= i < |refs| ==> s.dpbRefList[i] == refs[i].slotInfo)
  {
  }

  /** ReferencesPlaced from the slots the references end with and the
      descriptors filled from them. */
  lemma ReferencesPlacedFrom(d: DecoderDpb, entries: seq<H265Entry>, slots: seq<int>, refs: seq<H265RefSlot>, s: H265DpbState)
    requires d.Valid() && s.decoder.Valid() && SlotsKept(d, entries, slots, s.decoder)
    requires |refs| == |entries| == s.numUsedRef <= |s.slotIndexes| && |s.dpbRefList| == |entries|
    requires forall k :: 0 <= k < |entries| ==> s.slotIndexes[k] == refs[k].slotIndex && s.dpbRefList[k] == refs[k].slotInfo
    requires forall j :: 0 <= j < |refs| ==> Describes(RecordSlots(entries, slots)[0 + j], refs[j])
    ensures ReferencesPlaced(d, entries, s)
  {
    forall k | 0 <= k < |entries|
      ensures s.slotIndexes[k] == slots[k]
      ensures s.dpbRefList[k].IsReference()
      ensures s.dpbRefList[k].stdReferenceInfo == H265ReferenceInfo(entries[k].picOrderCnt, entries[k].isLongTerm)
    {
      assert Describes(RecordSlots(entries, slots)[0 + k], refs[k]);
    }
  }

  /** The current picture `currPicIdx` holds slot `currSlot` in `decoder`,
      the slot it had in `d` whenever it had one; every picture outside
      `keep` keeps the slot it had in `d`, or has none if the unmapping step
      released it. */
  ghost predicate CurrentPlacedH265(d: DecoderDpb, keep: set<nat>, currPicIdx: nat, decoder: DecoderDpb, currSlot: int)
    requires d.Valid() && decoder.Valid()
  {
    && currPicIdx < MaxFrmCnt
    && currSlot == decoder.pictureToDpbSlot[currPicIdx] >= 0
    && (d.pictureToDpbSlot[currPicIdx] >= 0 ==> currSlot == d.pictureToDpbSlot[currPicIdx])
    && (forall p :: 0 <= p < MaxFrmCnt && p !in keep ==>
          decoder.pictureToDpbSlot[p] == if Reset(d, keep, p) then -1 else d.pictureToDpbSlot[p])
  }

  /** The current picture of a success is placed, and every picture that is
      neither a reference nor the current one was left as it was or
      unmapped: see CurrentPlacedH265. */
  lemma FillDpbH265StateCurrent(d: DecoderDpb, pic: H265PictureIn, dpbIn: seq<H265DpbIn>)
    requires d.Valid() && |dpbIn| == HevcMaxDpbSlots
    requires |pic.stCurrBefore.entries| == |pic.stCurrAfter.entries| == |pic.ltCurr.entries| == MaxRpsEntries
    requires FillDpbH265State(d, pic, dpbIn).Success?
    ensures d.GetPicIdx(pic.currPic) >= 0 && FillDpbH265State(d, pic, dpbIn).value.decoder.Valid()
    ensures var s := FillDpbH265State(d, pic, dpbIn).value;
            var curr := d.GetPicIdx(pic.currPic) as nat;
            CurrentPlacedH265(d, KeepMask(CollectEntries(d, dpbIn), curr), curr, s.decoder, s.currAllocatedSlotIndex)
  {
    var entries, reset, slots, mapped, refs, frm, rpsBefore, rpsAfter, rpsLt, currSlot, decoder :=
      FillDpbH265StateUnfold(d, pic, dpbIn);
    var curr := d.GetPicIdx(pic.currPic) as nat;
    var keep := KeepMask(entries, curr);
    AssignSlotsKeepsMapped(reset, entries, 0, []);
    AllocateCurrentKeepsOthers(mapped, pic.currPic);
    assert curr in keep;
    forall p | 0 <= p < MaxFrmCnt && p !in keep
      ensures decoder.pictureToDpbSlot[p] == if Reset(d, keep, p) then -1 else d.pictureToDpbSlot[p]
    {
      forall i | 0 <= i < |entries| ensures PicOf(entries[i]) != p {
        assert PicOf(entries[i]) as nat in keep;
      }
    }
  }

  /** The slot the picture at parser position `idx` holds in `decoder`, or
      0 (the cleared frmListToDpb entry) when the position holds no picture
      the decoder knows. */
  function PositionSlot(d: DecoderDpb, dpbIn: seq<H265DpbIn>, decoder: DecoderDpb, idx: nat): int
    requires d.Valid() && decoder.Valid() && idx < |dpbIn|
  {
    var p := d.GetPicIdx(dpbIn[idx].refPic);
    if p >= 0 then decoder.pictureToDpbSlot[p] else 0
  }

  /** The references with their slots, as frmListToDpb reads them: the
      `k`-th came from the `k`-th known position of the parser DPB and
      carries the slot that position's picture holds in `decoder`, one of
      the sixteen. */
  ghost predicate SlottedFromPositions(d: DecoderDpb, dpbIn: seq<H265DpbIn>, decoder: DecoderDpb, slotted: seq<H265Entry>)
    requires d.Valid() && decoder.Valid() && |dpbIn| == HevcMaxDpbSlots
  {
    && |slotted| == |UsedPositions(d, dpbIn, 0)|
    && forall k :: 0 <= k < |slotted| ==>
         && slotted[k].originalDpbIndex == UsedPositions(d, dpbIn, 0)[k]
         && slotted[k].dpbSlot == PositionSlot(d, dpbIn, decoder, UsedPositions(d, dpbIn, 0)[k])
         && 0 <= slotted[k].dpbSlot < HevcMaxDpbSlots
  }

  /** The first pass's slots, recorded in the packed references, are read
      that way. */
  lemma RecordedSlotsFromPositions(d: DecoderDpb, dpbIn: seq<H265DpbIn>, slots: seq<int>, decoder: DecoderDpb)
    requires d.Valid() && decoder.Valid() && |dpbIn| == HevcMaxDpbSlots && decoder.dpb.maxSize <= HevcMaxDpbSlots
    requires SlotsKept(d, CollectEntries(d, dpbIn), slots, decoder)
    ensures SlottedFromPositions(d, dpbIn, decoder, RecordSlots(CollectEntries(d, dpbIn), slots))
  {
    var entries := CollectEntries(d, dpbIn);
    var used := UsedPositions(d, dpbIn, 0);
    forall k | 0 <= k < |entries|
      ensures PicOf(entries[k]) == d.GetPicIdx(dpbIn[used[k]].refPic) && entries[k].originalDpbIndex == used[k]
    {
    }
  }

  /** frmListToDpb after the first pass: every position holds the slot its
      picture ends with, or 0 when it holds no known picture; every value is
      one of the sixteen slots. */
  lemma FrmHoldsPositionSlots(d: DecoderDpb, dpbIn: seq<H265DpbIn>, decoder: DecoderDpb, slotted: seq<H265Entry>)
    requires d.Valid() && decoder.Valid() && |dpbIn| == HevcMaxDpbSlots
    requires SlottedFromPositions(d, dpbIn, decoder, slotted)
    ensures forall i :: 0 <= i < |slotted| ==> 0 <= slotted[i].originalDpbIndex < HevcMaxDpbSlots
    ensures var frm := FrmListToDpb(slotted, 0, NoSlots());
            forall idx :: 0 <= idx < HevcMaxDpbSlots ==>
              frm[idx] == PositionSlot(d, dpbIn, decoder, idx) && 0 <= frm[idx] < HevcMaxDpbSlots
  {
    var used := UsedPositions(d, dpbIn, 0);
    assert InPositionOrder(slotted);
    FrmListToDpbMeans(slotted, 0, NoSlots());
    var frm := FrmListToDpb(slotted, 0, NoSlots());
    forall idx | 0 <= idx < HevcMaxDpbSlots
      ensures frm[idx] == PositionSlot(d, dpbIn, decoder, idx) && 0 <= frm[idx] < HevcMaxDpbSlots
    {
      if d.GetPicIdx(dpbIn[idx].refPic) >= 0 {
        assert idx in used;
        var k :| 0 <= k < |used| && used[k] == idx;
        assert slotted[k].originalDpbIndex == idx;
      } else {
        forall i | 0 <= i < |slotted| ensures slotted[i].originalDpbIndex != idx {
          assert slotted[i].originalDpbIndex == used[i];
        }
      }
    }
  }

  /** A value among the sixteen slots keeps its low four bits. */
  lemma LowFourBits(x: int)
    requires 0 <= x < 16
    ensures x % 16 == x
  {
  }

  /** A RefPicSet list in slot terms: of at most eight entries, it holds,
      for every entry naming a position inside the parser DPB, the slot that
      position's picture holds in `decoder` (0 when it holds none), at the
      index counting the earlier such entries; the rest is 0xFF. */
  ghost predicate RpsMeans(d: DecoderDpb, dpbIn: seq<H265DpbIn>, decoder: DecoderDpb, rps: RefPicSetIn, out: seq<int>)
    requires d.Valid() && decoder.Valid() && |dpbIn| == HevcMaxDpbSlots && |rps.entries| == MaxRpsEntries
  {
    && 0 <= rps.num <= MaxRpsEntries && |out| == MaxRpsEntries
    && (forall i :: 0 <= i < rps.num && rps.entries[i] % 256 < HevcMaxDpbSlots ==>
          && |RpsPositions(rps.entries, i)| < |RpsPositions(rps.entries, rps.num)|
          && out[|RpsPositions(rps.entries, i)|] == PositionSlot(d, dpbIn, decoder, rps.entries[i] % 256))
    && (forall j :: |RpsPositions(rps.entries, rps.num)| <= j < MaxRpsEntries ==> out[j] == UnusedRpsEntry)
  }

  /** A list rewritten through a frmListToDpb that holds the position slots
      means what RpsMeans says. */
  lemma RpsListFromPositions(d: DecoderDpb, dpbIn: seq<H265DpbIn>, decoder: DecoderDpb, rps: RefPicSetIn, frm: seq<int>)
    requires d.Valid() && decoder.Valid() && |dpbIn| == HevcMaxDpbSlots && |rps.entries| == MaxRpsEntries
    requires |frm| == HevcMaxDpbSlots
    requires forall idx :: 0 <= idx < HevcMaxDpbSlots ==>
               frm[idx] == PositionSlot(d, dpbIn, decoder, idx) && 0 <= frm[idx] < HevcMaxDpbSlots
    requires RpsList(rps, frm).Success?
    ensures RpsMeans(d, dpbIn, decoder, rps, RpsList(rps, frm).value)
  {
    RpsListMeans(rps, frm);
    var out := RpsList(rps, frm).value;
    forall i | 0 <= i < rps.num && rps.entries[i] % 256 < HevcMaxDpbSlots
      ensures out[|RpsPositions(rps.entries, i)|] == PositionSlot(d, dpbIn, decoder, rps.entries[i] % 256)
    {
      var idx := rps.entries[i] % 256;
      assert out[|RpsPositions(rps.entries, i)|] == frm[idx] % 16;
      LowFourBits(frm[idx]);
    }
  }

  /** The three RefPicSet lists of a success name slots: see RpsMeans. */
  lemma FillDpbH265StateRps(d: DecoderDpb, pic: H265PictureIn, dpbIn: seq<H265DpbIn>)
    requires d.Valid() && |dpbIn| == HevcMaxDpbSlots
    requires |pic.stCurrBefore.entries| == |pic.stCurrAfter.entries| == |pic.ltCurr.entries| == MaxRpsEntries
    requires FillDpbH265State(d, pic, dpbIn).Success?
    ensures FillDpbH265State(d, pic, dpbIn).value.decoder.Valid()
    ensures var s := FillDpbH265State(d, pic, dpbIn).value;
            && RpsMeans(d, dpbIn, s.decoder, pic.stCurrBefore, s.refPicSetStCurrBefore)
            && RpsMeans(d, dpbIn, s.decoder, pic.stCurrAfter, s.refPicSetStCurrAfter)
            && RpsMeans(d, dpbIn, s.decoder, pic.ltCurr, s.refPicSetLtCurr)
  {
    var entries, reset, slots, mapped, refs, frm, rpsBefore, rpsAfter, rpsLt, currSlot, decoder :=
      FillDpbH265StateUnfold(d, pic, dpbIn);
    SlotsKeptThrough(d, pic.currPic, entries, slots, mapped, currSlot, decoder);
    RecordedSlotsFromPositions(d, dpbIn, slots, decoder);
    FrmHoldsPositionSlots(d, dpbIn, decoder, RecordSlots(entries, slots));
    RpsListFromPositions(d, dpbIn, decoder, pic.stCurrBefore, frm);
    RpsListFromPositions(d, dpbIn, decoder, pic.stCurrAfter, frm);
    RpsListFromPositions(d, dpbIn, decoder, pic.ltCurr, frm);
  }

  /** The conditions a success needs: at most sixteen DPB slots, no more
      known pictures in the parser DPB than slots, a current picture the
      decoder knows and marked as a reference, and RefPicSet lists of at
      most eight entries. */
  predicate Admissible(d: DecoderDpb, pic: H265PictureIn, dpbIn: seq<H265DpbIn>)
    requires |dpbIn| == HevcMaxDpbSlots
  {
    && d.dpb.maxSize <= HevcMaxDpbSlots
    && |UsedPositions(d, dpbIn, 0)| <= d.dpb.maxSize
    && d.GetPicIdx(pic.currPic) >= 0
    && pic.refPicFlag
    && 0 <= pic.stCurrBefore.num <= MaxRpsEntries
    && 0 <= pic.stCurrAfter.num <= MaxRpsEntries
    && 0 <= pic.ltCurr.num <= MaxRpsEntries
  }

  /** Every picture the builder needs, the known pictures of the parser DPB
      and the current one, already has a slot. */
  predicate AllMapped(d: DecoderDpb, pic: H265PictureIn, dpbIn: seq<H265DpbIn>)
    requires d.Valid() && |dpbIn| == HevcMaxDpbSlots
  {
    && (forall i :: 0 <= i < HevcMaxDpbSlots && d.GetPicIdx(dpbIn[i].refPic) >= 0 ==>
          d.pictureToDpbSlot[d.GetPicIdx(dpbIn[i].refPic)] >= 0)
    && (d.GetPicIdx(pic.currPic) >= 0 ==> d.pictureToDpbSlot[d.GetPicIdx(pic.currPic)] >= 0)
  }

  /** A success meets every condition of Admissible. */
  lemma FillDpbH265StateAdmissible(d: DecoderDpb, pic: H265PictureIn, dpbIn: seq<H265DpbIn>)
    requires d.Valid() && |dpbIn| == HevcMaxDpbSlots
    requires |pic.stCurrBefore.entries| == |pic.stCurrAfter.entries| == |pic.ltCurr.entries| == MaxRpsEntries
    requires FillDpbH265State(d, pic, dpbIn).Success?
    ensures Admissible(d, pic, dpbIn)
  {
    var entries, reset, slots, mapped, refs, frm, rpsBefore, rpsAfter, rpsLt, currSlot, decoder :=
      FillDpbH265StateUnfold(d, pic, dpbIn);
  }

  /** When every picture it needs already has a slot, the builder cannot
      run out of slots: it succeeds exactly when Admissible holds. */
  lemma FillDpbH265StateSucceedsWhenMapped(d: DecoderDpb, pic: H265PictureIn, dpbIn: seq<H265DpbIn>)
    requires d.Valid() && |dpbIn| == HevcMaxDpbSlots
    requires |pic.stCurrBefore.entries| == |pic.stCurrAfter.entries| == |pic.ltCurr.entries| == MaxRpsEntries
    requires AllMapped(d, pic, dpbIn)
    ensures FillDpbH265State(d, pic, dpbIn).Success? <==> Admissible(d, pic, dpbIn)
  {
    if FillDpbH265State(d, pic, dpbIn).Success? {
      FillDpbH265StateAdmissible(d, pic, dpbIn);
    }
    if Admissible(d, pic, dpbIn) {
      AdmissibleSucceedsWhenMapped(d, pic, dpbIn);
    }
  }

  /** An admissible call whose pictures all have slots succeeds. */
  lemma AdmissibleSucceedsWhenMapped(d: DecoderDpb, pic: H265PictureIn, dpbIn: seq<H265DpbIn>)
    requires d.Valid() && |dpbIn| == HevcMaxDpbSlots
    requires |pic.stCurrBefore.entries| == |pic.stCurrAfter.entries| == |pic.ltCurr.entries| == MaxRpsEntries
    requires AllMapped(d, pic, dpbIn) && Admissible(d, pic, dpbIn)
    ensures FillDpbH265State(d, pic, dpbIn).Success?
  {
    var entries := CollectEntries(d, dpbIn);
    var curr := d.GetPicIdx(pic.currPic) as nat;
    assert FillDpbH265State(d, pic, dpbIn) == FillChecked(d, pic, entries);
    var reset := ResetPictures(d, KeepMask(entries, curr), 0);
    FirstPassSucceedsWhenMapped(d, pic, dpbIn);
    var slots, mapped := AssignSlots(reset, entries, 0, []).value.0, AssignSlots(reset, entries, 0, []).value.1;
    LaterStagesSucceedWhenMapped(d, pic.currPic, entries, slots, mapped);
    FillCheckedSucceeds(d, pic, entries, slots, mapped);
  }

  /** After a first pass from a decoder where the current picture has a
      slot, the second pass and the current picture's allocation succeed. */
  lemma LaterStagesSucceedWhenMapped(d: DecoderDpb, currPic: Option<PicBuf>, entries: seq<H265Entry>, slots: seq<int>,
                                     mapped: DecoderDpb)
    requires d.Valid() && WellFormed(d, entries) && |entries| <= d.dpb.maxSize <= HevcMaxDpbSlots
    requires d.GetPicIdx(currPic) >= 0 && d.pictureToDpbSlot[d.GetPicIdx(currPic)] >= 0
    requires WellFormed(ResetPictures(d, KeepMask(entries, d.GetPicIdx(currPic) as nat), 0), entries)
    requires AssignSlots(ResetPictures(d, KeepMask(entries, d.GetPicIdx(currPic) as nat), 0), entries, 0, []) ==
               Success((slots, mapped))
    ensures FillRefSlots(RecordSlots(entries, slots), 0).Success?
    ensures AllocateDpbSlotForCurrentH265(mapped, currPic, true).Success?
  {
    var curr := d.GetPicIdx(currPic) as nat;
    var reset := ResetPictures(d, KeepMask(entries, curr), 0);
    SecondPassSucceeds(reset, entries, slots, mapped);
    AssignSlotsKeepsMapped(reset, entries, 0, []);
    assert curr in KeepMask(entries, curr);
  }

  /** The slots of a first pass are among the sixteen, so the second pass
      succeeds. */
  lemma SecondPassSucceeds(reset: DecoderDpb, entries: seq<H265Entry>, slots: seq<int>, mapped: DecoderDpb)
    requires reset.Valid() && WellFormed(reset, entries) && |entries| <= reset.dpb.maxSize <= HevcMaxDpbSlots
    requires AssignSlots(reset, entries, 0, []) == Success((slots, mapped))
    ensures FillRefSlots(RecordSlots(entries, slots), 0).Success?
  {
    AssignSlotsRecords(reset, entries, 0, []);
    var slotted := RecordSlots(entries, slots);
    FillRefSlotsMeans(slotted, 0);
    forall i | 0 <= i < |slotted| ensures 0 <= slotted[i].dpbSlot < HevcMaxDpbSlots {
      assert SlotRecorded(entries, slots, mapped, i);
    }
  }

  /** FillChecked succeeds once each of its stages does. */
  lemma FillCheckedSucceeds(d: DecoderDpb, pic: H265PictureIn, entries: seq<H265Entry>, slots: seq<int>, mapped: DecoderDpb)
    requires d.Valid() && WellFormed(d, entries) && |entries| <= d.dpb.maxSize <= HevcMaxDpbSlots
    requires d.GetPicIdx(pic.currPic) >= 0
    requires |pic.stCurrBefore.entries| == |pic.stCurrAfter.entries| == |pic.ltCurr.entries| == MaxRpsEntries
    requires WellFormed(ResetPictures(d, KeepMask(entries, d.GetPicIdx(pic.currPic) as nat), 0), entries)
    requires AssignSlots(ResetPictures(d, KeepMask(entries, d.GetPicIdx(pic.currPic) as nat), 0), entries, 0, []) ==
               Success((slots, mapped))
    requires FillRefSlots(RecordSlots(entries, slots), 0).Success?
    requires AllocateDpbSlotForCurrentH265(mapped, pic.currPic, true).Success?
    requires pic.refPicFlag
    requires 0 <= pic.stCurrBefore.num <= MaxRpsEntries && 0 <= pic.stCurrAfter.num <= MaxRpsEntries
    requires 0 <= pic.ltCurr.num <= MaxRpsEntries
    ensures FillChecked(d, pic, entries).Success?
  {
  }

  /** When every needed picture has a slot, the first pass of an
      admissible call succeeds. */
  lemma FirstPassSucceedsWhenMapped(d: DecoderDpb, pic: H265PictureIn, dpbIn: seq<H265DpbIn>)
    requires d.Valid() && |dpbIn| == HevcMaxDpbSlots
    requires AllMapped(d, pic, dpbIn) && Admissible(d, pic, dpbIn)
    ensures var entries := CollectEntries(d, dpbIn);
            var reset := ResetPictures(d, KeepMask(entries, d.GetPicIdx(pic.currPic) as nat), 0);
            && WellFormed(reset, entries)
            && AssignSlots(reset, entries, 0, []).Success?
  {
    var entries := CollectEntries(d, dpbIn);
    var used := UsedPositions(d, dpbIn, 0);
    var reset := ResetPictures(d, KeepMask(entries, d.GetPicIdx(pic.currPic) as nat), 0);
    assert WellFormed(reset, entries);
    forall i | 0 <= i < |entries| ensures reset.pictureToDpbSlot[PicOf(entries[i])] >= 0 {
      assert PicOf(entries[i]) as nat in KeepMask(entries, d.GetPicIdx(pic.currPic) as nat);
      assert PicOf(entries[i]) == d.GetPicIdx(dpbIn[used[i]].refPic);
    }
    AssignSlotsSucceedsWhenMapped(reset, entries, 0, []);
  }
}

=== FILE: sequence_config.dfy ===
/** The parser's begin-of-sequence callback: it detects whether the new
    sequence changes the format or coded size of the previous one, picks the
    number of DPB slots, runs the sequence callback of the decoder and
    resizes the slot allocator. */
module SequenceConfig {
  import opened Wrappers
  import FormatMapping
  import VideoSession
  import DpbSlots
  import FrameBuffer

  /** The codec operation flag of H.264 decoding (Vulkan specification,
      VkVideoCodecOperationFlagBitsKHR). */
  const CodecDecodeH264: int := 0x1

  /** The parser's sequence description.  `maxWidth`/`maxHeight` are zero
      until a first sequence has been seen. */
  datatype SequenceInfo = SequenceInfo(
    codec: int,
    chromaFormat: int,
    bitDepthLumaMinus8: nat,
    bitDepthChromaMinus8: nat,
    progressive: bool,
    codedWidth: nat,
    codedHeight: nat,
    maxWidth: nat,
    maxHeight: nat,
    displayWidth: int,
    displayHeight: int,
    minNumDpbSlots: nat,
    minNumDecodeSurfaces: nat)

  /** What the callback works out before starting the sequence. */
  datatype SequenceChange = SequenceChange(sequenceUpdate: bool, reconfigureFormat: bool, reconfigureCodedExtent: bool, configDpbSlots: nat)

  /** The DPB slot limit of a codec: 16 references plus the setup slot for
      H.264, 16 otherwise. */
  function MaxDpbSlotsFor(codec: int): nat {
    if codec == CodecDecodeH264 then DpbSlots.MaxDpbRefAndSetupSlots else DpbSlots.MaxDpbRefSlots
  }

  /** The format of two sequences differs: codec, chroma format, bit depths
      or scan type. */
  predicate FormatDiffers(prior: SequenceInfo, next: SequenceInfo) {
    || next.codec != prior.codec
    || next.chromaFormat != prior.chromaFormat
    || next.bitDepthLumaMinus8 != prior.bitDepthLumaMinus8
    || next.bitDepthChromaMinus8 != prior.bitDepthChromaMinus8
    || next.progressive != prior.progressive
  }

  predicate CodedExtentDiffers(prior: SequenceInfo, next: SequenceInfo) {
    next.codedWidth != prior.codedWidth || next.codedHeight != prior.codedHeight
  }

  /** The stream's slot need when it states one, the codec limit otherwise,
      never above the limit; reconfiguration is flagged only for a sequence
      that follows another. */
  function DetectChange(prior: SequenceInfo, next: SequenceInfo): (c: SequenceChange)
    ensures c.sequenceUpdate <==> prior.maxWidth != 0 && prior.maxHeight != 0
    ensures c.reconfigureFormat <==> c.sequenceUpdate && FormatDiffers(prior, next)
    ensures c.reconfigureCodedExtent <==> c.sequenceUpdate && CodedExtentDiffers(prior, next)
    ensures 1 <= c.configDpbSlots <= MaxDpbSlotsFor(next.codec)
    ensures 0 < next.minNumDpbSlots <= MaxDpbSlotsFor(next.codec) ==> c.configDpbSlots == next.minNumDpbSlots
    ensures next.minNumDpbSlots == 0 || next.minNumDpbSlots > MaxDpbSlotsFor(next.codec) ==> c.configDpbSlots == MaxDpbSlotsFor(next.codec)
  {
    var sequenceUpdate := prior.maxWidth != 0 && prior.maxHeight != 0;
    var maxDpbSlots := MaxDpbSlotsFor(next.codec);
    var wanted := if next.minNumDpbSlots > 0 then next.minNumDpbSlots else maxDpbSlots;
    var configDpbSlots := VideoSession.Min(wanted, maxDpbSlots);
    var reconfigureFormat := sequenceUpdate && FormatDiffers(prior, next);
    var reconfigureCodedExtent := sequenceUpdate && CodedExtentDiffers(prior, next);
    SequenceChange(sequenceUpdate, reconfigureFormat, reconfigureCodedExtent, configDpbSlots)
  }

  /** The chroma subsampling flag of the parser's chroma format (4:2:0, 4:2:2
      or 4:4:4); any other value fails the decoder's assertion. */
  function DetectedSubsampling(chromaFormat: int): (r: Result<int>)
    ensures r.Success? <==> chromaFormat in {1, 2, 3}
    ensures r.Success? ==> FormatMapping.KnownSubsampling(r.value) && r.value != FormatMapping.ChromaMonochrome
  {
    if chromaFormat == 1 then Success(FormatMapping.Chroma420)
    else if chromaFormat == 2 then Success(FormatMapping.Chroma422)
    else if chromaFormat == 3 then Success(FormatMapping.Chroma444)
    else Failure("Invalid chroma sub-sampling format")
  }

  /** The decoder's state across sequences: the last sequence, the surface
      count, the session state, the slot allocator with the slot count it
      reported (`maxNumDpbSlots`, the value DpbSlots.Init returns), and the
      frame-buffer pool. */
  datatype Decoder = Decoder(
    nvsi: SequenceInfo,
    maxNumDecodeSurfaces: nat,
    sequence: VideoSession.SequenceState,
    dpb: DpbSlots.DpbSlots,
    maxNumDpbSlots: int,
    frames: FrameBuffer.FramePool)

  /** Starts a sequence: detects the change, maps the chroma format and bit
      depths (a value without a mapping fails the decoder's assertion), runs
      the sequence callback, which also sizes the frame-buffer pool to the
      decode-surface count (more than 32 surfaces fail the pool's
      assertion), records the new sequence with its coded size as the
      maximum, and resizes the slot allocator (growing it when the sequence
      follows another).  Returns the number of decode surfaces, which is at
      least eight above the stream's minimum and never drops. */
  function BeginSequence(d: Decoder, next: SequenceInfo, caps: VideoSession.Capabilities, setup: VideoSession.DecoderSetup)
    : (r: Result<(nat, Decoder)>)
    requires d.dpb.Valid() && FrameBuffer.Valid(d.frames)
    requires VideoSession.ValidCapabilities(caps)
    ensures r.Success? <==> && next.chromaFormat in {1, 2, 3}
                            && next.bitDepthLumaMinus8 in {0, 2, 4}
                            && next.bitDepthChromaMinus8 in {0, 2, 4}
                            && VideoSession.Max(d.sequence.numDecodeSurfaces, next.minNumDecodeSurfaces + 8)
                                 <= FrameBuffer.MaxFramebufferImages
    ensures r.Success? ==> r.value.1.dpb.Valid() && FrameBuffer.Valid(r.value.1.frames)
    ensures r.Success? ==>
              var (n, d') := r.value;
              var change := DetectChange(d.nvsi, next);
              && n == d'.maxNumDecodeSurfaces == d'.sequence.numDecodeSurfaces == d'.frames.numImages
              && n == VideoSession.Max(d.sequence.numDecodeSurfaces, next.minNumDecodeSurfaces + 8)
              && d'.frames == FrameBuffer.InitImagePool(d.frames, n).value
              && d'.nvsi == next.(maxWidth := next.codedWidth, maxHeight := next.codedHeight)
              && d'.maxNumDpbSlots == d'.dpb.maxSize
              && (!change.sequenceUpdate ==> d'.dpb.maxSize == change.configDpbSlots && d'.dpb.slotInUseMask == {})
              && (change.sequenceUpdate ==> d'.dpb.maxSize == VideoSession.Max(d.dpb.maxSize, change.configDpbSlots))
  {
    var change := DetectChange(d.nvsi, next);
    var stored := next.(maxWidth := next.codedWidth, maxHeight := next.codedHeight);
    match DetectedSubsampling(next.chromaFormat)
    case Failure(e) => Failure(e)
    case Success(_) =>
      match FormatMapping.BitDepthFlag(next.bitDepthLumaMinus8, "Unhandled luma bit depth")
      case Failure(e) => Failure(e)
      case Success(_) =>
        match FormatMapping.BitDepthFlag(next.bitDepthChromaMinus8, "Unhandled chroma bit depth")
        case Failure(e) => Failure(e)
        case Success(_) =>
          var detected := VideoSession.DetectedFormat(next.codedWidth, next.codedHeight, 0, 0,
                                                      next.displayWidth, next.displayHeight,
                                                      next.minNumDecodeSurfaces, change.configDpbSlots);
          var (maxDecodeRTs, sequence) := VideoSession.StartVideoSequence(d.sequence, detected, caps, setup);
          match FrameBuffer.InitImagePool(d.frames, maxDecodeRTs)
          case Failure(e) => Failure(e)
          case Success(frames) =>
            // the callback's count is at least 8, so it always replaces the parser's minimum
            var surfaces := if maxDecodeRTs > 1 then maxDecodeRTs else next.minNumDecodeSurfaces;
            var (slots, dpb) := d.dpb.Init(change.configDpbSlots, change.sequenceUpdate);
            Success((surfaces, Decoder(stored, surfaces, sequence, dpb, slots, frames)))
  }

  /** Starting the same sequence again is an update that flags no
      reconfiguration, once the sequence has a nonzero coded size. */
  lemma RepeatedSequenceNeedsNoReconfigure(d: Decoder, next: SequenceInfo, caps: VideoSession.Capabilities, setup: VideoSession.DecoderSetup)
    requires d.dpb.Valid() && FrameBuffer.Valid(d.frames)
    requires VideoSession.ValidCapabilities(caps)
    requires BeginSequence(d, next, caps, setup).Success?
    requires next.codedWidth != 0 && next.codedHeight != 0
    ensures var d' := BeginSequence(d, next, caps, setup).value.1;
            var change := DetectChange(d'.nvsi, next);
            change.sequenceUpdate && !change.reconfigureFormat && !change.reconfigureCodedExtent
  {
    var stored := next.(maxWidth := next.codedWidth, maxHeight := next.codedHeight);
    assert !FormatDiffers(stored, next) && !CodedExtentDiffers(stored, next);
  }
}

=== FILE: video_session.dfy ===
/** Reuse checks for the decoder's long-lived device objects: whether an
    existing video session, or an existing image, can serve a new request,
    and how the sequence callback sizes the decode surfaces and decides to
    keep or recreate the session.  Device handles are plain numbers, formats
    and profiles plain values compared for equality, and creation always
    succeeds. */
module VideoSession {
  import opened Wrappers
  import opened Alignment

  /** Reference slots of the DPB without the setup slot. */
  const MaxDpbRefSlots: nat := 16

  datatype Extent = Extent(width: nat, height: nat)

  /** `a` fits inside `b` in both dimensions. */
  predicate Within(a: Extent, b: Extent) {
    a.width <= b.width && a.height <= b.height
  }

  /** The video profile: codec operation, chroma subsampling, bit depths and
      codec profile, compared as a whole. */
  datatype VideoProfile = VideoProfile(codec: int, subsampling: int, lumaBitDepth: int, chromaBitDepth: int, codecProfile: int)

  /** What a video session was created with. */
  datatype SessionCreateInfo = SessionCreateInfo(
    queueFamilyIndex: nat,
    pictureFormat: int,
    maxCodedExtent: Extent,
    referencePictureFormat: int,
    maxDpbSlots: nat,
    maxActiveReferencePictures: nat)

  datatype Session = Session(device: nat, profile: VideoProfile, createInfo: SessionCreateInfo)

  /** What a caller asks of a session. */
  datatype SessionRequest = SessionRequest(
    device: nat,
    queueFamilyIndex: nat,
    profile: VideoProfile,
    pictureFormat: int,
    maxCodedExtent: Extent,
    referencePictureFormat: int,
    maxDpbSlots: nat,
    maxActiveReferencePictures: nat)

  /** A session records the request it was created for. */
  function CreateSession(q: SessionRequest): (s: Session)
    ensures s.device == q.device && s.profile == q.profile
    ensures s.createInfo.maxCodedExtent == q.maxCodedExtent
    ensures s.createInfo.maxDpbSlots == q.maxDpbSlots
    ensures s.createInfo.maxActiveReferencePictures == q.maxActiveReferencePictures
  {
    Session(q.device, q.profile,
            SessionCreateInfo(q.queueFamilyIndex, q.pictureFormat, q.maxCodedExtent,
                              q.referencePictureFormat, q.maxDpbSlots, q.maxActiveReferencePictures))
  }

  /** Whether `s` can serve `q`: the same profile, device, queue family and
      formats, and no more extent, DPB slots or active references than it was
      created for.  The checks run in the implementation's order; the first that
      fails answers false. */
  function IsCompatible(s: Session, q: SessionRequest): (r: bool)
    ensures r <==> && q.profile == s.profile
                   && Within(q.maxCodedExtent, s.createInfo.maxCodedExtent)
                   && q.maxDpbSlots <= s.createInfo.maxDpbSlots
                   && q.maxActiveReferencePictures <= s.createInfo.maxActiveReferencePictures
                   && q.referencePictureFormat == s.createInfo.referencePictureFormat
                   && q.pictureFormat == s.createInfo.pictureFormat
                   && q.device == s.device
                   && q.queueFamilyIndex == s.createInfo.queueFamilyIndex
  {
    if q.profile != s.profile then false
    else if q.maxCodedExtent.width > s.createInfo.maxCodedExtent.width then false
    else if q.maxCodedExtent.height > s.createInfo.maxCodedExtent.height then false
    else if q.maxDpbSlots > s.createInfo.maxDpbSlots then false
    else if q.maxActiveReferencePictures > s.createInfo.maxActiveReferencePictures then false
    else if s.createInfo.referencePictureFormat != q.referencePictureFormat then false
    else if s.createInfo.pictureFormat != q.pictureFormat then false
    else if s.device != q.device then false
    else if s.createInfo.queueFamilyIndex != q.queueFamilyIndex then false
    else true
  }

  /** `q` asks for no more than `p` and is otherwise the same request. */
  predicate Smaller(q: SessionRequest, p: SessionRequest) {
    && q == p.(maxCodedExtent := q.maxCodedExtent, maxDpbSlots := q.maxDpbSlots,
               maxActiveReferencePictures := q.maxActiveReferencePictures)
    && Within(q.maxCodedExtent, p.maxCodedExtent)
    && q.maxDpbSlots <= p.maxDpbSlots
    && q.maxActiveReferencePictures <= p.maxActiveReferencePictures
  }

  /** A session serves the request it was created for, and every smaller one. */
  lemma CreatedSessionServesSmallerRequests(p: SessionRequest, q: SessionRequest)
    requires Smaller(q, p)
    ensures IsCompatible(CreateSession(p), p)
    ensures IsCompatible(CreateSession(p), q)
  {
  }

  /** The fields of an image create request that reuse depends on. */
  datatype ImageCreateInfo = ImageCreateInfo(extent: Extent, depth: nat, arrayLayers: nat, tiling: int, imageType: int, format: int)

  /** Whether an image created with `created` can serve `requested`: no
      larger extent or layer count, and the same tiling, type and format.
      The depth of the extent is not compared. */
  function ImageIsCompatible(created: ImageCreateInfo, requested: ImageCreateInfo): (r: bool)
    ensures r <==> && Within(requested.extent, created.extent)
                   && requested.arrayLayers <= created.arrayLayers
                   && requested.tiling == created.tiling
                   && requested.imageType == created.imageType
                   && requested.format == created.format
  {
    if requested.extent.width > created.extent.width then false
    else if requested.extent.height > created.extent.height then false
    else if requested.arrayLayers > created.arrayLayers then false
    else if requested.tiling != created.tiling then false
    else if requested.imageType != created.imageType then false
    else if requested.format != created.format then false
    else true
  }

  /** Image compatibility is a preorder: every image serves its own request,
      and serving passes along a chain of requests. */
  lemma ImageCompatibilityIsPreorder(a: ImageCreateInfo, b: ImageCreateInfo, c: ImageCreateInfo)
    ensures ImageIsCompatible(a, a)
    ensures ImageIsCompatible(a, b) && ImageIsCompatible(b, c) ==> ImageIsCompatible(a, c)
  {
  }

  // ---------------------------------------------------------------------
  // The sequence callback
  // ---------------------------------------------------------------------

  /** The coded size and display area the parser reports for a sequence, and
      its surface and slot needs.  The display-area edges are signed. */
  datatype DetectedFormat = DetectedFormat(
    codedWidth: nat,
    codedHeight: nat,
    displayLeft: int,
    displayTop: int,
    displayRight: int,
    displayBottom: int,
    minNumDecodeSurfaces: nat,
    maxNumDpbSlots: nat)

  /** What the implementation reports: the least coded extent, the picture
      access granularity (powers of two) and the most active references. */
  datatype Capabilities = Capabilities(minCodedExtent: Extent, pictureAccessGranularity: Extent, maxActiveReferencePictures: nat)

  predicate ValidCapabilities(caps: Capabilities) {
    IsPowerOfTwo(caps.pictureAccessGranularity.width) && IsPowerOfTwo(caps.pictureAccessGranularity.height)
  }

  /** An unsigned 32-bit cast of a signed difference. */
  function Unsigned32(x: int): nat {
    x % 0x1_0000_0000
  }

  function Max(a: nat, b: nat): nat {
    if a >= b then a else b
  }

  function Min(a: nat, b: nat): nat {
    if a <= b then a else b
  }

  /** The smallest extent that covers the display area and the coded size
      and is at least the minimum coded extent, rounded up to the access
      granularity. */
  function ImageExtent(f: DetectedFormat, caps: Capabilities): (e: Extent)
    requires ValidCapabilities(caps)
    ensures IsMultiple(e.width, caps.pictureAccessGranularity.width)
    ensures IsMultiple(e.height, caps.pictureAccessGranularity.height)
    ensures Within(Extent(f.codedWidth, f.codedHeight), e) && Within(caps.minCodedExtent, e)
    ensures Unsigned32(f.displayRight - f.displayLeft) <= e.width && Unsigned32(f.displayBottom - f.displayTop) <= e.height
  {
    var w := Max(Max(Unsigned32(f.displayRight - f.displayLeft), f.codedWidth), caps.minCodedExtent.width);
    var h := Max(Max(Unsigned32(f.displayBottom - f.displayTop), f.codedHeight), caps.minCodedExtent.height);
    Extent(AlignUp(w, caps.pictureAccessGranularity.width), AlignUp(h, caps.pictureAccessGranularity.height))
  }

  /** The image extent covers the coded size, the display area (for edges in
      order and less than 2^32 apart) and the minimum extent, is a multiple of
      the granularity, and is the least such extent. */
  lemma ImageExtentIsLeastCover(f: DetectedFormat, caps: Capabilities, e: Extent)
    requires ValidCapabilities(caps)
    requires IsMultiple(e.width, caps.pictureAccessGranularity.width)
    requires IsMultiple(e.height, caps.pictureAccessGranularity.height)
    ensures var x := ImageExtent(f, caps);
            && IsMultiple(x.width, caps.pictureAccessGranularity.width)
            && IsMultiple(x.height, caps.pictureAccessGranularity.height)
            && Within(Extent(f.codedWidth, f.codedHeight), x)
            && Within(caps.minCodedExtent, x)
            && (0 <= f.displayRight - f.displayLeft < 0x1_0000_0000 ==> f.displayRight - f.displayLeft <= x.width)
            && (0 <= f.displayBottom - f.displayTop < 0x1_0000_0000 ==> f.displayBottom - f.displayTop <= x.height)
    ensures && Within(Extent(f.codedWidth, f.codedHeight), e)
            && Within(caps.minCodedExtent, e)
            && Unsigned32(f.displayRight - f.displayLeft) <= e.width
            && Unsigned32(f.displayBottom - f.displayTop) <= e.height
            ==> Within(ImageExtent(f, caps), e)
  {
    var w := Max(Max(Unsigned32(f.displayRight - f.displayLeft), f.codedWidth), caps.minCodedExtent.width);
    var h := Max(Max(Unsigned32(f.displayBottom - f.displayTop), f.codedHeight), caps.minCodedExtent.height);
    if w <= e.width && h <= e.height {
      LeastMultiple(w, e.width, caps.pictureAccessGranularity.width);
      LeastMultiple(h, e.height, caps.pictureAccessGranularity.height);
    }
  }

  /** The device the decoder runs on and the formats it allocates. */
  datatype DecoderSetup = DecoderSetup(device: nat, decodeQueueFamily: nat, profile: VideoProfile, outImageFormat: int, dpbImageFormat: int)

  /** The decoder's state across sequences: the number of decode surfaces,
      the current session, and whether the codec must be reset. */
  datatype SequenceState = SequenceState(numDecodeSurfaces: nat, session: Option<Session>, resetDecoder: bool)

  /** The session request the callback makes for a sequence. */
  function SessionRequestFor(setup: DecoderSetup, extent: Extent, maxDpbSlots: nat, maxActive: nat): SessionRequest {
    SessionRequest(setup.device, setup.decodeQueueFamily, setup.profile, setup.outImageFormat,
                   extent, setup.dpbImageFormat, maxDpbSlots, maxActive)
  }

  /** Keeps the current session when it serves `check`, else creates one for
      `create` and asks for a codec reset. */
  function SelectSession(st: SequenceState, check: SessionRequest, create: SessionRequest): (r: SequenceState)
    ensures r.numDecodeSurfaces == st.numDecodeSurfaces
    ensures st.session.Some? && IsCompatible(st.session.value, check) ==> r == st
    ensures !(st.session.Some? && IsCompatible(st.session.value, check)) ==>
              r.session == Some(CreateSession(create)) && r.resetDecoder
  {
    if st.session.None? || !IsCompatible(st.session.value, check) then
      st.(session := Some(CreateSession(create)), resetDecoder := true)
    else st
  }

  /** The sequence callback as implemented: at least eight surfaces more than
      the stream's minimum, and a session whose reuse check asks for
      max(slots, 16) active references while a new session is created with
      min(slots, the implementation's maximum). */
  function StartVideoSequenceAsWritten(st: SequenceState, f: DetectedFormat, caps: Capabilities, setup: DecoderSetup): (r: (nat, SequenceState))
    requires ValidCapabilities(caps)
    ensures r.0 == r.1.numDecodeSurfaces == Max(st.numDecodeSurfaces, f.minNumDecodeSurfaces + 8)
    ensures r.1.session.Some?
    ensures var check := SessionRequestFor(setup, ImageExtent(f, caps), f.maxNumDpbSlots, Max(f.maxNumDpbSlots, MaxDpbRefSlots));
            var kept := st.session.Some? && IsCompatible(st.session.value, check);
            && (kept ==> r.1.session == st.session && r.1.resetDecoder == st.resetDecoder)
            && (!kept ==> r.1.resetDecoder
                          && r.1.session.value.createInfo.maxActiveReferencePictures
                               == Min(f.maxNumDpbSlots, caps.maxActiveReferencePictures))
  {
    var st1 := st.(numDecodeSurfaces := Max(st.numDecodeSurfaces, f.minNumDecodeSurfaces + 8));
    var extent := ImageExtent(f, caps);
    var slots := f.maxNumDpbSlots;
    var check := SessionRequestFor(setup, extent, slots, Max(slots, MaxDpbRefSlots));
    var create := SessionRequestFor(setup, extent, slots, Min(slots, caps.maxActiveReferencePictures));
    var st2 := SelectSession(st1, check, create);
    (st2.numDecodeSurfaces, st2)
  }

  /** The sequence callback with the reuse check asking for what a new
      session is created with. */
  function StartVideoSequence(st: SequenceState, f: DetectedFormat, caps: Capabilities, setup: DecoderSetup): (r: (nat, SequenceState))
    requires ValidCapabilities(caps)
    ensures r.0 == r.1.numDecodeSurfaces
    ensures r.0 == Max(st.numDecodeSurfaces, f.minNumDecodeSurfaces + 8)
    ensures r.0 >= st.numDecodeSurfaces && r.0 >= f.minNumDecodeSurfaces + 8
    ensures r.1.session.Some?
    ensures Within(ImageExtent(f, caps), r.1.session.value.createInfo.maxCodedExtent)
  {
    var st1 := st.(numDecodeSurfaces := Max(st.numDecodeSurfaces, f.minNumDecodeSurfaces + 8));
    var extent := ImageExtent(f, caps);
    var slots := f.maxNumDpbSlots;
    var create := SessionRequestFor(setup, extent, slots, Min(slots, caps.maxActiveReferencePictures));
    var st2 := SelectSession(st1, create, create);
    (st2.numDecodeSurfaces, st2)
  }

  /** As implemented, the session the callback creates for a decoder without
      one is kept by an identical next sequence exactly when the stream needs
      at least 16 slots and the implementation allows that many active
      references; otherwise every sequence start recreates the session and
      resets the codec. */
  lemma AsWrittenReusesOnlyWideSessions(st: SequenceState, f: DetectedFormat, caps: Capabilities, setup: DecoderSetup)
    requires ValidCapabilities(caps)
    requires st.session.None?
    ensures var st1 := StartVideoSequenceAsWritten(st, f, caps, setup).1;
            var st2 := StartVideoSequenceAsWritten(st1.(resetDecoder := false), f, caps, setup).1;
            var wide := MaxDpbRefSlots <= f.maxNumDpbSlots <= caps.maxActiveReferencePictures;
            (st2.session == st1.session && !st2.resetDecoder) <==> wide
  {
    var st1 := StartVideoSequenceAsWritten(st, f, caps, setup).1;
    var s := st1.session.value;
    var slots := f.maxNumDpbSlots;
    var check := SessionRequestFor(setup, ImageExtent(f, caps), slots, Max(slots, MaxDpbRefSlots));
    assert s.createInfo.maxActiveReferencePictures == Min(slots, caps.maxActiveReferencePictures);
    assert IsCompatible(s, check) <==> Max(slots, MaxDpbRefSlots) <= Min(slots, caps.maxActiveReferencePictures);
  }

  /** The concrete case of an H.264 stream (17 slots) on an implementation
      with 16 active references: the session is recreated on every start. */
  lemma AsWrittenRecreatesH264Session(st: SequenceState, f: DetectedFormat, caps: Capabilities, setup: DecoderSetup)
    requires ValidCapabilities(caps)
    requires st.session.None?
    requires f.maxNumDpbSlots == 17 && caps.maxActiveReferencePictures == 16
    ensures var st1 := StartVideoSequenceAsWritten(st, f, caps, setup).1;
            var st2 := StartVideoSequenceAsWritten(st1.(resetDecoder := false), f, caps, setup).1;
            st2.resetDecoder
  {
    var st1 := StartVideoSequenceAsWritten(st, f, caps, setup).1;
    var s := st1.session.value;
    var check := SessionRequestFor(setup, ImageExtent(f, caps), 17, 17);
    assert s.createInfo.maxActiveReferencePictures <= 16;
    assert !IsCompatible(s, check);
  }

  /** With the reuse check matching creation, an identical next sequence
      always keeps the session and asks for no reset. */
  lemma StartVideoSequenceReusesSession(st: SequenceState, f: DetectedFormat, caps: Capabilities, setup: DecoderSetup)
    requires ValidCapabilities(caps)
    ensures var st1 := StartVideoSequence(st, f, caps, setup).1;
            var st2 := StartVideoSequence(st1.(resetDecoder := false), f, caps, setup).1;
            st2.session == st1.session && !st2.resetDecoder
  {
    var st1 := StartVideoSequence(st, f, caps, setup).1;
    var slots := f.maxNumDpbSlots;
    var create := SessionRequestFor(setup, ImageExtent(f, caps), slots, Min(slots, caps.maxActiveReferencePictures));
    var s := st1.session.value;
    if !(st.session.Some? && IsCompatible(st.session.value, create)) {
      CreatedSessionServesSmallerRequests(create, create);
    }
    assert IsCompatible(s, create);
  }
}

=== FILE: wrappers.dfy ===
/** Failure-compatible wrappers shared by every module of the model.
    `Option` stands for a nullable pointer; `Result` carries either a value or
    the reason an operation gave up (a failed run-time assertion or an error
    code of the decoder). */
module Wrappers {

  /** A value that may be absent, as a possibly-null pointer is. */
  datatype Option<+T> = None | Some(value: T) {

    /** Returns the wrapped value, or `default` when there is none. */
    function GetOr(default: T): T {
      match this
      case Some(v) => v
      case None => default
    }
  }

  /** Either the value an operation produced or the reason it stopped. */
  datatype Result<+R> = Success(value: R) | Failure(error: string) {

    predicate IsFailure() {
      Failure?
    }

    function PropagateFailure<U>(): Result<U>
      requires Failure?
    {
      Failure(error)
    }

    function Extract(): R
      requires Success?
    {
      value
    }
  }

  /** The ascending run lo, lo+1, ..., hi-1 (empty when hi <= lo). */
  function Range(lo: nat, hi: nat): (r: seq<nat>)
    ensures |r| == if lo <= hi then hi - lo else 0
    ensures forall i :: 0 <= i < |r| ==> r[i] == lo + i
    decreases hi - lo
  {
    if hi <= lo then [] else [lo] + Range(lo + 1, hi)
  }
}
